=== FILE: README.md ===
# vividus-back, modelled in Dafny

vividus-back is a benchmark-submission platform. Users submit violence-detection models. Admins review them and publish them. Published models are evaluated against datasets by Argo workflows on a Kubernetes cluster. Anyone can also run ad-hoc inference on an uploaded video. This project models the platform's evaluation and inference engine, the score and submission bookkeeping around it, and the leaderboard arithmetic that reads the scores. It proves what these promise.

Modules, one per source file (plus two shared ones):

- `Common`: the `Option`/`Result` wrappers, HTTP error codes, and a generic map-with-early-failure (`MapAll`).
- `Text`: decimal rendering of numbers, and line splitting and joining.
- `BaseCrud`: the generic record layer (`CRUDBase`), i.e. filtering, creating, updating, deleting and grouping records keyed by column name.
- `Config`: the settings and the FastAPI keyword arguments derived from them.
- `ScoreModel`, `ScoreService`, `ScoreController`: the score table, its filters and its publish-on-update broker. Also the per-submission event stream, and the leaderboards and ranks.
- `SubmissionModel`, `SubmissionService`, `SubmissionController`: submissions, their accessors, the status workflow and its guards, and the results and test records of one submission.
- `UserModel`, `UserController`: users and the guarded create and update endpoints.
- `DatasetService`, `DatasetController`: dataset lookups, submission counts, and the per-dataset leaderboards and metrics.
- `Orchestrator`: what the services see of the outside world. These are the scratch directories, the Argo workflow API, the pod watcher and the pod logs.
- `EvaluationController`, `EvaluationService`: the evaluation endpoint and queue, workspace preparation, the workflow manifest, the watch loop, result ingestion and cleanup on every exit path.
- `InferenceService`, `EventStream`: the inference workflow, the prediction-to-interval extraction, and the live status stream.

Tables are classes holding a sequence of rows in insertion order. The queries have no `ORDER BY`, so SQL leaves the order of their answers open; the model fixes it to insertion order. SQL `GROUP BY`, whose order SQL leaves open, is modelled as the order in which each group key first appears. The live streams follow the event-stream format of section 9.2 of the WHATWG HTML Living Standard (server-sent events). `EventStream.Receive` models what a client makes of the bytes sent.

An outside call is modelled as a parameter. This covers a workflow read, a pod event, a log read, an exception, a loaded array and the metric functions. A long-running watch is a finite trace of observations. Each method states its new state as a function of its old state and those parameters. The lemmas state what that function promises.

## Model

| member | source | states |
|---|---|---|
| BaseCrud.Filter | src/core/database/base_crud.py:76 | `filter_by` keeps a record exactly when it matches, and never more records than it was given |
| BaseCrud.MatchIndices | src/core/database/base_crud.py:76 | the matching positions, ascending and without repeats, are exactly the positions whose record matches |
| BaseCrud.FilterPicksMatches | src/core/database/base_crud.py:76 | `filter_by` keeps the records in query order: its k-th record is the record at the k-th matching position, and it keeps one record per matching position |
| BaseCrud.Remaining | src/core/database/base_crud.py:133-138 | the records a filter does not keep are exactly the non-matching ones, and together with the kept ones they account for every record |
| BaseCrud.FirstMatch | src/core/database/base_crud.py:76-77 | the index found holds a match and no earlier record matches; None only when nothing matches |
| BaseCrud.Get | src/core/database/base_crud.py:66-77 | `get` on a non-table class raises InvalidTable; otherwise it returns the first matching record, and None exactly when nothing matches |
| BaseCrud.GetMulti | src/core/database/base_crud.py:79-94 | `get_multi` returns the window of the matching records that starts `offset` records in: its k-th record is the (offset + k)-th match, and it holds `min(limit, matches - offset)` records, none when the offset is past the matches |
| BaseCrud.GetMultiDefaultCap | src/core/database/base_crud.py:86-87 | with the default offset and limit, `get_multi` never returns more than 100 records |
| BaseCrud.Exists | src/core/database/base_crud.py:143-152 | `exists` with no filter raises ValueError; it answers exactly when the class is a table and has every filtered field, and then answers whether some record matches |
| BaseCrud.CountWhere | src/core/database/base_crud.py:154-165 | `count` on a table is the number of matching positions, so never more than the number of records |
| BaseCrud.GetColumnValue | src/core/database/base_crud.py:167-182 | `get_column_value` of a column the class lacks raises AttributeError; otherwise it gives a value exactly when some record matches, and that value is the column of the first matching record |
| BaseCrud.DropNoneFilters | src/core/database/base_crud.py:207 | the kept filters are exactly those whose value is not None, with their values unchanged |
| BaseCrud.LimitIfTruthy | src/core/database/base_crud.py:211-212 | a missing or zero limit keeps everything; a positive limit keeps a prefix of at most that many items |
| BaseCrud.DistinctKeys | src/core/database/base_crud.py:199-205 | the group keys are pairwise distinct and are exactly the values the grouped field takes |
| BaseCrud.NumberCount | src/core/database/base_crud.py:202 | no more values are averaged than there are |
| BaseCrud.AvgOrZero | src/core/database/base_crud.py:202 | `coalesce(avg(column), 0)` is 0 when no value is non-null |
| BaseCrud.NumberSumUnitBounds | src/core/database/base_crud.py:202 | values in [0, 1] sum to between 0 and their count |
| BaseCrud.AvgOrZeroUnitBounds | src/core/database/base_crud.py:202 | the average of values in [0, 1] is in [0, 1] |
| BaseCrud.Column | src/core/database/base_crud.py:202 | the column holds each record's field value, position by position |
| BaseCrud.GroupBy | src/core/database/base_crud.py:199-205 | one group per distinct key (keys distinct, every record's key present, every key some record's), each holding the average of each aggregated field over that key's records |
| BaseCrud.Aggregates | src/core/database/base_crud.py:201-204 | one average per aggregated field, each over the group's records |
| BaseCrud.GroupedAggregates | src/core/database/base_crud.py:184-215 | `get_grouped_aggregates` answers exactly when the class is a table with the grouped and aggregated fields; the groups are a prefix of the grouping of the records kept by the non-None filters, the whole grouping without a truthy limit and at most `limit` groups with one |
| BaseCrud.GroupedAggregatesShape | src/core/database/base_crud.py:184-215 | on a table with known fields the answer is a list of groups with distinct keys, one average per aggregated field, and no more groups than a truthy limit |
| BaseCrud.Assign | src/core/database/base_crud.py:106-109 | `update(**kwargs)` sets every declared field named in kwargs, keeps every other field and ignores unknown keys |
| BaseCrud.AssignIdempotent | src/core/database/base_crud.py:104-113 | updating twice with the same values is updating once |
| BaseCrud.Row.Update | src/core/database/base_crud.py:104-113 | the record becomes the assignment of kwargs to its old contents and is returned; a non-table class raises InvalidTable and changes nothing |
| BaseCrud.Table.Create | src/core/database/base_crud.py:96-102 | `create` appends the record and returns it; a non-table class raises InvalidTable |
| BaseCrud.Table.Delete | src/core/database/base_crud.py:115-123 | `delete` removes and returns the first matching record, everything else kept in order; with no match it fails and changes nothing |
| BaseCrud.Table.DeleteMulti | src/core/database/base_crud.py:125-141 | `delete_multi` returns every matching record and leaves exactly the others |
| Config.TokenLifetimeDefaults | src/core/config.py:23-24 | access tokens last 1800 seconds (30 minutes) and refresh tokens 604800 seconds (7 days) by default |
| Config.AssembleCorsOrigins | src/core/config.py:44-52 | the validator accepts exactly a string not starting with `[` or a list, and a list passes through unchanged |
| Config.CorsOriginsFromString | src/core/config.py:48-49 | a comma-separated string gives one origin per comma-separated piece, each the piece with surrounding whitespace stripped, and the pieces rejoin to the string |
| Config.AssembleDbConnection | src/core/config.py:65-77 | a given URL string is kept; otherwise the DSN is built with scheme `postgresql+asyncpg` from the user, password, host, port and database settings |
| Config.FastapiKwargs | src/core/config.py:79-104 | title, version and response class are always set; outside staging the OpenAPI URL is `API_STR + "openapi.json"`, in staging the OpenAPI, prefix, docs and redoc entries are all None |
| ScoreModel.StatusName | src/modules/scores/model.py:9-12 | every status has a non-empty `auto()` spelling |
| ScoreModel.StatusNamesDistinct | src/modules/scores/model.py:9-12 | two statuses are spelled alike exactly when they are the same status |
| ScoreModel.MetricValues | src/modules/scores/model.py:24-29 | a score carries exactly the six metric columns, in declaration order |
| ScoreModel.KnownMetrics | src/modules/scores/model.py:24-29 | six known values land in the six metric columns, in order |
| ScoreModel.NewScore | src/modules/scores/model.py:15-29 | a created score has the given id, dataset and submission, status IN_PROGRESS, no message and no metric |
| ScoreModel.ErrorUpdate | src/modules/evaluation/service.py:217 | an ERROR update carries the message and leaves every metric at its default None |
| ScoreModel.ApplyUpdate | src/modules/scores/service.py:92-93 | writing a whole `ScoreUpdate` fails exactly when its status is None (the column is NOT NULL); otherwise status, message and all six metrics become the update's, and id, dataset and submission are kept |
| ScoreModel.ApplyUpdateIdempotent | src/modules/scores/service.py:92-93 | writing the same update twice gives the same score as writing it once |
| ScoreModel.ErrorUpdateClearsMetrics | src/modules/evaluation/service.py:217 | an ERROR update always succeeds and clears every metric |
| ScoreModel.ScoreRecord | src/modules/scores/model.py:15-29 | the generic record of a score carries its dataset id, its submission id and its status spelling under the column names the filters use |
| ScoreModel.ScoreRecordColumns | src/modules/scores/model.py:15-29 | the record has exactly the score's columns, and each metric column holds that metric |
| ScoreModel.Records | src/modules/scores/model.py:15 | the table as generic records: one record per score, in order |
| ScoreModel.FindPair | src/modules/scores/model.py:31-32 | the pair lookup finds a row of that dataset and submission, and finds none only when no row has the pair |
| ScoreModel.FindId | src/modules/scores/model.py:16 | the id lookup finds a row with that id, and finds none only when no row has it |
| ScoreModel.WithoutSubmission | src/modules/scores/service.py:104-105 | the rows left are exactly those of other submissions |
| ScoreModel.WithoutSubmissionUnique | src/modules/scores/model.py:16-32 | dropping a submission's scores keeps ids and (dataset, submission) pairs unique |
| ScoreModel.ScoreTable.Create | src/modules/scores/service.py:25-26 | a second score for a pair fails the unique constraint and changes nothing; otherwise a fresh default score with the next id is appended and returned |
| ScoreModel.ScoreTable.Write | src/core/database/base_crud.py:104-113 | the row becomes the update applied to it; a failed update changes nothing; uniqueness is kept |
| ScoreModel.ScoreTable.DeleteById | src/modules/scores/service.py:100-101 | `delete(id=...)` removes that score, keeping the others in order; a missing id fails and changes nothing |
| ScoreModel.ScoreTable.DeleteByPair | src/modules/evaluation/controller.py:49 | `delete(submission_id=..., dataset_id=...)` removes the pair's score, after which no row has the pair; a missing pair fails and changes nothing |
| ScoreModel.ScoreTable.DeleteAllOfSubmission | src/modules/scores/service.py:104-105 | `delete_multi(submission_id=...)` leaves exactly the other submissions' scores |
| ScoreModel.ScoreTable.RemoveAt | src/core/database/base_crud.py:121-122 | removing one row keeps the others in order and keeps ids and pairs unique |
| ScoreModel.NoPairAfterRemoval | src/modules/scores/model.py:31-32 | with pairs unique, removing the row holding a pair leaves no row with it |
| ScoreService.ScoreParams | src/modules/scores/service.py:33-41 | the `params` dictionary is built as the filter function says |
| ScoreService.ScoreFilters | src/modules/scores/service.py:33-41 | there is a dataset, submission or status filter exactly when that argument is not None, and no other filter |
| ScoreService.ScoreFiltersMeaning | src/modules/scores/service.py:33-42 | a score's record passes the filters exactly when the score has every given dataset, submission and status |
| ScoreService.Where | src/modules/scores/service.py:42 | the kept scores are exactly those whose record passes the filters |
| ScoreService.WhereRecords | src/modules/scores/service.py:42 | filtering the typed scores and filtering their generic records agree, order included |
| ScoreService.GetAllScores | src/modules/scores/service.py:32-42 | `get_all_scores` returns at most 100 scores, each selected by the given arguments, and is exactly `get_multi` on the score records with those filters |
| ScoreService.AllScores | src/modules/scores/service.py:32-42 | the listing holds at most 100 scores, each in the table and selected |
| ScoreService.AllScoresIsGetMulti | src/modules/scores/service.py:42 | the typed listing is the generic `get_multi` on the score records |
| ScoreService.AllScoresComplete | src/modules/scores/service.py:32-42 | below the 100 cap, every selected score is listed |
| ScoreService.GroupFiltersMeaning | src/modules/scores/service.py:50-53 | a score counts for the grouped query exactly when it is SUCCESS and, when a dataset is given, of that dataset |
| ScoreService.GroupedScores | src/modules/scores/service.py:49-69 | the groups have distinct submission keys and six averages each, and no more than a truthy limit |
| ScoreService.GroupKeysCounted | src/modules/scores/service.py:49-69 | every group is a submission with a counted score |
| ScoreService.CountedHasGroup | src/modules/scores/service.py:49-69 | without a limit, every submission with a counted score has a group |
| ScoreService.GroupedScoresPrefix | src/modules/scores/service.py:62-68 | the groups are a prefix of the grouping of the counted records, and all of it without a truthy limit |
| ScoreService.Broker.Publish | src/modules/scores/service.py:94 | a publish appends the channel and message to what was published |
| ScoreService.UpdateScore | src/modules/scores/service.py:92-94 | the score at the index becomes the update applied to it, and the submission id is announced on `entity_updates`; a failed write changes and announces nothing |
| ScoreService.DeleteAllSubmissionScores | src/modules/scores/service.py:104-105 | the submission's scores all go and every other score stays |
| ScoreService.EventsFor | src/modules/scores/service.py:76-85 | every event the stream yields is the `data:` event for the submission id, at most one per poll |
| ScoreService.StreamSubmissionEvents | src/modules/scores/service.py:72-86 | the polling loop yields the events of the announcing messages, in order |
| ScoreService.IntDataAnnounces | src/modules/scores/service.py:82-84 | an integer payload announces the submission exactly when it equals its id |
| ScoreService.StreamReceived | src/modules/scores/service.py:85 | a client parsing the stream receives the submission id once per announcing message |
| ScoreService.EventLines | src/modules/scores/service.py:85 | n events are 2n lines: a `data:` line with the id, then a blank line |
| ScoreService.ConcatEvents | src/modules/scores/service.py:85 | the yielded chunks concatenate to those lines |
| ScoreService.EventLinesDispatch | src/modules/scores/service.py:85 | an event stream parser dispatches the id once per event |
| EventStream.UnlinesAppend | src/modules/inference/service.py:277-299 | the text of consecutive blocks of lines is the concatenation of their texts |
| EventStream.SplitAround | src/modules/inference/service.py:282 | splitting at a separator splits the two sides independently |
| EventStream.SplitWithoutSeparator | src/modules/inference/service.py:282 | a text without the separator is one piece |
| EventStream.SplitUnlines | src/modules/scores/service.py:85 | splitting the text of LF-free lines at LF gives the lines back plus the empty remainder |
| EventStream.FirstColon | src/modules/inference/service.py:282 | the index found holds the first colon of the line; None only when the line has none |
| EventStream.ReceiveUnlines | src/modules/scores/service.py:85 | a client receiving the text of LF-free lines dispatches exactly as it does over those lines |
| EventStream.DispatchAppend | src/modules/inference/service.py:277-299 | a block of lines ending in a blank line is received independently of what follows it |
| EventStream.DataLineField | src/modules/scores/service.py:85 | a `data: ` line is the `data` field with the text after the prefix |
| EventStream.DataEvent | src/modules/scores/service.py:85 | `f"data: {payload}\n\n"` is the text of a `data` line and a blank line |
| EventStream.DataEventReceived | src/modules/scores/service.py:85 | a single-line payload is received exactly as written |
| EventStream.MultiLineEventLines | src/modules/inference/service.py:282 | an event carrying any text ends with the blank line that dispatches it |
| EventStream.DispatchDataLines | src/modules/inference/service.py:282 | consecutive `data` lines followed by a blank line dispatch their values joined by LF |
| EventStream.MultiLineEventReceived | src/modules/inference/service.py:282 | any text, line breaks included, sent one `data` field per line, is received exactly as written |
| InferenceService.TwoDigitsRead | src/modules/inference/service.py:46-50 | the seconds part is always two digits and reads back as the seconds below 60 |
| InferenceService.ParseTimeRoundTrip | src/modules/inference/service.py:44-51 | every clock `parse_time` writes reads back as the seconds it was given, clamped at 0 |
| InferenceService.ParseTimeInjective | src/modules/inference/service.py:44-51 | distinct non-negative second counts give distinct clocks |
| InferenceService.RunsAreMaximal | src/modules/inference/service.py:208-229 | the runs the scan finds are exactly the maximal runs of 1s, ascending and apart, covering every 1 |
| InferenceService.ExtendLastRun | src/modules/inference/service.py:210-212 | a 1 right after a run extends it and the runs stay maximal |
| InferenceService.OpenNewRun | src/modules/inference/service.py:210-212 | a 1 after a gap opens a new run and the runs stay maximal |
| InferenceService.NoRunEndsBeforeNew | src/modules/inference/service.py:213 | when a 1 opens a run, the segment before it is not a 1 |
| InferenceService.NoRunsWithoutOnes | src/modules/inference/service.py:200-207 | there is no run exactly when no segment is 1 |
| InferenceService.FramesList | src/modules/inference/service.py:218 | one frame interval per run |
| InferenceService.SecondsList | src/modules/inference/service.py:219-220 | one clock interval per run |
| InferenceService.ResultOfMeaning | src/modules/inference/service.py:199-231 | `contains_violence` holds exactly when some segment is 1, and both interval lists are then empty exactly when it does not; there is one frame and one clock interval per maximal run, the frames starting and ending where the run does and the clocks from the end of its first segment to the end of its last |
| InferenceService.SecondsOrdered | src/modules/inference/service.py:216-217 | a clock interval never ends before it starts |
| InferenceService.ExtractIntervals | src/modules/inference/service.py:199-229 | the result says whether any segment is violent and lists exactly the intervals the maximal runs describe |
| InferenceService.ScanRuns | src/modules/inference/service.py:207-227 | the loop over the predictions, with its trailing open run closed at the last segment, appends the frames and clocks of each maximal run in order |
| InferenceService.CloseRun | src/modules/inference/service.py:214-220 | closing a run appends its frames and its clocks |
| InferenceService.RunsOpen | src/modules/inference/service.py:211-212 | a 1 after a non-1 adds a one-segment run |
| InferenceService.RunsExtend | src/modules/inference/service.py:210-212 | a 1 inside an open run extends that run |
| InferenceService.RunsSkip | src/modules/inference/service.py:213-221 | a non-1 adds no run |
| InferenceService.Appended | src/modules/inference/service.py:218-220 | the frame and clock lists of one more run are the old lists plus its entry |
| InferenceService.GetWorkflowResult | src/modules/inference/service.py:189-237 | an unknown workflow is refused with 400 and nothing touched; otherwise the directory is removed and the answer is the result of the predictions, or a 400 naming the workflow and the load error |
| InferenceService.InferenceManifestParams | src/modules/inference/service.py:98-120 | the manifest's featureType, videoPath, dataPath, model and modelPath parameters read back as given, and it has no other named parameter such as `workflow` |
| InferenceService.ModelPathIsSetLiteral | src/modules/inference/service.py:181 | as written, the model path is never the models directory: `/app/infer_models` becomes `{'/app/infer_models'}` |
| InferenceService.ModelPathAsWrittenReachesWorkflow | src/modules/inference/service.py:174-181 | as written, the workflow's `modelPath` argument reads back as the rendered set, never as the models directory |
| InferenceService.ModelPathReachesWorkflow | src/modules/inference/service.py:174-181 | with the models directory passed as it is, the workflow's `modelPath` argument reads back as that directory |
| InferenceService.PublishedModality | src/modules/inference/service.py:152 | the modality is found exactly when a published submission has the accessor, and it is such a submission's |
| InferenceService.SubmitInference | src/modules/inference/service.py:136-186 | a failed upload removes the directory (400 "Error uploading video file"); an unknown or unpublished model leaves the directory with the video (400 "Invalid model"); a refused workflow removes the directory (400 "Error submitting workflow"); otherwise the directory holds the video and the modality's list files, the manifest is created with the model path as written (the rendered set) and the workflow name returned |
| InferenceService.PodLinesRecords | src/modules/inference/service.py:269-276 | after a scan every pod seen is recorded with its phase, and no other pod is added |
| InferenceService.PodLinesSilent | src/modules/inference/service.py:275 | a scan of pods whose phases are all recorded emits nothing |
| InferenceService.RepeatedScanIsSilent | src/modules/inference/service.py:274-277 | when the next cycle reports the same pods in the same phases, no pod line is emitted again |
| InferenceService.NewPodAnnounced | src/modules/inference/service.py:275-282 | a new pod is always announced with its status line, followed by its logs event when it failed |
| InferenceService.NothingAfterStop | src/modules/inference/service.py:285-300 | once a cycle has seen a terminal phase or an error, nothing observed afterwards reaches the client |
| InferenceService.CycleEndsWithPhase | src/modules/inference/service.py:285-290 | a cycle not cut short ends with the workflow's status line, and the stream stops there exactly when the phase is Succeeded, Failed or Error |
| InferenceService.StreamUnfold | src/modules/inference/service.py:251-300 | the stream is the first cycle's lines followed, unless it stopped, by the stream of the rest |
| InferenceService.ScanPods | src/modules/inference/service.py:269-282 | the pod loop emits the lines `PodLines` gives, a failed pod's logs inside one `data` field as written, and leaves the statuses `PodLinesRecords` describes |
| InferenceService.RunCycle | src/modules/inference/service.py:252-300 | one pass of the loop emits the cycle's lines and stops as the cycle describes |
| InferenceService.StreamStep | src/modules/inference/service.py:251-300 | a pass of the loop emits the head of the remaining stream |
| InferenceService.StreamWorkflowEvents | src/modules/inference/service.py:243-303 | the generator yields exactly the events `Stream` gives for the observed cycles, as the service writes them, and the watcher is stopped however it ends |
| InferenceService.PodStatusReceived | src/modules/inference/service.py:277 | a pod status line is received as its text |
| InferenceService.LogsLostAsWritten | src/modules/inference/service.py:282 | as written, a one-line log that is not itself a `data` field is dropped by the client, which receives only the header |
| InferenceService.LogsLostExample | src/modules/inference/service.py:282 | a pod `p` whose log is `boom` reaches the client as `Pod p logs:` |
| InferenceService.LogsReceived | src/modules/inference/service.py:282 | with one `data` field per line, the client receives the header and the whole log |
| Orchestrator.Workspaces.Create | src/modules/evaluation/service.py:127-128 | `mkdir(exist_ok=True)` makes the directory exist and leaves an existing one as it was |
| Orchestrator.Workspaces.Touch | src/modules/evaluation/service.py:150 | touching adds the file to that directory and changes nothing else |
| Orchestrator.Workspaces.Remove | src/modules/evaluation/service.py:74-81 | `remove_tmp_data` leaves no directory of that name and every other directory as it was |
| Orchestrator.MarkerFiles | src/modules/evaluation/service.py:148-153 | `rgb.list` is always expected, `audio.list` exactly for the rgb-and-audio modality, and nothing else |
| Orchestrator.TouchMarkers | src/modules/evaluation/service.py:148-153 | the `match feature_type` adds exactly the modality's list files to the directory |
| Orchestrator.ParamValue | src/modules/evaluation/service.py:100-105 | a named parameter is missing exactly when no parameter of the manifest has that name |
| Orchestrator.ParamValueFound | src/modules/evaluation/service.py:100-105 | a value found is the value of a parameter with that name |
| Orchestrator.ParamValueAt | src/modules/evaluation/service.py:100-105 | a parameter whose name no earlier one has reads back as its value |
| Orchestrator.ParamsReadBack | src/modules/evaluation/service.py:100-105 | with distinct names, every parameter reads back as its value |
| Orchestrator.Cluster.Submit | src/modules/evaluation/service.py:110-121 | a refused creation raises 400 "Error submitting workflow: ..." and creates nothing; otherwise the manifest is created |
| Orchestrator.Cluster.Terminate | src/modules/evaluation/service.py:45-57 | `terminate_workflow` records the shutdown of that workflow and nothing else |
| Orchestrator.Cluster.Delete | src/modules/evaluation/service.py:60-71 | `delete_workflow` records the deletion of that workflow and nothing else |
| Orchestrator.Watcher.Stop | src/modules/evaluation/service.py:235 | the watcher is stopped |
| Orchestrator.PhaseOf | src/modules/evaluation/service.py:203-208 | the phase is the status's phase, and `Unknown` without one |
| Sorting.InsertPermutes | src/modules/scores/controller.py:90 | inserting keeps every element and adds exactly the new one (as multisets) |
| Sorting.SortDesc | src/modules/scores/controller.py:90 | `sort(key=..., reverse=True)` returns as many elements as it was given, in descending key order |
| Sorting.SortDescPermutes | src/modules/scores/controller.py:90 | the sorted list is a permutation of its input |
| Sorting.InsertSorted | src/modules/scores/controller.py:90 | inserting into a descending list keeps it descending |
| Sorting.CountAppend | src/modules/scores/controller.py:90 | counts of larger and of equal keys add up over concatenation |
| Sorting.CountInsert | src/modules/scores/controller.py:90 | inserting one element changes the counts by that element alone |
| Sorting.CountSortDesc | src/modules/scores/controller.py:90 | sorting changes no count of larger or equal keys |
| Sorting.CountSplitLast | src/modules/scores/controller.py:90 | the counts of a list are those of its prefix plus its last element's |
| Sorting.CountsBelow | src/modules/scores/controller.py:90 | a list of smaller keys counts nothing above or equal |
| Sorting.InsertPlacesNew | src/modules/scores/controller.py:90 | the new element lands after every larger and every equal key already there |
| Sorting.InsertKeepsOld | src/modules/scores/controller.py:90 | an old element moves one place down exactly when the new key is larger than its own |
| Sorting.SortPosition | src/modules/scores/controller.py:90 | the sort is stable: each element lands after all larger keys and after the equal keys that preceded it |
| Sorting.PositionOfLast | src/modules/scores/controller.py:90 | the last element lands at its stable position |
| Sorting.PositionOfEarlier | src/modules/scores/controller.py:90 | an earlier element keeps its stable position when one more element is sorted in |
| Sorting.HeadIsMaximum | src/modules/scores/controller.py:110-112 | the first element of the sorted list has the largest key of all |
| Sorting.TakeIsTop | src/modules/scores/controller.py:90 | the first `n` of the sorted list are a top `n`: nothing left out has a larger key than anything taken |
| ScoreController.WeightsSumToOne | src/modules/scores/controller.py:9-16 | there is one weight per metric and the weights sum to 1 |
| ScoreController.WeightedMeanTerms | src/modules/scores/controller.py:68-71 | the weighted mean is 0.2 each for precision, accuracy, recall and f1 and 0.1 each for the two areas under the curve |
| ScoreController.DotStep | src/modules/scores/controller.py:68-71 | the weighted sum is the first term plus the sum of the rest |
| ScoreController.WeightedMeanOfConstant | src/modules/scores/controller.py:68-71 | equal metrics give that value as their mean |
| ScoreController.WeightedMeanUnit | src/modules/scores/controller.py:68-71 | metrics in [0, 1] give a mean in [0, 1] |
| ScoreController.WeightedMeanMonotone | src/modules/scores/controller.py:68-71 | raising any metric never lowers the mean |
| ScoreController.Entries | src/modules/scores/controller.py:124-134 | one ranked entry per group, with the group's submission id and the weighted mean of its six averages |
| ScoreController.FirstWithId | src/modules/scores/controller.py:138-142 | the index found is the first entry with that id; none only when no entry has it |
| ScoreController.RankAmong | src/modules/scores/controller.py:123-142 | the loops compute `RankIn`: one plus the sorted position of the submission's entry, None exactly when it has none, and otherwise between 1 and the number of groups (`RankPresence`) |
| ScoreController.SubmissionRank | src/modules/scores/controller.py:120-142 | `get_submission_rank` ranks the submission among the per-submission averages over all datasets |
| ScoreController.SubmissionRankForDataset | src/modules/scores/controller.py:163-185 | `get_submission_rank_for_dataset` ranks it among the averages over that dataset |
| ScoreController.RankPresence | src/modules/scores/controller.py:138-142 | there is a rank exactly when a group belongs to the submission, and it lies between 1 and the number of groups |
| ScoreController.RankIsPosition | src/modules/scores/controller.py:136-140 | with one group per submission, the rank is one plus the stable sorted position of the submission's entry |
| ScoreController.TwoCopies | src/modules/scores/controller.py:138-140 | an element at two indices occurs at least twice |
| ScoreController.SingleCopies | src/modules/scores/controller.py:138-140 | entries with distinct ids occur at most once each |
| ScoreController.Collect | src/modules/scores/controller.py:59-88 | a missing submission fails with 500; the loop stops as soon as `count == limit` |
| ScoreController.CollectFacts | src/modules/scores/controller.py:59-88 | every collected entry belongs to a published submission, and no more than `limit - count` are collected |
| ScoreController.CollectComplete | src/modules/scores/controller.py:59-88 | nothing is skipped before the cut: a published group reached while the count has not met the limit has its entry collected |
| ScoreController.CollectSound | src/modules/scores/controller.py:59-88 | nothing else is collected: every entry is that of a published group reached before the count met the limit |
| ScoreController.GetBestSubmissions | src/modules/scores/controller.py:55-92 | the endpoint returns the as-written list: sorted by descending mean, at most `limit` entries, and exactly the entries of the published groups that come before the `limit`-th published group in query order |
| ScoreController.CollectGroups | src/modules/scores/controller.py:59-88 | the loop with its `break` and `continue` computes `Collect`: a missing submission fails with 500, only published submissions' entries are collected and no more than `limit` (`CollectFacts`) |
| ScoreController.PrependNothing | src/modules/scores/controller.py:73 | prepending nothing to a result leaves it as it is |
| ScoreController.PrependAssoc | src/modules/scores/controller.py:73 | prepending twice is prepending the concatenation |
| ScoreController.TakeLimit | src/modules/scores/controller.py:60-61 | the first `limit` entries, or all of them when there is no limit or fewer than it |
| ScoreController.BestSubmissionsAreTop | src/modules/scores/controller.py:55-92 | with the limit applied after sorting, the answer is sorted, within the limit, and no published group of the dataset left out has a higher mean than one returned |
| ScoreController.TopOfSorted | src/modules/scores/controller.py:90 | the first entries of the sorted list are sorted and a top set |
| ScoreController.NoLimitAgrees | src/modules/scores/controller.py:55-92 | without a limit the as-written and the corrected endpoint return the same list |
| ScoreController.ExampleGroups | src/modules/scores/controller.py:56 | the example groups carry six averages each |
| ScoreController.ExampleEntries | src/modules/scores/controller.py:63-87 | in the example, the first published submission has mean 0.5 and the second 0.9 |
| ScoreController.LimitBeforeSort | src/modules/scores/controller.py:59-90 | as written, `limit=1` returns the submission with mean 0.5 while one with mean 0.9 is published |
| ScoreController.ExampleCollectAll | src/modules/scores/controller.py:59-88 | without a limit the example collects both entries in group order |
| ScoreController.LimitAfterSort | src/modules/scores/controller.py:55-92 | sorting before limiting, `limit=1` returns the 0.9 submission |
| ScoreController.Known | src/modules/scores/controller.py:104-106 | the six metric values of a complete score, in weight order |
| ScoreController.WeighPublished | src/modules/scores/controller.py:100-108 | fails with 500 exactly when a published submission's score lacks a metric; otherwise every published submission's score is weighed with its mean and nothing else is |
| ScoreController.BestOfMeaning | src/modules/scores/controller.py:95-117 | no scores give None; a missing metric, or scores none of which is published, give 500 (the empty `ranked_scores[0]`); otherwise the answer is a published submission, with its title and accessor, owning a best-mean score |
| ScoreController.WeighScores | src/modules/scores/controller.py:100-108 | the loop computes `WeighPublished`: 500 exactly when a published submission's score lacks a metric, otherwise each published submission's score with its mean |
| ScoreController.WeighPrefixFails | src/modules/scores/controller.py:104-106 | one published score lacking a metric makes the whole weighing fail |
| ScoreController.GetBestSubmission | src/modules/scores/controller.py:95-117 | `get_best_submission` picks from the dataset's successful scores |
| ScoreController.GetSubmissionScores | src/modules/scores/controller.py:145-160 | `get_submission_scores` averages the submission's successful scores |
| ScoreController.AverageMetrics | src/modules/scores/controller.py:147-160 | no scores give None, a missing metric 500, otherwise the per-metric mean |
| ScoreController.AddMetrics | src/modules/scores/controller.py:150-155 | adding a score's metrics fails exactly when one is missing, and otherwise adds each metric to its sum |
| ScoreController.MeanMetricsMeaning | src/modules/scores/controller.py:145-160 | None exactly for no scores, 500 exactly when one lacks a metric, otherwise six means, each in [0, 1] when that metric always is |
| ScoreController.FieldSumUnit | src/modules/scores/controller.py:155 | a sum of values in [0, 1] lies between 0 and the count |
| ScoreController.MetricMeanUnit | src/modules/scores/controller.py:158 | a mean of values in [0, 1] lies in [0, 1] |
| ScoreController.MetricMeanOfOne | src/modules/scores/controller.py:158 | the mean of one score is its own value |
| ScoreController.UpdateScore | src/modules/scores/controller.py:196-203 | an unknown id gives 404 "Score not found" and nothing changes; otherwise the row is updated and its submission announced, or, when the update is refused, 500 and nothing changes |
| UserModel.RoleName | src/modules/user/model.py:13-15 | each role's `auto()` name is a non-empty string |
| UserModel.RoleNamesDistinct | src/modules/user/model.py:13-15 | two roles have the same name exactly when they are the same role |
| UserModel.NewUser | src/modules/user/model.py:18-24 | a new account keeps the given id, username, email and password, has the `user` role and is active |
| UserModel.FindUser | src/modules/user/service.py:19-20 | the index found holds the row with the id; None only when no row has it |
| UserModel.UserTable.constructor | src/modules/user/model.py:18-24 | an empty table satisfies the uniqueness invariant |
| UserModel.UserTable.Create | src/core/database/base_crud.py:98-102 | a taken username or email violates its UNIQUE column and nothing is written; otherwise the new account is appended with the next id, and ids, usernames and emails stay unique |
| UserModel.UserTable.Write | src/core/database/base_crud.py:105-113 | a record clashing with another row's username or email is refused and nothing is written; otherwise only that row is replaced, and the table stays unique |
| UserController.UpdatedUserWritesSentFields | src/modules/user/service.py:23-24 | a null sent for a NOT NULL field fails; otherwise only the fields the client sent change, and the id, role and activity never do |
| UserController.PasswordChangeLocksOut | src/modules/user/controller.py:59 | as written, after a password change the new password no longer verifies against what is stored |
| UserController.ChangedPasswordVerifies | src/modules/user/controller.py:59 | with the new password hashed, exactly the new password verifies afterwards |
| UserController.CreateUser | src/modules/user/controller.py:9-29 | a taken username gives 409 "Username already exists", else a taken email 409 "Email already exists", with nothing written; otherwise the account is created with the next id and a hash that verifies the given password |
| UserController.UpdateUser | src/modules/user/controller.py:32-60 | another user's account needs the admin role (403 "Unauthorized"); an unknown id gives 404; a username, then an email, that changes to one already taken gives 409; otherwise the update as written (a new password stored as sent) is written over that row alone, with nothing written on any error |
| UserController.ChangeUserRole | src/modules/user/controller.py:77-85 | an unknown id gives 404 "User Not Found"; otherwise only that account's role changes |
| UserController.ChangeUserActive | src/modules/user/controller.py:88-96 | an unknown id gives 404 "User Not Found"; otherwise only that account's activity changes |
| SubmissionModel.StatusName | src/modules/submission/model.py:14-20 | each status's `auto()` name is a non-empty string |
| SubmissionModel.StatusNamesDistinct | src/modules/submission/model.py:14-20 | two statuses have the same name exactly when they are the same status |
| SubmissionModel.ModalityName | src/modules/submission/model.py:23-25 | each modality's name is a non-empty string |
| SubmissionModel.ParseModality | src/modules/submission/model.py:23-25 | a string names a modality only as `rgb_only` or `rgb_and_audio`, and parses to the modality with that name |
| SubmissionModel.ModalityRoundTrip | src/modules/submission/model.py:23-25 | every modality's name parses back to it |
| SubmissionModel.NewSubmission | src/modules/submission/model.py:28-43 | a new submission keeps the payload's fields, the owner and the accessor, starts as DRAFT and has no review message |
| SubmissionModel.FindById | src/core/database/base_crud.py:68-77 | the index found is the first row with the id; None only when no row has it |
| SubmissionModel.Lookup | src/modules/submission/service.py:52-54 | a submission is found exactly when a row has the id, and it is such a row |
| SubmissionModel.SubmissionTable.constructor | src/modules/submission/model.py:28-29 | an empty table has unique ids |
| SubmissionModel.SubmissionTable.Insert | src/core/database/base_crud.py:98-102 | the new submission is appended with an id no other row has |
| SubmissionModel.SubmissionTable.Put | src/core/database/base_crud.py:105-113 | a committed record replaces its row alone |
| SubmissionModel.SubmissionTable.RemoveAt | src/core/database/base_crud.py:117-123 | the row is removed and the others keep their order |
| SubmissionService.AccessorShape | src/modules/submission/service.py:45 | `title.lower().replace(" ", "-")`, with ASCII case mapping, keeps the length, leaves no space and no capital A to Z, and keeps every other character |
| SubmissionService.AccessorIdempotent | src/modules/submission/service.py:45 | deriving an accessor from an accessor changes nothing |
| SubmissionService.AccessorExample | src/modules/submission/service.py:45 | "Test Submission" becomes "test-submission" |
| SubmissionService.AccessorsCollide | src/modules/submission/service.py:45 | two different titles can give the same accessor |
| SubmissionService.CountWithStatusIsMatching | src/modules/submission/service.py:18-19 | the count is the number of rows the status filter keeps |
| SubmissionService.CountWithStatus | src/modules/submission/service.py:18-19 | the count is zero exactly when no row has the status |
| SubmissionService.PublishedCounted | src/modules/submission/controller.py:76 | a published submission makes the published count at least one |
| SubmissionService.Matching | src/modules/submission/service.py:57-68 | a row is kept exactly when it matches every filter that is not None |
| SubmissionService.Cap | src/core/database/base_crud.py:81-94 | `get_multi` returns at most 100 rows, a prefix, and all of them when there are no more |
| SubmissionService.AllSubmissions | src/modules/submission/service.py:57-68 | `get_all_submissions` lists only matching rows, at most 100, and every match when there are no more than 100 |
| SubmissionService.PendingRows | src/modules/submission/service.py:72-75 | a row is pending exactly when it is IN_REVIEW, REQUEST_FOR_CHANGES or ACCEPTED |
| SubmissionService.PendingSubmissions | src/modules/submission/service.py:72-75 | `get_all_pending_submissions` lists only pending rows, at most 100, and all of them when there are no more |
| SubmissionService.UpdateRecordMeaning | src/modules/submission/service.py:81-87 | a field payload with a null field fails; otherwise the id and owner never change, each kind of payload writes exactly its own fields, and a changed title always brings its derived accessor |
| SubmissionService.UpdateRecordIdempotent | src/modules/submission/service.py:81-87 | applying the same payload again changes nothing |
| SubmissionService.FindByAccessor | src/modules/submission/service.py:93-94 | the first row with the accessor, whoever owns it; None only when no row has it |
| SubmissionService.FindOwned | src/modules/submission/controller.py:237 | the row found has the accessor and the owner; None exactly when no row has both |
| SubmissionService.DeleteTarget | src/modules/submission/controller.py:236-244 | the corrected deletion removes a row with the accessor that the caller owns |
| SubmissionService.CollidingRows | src/modules/submission/service.py:45 | two submissions whose titles share an accessor |
| SubmissionService.DeleteHitsOtherOwner | src/modules/submission/service.py:93-94 | as written, user 2 deleting their "test-submission" passes the ownership check on their own row and removes user 1's |
| SubmissionService.DeleteTargetIsOwned | src/modules/submission/controller.py:236-244 | the corrected target exists exactly when the caller owns a row with the accessor |
| SubmissionService.CloneUrlInjective | src/modules/submission/service.py:35-36 | different repositories are cloned from different URLs |
| SubmissionService.RepoStore.constructor | src/modules/submission/service.py:26-36 | no repository is cloned at first |
| SubmissionService.RepoStore.Remove | src/modules/submission/service.py:26-29 | `remove_repo` leaves no clone under the accessor and the others as they were |
| SubmissionService.RepoStore.Clone | src/modules/submission/service.py:32-36 | the old clone is removed first; a successful clone leaves the repository's URL under the accessor, a failed one nothing |
| SubmissionService.CreateModel | src/modules/submission/service.py:42-46 | `create_model` appends a DRAFT submission owned by the caller with the accessor derived from its title |
| SubmissionService.UpdateSubmission | src/modules/submission/service.py:81-87 | the record update is written over that row alone, or nothing is written when it fails |
| SubmissionService.DeleteSubmission | src/modules/scores/model.py:19-20 | deleting a submission removes its row, and its scores go with it (`ondelete="CASCADE"`) |
| SubmissionController.MayViewMeaning | src/modules/submission/controller.py:38 | a published submission is visible to all; an unpublished one only to an admin who owns it, never to a regular user |
| SubmissionController.CreateSubmission | src/modules/submission/controller.py:18-25 | a title already in use gives 409 "Submission already exists" and nothing is written; otherwise a DRAFT submission is appended |
| SubmissionController.CreateKeepsTitlesUnique | src/modules/submission/controller.py:19-24 | creation after the title check keeps titles unique |
| SubmissionController.GetSubmissionDetails | src/modules/submission/controller.py:31-43 | 404 exactly when no submission has the accessor; a submission shown has it and is visible to the caller; the only other error is 403 |
| SubmissionController.PublishedSubmissions | src/modules/submission/controller.py:46-47 | only published submissions are listed |
| SubmissionController.GetAllUserSubmissions | src/modules/submission/controller.py:54-61 | 403 exactly unless the caller is an admin asking for their own list; the list holds only that user's submissions with the status asked for |
| SubmissionController.GetSubmissionRank | src/modules/submission/controller.py:64-78 | 404 for an unknown submission, 409 for an unpublished one; otherwise its rank over all datasets and a published count of at least one |
| SubmissionController.GetSubmissionScores | src/modules/submission/controller.py:81-90 | None unless published; otherwise the per-metric means of its successful scores, titled, None when it has none |
| SubmissionController.ResultOfMeaning | src/modules/submission/controller.py:108-114 | a row names the score's dataset by accessor and title, with a rank of at least one and the score's own metrics; a score whose dataset is gone gives 404 |
| SubmissionController.ResultEntry | src/modules/submission/controller.py:109-114 | one pass of the loop computes `ResultOf`: the score's dataset by accessor and title, a rank of at least one and the score's own metrics, 404 for a missing dataset (`ResultOfMeaning`) |
| SubmissionController.GetSubmissionResults | src/modules/submission/controller.py:93-116 | 404 for an unknown submission, 403 when the caller may not view it, otherwise one row per successful score in order, failing at the first row that fails |
| SubmissionController.CollectResults | src/modules/submission/controller.py:107-116 | the loop builds the rows in order and stops at the first failure |
| SubmissionController.TestRecords | src/modules/submission/controller.py:128-140 | one record per dataset, in order, with its id, title and accessor; a status exactly when the submission has a score there, and then that score's status and message |
| SubmissionController.GetSubmissionTestRecords | src/modules/submission/controller.py:119-142 | 404 for an unknown submission whatever its status; otherwise the records for the datasets the listing returns, or the listing's error |
| SubmissionController.UpdateSubmission | src/modules/submission/controller.py:148-172 | 404, then 403 for a non-owner who is not an admin, then 409 outside DRAFT and REQUEST_FOR_CHANGES, then 409 for a new title in use; otherwise the fields are written, and a changed title is never one in use |
| SubmissionController.ScoresAfterStatusChange | src/modules/submission/controller.py:182-184 | leaving ACCEPTED or PUBLISHED removes every score of the submission and no other |
| SubmissionController.WithdrawnScoresLinger | src/modules/submission/controller.py:184 | as written, a withdrawn submission's score is still there; corrected, it is gone |
| SubmissionController.ChangeSubmissionStatus | src/modules/submission/controller.py:175-185 | 404 with nothing changed for an unknown id; otherwise the status is written, and leaving ACCEPTED or PUBLISHED also removes the clone; the scores stay as they were, since their deletion is never awaited |
| SubmissionController.SubmitEntry | src/modules/submission/controller.py:188-205 | 404, 403, then 409 outside DRAFT and REQUEST_FOR_CHANGES; otherwise the submission goes IN_REVIEW with its review message cleared |
| SubmissionController.ReviewSubmission | src/modules/submission/controller.py:208-230 | 404, then 409 outside IN_REVIEW, REQUEST_FOR_CHANGES and ACCEPTED; accepting clones the repository first and a failed clone gives 409 with the status unchanged; otherwise the status and message are written |
| SubmissionController.DeleteSubmission | src/modules/submission/controller.py:236-244 | 404 with nothing changed unless the caller owns a submission with the accessor; otherwise the clone goes, and so does the first row with the accessor (whoever owns it) with its scores |
| DatasetService.FindByAccessor | src/modules/dataset/service.py:38-39 | a dataset is found exactly when one has the accessor, and it has it |
| DatasetService.AccessorOf | src/modules/dataset/service.py:13-14 | the accessor of a dataset with the id, found exactly when one exists |
| DatasetService.IdOf | src/modules/dataset/service.py:13-14 | the id of a dataset with the accessor, found exactly when one exists |
| DatasetService.AllDatasets | src/modules/dataset/service.py:42-44 | at most the first 100 datasets, all of them when there are no more |
| DatasetService.PublishedCount | src/modules/dataset/service.py:17-26 | the count is at most the number of scores and zero exactly when no score belongs to a published submission |
| DatasetService.PublishedScores | src/modules/dataset/service.py:22-25 | a score is kept exactly when its submission is published |
| DatasetService.PublishedCountIsLength | src/modules/dataset/service.py:17-26 | the count is the number of scores of published submissions |
| DatasetService.CountDatasetSubmissions | src/modules/dataset/service.py:17-26 | `count_dataset_submissions` counts the dataset's successful scores (at most 100) whose submission is published |
| DatasetService.CountPublished | src/modules/dataset/service.py:21-25 | the loop computes `PublishedCount`, the number of scores of published submissions (`PublishedCountIsLength`) |
| DatasetController.GetDatasetDetails | src/modules/dataset/controller.py:28-35 | 404 "Dataset not found" exactly when no dataset has the accessor; otherwise a dataset with it |
| DatasetController.InfoOfMeaning | src/modules/dataset/controller.py:43-53 | an entry fails exactly when the best-submission lookup does; otherwise it carries the dataset, the published count, and a best title and accessor exactly when the dataset has successful scores |
| DatasetController.GetAllDatasets | src/modules/dataset/controller.py:39-54 | one entry per listed dataset, in order, failing at the first that fails |
| DatasetController.DatasetEntry | src/modules/dataset/controller.py:43-53 | one pass of the loop computes `InfoOf`: it fails exactly when the best-submission lookup does, and otherwise carries the dataset, its published count and its best submission (`InfoOfMeaning`) |
| DatasetController.CountsMeaning | src/modules/dataset/controller.py:60-64 | only datasets with a positive count appear, each with its own title and count, and every such dataset appears |
| DatasetController.GetNumberOfSubmissions | src/modules/dataset/controller.py:57-65 | the loop lists the positive counts of the listed datasets |
| DatasetController.GetBestDatasetSubmission | src/modules/dataset/controller.py:68-70 | the best submission over the dataset's successful scores |
| DatasetController.PublishedTitle | src/modules/dataset/controller.py:78 | a title exactly when a published submission has the id, and it is that submission's |
| DatasetController.MetricsRowsMeaning | src/modules/dataset/controller.py:76-81 | the listing fails exactly when a shown score (of a published submission with a non-empty title) lacks a metric; otherwise every row is a shown score's title and six metrics, and every shown score has its row |
| DatasetController.MetricsRows | src/modules/dataset/controller.py:76-81 | a failure is a 500; otherwise no more rows than scores |
| DatasetController.GetDatasetSubmissionsMetrics | src/modules/dataset/controller.py:73-82 | the answer is the metric listing of the dataset's successful scores, capped as `get_all_scores` caps them, or the 500 of a shown score with a null metric |
| DatasetController.CollectMetrics | src/modules/dataset/controller.py:76-81 | the loop computes `MetricsRows`: in order, the metrics of each score whose submission is published with a non-empty title, under that title, stopping with a 500 at the first such score with a null metric |
| DatasetController.GetDatasetSubmissionsLeaderboard | src/modules/dataset/controller.py:85-87 | the leaderboard is the best-submissions list without a limit, and it lists every published submission with a successful score on the dataset |
| Common.MapAllMeaning | src/modules/dataset/controller.py:42-54 | building a list entry by entry fails exactly when some entry fails; otherwise it has one result per element, in order |
| Common.MapAllPrefixFails | src/modules/submission/controller.py:108-114 | the first failing entry decides the error |
| EvaluationService.Zeros | src/modules/evaluation/service.py:254-256 | the padding is `n` zeros |
| EvaluationService.Reconcile | src/modules/evaluation/service.py:251-256 | the predictions are cut or zero-padded to the length of the ground truth, keeping the shared prefix |
| EvaluationService.ReconcileUnique | src/modules/evaluation/service.py:251-256 | those three properties determine the reconciled predictions |
| EvaluationService.ReconcileIdempotent | src/modules/evaluation/service.py:251-256 | reconciling reconciled predictions changes nothing |
| EvaluationService.SuccessUpdateWritesAll | src/modules/evaluation/service.py:265 | the success update is accepted and leaves the score SUCCESS, without a message, with the six measured metrics in their own fields |
| EvaluationService.WrittenKeepsKey | src/modules/scores/service.py:92-94 | score updates never change a score's id, dataset or submission |
| EvaluationService.WrittenAppend | src/modules/scores/service.py:92-94 | writing two lists of updates in turn is writing their concatenation |
| EvaluationService.Announcements | src/modules/scores/service.py:94 | one announcement per successful write |
| EvaluationService.FindIdAfterWrite | src/modules/scores/service.py:92-94 | an updated row is still the one its id finds |
| EvaluationService.PerformWritesAppend | src/modules/evaluation/service.py:217-241 | performing two lists of writes in turn is performing their concatenation |
| EvaluationService.PerformThen | src/modules/evaluation/service.py:217-222 | writes followed by a plan are the plan with those writes in front |
| EvaluationService.PerformThenWrite | src/modules/evaluation/service.py:231-233 | a plan followed by one write is the plan with that write at the end |
| EvaluationService.PerformNothing | src/modules/evaluation/service.py:221-224 | an empty plan changes nothing |
| EvaluationService.WriteScore | src/modules/scores/controller.py:196-203 | a score write made from the evaluation: 404 "Score not found" with nothing changed for an unknown id; otherwise the row is updated and its submission announced |
| EvaluationService.GetWorkflowResult | src/modules/evaluation/service.py:238-272 | a missing directory marks the score ERROR "Workflow <name> data_path not found" and cleans nothing; otherwise the score gets the metrics of the reconciled predictions as SUCCESS, or a 400 "Error getting workflow result: ..." is raised, and either way the directory is removed and the workflow deleted |
| EvaluationService.FirstFailedPod | src/modules/evaluation/service.py:210-219 | the index found is the first Failed or Error pod; None only when there is none |
| EvaluationService.FindFailedPod | src/modules/evaluation/service.py:210-219 | the pod loop stops at the first failed pod |
| EvaluationService.ObserveCycle | src/modules/evaluation/service.py:194-233 | one pass of the loop reaches the cycle's `CycleVerdict` |
| EvaluationService.Ingest | src/modules/evaluation/service.py:222 | reading the result inside the watch loop: its own 400, like any exception, becomes an ERROR score "Unexpected error: ..." |
| EvaluationService.PresenceKept | src/modules/evaluation/service.py:217-265 | score writes never add or remove the score |
| EvaluationService.Act | src/modules/evaluation/service.py:215-233 | acting on a verdict has exactly the effects the watch plan lists |
| EvaluationService.WatchWorkflowStatus | src/modules/evaluation/service.py:187-235 | the loop acts on the first cycle that is not Continue, with exactly the effects the plan for that verdict lists, and the watcher is stopped however it ends |
| EvaluationService.OnlySucceededIngests | src/modules/evaluation/service.py:221-226 | with no failed pod, the loop goes on exactly while the phase is not Succeeded, and Succeeded reads the result |
| EvaluationService.FailedPodWrittenFirst | src/modules/evaluation/service.py:215-219 | a cycle whose pods include a failed one first marks the score ERROR "Pod <pod> failed: <logs>" for the first such pod |
| EvaluationService.DecisionIsFirst | src/modules/evaluation/service.py:194 | the verdict acted on is that of the first cycle that ends the loop |
| EvaluationService.CleanupMeansIngestion | src/modules/evaluation/service.py:238-272 | the directory is removed and the workflow deleted only when the result was read and the directory existed |
| EvaluationService.IngestingVerdictSawSuccess | src/modules/evaluation/service.py:221-222 | the result is read only after a cycle that saw the phase Succeeded |
| EvaluationService.CleanupOnlyAfterSuccess | src/modules/evaluation/service.py:187-272 | the watch cleans up only when the directory exists and some cycle saw the workflow Succeeded |
| EvaluationService.PresentNeverRaises | src/modules/evaluation/service.py:228-233 | while the score exists, the watch never raises: every failure ends as an ERROR score |
| EvaluationService.IngestionRecordsMetrics | src/modules/evaluation/service.py:258-265 | when the result is read and measured, the score ends SUCCESS with the six metrics |
| EvaluationService.MissingDirectoryMarksError | src/modules/evaluation/service.py:240-241 | a missing directory leaves the score ERROR "Workflow <name> data_path not found" without metrics and cleans nothing |
| EvaluationService.FailedMeasurementMarksError | src/modules/evaluation/service.py:267-272 | a failed load or measurement leaves the score ERROR "Unexpected error: 400: Error getting workflow result: ..." and still cleans up |
| EvaluationService.EvaluationManifestParams | src/modules/evaluation/service.py:87-108 | the manifest's featureType, dataPath, model and modelPath read back as given, and there is no videoPath |
| EvaluationService.ModalityOf | src/modules/evaluation/service.py:132 | the modality is found exactly when a submission has the accessor, whatever its status, and it is such a submission's |
| EvaluationService.FailEvaluation | src/modules/evaluation/service.py:174-181 | the failure path deletes the score if it is there, terminates the workflow, removes the directory and raises 400 "Error submitting evaluation: ..." |
| EvaluationService.IdGoneAfterRemoval | src/modules/evaluation/service.py:175-177 | with unique ids, a removed score is found no more |
| EvaluationService.LaunchEvaluation | src/modules/evaluation/service.py:158-181 | a refused submission fails with the score deleted and the workflow terminated; otherwise the manifest is created and the watch runs, and a watch that raises leads to the same failure path |
| EvaluationService.SubmitEvaluation | src/modules/evaluation/service.py:124-181 | the directory is created; a submission accessor that names nothing gives 400 "Invalid model hello" and leaves the directory; otherwise the modality's list files are touched, the workflow is created with the data path `TMP_DIR/<name>` and the models directory, and the watch's effects follow, or the failure path |
| EvaluationController.Queue.constructor | src/modules/evaluation/controller.py:39-42 | the queue starts empty |
| EvaluationController.Queue.Enqueue | src/modules/evaluation/controller.py:39-42 | a broker fault is returned and queues nothing; otherwise the job is appended |
| EvaluationController.SubmissionIdOf | src/modules/evaluation/controller.py:25-26 | the id is found exactly when a submission has the accessor, and it is such a submission's |
| EvaluationController.WithoutPair | src/modules/evaluation/controller.py:28-35 | the pair's score is removed when there is one, and nothing otherwise |
| EvaluationController.FindIdOfRow | src/modules/scores/model.py:16 | with unique ids, each row is the one its id finds |
| EvaluationController.FindAppended | src/modules/scores/model.py:31-32 | a row appended for a new pair and a new id is the one both find |
| EvaluationController.ReplacedScoreIsUnique | src/modules/evaluation/controller.py:28-37 | after re-evaluation the pair has exactly one score, the fresh one, found by its id; every other score is kept |
| EvaluationController.SubmitEvaluation | src/modules/evaluation/controller.py:23-52 | an unknown accessor gives 400 with the validation errors and nothing changed; otherwise the pair's old score is replaced by a fresh IN_PROGRESS one and the job is queued for it, or, when queueing fails, the fresh score is deleted and the answer is 500 |
| Text.DigitChar | src/modules/inference/service.py:48-50 | a digit is written as the character with that offset from `0` |
| Text.NatToString | src/modules/scores/service.py:94 | `str` of a non-negative integer is a non-empty run of digits without a leading zero, except for 0 itself |
| Text.IntToString | src/modules/scores/service.py:72-86 | `str` of an integer starts with `-` exactly when it is negative |
| Text.ParseNat | src/modules/scores/service.py:85 | a string reads as a number exactly when it is a non-empty run of digits |
| Text.NatToStringRoundTrip | src/modules/scores/service.py:94 | the published submission id reads back as that id |
| Text.NatToStringInjective | src/modules/scores/service.py:85 | distinct ids are published as distinct strings |
| Text.LowerChar | src/modules/submission/service.py:45 | `lower` on ASCII maps capitals A to Z to their small letters and keeps every other character |
| Text.Lower | src/modules/submission/service.py:45 | `lower` maps each character on its own (ASCII case mapping) and keeps the length |
| Text.ReplaceChar | src/modules/submission/service.py:45 | `replace` of one character replaces each occurrence and nothing else |
| Text.StripLeft | src/core/config.py:49 | the leading ASCII whitespace is removed, and only that |
| Text.StripRight | src/core/config.py:49 | the trailing ASCII whitespace is removed, and only that |
| Text.Strip | src/core/config.py:49 | `strip` returns an infix of the text with only ASCII whitespace around it, and no ASCII whitespace at either end |
| Text.Count | src/core/config.py:49 | a character occurs no more often than the text is long |
| Text.Split | src/core/config.py:49 | `split` always gives at least one piece |
| Text.SplitShape | src/core/config.py:49 | `split` gives one piece more than there are separators, and no piece contains one |
| Text.JoinSplit | src/core/config.py:49 | joining the pieces with the separator gives the text back |

## Left out

- The Kubernetes and Argo client calls are left out, along with the kube config loading at import time. This covers creating, patching, deleting and reading workflows, the pod watch stream, and pod log reads. They are external services. The model takes what they return as parameters: the `Cycle` trace, the refusal text and the log reads. It records what is asked of them in `Orchestrator.Cluster` and `Orchestrator.Watcher`.
- The filesystem is reduced to the set of file names in each scratch directory (`Orchestrator.Workspaces`). File contents, the chunked upload write and its I/O errors are not modelled.
- EvaluationService.SubmitEvaluation: does not model the recursive dataset copy of src/modules/evaluation/service.py:134-146, which is filesystem I/O. The dataset accessor therefore only names the workflow's data.
- `np.load` is not modelled. Its outcome is the `loaded` parameter, which is either the array or the exception text.
- The scikit-learn metric functions are not modelled. They are an opaque `measure` parameter over reals. IEEE floating point is not modelled, and metrics and means are `real`.
- The `* 0.96` float products in the inference result are modelled as exact `floor`/`ceil` of `n * 96 / 100`. Agreement with IEEE rounding is not claimed.
- `asyncio.sleep`, the watch timeouts and the infinite polling loops are not modelled. Each loop runs over a finite trace of what it observes, and a trace that ends without a terminal observation ends the loop.
- RQ and Redis are modelled as a job sequence (`EvaluationController.Queue`) and a list of published messages (`ScoreService.Broker`). A failure is a fault parameter. Workers, delivery and concurrency are not modelled.
- The `git clone` of a submission's repository and its removal are not modelled. The clone is a boolean outcome.
- JWT, bcrypt and token expiry are not modelled. A hashed password is `UserModel.Hashed(secret)`, and only that password verifies against it.
- UserModel.VerifyPassword: returns false for a stored value that is not a hash. In the source `bcrypt.checkpw` raises ValueError on such a value (src/core/utils/security.py:55-58), so the login answers 500 instead of rejecting the credentials.
- SQL sessions, engines and query construction are not modelled. Neither are unique-constraint races between concurrent requests.
- Pydantic's rendering of a validation error list is not modelled. It is the `validationErrors` text.
- `is_valid_video_file` is unused and not modelled.
- The HTTP routers, pydantic schemas and authentication dependencies are not modelled. Endpoints take the current user and the parsed body as parameters. The inference controller (src/modules/inference/controller.py:14-17 and 36-39) returns an `HTTPException` instead of raising it. FastAPI then sends that object as an ordinary response body with a success status, so the client does not receive the error's status code. The model's `HttpError` results carry the status the service raised, which is what the controller would pass on had it raised it.
- Workflow names come from `uuid4` and are a `name` parameter. Their uniqueness is assumed by the callers.
- The container argument of the evaluation `fetch_pod_logs` call is not modelled. A log read is one outcome per pod event.
- The `case _` branches of the two `match feature_type` statements are taken only when `get_column_value` finds no row and returns `None`. That is a missing submission in evaluation (src/modules/evaluation/service.py:132 and 154-156, answer 400 "Invalid model hello") and a missing or unpublished model in inference (src/modules/inference/service.py:152 and 160-162, answer 400 "Invalid model"). The model covers both answers. A stored modality is a two-valued enum (`SubmissionModel.Modality`), so no other value reaches those branches.
- The insertion order of rows is a modelling choice, not a guarantee of the database. Without `ORDER BY`, PostgreSQL may return rows in any order, for instance an updated row after rows inserted later. The following members rest on that choice.
- BaseCrud.FirstMatch: "the first matching row" is the first in insertion order. The database may pick any matching row.
- BaseCrud.Get: returns the first matching row in insertion order, like `FirstMatch`.
- BaseCrud.GetColumnValue: the value comes from the first matching row in insertion order.
- BaseCrud.GetMulti: the `offset`/`limit` window is taken over insertion order. Under another order it selects other rows.
- BaseCrud.Filter: the matching rows come in insertion order.
- BaseCrud.Table.Delete: deletes the first matching row in insertion order.
- ScoreModel.FindPair: finds the first score row for the pair in insertion order.
- SubmissionService.DeleteHitsOtherOwner: the counterexample places the other owner's row first. It relies on the database returning that row first, which insertion order gives and PostgreSQL may or may not.
- InferenceService.ModelPathAsWritten: is the rendering of a one-element Python set for a path with no quote or backslash in it. Python's `repr` escapes or switches quotes for such paths, and the model does not capture that.
- UserController.CreateUser: the 500 "There was an error creating the user" branch of src/modules/user/controller.py:24-28 is not modelled. `create` always returns the new row, so that branch is never taken.
- `EventStream.Receive` splits lines on LF only. CR and CRLF line endings are not modelled.
- Text.LowerChar: models Python's `str.lower` on ASCII only. It maps `A` to `Z` to their small letters and keeps every other character, so Unicode case mapping (`Ä`, `İ`, characters whose lower case is longer) is not captured.
- Text.Lower: inherits the ASCII-only case mapping of `Text.LowerChar`.
- Text.StripLeft: removes only the ASCII characters `str.isspace` accepts (space, tab, LF, CR, vertical tab, form feed and the separators 0x1C to 0x1F). Unicode whitespace such as U+00A0 or U+2003 is kept.
- Text.StripRight: the same ASCII-only whitespace as `Text.StripLeft`.
- Text.Strip: the same ASCII-only whitespace as `Text.StripLeft`, so comma-separated origins are trimmed of ASCII whitespace only.
- SubmissionService.AccessorShape: holds for the ASCII case mapping. With Python's full Unicode `lower` a title can change length and keep non-ASCII capitals, which the model does not capture.

## Findings

The operations are modelled as the source writes them: `UpdateUser` stores a new password as sent, `ChangeSubmissionStatus` leaves the scores in place, `DeleteSubmission` deletes the first row with the accessor, `SubmitInference` sends the rendered set as the model path, the inference stream sends a failed pod's log in one `data` field, and `GetBestSubmissions` cuts before it sorts. Each corrected member below states the evidently intended behaviour and proves its property, beside the as-written one.

| source | as written | input that shows it | evidently intended | confidence | as-written member | corrected member |
|---|---|---|---|---|---|---|
| src/modules/scores/controller.py:59-90 | `get_best_submissions` cuts the grouped scores to `limit` before sorting by weighted mean | two published submissions with means 0.5 and 0.9, in that order, and `limit=1`: the answer is the 0.5 one | sort by weighted mean, then keep the first `limit` | not executed | ScoreController.LimitBeforeSort | ScoreController.BestSubmissionsAreTop |
| src/modules/user/controller.py:59 | `update_user` stores the new password as sent, while login compares against a bcrypt hash | a user changing their password to `p2`: afterwards `p2` does not verify against what is stored; in the source `bcrypt.checkpw` raises ValueError on the unhashed value, so the login fails with a 500 rather than a rejection | hash the new password before storing it | not executed | UserController.PasswordChangeLocksOut | UserController.ChangedPasswordVerifies |
| src/modules/submission/service.py:93-94 | `delete_submission` deletes the first row with the accessor, whoever owns it | user 1 owns "Test Submission" and user 2 owns "test submission", which share the accessor: user 2's delete passes the ownership check on their own row and removes user 1's | delete the caller's own row | not executed | SubmissionService.DeleteHitsOtherOwner | SubmissionService.DeleteTargetIsOwned |
| src/modules/inference/service.py:181 | `model_path=str({settings.INFER_DIR})` renders a one-element Python set | `INFER_DIR = "/app/infer_models"` reaches the workflow as `{'/app/infer_models'}` | pass the directory itself | not executed | InferenceService.ModelPathIsSetLiteral | InferenceService.ModelPathReachesWorkflow |
| src/modules/inference/service.py:282 | a failed pod's log is sent inside a single `data:` line | a pod `p` whose log is `boom` reaches the client as `Pod p logs:`, without the log | one `data:` field per log line | not executed | InferenceService.LogsLostExample | InferenceService.LogsReceived |
| src/modules/submission/controller.py:184 | `delete_all_submission_scores` is called without `await`, so it never runs | an ACCEPTED submission with one score, moved to REJECTED: the score is still there | withdrawing a submission removes its scores | not executed | SubmissionController.WithdrawnScoresLinger | SubmissionController.ScoresAfterStatusChange |

=== FILE: base_crud.dfy ===
/** The generic record semantics every table class inherits: records are maps from
    field name to value, a table is a sequence of records in query order, and
    `filter_by(**kwargs)` keeps the records whose named fields equal the given values. */
module BaseCrud {

  import opened Common

  datatype Value = Null | IntVal(i: int) | StrVal(s: string) | BoolVal(b: bool) | RealVal(r: real)

  type Record = map<string, Value>

  /** A model class: its declared fields, in declaration order, and whether it is a
      table (carries `__tablename__`). */
  datatype Model = Model(name: string, fields: seq<string>, isTable: bool)

  datatype CrudError =
    | InvalidTable(model: string)
    | ValueError(message: string)
    | AttributeError(message: string)
    | NothingToDelete
    | IntegrityError(constraint: string)

  /** The `get_multi` defaults. */
  const DefaultOffset: nat := 0
  const DefaultLimit: nat := 100

  function FieldOf(r: Record, f: string): Value
  {
    if f in r then r[f] else Null
  }

  predicate Matches(r: Record, filters: map<string, Value>)
  {
    forall k :: k in filters ==> k in r && r[k] == filters[k]
  }

  /** The records `filter_by(**filters)` keeps, in query order. */
  function Filter(rows: seq<Record>, filters: map<string, Value>): (kept: seq<Record>)
    ensures |kept| <= |rows|
    ensures forall x :: x in kept ==> x in rows && Matches(x, filters)
    ensures forall x :: x in rows && Matches(x, filters) ==> x in kept
  {
    if |rows| == 0 then []
    else
      var rest := Filter(rows[..|rows| - 1], filters);
      var last := rows[|rows| - 1];
      assert rows == rows[..|rows| - 1] + [last];
      if Matches(last, filters) then rest + [last] else rest
  }

  /** The positions of the records the filters keep, in ascending order. */
  function MatchIndices(rows: seq<Record>, filters: map<string, Value>): (idx: seq<nat>)
    ensures forall k :: 0 <= k < |idx| ==> idx[k] < |rows|
    ensures forall k, l :: 0 <= k < l < |idx| ==> idx[k] < idx[l]
    ensures forall i :: i in idx <==> 0 <= i < |rows| && Matches(rows[i], filters)
  {
    if |rows| == 0 then []
    else
      var n := |rows| - 1;
      var rest := MatchIndices(rows[..n], filters);
      assert forall i :: 0 <= i < n ==> rows[..n][i] == rows[i];
      rest + (if Matches(rows[n], filters) then [n] else [])
  }

  /** `filter_by` keeps the records at the matching positions and in query order: the
      k-th record kept is the record at the k-th matching position. */
  lemma {:induction false} FilterPicksMatches(rows: seq<Record>, filters: map<string, Value>)
    ensures |Filter(rows, filters)| == |MatchIndices(rows, filters)|
    ensures forall k :: 0 <= k < |Filter(rows, filters)| ==>
              Filter(rows, filters)[k] == rows[MatchIndices(rows, filters)[k]]
  {
    if |rows| > 0 {
      var n := |rows| - 1;
      var init := rows[..n];
      assert rows == init + [rows[n]];
      FilterSnoc(init, rows[n], filters);
      FilterPicksMatches(init, filters);
      PicksExtend(rows, Filter(init, filters), MatchIndices(init, filters), Matches(rows[n], filters));
    }
  }

  /** Picking one more position at the end keeps the picked records in step with the
      positions. */
  lemma PicksExtend(rows: seq<Record>, kept: seq<Record>, idx: seq<nat>, more: bool)
    requires |rows| > 0 && |kept| == |idx|
    requires forall k :: 0 <= k < |idx| ==> idx[k] < |rows| - 1 && kept[k] == rows[..|rows| - 1][idx[k]]
    ensures var kept', idx' := kept + (if more then [rows[|rows| - 1]] else []), idx + (if more then [|rows| - 1] else []);
            |kept'| == |idx'| && forall k :: 0 <= k < |kept'| ==> kept'[k] == rows[idx'[k]]
  {
  }

  /** The records the filters do not keep, in query order. */
  function Remaining(rows: seq<Record>, filters: map<string, Value>): (left: seq<Record>)
    ensures |left| + |Filter(rows, filters)| == |rows|
    ensures forall x :: x in left <==> x in rows && !Matches(x, filters)
  {
    if |rows| == 0 then []
    else
      var rest := Remaining(rows[..|rows| - 1], filters);
      var last := rows[|rows| - 1];
      assert rows == rows[..|rows| - 1] + [last];
      if Matches(last, filters) then rest else rest + [last]
  }

  /** Index of the first record the filters keep. */
  function FirstMatch(rows: seq<Record>, filters: map<string, Value>): (i: Option<nat>)
    ensures i.Some? ==>
              && i.value < |rows| && Matches(rows[i.value], filters)
              && forall j :: 0 <= j < i.value ==> !Matches(rows[j], filters)
    ensures i.None? ==> forall j :: 0 <= j < |rows| ==> !Matches(rows[j], filters)
  {
    if |rows| == 0 then None
    else if Matches(rows[0], filters) then Some(0)
    else match FirstMatch(rows[1..], filters)
      case None => None
      case Some(k) => Some(k + 1)
  }

  // ---------------------------------------------------------------------------
  // Reads

  /** `get`: the first record the filters keep, or None. */
  function Get(m: Model, rows: seq<Record>, filters: map<string, Value>): (r: Result<Option<Record>, CrudError>)
    ensures !m.isTable ==> r == Err(InvalidTable(m.name))
    ensures m.isTable ==>
              && r.Ok?
              && (r.value.None? <==> forall j :: 0 <= j < |rows| ==> !Matches(rows[j], filters))
              && (r.value.Some? ==>
                    exists i :: 0 <= i < |rows| && rows[i] == r.value.value
                      && Matches(rows[i], filters)
                      && forall j :: 0 <= j < i ==> !Matches(rows[j], filters))
  {
    if !m.isTable then Err(InvalidTable(m.name))
    else match FirstMatch(rows, filters)
      case None => Ok(None)
      case Some(i) => Ok(Some(rows[i]))
  }

  /** `get_multi`: the kept records after skipping `offset`, at most `limit` of them
      (0 and 100 unless the caller says otherwise). */
  function GetMulti(m: Model, rows: seq<Record>, filters: map<string, Value>,
                    offset: nat := DefaultOffset, limit: nat := DefaultLimit): (r: Result<seq<Record>, CrudError>)
    ensures !m.isTable ==> r == Err(InvalidTable(m.name))
    ensures m.isTable ==>
              && r.Ok? && |r.value| <= limit
              && (forall x :: x in r.value ==> x in rows && Matches(x, filters))
              && (offset == 0 && |Filter(rows, filters)| <= limit ==> r.value == Filter(rows, filters))
    ensures m.isTable ==>
              var kept := Filter(rows, filters);
              && |r.value| == (if offset >= |kept| then 0 else if |kept| - offset <= limit then |kept| - offset else limit)
              && forall k :: 0 <= k < |r.value| ==> r.value[k] == kept[offset + k]
  {
    if !m.isTable then Err(InvalidTable(m.name))
    else
      var kept := Filter(rows, filters);
      var skipped := if offset <= |kept| then kept[offset..] else [];
      Ok(if |skipped| <= limit then skipped else skipped[..limit])
  }

  /** With the defaults, `get_multi` never returns more than 100 records. */
  lemma GetMultiDefaultCap(m: Model, rows: seq<Record>, filters: map<string, Value>)
    requires m.isTable
    ensures |GetMulti(m, rows, filters).value| <= 100
  {
  }

  /** `exists`: an empty filter is a ValueError, a filter naming a field the class lacks
      an AttributeError; otherwise whether some record matches. */
  function Exists(m: Model, rows: seq<Record>, filters: map<string, Value>): (r: Result<bool, CrudError>)
    ensures !m.isTable ==> r == Err(InvalidTable(m.name))
    ensures m.isTable && |filters| == 0 ==> r.Err? && r.error.ValueError?
    ensures r.Ok? <==> m.isTable && |filters| > 0 && forall k :: k in filters ==> k in m.fields
    ensures r.Ok? ==> (r.value <==> exists i :: 0 <= i < |rows| && Matches(rows[i], filters))
  {
    if !m.isTable then Err(InvalidTable(m.name))
    else if |filters| == 0 then Err(ValueError("Attributes for existence check cannot be empty."))
    else if exists k :: k in filters && k !in m.fields then Err(AttributeError(m.name))
    else Ok(FirstMatch(rows, filters).Some?)
  }

  /** `count`: how many records the filters keep. */
  function CountWhere(m: Model, rows: seq<Record>, filters: map<string, Value>): (r: Result<nat, CrudError>)
    ensures !m.isTable ==> r == Err(InvalidTable(m.name))
    ensures m.isTable ==> r.Ok? && r.value <= |rows|
    ensures m.isTable ==> r.value == |MatchIndices(rows, filters)|
  {
    if !m.isTable then Err(InvalidTable(m.name))
    else
      FilterPicksMatches(rows, filters);
      Ok(|Filter(rows, filters)|)
  }

  /** `get_column_value`: a column the class lacks is an AttributeError; otherwise the
      column of the first kept record, or None. */
  function GetColumnValue(m: Model, rows: seq<Record>, column: string, filters: map<string, Value>)
    : (r: Result<Option<Value>, CrudError>)
    ensures !m.isTable ==> r == Err(InvalidTable(m.name))
    ensures m.isTable && column !in m.fields ==> r.Err? && r.error.AttributeError?
    ensures r.Ok? ==>
              && m.isTable && column in m.fields
              && (r.value.Some? <==> exists i :: 0 <= i < |rows| && Matches(rows[i], filters))
    ensures r.Ok? && r.value.Some? ==>
              exists i :: 0 <= i < |rows| && Matches(rows[i], filters)
                && (forall j :: 0 <= j < i ==> !Matches(rows[j], filters))
                && r.value.value == FieldOf(rows[i], column)
  {
    if !m.isTable then Err(InvalidTable(m.name))
    else if column !in m.fields then Err(AttributeError("Column '" + column + "' does not exist on " + m.name))
    else match FirstMatch(rows, filters)
      case None => Ok(None)
      case Some(i) => Ok(Some(FieldOf(rows[i], column)))
  }

  // ---------------------------------------------------------------------------
  // Grouped aggregates

  /** `{k: v for k, v in filters.items() if v is not None}`. */
  function DropNoneFilters(filters: map<string, Value>): (valid: map<string, Value>)
    ensures forall k :: k in valid <==> k in filters && filters[k] != Null
    ensures forall k :: k in valid ==> valid[k] == filters[k]
  {
    map k | k in filters && filters[k] != Null :: filters[k]
  }

  /** `if limit: query.limit(limit)`: None and 0 both mean no limit. */
  function LimitIfTruthy<T>(items: seq<T>, limit: Option<nat>): (r: seq<T>)
    ensures limit.None? || limit.value == 0 ==> r == items
    ensures |r| <= |items| && r == items[..|r|]
    ensures limit.Some? && limit.value != 0 ==>
              && |r| <= limit.value
              && (|items| <= limit.value ==> r == items)
  {
    if limit.Some? && limit.value != 0 && limit.value < |items| then items[..limit.value] else items
  }

  /** The distinct values of field `f`, in order of first appearance. */
  function DistinctKeys(rows: seq<Record>, f: string): (keys: seq<Value>)
    ensures forall i, j :: 0 <= i < j < |keys| ==> keys[i] != keys[j]
    ensures forall k :: k in keys <==> exists x :: x in rows && FieldOf(x, f) == k
  {
    if |rows| == 0 then []
    else
      var keys := DistinctKeys(rows[..|rows| - 1], f);
      var last := rows[|rows| - 1];
      assert rows == rows[..|rows| - 1] + [last];
      if FieldOf(last, f) in keys then keys else keys + [FieldOf(last, f)]
  }

  predicate IsNumber(v: Value) { v.IntVal? || v.RealVal? }

  function AsReal(v: Value): real
  {
    match v
    case IntVal(i) => i as real
    case RealVal(r) => r
    case _ => 0.0
  }

  function NumberSum(vs: seq<Value>): real
  {
    if |vs| == 0 then 0.0 else NumberSum(vs[..|vs| - 1]) + AsReal(vs[|vs| - 1])
  }

  function NumberCount(vs: seq<Value>): (n: nat)
    ensures n <= |vs|
  {
    if |vs| == 0 then 0 else NumberCount(vs[..|vs| - 1]) + (if IsNumber(vs[|vs| - 1]) then 1 else 0)
  }

  /** `coalesce(avg(column), 0)`: the mean of the non-null values, 0 when there are none. */
  function AvgOrZero(vs: seq<Value>): (avg: real)
    ensures NumberCount(vs) == 0 ==> avg == 0.0
  {
    if NumberCount(vs) == 0 then 0.0 else NumberSum(vs) / NumberCount(vs) as real
  }

  /** Values in [0, 1] (every metric the evaluation writes is one): their sum is
      between 0 and their count. */
  lemma {:induction false} NumberSumUnitBounds(vs: seq<Value>)
    requires forall k :: 0 <= k < |vs| && IsNumber(vs[k]) ==> 0.0 <= AsReal(vs[k]) <= 1.0
    ensures 0.0 <= NumberSum(vs) <= NumberCount(vs) as real
  {
    if |vs| > 0 {
      NumberSumUnitBounds(vs[..|vs| - 1]);
    }
  }

  /** The average of values in [0, 1] is in [0, 1]; with no value at all it is 0. */
  lemma AvgOrZeroUnitBounds(vs: seq<Value>)
    requires forall k :: 0 <= k < |vs| && IsNumber(vs[k]) ==> 0.0 <= AsReal(vs[k]) <= 1.0
    ensures 0.0 <= AvgOrZero(vs) <= 1.0
  {
    NumberSumUnitBounds(vs);
    if NumberCount(vs) > 0 {
      UnitQuotient(NumberSum(vs), NumberCount(vs) as real);
    }
  }

  lemma UnitQuotient(x: real, n: real)
    requires n > 0.0 && 0.0 <= x <= n
    ensures 0.0 <= x / n <= 1.0
  {
    assert x / n * n == x;
  }

  function Column(rows: seq<Record>, f: string): (vs: seq<Value>)
    ensures |vs| == |rows|
    ensures forall i :: 0 <= i < |rows| ==> vs[i] == FieldOf(rows[i], f)
  {
    seq(|rows|, i requires 0 <= i < |rows| => FieldOf(rows[i], f))
  }

  datatype Group = Group(key: Value, aggregates: seq<real>)

  /** One group per distinct key, in order of first appearance, each holding the
      average of every aggregated field over the records with that key. */
  function GroupBy(kept: seq<Record>, groupBy: string, fields: seq<string>): (groups: seq<Group>)
    ensures forall i, j :: 0 <= i < j < |groups| ==> groups[i].key != groups[j].key
    ensures forall i :: 0 <= i < |groups| ==> |groups[i].aggregates| == |fields|
    ensures forall i, j {:trigger groups[i].aggregates[j]} :: 0 <= i < |groups| && 0 <= j < |fields| ==>
              groups[i].aggregates[j] == AvgOrZero(Column(Filter(kept, map[groupBy := groups[i].key]), fields[j]))
    ensures forall i :: 0 <= i < |groups| ==> exists x :: x in kept && FieldOf(x, groupBy) == groups[i].key
    ensures forall x :: x in kept ==> exists i :: 0 <= i < |groups| && groups[i].key == FieldOf(x, groupBy)
  {
    var keys := DistinctKeys(kept, groupBy);
    var groups := seq(|keys|, i requires 0 <= i < |keys| =>
      Group(keys[i], Aggregates(Filter(kept, map[groupBy := keys[i]]), fields)));
    assert forall i :: 0 <= i < |groups| ==> groups[i].key == keys[i] && keys[i] in keys;
    assert forall x :: x in kept ==> FieldOf(x, groupBy) in keys;
    groups
  }

  function Aggregates(members: seq<Record>, fields: seq<string>): (avgs: seq<real>)
    ensures |avgs| == |fields|
    ensures forall j :: 0 <= j < |fields| ==> avgs[j] == AvgOrZero(Column(members, fields[j]))
  {
    seq(|fields|, j requires 0 <= j < |fields| => AvgOrZero(Column(members, fields[j])))
  }

  /** Filtering one more record of a prefix adds it to the kept or to the remaining ones. */
  lemma FilterStep(rows: seq<Record>, filters: map<string, Value>, i: nat)
    requires i < |rows|
    ensures Filter(rows[..i + 1], filters)
            == Filter(rows[..i], filters) + (if Matches(rows[i], filters) then [rows[i]] else [])
    ensures Remaining(rows[..i + 1], filters)
            == Remaining(rows[..i], filters) + (if Matches(rows[i], filters) then [] else [rows[i]])
  {
    assert rows[..i + 1][..i] == rows[..i];
  }

  /** Filtering a list with one more record at the end. */
  lemma FilterSnoc(rows: seq<Record>, x: Record, filters: map<string, Value>)
    ensures Filter(rows + [x], filters) == Filter(rows, filters) + (if Matches(x, filters) then [x] else [])
  {
    assert (rows + [x])[..|rows|] == rows;
  }

  /** `get_grouped_aggregates`: drop None filters, keep the matching records, group them
      by `groupBy`, average each aggregated field per group, then apply a truthy limit. */
  function GroupedAggregates(m: Model, rows: seq<Record>, groupBy: string, fields: seq<string>,
                             limit: Option<nat>, filters: map<string, Value>)
    : (r: Result<seq<Group>, CrudError>)
    ensures !m.isTable ==> r == Err(InvalidTable(m.name))
    ensures r.Ok? <==> m.isTable && groupBy in m.fields && forall f :: f in fields ==> f in m.fields
    ensures r.Ok? ==>
              var all := GroupBy(Filter(rows, DropNoneFilters(filters)), groupBy, fields);
              && |r.value| <= |all| && r.value == all[..|r.value|]
              && (limit.Some? && limit.value != 0 ==> |r.value| <= limit.value)
              && (limit.None? || limit.value == 0 ==> r.value == all)
  {
    if !m.isTable then Err(InvalidTable(m.name))
    else if groupBy !in m.fields || exists f :: f in fields && f !in m.fields then Err(AttributeError(m.name))
    else Ok(LimitIfTruthy(GroupBy(Filter(rows, DropNoneFilters(filters)), groupBy, fields), limit))
  }

  /** A grouping that succeeds has distinct keys, one average per field, and no more
      groups than a truthy limit. */
  lemma GroupedAggregatesShape(m: Model, rows: seq<Record>, groupBy: string, fields: seq<string>,
                               limit: Option<nat>, filters: map<string, Value>)
    requires m.isTable && groupBy in m.fields && forall f :: f in fields ==> f in m.fields
    ensures GroupedAggregates(m, rows, groupBy, fields, limit, filters).Ok?
    ensures var gs := GroupedAggregates(m, rows, groupBy, fields, limit, filters).value;
            && (forall i, j :: 0 <= i < j < |gs| ==> gs[i].key != gs[j].key)
            && (forall i :: 0 <= i < |gs| ==> |gs[i].aggregates| == |fields|)
            && (limit.Some? && limit.value != 0 ==> |gs| <= limit.value)
  {
    var all := GroupBy(Filter(rows, DropNoneFilters(filters)), groupBy, fields);
    var gs := LimitIfTruthy(all, limit);
    assert GroupedAggregates(m, rows, groupBy, fields, limit, filters) == Ok(gs);
    assert forall i :: 0 <= i < |gs| ==> gs[i] == all[i];
  }

  // ---------------------------------------------------------------------------
  // Writes

  /** What `update(**kwargs)` leaves in a record: every field named in kwargs takes the
      given value, every other field keeps its value, and unknown keys are ignored. */
  function Assign(data: Record, kwargs: map<string, Value>): (r: Record)
    ensures r.Keys == data.Keys
    ensures forall f :: f in data && f in kwargs ==> r[f] == kwargs[f]
    ensures forall f :: f in data && f !in kwargs ==> r[f] == data[f]
  {
    map f | f in data :: if f in kwargs then kwargs[f] else data[f]
  }

  /** Updating twice with the same values changes nothing the second time. */
  lemma AssignIdempotent(data: Record, kwargs: map<string, Value>)
    ensures Assign(Assign(data, kwargs), kwargs) == Assign(data, kwargs)
  {
  }

  /** One instance of a model class: the values of its declared fields. */
  class Row {
    const model: Model
    var data: Record

    ghost predicate Valid()
      reads this
    {
      forall f :: f in data <==> f in model.fields
    }

    constructor (m: Model, data: Record)
      requires forall f :: f in data <==> f in m.fields
      ensures Valid() && model == m && this.data == data
    {
      model := m;
      this.data := data;
    }

    /** `update`: walks the declared fields and sets each one named in `kwargs`. */
    method Update(kwargs: map<string, Value>) returns (r: Result<Record, CrudError>)
      requires Valid()
      modifies this
      ensures Valid()
      ensures !model.isTable ==> r == Err(InvalidTable(model.name)) && data == old(data)
      ensures model.isTable ==> data == Assign(old(data), kwargs) && r == Ok(data)
    {
      if !model.isTable {
        return Err(InvalidTable(model.name));
      }
      var fields, d := model.fields, data;
      var i := 0;
      while i < |fields|
        invariant 0 <= i <= |fields|
        invariant d.Keys == data.Keys
        invariant forall f :: f in d ==> d[f] == if f in kwargs && f in fields[..i] then kwargs[f] else data[f]
      {
        var f := fields[i];
        assert fields[..i + 1] == fields[..i] + [f];
        if f in kwargs {
          d := d[f := kwargs[f]];
        }
        i := i + 1;
      }
      assert fields[..i] == fields;
      assert forall f :: f in d ==> d[f] == Assign(data, kwargs)[f];
      data := d;
      r := Ok(data);
    }
  }

  /** A table: its model and its records in query order. */
  class Table {
    const model: Model
    var rows: seq<Record>

    constructor (m: Model)
      ensures model == m && rows == []
    {
      model := m;
      rows := [];
    }

    /** `create`: adds the record and returns it. */
    method Create(record: Record) returns (r: Result<Record, CrudError>)
      modifies this
      ensures !model.isTable ==> r == Err(InvalidTable(model.name)) && rows == old(rows)
      ensures model.isTable ==> r == Ok(record) && rows == old(rows) + [record]
    {
      if !model.isTable {
        return Err(InvalidTable(model.name));
      }
      rows := rows + [record];
      r := Ok(record);
    }

    /** `delete`: removes and returns the first record the filters keep; with none,
        deleting `None` fails. */
    method Delete(filters: map<string, Value>) returns (r: Result<Record, CrudError>)
      modifies this
      ensures !model.isTable ==> r == Err(InvalidTable(model.name)) && rows == old(rows)
      ensures model.isTable && FirstMatch(old(rows), filters).None? ==>
        r == Err(NothingToDelete) && rows == old(rows)
      ensures model.isTable && FirstMatch(old(rows), filters).Some? ==>
        var i := FirstMatch(old(rows), filters).value;
        r == Ok(old(rows)[i]) && rows == old(rows)[..i] + old(rows)[i + 1..]
    {
      if !model.isTable {
        return Err(InvalidTable(model.name));
      }
      match FirstMatch(rows, filters)
      case None =>
        r := Err(NothingToDelete);
      case Some(i) =>
        r := Ok(rows[i]);
        rows := rows[..i] + rows[i + 1..];
    }

    /** `delete_multi`: removes every record the filters keep and returns them. */
    method DeleteMulti(filters: map<string, Value>) returns (r: Result<seq<Record>, CrudError>)
      modifies this
      ensures !model.isTable ==> r == Err(InvalidTable(model.name)) && rows == old(rows)
      ensures model.isTable ==>
        && r == Ok(Filter(old(rows), filters))
        && rows == Remaining(old(rows), filters)
    {
      if !model.isTable {
        return Err(InvalidTable(model.name));
      }
      var all := rows;
      var removed: seq<Record> := [];
      var kept: seq<Record> := [];
      var i := 0;
      while i < |all|
        invariant 0 <= i <= |all|
        invariant removed == Filter(all[..i], filters)
        invariant kept == Remaining(all[..i], filters)
      {
        FilterStep(all, filters, i);
        if Matches(all[i], filters) {
          removed := removed + [all[i]];
        } else {
          kept := kept + [all[i]];
        }
        i := i + 1;
      }
      assert all[..i] == all;
      rows := kept;
      r := Ok(removed);
    }
  }
}

=== FILE: common.dfy ===
/** Values shared by every module: an optional value, a result with an error,
    the HTTP error a controller raises (status code plus detail text), and the loop
    that builds a list entry by entry and stops at the first entry that fails. */
module Common {

  datatype Option<+T> = None | Some(value: T)

  datatype Result<+T, +E> = Ok(value: T) | Err(error: E)

  /** `HTTPException(status_code, detail)`. */
  datatype HttpError = HttpError(code: nat, detail: string)

  const BadRequest: nat := 400
  const Forbidden: nat := 403
  const NotFound: nat := 404
  const Conflict: nat := 409
  const ServerError: nat := 500

  /** What the framework answers when a handler raises an exception it does not
      catch (an AttributeError, TypeError or IndexError in the handler's own code). */
  const InternalError: HttpError := HttpError(ServerError, "Internal Server Error")

  /** Builds the list of `f(x)` for each `x` in order; the first failure ends the loop
      with its error. */
  function MapAll<A, B, E>(xs: seq<A>, f: A -> Result<B, E>): Result<seq<B>, E>
  {
    if |xs| == 0 then Ok([])
    else
      match MapAll(xs[..|xs| - 1], f)
      case Err(e) => Err(e)
      case Ok(ys) =>
        match f(xs[|xs| - 1])
        case Err(e) => Err(e)
        case Ok(y) => Ok(ys + [y])
  }

  /** The list has one entry per element, in order; it fails exactly when some element
      fails. */
  lemma {:induction false} MapAllMeaning<A, B, E>(xs: seq<A>, f: A -> Result<B, E>)
    ensures MapAll(xs, f).Err? <==> exists k :: 0 <= k < |xs| && f(xs[k]).Err?
    ensures MapAll(xs, f).Ok? ==>
              && |MapAll(xs, f).value| == |xs|
              && forall k :: 0 <= k < |xs| ==> Ok(MapAll(xs, f).value[k]) == f(xs[k])
  {
    if |xs| > 0 {
      var init := xs[..|xs| - 1];
      MapAllMeaning(init, f);
      assert forall k :: 0 <= k < |init| ==> init[k] == xs[k];
    }
  }

  /** One more successful element extends a successful prefix by its value. */
  lemma MapAllStep<A, B, E>(xs: seq<A>, f: A -> Result<B, E>, i: nat, ys: seq<B>, y: B)
    requires i < |xs| && MapAll(xs[..i], f) == Ok(ys) && f(xs[i]) == Ok(y)
    ensures MapAll(xs[..i + 1], f) == Ok(ys + [y])
  {
    assert xs[..i + 1][..i] == xs[..i];
  }

  /** Once the element at `i` fails after a successful prefix, the whole list fails with
      its error. */
  lemma {:induction false} MapAllPrefixFails<A, B, E>(xs: seq<A>, f: A -> Result<B, E>, i: nat)
    requires i < |xs| && MapAll(xs[..i], f).Ok? && f(xs[i]).Err?
    ensures MapAll(xs, f) == Err(f(xs[i]).error)
  {
    if i < |xs| - 1 {
      assert xs[..|xs| - 1][..i] == xs[..i];
      MapAllPrefixFails(xs[..|xs| - 1], f, i);
    } else {
      assert xs[..|xs| - 1] == xs[..i];
    }
  }
}

=== FILE: config.dfy ===
/** Application settings: the CORS origin validator, the database URL validator and
    the keyword arguments handed to the web application, with the staging override. */
module Config {

  import opened Common
  import opened Text

  /** Token lifetimes, in seconds. */
  const AccessTokenExpireSeconds: nat := 60 * 30
  const RefreshTokenExpireSeconds: nat := 60 * 60 * 24 * 7

  lemma TokenLifetimeDefaults()
    ensures AccessTokenExpireSeconds == 1800
    ensures RefreshTokenExpireSeconds == 604800
  {
  }

  datatype Settings = Settings(
    staging: bool,
    projectName: string,
    projectVersion: string,
    apiStr: string,
    psqlUser: Option<string>,
    psqlPassword: Option<string>,
    psqlHost: Option<string>,
    psqlPort: Option<int>,
    psqlDb: string)

  // ---------------------------------------------------------------------------
  // BACKEND_CORS_ORIGINS

  /** What the environment can hand the validator: a string, a list, or anything else. */
  datatype CorsInput = CorsString(text: string) | CorsList(items: seq<string>) | CorsOther

  predicate StartsWithBracket(s: string) { |s| > 0 && s[0] == '[' }

  /** A string that does not start with "[" is split on "," and each piece stripped;
      a list passes through; every other input is a ValueError. */
  function AssembleCorsOrigins(v: CorsInput): (r: Result<seq<string>, string>)
    ensures r.Ok? <==> (v.CorsString? && !StartsWithBracket(v.text)) || v.CorsList?
    ensures v.CorsList? ==> r == Ok(v.items)
  {
    match v
    case CorsString(s) =>
      if !StartsWithBracket(s) then
        var pieces := Split(s, ',');
        Ok(seq(|pieces|, k requires 0 <= k < |pieces| => Strip(pieces[k])))
      else Err("Invalid input for BACKEND_CORS_ORIGINS")
    case CorsList(items) => Ok(items)
    case CorsOther => Err("Invalid input for BACKEND_CORS_ORIGINS")
  }

  /** The origins parsed from a comma-separated string: one more than there are commas,
      each the whitespace-stripped text between two commas, none containing a comma. */
  lemma CorsOriginsFromString(s: string)
    requires !StartsWithBracket(s)
    ensures AssembleCorsOrigins(CorsString(s)).Ok?
    ensures |AssembleCorsOrigins(CorsString(s)).value| == Count(s, ',') + 1
    ensures forall k :: 0 <= k < |AssembleCorsOrigins(CorsString(s)).value| ==>
      var origin := AssembleCorsOrigins(CorsString(s)).value[k];
      && origin == Strip(Split(s, ',')[k])
      && (|origin| > 0 ==> !IsSpace(origin[0]) && !IsSpace(origin[|origin| - 1]))
    ensures Join(Split(s, ','), ',') == s
  {
    SplitShape(s, ',');
    JoinSplit(s, ',');
  }

  // ---------------------------------------------------------------------------
  // PSQL_DATABASE_URL

  datatype DbUrlInput = DbUrlGiven(url: string) | DbUrlUnset

  /** A URL given as text, or the parts handed to the DSN builder. */
  datatype DbUrl =
    | Url(url: string)
    | Dsn(scheme: string, user: Option<string>, password: Option<string>,
          host: Option<string>, port: Option<int>, path: string)

  function AssembleDbConnection(v: DbUrlInput, s: Settings): (r: DbUrl)
    ensures v.DbUrlGiven? ==> r == Url(v.url)
    ensures v.DbUrlUnset? ==>
              && r.Dsn? && r.scheme == "postgresql+asyncpg"
              && r.user == s.psqlUser && r.password == s.psqlPassword
              && r.host == s.psqlHost && r.port == s.psqlPort && r.path == s.psqlDb
  {
    match v
    case DbUrlGiven(url) => Url(url)
    case DbUrlUnset =>
      Dsn("postgresql+asyncpg", s.psqlUser, s.psqlPassword, s.psqlHost, s.psqlPort, s.psqlDb)
  }

  // ---------------------------------------------------------------------------
  // Keyword arguments for the web application

  datatype KwValue = KwString(s: string) | KwNone | JsonResponseClass

  const BaseKeys: set<string> := {"title", "version", "openapi_url", "default_response_class"}
  const StagingHiddenKeys: set<string> := {"openapi_url", "openapi_prefix", "docs_url", "redoc_url"}

  /** Builds the dictionary and, under staging, overwrites the documentation URLs with None. */
  method FastapiKwargs(s: Settings) returns (kw: map<string, KwValue>)
    ensures "title" in kw && kw["title"] == KwString(s.projectName)
    ensures "version" in kw && kw["version"] == KwString(s.projectVersion)
    ensures "default_response_class" in kw && kw["default_response_class"] == JsonResponseClass
    ensures !s.staging ==>
              && kw.Keys == BaseKeys
              && kw["openapi_url"] == KwString(s.apiStr + "openapi.json")
    ensures s.staging ==>
              && kw.Keys == BaseKeys + StagingHiddenKeys
              && forall k :: k in StagingHiddenKeys ==> kw[k] == KwNone
  {
    kw := map[
      "title" := KwString(s.projectName),
      "version" := KwString(s.projectVersion),
      "openapi_url" := KwString(s.apiStr + "openapi.json"),
      "default_response_class" := JsonResponseClass];
    if s.staging {
      kw := kw["openapi_url" := KwNone]["openapi_prefix" := KwNone]
              ["docs_url" := KwNone]["redoc_url" := KwNone];
    }
  }
}

=== FILE: dataset_controller.dfy ===
/** The dataset endpoints: details by accessor, the list with each dataset's best
    submission and number of published submissions, the per-dataset metrics and the
    leaderboard. */
module DatasetController {

  import opened Common
  import opened ScoreModel
  import SubmissionModel
  import ScoreService
  import ScoreController
  import opened DatasetService

  /** `get_dataset_details`: 404 for an unknown accessor. */
  function GetDatasetDetails(datasets: seq<Dataset>, accessor: string): (r: Result<Dataset, HttpError>)
    ensures r.Err? <==> !AccessorExists(datasets, accessor)
    ensures r.Err? ==> r.error == HttpError(NotFound, "Dataset not found")
    ensures r.Ok? ==> r.value in datasets && r.value.accessor == accessor
  {
    match FindByAccessor(datasets, accessor)
    case None => Err(HttpError(NotFound, "Dataset not found"))
    case Some(d) => Ok(d)
  }

  /** The dataset's successful scores, as `get_all_scores` lists them. */
  function SuccessScores(rows: seq<Score>, datasetId: nat): seq<Score>
  {
    ScoreService.AllScores(rows, Some(datasetId), None, Some(Success))
  }

  // ---------------------------------------------------------------------------
  // get_all_datasets

  /** `DatasetInfoListOut`. */
  datatype DatasetInfo = DatasetInfo(
    dataset: Dataset,
    bestTitle: Option<string>,
    bestAccessor: Option<string>,
    numberOfSubmissions: nat)

  /** One dataset's entry; the best-submission lookup may fail. */
  function InfoOf(d: Dataset, rows: seq<Score>, subs: seq<SubmissionModel.Submission>): Result<DatasetInfo, HttpError>
  {
    match ScoreController.BestOf(SuccessScores(rows, d.id), subs)
    case Err(e) => Err(e)
    case Ok(best) =>
      Ok(DatasetInfo(d,
                     if best.None? then None else Some(best.value.title),
                     if best.None? then None else Some(best.value.accessor),
                     PublishedCount(SuccessScores(rows, d.id), subs)))
  }

  /** What one entry says about its dataset. */
  lemma InfoOfMeaning(d: Dataset, rows: seq<Score>, subs: seq<SubmissionModel.Submission>)
    ensures InfoOf(d, rows, subs).Err? <==>
              ScoreController.BestOf(SuccessScores(rows, d.id), subs).Err?
    ensures InfoOf(d, rows, subs).Ok? ==>
              var info := InfoOf(d, rows, subs).value;
              && info.dataset == d
              && info.numberOfSubmissions == PublishedCount(SuccessScores(rows, d.id), subs)
              && (info.bestTitle.None? <==> |SuccessScores(rows, d.id)| == 0)
              && (info.bestAccessor.None? <==> |SuccessScores(rows, d.id)| == 0)
  {
    ScoreController.BestOfMeaning(SuccessScores(rows, d.id), subs);
  }

  /** `get_all_datasets`: the loop over the first 100 datasets. */
  method GetAllDatasets(datasets: seq<Dataset>, rows: seq<Score>, subs: seq<SubmissionModel.Submission>)
    returns (r: Result<seq<DatasetInfo>, HttpError>)
    ensures r == MapAll(AllDatasets(datasets), d => InfoOf(d, rows, subs))
  {
    var entry := d => InfoOf(d, rows, subs);
    var ds := AllDatasets(datasets);
    var result: seq<DatasetInfo> := [];
    for i := 0 to |ds|
      invariant MapAll(ds[..i], entry) == Ok(result)
    {
      var d := ds[i];
      var info := DatasetEntry(d, rows, subs);
      assert info == entry(d);
      if info.Err? {
        MapAllPrefixFails(ds, entry, i);
        return Err(info.error);
      }
      MapAllStep(ds, entry, i, result, info.value);
      result := result + [info.value];
    }
    assert ds[..|ds|] == ds;
    return Ok(result);
  }

  /** The body of the loop for one dataset. */
  method DatasetEntry(d: Dataset, rows: seq<Score>, subs: seq<SubmissionModel.Submission>)
    returns (r: Result<DatasetInfo, HttpError>)
    ensures r == InfoOf(d, rows, subs)
  {
    var best := ScoreController.GetBestSubmission(rows, subs, d.id);
    if best.Err? {
      return Err(best.error);
    }
    var count := CountDatasetSubmissions(rows, subs, d.id);
    var title := if best.value.None? then None else Some(best.value.value.title);
    var accessor := if best.value.None? then None else Some(best.value.value.accessor);
    r := Ok(DatasetInfo(d, title, accessor, count));
  }

  // ---------------------------------------------------------------------------
  // get_number_of_submissions

  /** `NumberSubmissionsOut`. */
  datatype NumberOut = NumberOut(datasetTitle: string, numberOfSubmissions: nat)

  /** One dataset's number of published submissions with a successful score. */
  function CountOf(d: Dataset, rows: seq<Score>, subs: seq<SubmissionModel.Submission>): nat
  {
    PublishedCount(SuccessScores(rows, d.id), subs)
  }

  /** The loop of `get_number_of_submissions`, with `count` giving each dataset's number. */
  function Counts(ds: seq<Dataset>, count: Dataset -> nat): seq<NumberOut>
  {
    if |ds| == 0 then []
    else
      var d := ds[|ds| - 1];
      Counts(ds[..|ds| - 1], count) + (if count(d) > 0 then [NumberOut(d.title, count(d))] else [])
  }

  /** Only datasets with a positive number are listed, each with its number; and each
      such dataset is listed. */
  lemma {:induction false} CountsMeaning(ds: seq<Dataset>, count: Dataset -> nat)
    ensures forall o :: o in Counts(ds, count) ==>
              o.numberOfSubmissions > 0
              && exists d :: d in ds && d.title == o.datasetTitle && o.numberOfSubmissions == count(d)
    ensures forall d :: d in ds && count(d) > 0 ==> NumberOut(d.title, count(d)) in Counts(ds, count)
  {
    if |ds| > 0 {
      var init := ds[..|ds| - 1];
      CountsMeaning(init, count);
      assert ds == init + [ds[|ds| - 1]];
    }
  }

  lemma CountsStep(ds: seq<Dataset>, count: Dataset -> nat, i: nat)
    requires i < |ds|
    ensures Counts(ds[..i + 1], count)
            == Counts(ds[..i], count) + (if count(ds[i]) > 0 then [NumberOut(ds[i].title, count(ds[i]))] else [])
  {
    assert ds[..i + 1][..i] == ds[..i];
  }

  /** `get_number_of_submissions`. */
  method GetNumberOfSubmissions(datasets: seq<Dataset>, rows: seq<Score>, subs: seq<SubmissionModel.Submission>)
    returns (r: seq<NumberOut>)
    ensures r == Counts(AllDatasets(datasets), d => CountOf(d, rows, subs))
  {
    var count := d => CountOf(d, rows, subs);
    var ds := AllDatasets(datasets);
    r := [];
    for i := 0 to |ds|
      invariant r == Counts(ds[..i], count)
    {
      CountsStep(ds, count, i);
      var n := CountDatasetSubmissions(rows, subs, ds[i].id);
      assert n == count(ds[i]);
      if n > 0 {
        r := r + [NumberOut(ds[i].title, n)];
      }
    }
    assert ds[..|ds|] == ds;
  }

  /** `get_best_dataset_submission`. */
  method GetBestDatasetSubmission(rows: seq<Score>, subs: seq<SubmissionModel.Submission>, datasetId: nat)
    returns (r: Result<Option<ScoreController.BestSubmissionOut>, HttpError>)
    ensures r == ScoreController.BestOf(SuccessScores(rows, datasetId), subs)
  {
    r := ScoreController.GetBestSubmission(rows, subs, datasetId);
  }

  // ---------------------------------------------------------------------------
  // get_dataset_submissions_metrics

  /** `get_column_value("title", id=..., status=PUBLISHED)`: the title of the first
      published row with the id. */
  function PublishedTitle(subs: seq<SubmissionModel.Submission>, id: nat): (t: Option<string>)
    ensures t.Some? <==> exists k :: 0 <= k < |subs| && subs[k].id == id && subs[k].status == SubmissionModel.Published
    ensures t.Some? ==> exists k :: 0 <= k < |subs| && subs[k].id == id && subs[k].status == SubmissionModel.Published
                                   && subs[k].title == t.value
  {
    if |subs| == 0 then None
    else if subs[0].id == id && subs[0].status == SubmissionModel.Published then Some(subs[0].title)
    else
      var rest := PublishedTitle(subs[1..], id);
      assert rest.Some? ==> exists k :: 1 <= k < |subs| && subs[k].id == id && subs[k].status == SubmissionModel.Published
                                        && subs[k].title == rest.value;
      rest
  }

  /** `SubmissionMetricsOut`: the title and the six metrics, in the order of
      `MetricFields`, none of them null. */
  datatype MetricsOut = MetricsOut(title: string, metrics: seq<real>)

  /** A score is listed when its submission is published with a non-empty title (an
      empty title is falsy). */
  predicate Shown(s: Score, subs: seq<SubmissionModel.Submission>)
  {
    PublishedTitle(subs, s.submissionId).Some? && PublishedTitle(subs, s.submissionId).value != ""
  }

  /** The row of a shown score whose six metrics are all known. */
  function RowOf(s: Score, subs: seq<SubmissionModel.Submission>): MetricsOut
    requires Shown(s, subs) && ScoreController.Complete(s.metrics)
  {
    MetricsOut(PublishedTitle(subs, s.submissionId).value, ScoreController.Known(s.metrics))
  }

  /** One pass of the loop: a shown score adds its row, and one with a null metric
      cannot be built into a `SubmissionMetricsOut`, which ends the request with a 500. */
  function AddRow(acc: Result<seq<MetricsOut>, HttpError>, s: Score, subs: seq<SubmissionModel.Submission>)
    : Result<seq<MetricsOut>, HttpError>
  {
    if acc.Err? || !Shown(s, subs) then acc
    else if !ScoreController.Complete(s.metrics) then Err(InternalError)
    else Ok(acc.value + [RowOf(s, subs)])
  }

  function MetricsRows(scores: seq<Score>, subs: seq<SubmissionModel.Submission>): (r: Result<seq<MetricsOut>, HttpError>)
    ensures r.Err? ==> r.error == InternalError
    ensures r.Ok? ==> |r.value| <= |scores|
  {
    if |scores| == 0 then Ok([])
    else AddRow(MetricsRows(scores[..|scores| - 1], subs), scores[|scores| - 1], subs)
  }

  /** The listing fails exactly when a shown score lacks a metric. Otherwise each row is
      the metrics of a shown score under its submission's title, and every shown score
      has its row. */
  lemma {:induction false} MetricsRowsMeaning(scores: seq<Score>, subs: seq<SubmissionModel.Submission>)
    ensures MetricsRows(scores, subs).Err? <==>
              exists s :: s in scores && Shown(s, subs) && !ScoreController.Complete(s.metrics)
    ensures MetricsRows(scores, subs).Ok? ==>
              forall o :: o in MetricsRows(scores, subs).value ==>
                exists s :: s in scores && Shown(s, subs) && ScoreController.Complete(s.metrics) && o == RowOf(s, subs)
    ensures MetricsRows(scores, subs).Ok? ==>
              forall s :: s in scores && Shown(s, subs) ==>
                ScoreController.Complete(s.metrics) && RowOf(s, subs) in MetricsRows(scores, subs).value
  {
    if |scores| > 0 {
      var init, last := scores[..|scores| - 1], scores[|scores| - 1];
      MetricsRowsMeaning(init, subs);
      assert scores == init + [last];
      assert forall s :: s in scores <==> s in init || s == last;
    }
  }

  lemma MetricsRowsStep(scores: seq<Score>, subs: seq<SubmissionModel.Submission>, i: nat)
    requires i < |scores|
    ensures MetricsRows(scores[..i + 1], subs) == AddRow(MetricsRows(scores[..i], subs), scores[i], subs)
  {
    assert scores[..i + 1][..i] == scores[..i];
  }

  /** Once the rows of a prefix have failed, the whole listing fails. */
  lemma {:induction false} MetricsRowsFailOnward(scores: seq<Score>, subs: seq<SubmissionModel.Submission>, i: nat)
    requires i <= |scores| && MetricsRows(scores[..i], subs).Err?
    ensures MetricsRows(scores, subs).Err?
    decreases |scores| - i
  {
    if i < |scores| {
      MetricsRowsStep(scores, subs, i);
      MetricsRowsFailOnward(scores, subs, i + 1);
    } else {
      assert scores[..i] == scores;
    }
  }

  /** `get_dataset_submissions_metrics`. */
  method GetDatasetSubmissionsMetrics(rows: seq<Score>, subs: seq<SubmissionModel.Submission>, datasetId: nat)
    returns (r: Result<seq<MetricsOut>, HttpError>)
    ensures r == MetricsRows(SuccessScores(rows, datasetId), subs)
  {
    var scores := ScoreService.GetAllScores(rows, Some(datasetId), None, Some(Success));
    r := CollectMetrics(scores, subs);
  }

  /** The loop of `get_dataset_submissions_metrics` over the selected scores. */
  method CollectMetrics(scores: seq<Score>, subs: seq<SubmissionModel.Submission>)
    returns (r: Result<seq<MetricsOut>, HttpError>)
    ensures r == MetricsRows(scores, subs)
  {
    var result: seq<MetricsOut> := [];
    for i := 0 to |scores|
      invariant MetricsRows(scores[..i], subs) == Ok(result)
    {
      MetricsRowsStep(scores, subs, i);
      var title := PublishedTitle(subs, scores[i].submissionId);
      if title.Some? && title.value != "" {
        if !ScoreController.Complete(scores[i].metrics) {
          MetricsRowsFailOnward(scores, subs, i + 1);
          return Err(InternalError);
        }
        result := result + [MetricsOut(title.value, ScoreController.Known(scores[i].metrics))];
      }
    }
    assert scores[..|scores|] == scores;
    r := Ok(result);
  }

  /** `get_dataset_submissions_leaderboard`: every published submission of the dataset,
      best first. Without a limit the as-written loop is the intended ranking. */
  method GetDatasetSubmissionsLeaderboard(rows: seq<Score>, subs: seq<SubmissionModel.Submission>, datasetId: nat)
    returns (r: Result<seq<ScoreController.BestEntry>, HttpError>)
    ensures r == ScoreController.BestSubmissions(ScoreService.GroupedScores(rows, None, Some(datasetId)), subs, None)
    ensures var groups := ScoreService.GroupedScores(rows, None, Some(datasetId));
            r.Ok? ==> forall j :: 0 <= j < |groups| && ScoreController.PublishedGroup(groups[j], subs)
                                 ==> ScoreController.GroupEntry(groups[j], subs) in r.value
  {
    r := ScoreController.GetBestSubmissions(rows, subs, None, Some(datasetId));
    ScoreController.NoLimitAgrees(ScoreService.GroupedScores(rows, None, Some(datasetId)), subs);
  }
}

=== FILE: dataset_service.dfy ===
/** Datasets: the read-only table of benchmark datasets and the service queries on it,
    including the number of published submissions evaluated successfully on a dataset. */
module DatasetService {

  import opened Common
  import BaseCrud
  import opened ScoreModel
  import SubmissionModel
  import ScoreService

  datatype Dataset = Dataset(id: nat, title: string, accessor: string, description: string)

  /** `check_dataset(accessor=...)`. */
  predicate AccessorExists(datasets: seq<Dataset>, accessor: string)
  {
    exists k :: 0 <= k < |datasets| && datasets[k].accessor == accessor
  }

  /** `get_dataset_details(accessor=...)`: the first dataset with the accessor. */
  function FindByAccessor(datasets: seq<Dataset>, accessor: string): (d: Option<Dataset>)
    ensures d.Some? <==> AccessorExists(datasets, accessor)
    ensures d.Some? ==> d.value in datasets && d.value.accessor == accessor
  {
    if |datasets| == 0 then None
    else if datasets[0].accessor == accessor then Some(datasets[0])
    else FindByAccessor(datasets[1..], accessor)
  }

  /** `get_dataset_column("accessor", id=...)`: the accessor of the first dataset with
      the id; None when there is none. */
  function AccessorOf(datasets: seq<Dataset>, id: nat): (a: Option<string>)
    ensures a.Some? <==> exists k :: 0 <= k < |datasets| && datasets[k].id == id
    ensures a.Some? ==> exists k :: 0 <= k < |datasets| && datasets[k].id == id && datasets[k].accessor == a.value
  {
    if |datasets| == 0 then None
    else if datasets[0].id == id then Some(datasets[0].accessor)
    else
      var rest := AccessorOf(datasets[1..], id);
      assert rest.Some? ==> exists k :: 1 <= k < |datasets| && datasets[k].id == id && datasets[k].accessor == rest.value;
      rest
  }

  /** `get_dataset_column("id", accessor=...)`. */
  function IdOf(datasets: seq<Dataset>, accessor: string): (id: Option<nat>)
    ensures id.Some? <==> AccessorExists(datasets, accessor)
    ensures id.Some? ==> exists k :: 0 <= k < |datasets| && datasets[k].accessor == accessor && datasets[k].id == id.value
  {
    match FindByAccessor(datasets, accessor)
    case None => None
    case Some(d) => Some(d.id)
  }

  /** `get_all_datasets`: `get_multi` with its default cap of 100. */
  function AllDatasets(datasets: seq<Dataset>): (r: seq<Dataset>)
    ensures |r| <= BaseCrud.DefaultLimit && |r| <= |datasets| && r == datasets[..|r|]
    ensures |datasets| <= BaseCrud.DefaultLimit ==> r == datasets
  {
    if |datasets| <= BaseCrud.DefaultLimit then datasets else datasets[..BaseCrud.DefaultLimit]
  }

  /** How many of the scores belong to a published submission. */
  function PublishedCount(scores: seq<Score>, subs: seq<SubmissionModel.Submission>): (n: nat)
    ensures n <= |scores|
    ensures n == 0 <==> forall s :: s in scores ==> !SubmissionModel.IsPublished(subs, s.submissionId)
  {
    if |scores| == 0 then 0
    else
      var init, last := scores[..|scores| - 1], scores[|scores| - 1];
      assert scores == init + [last];
      PublishedCount(init, subs) + (if SubmissionModel.IsPublished(subs, last.submissionId) then 1 else 0)
  }

  /** Every score kept by the filter is published; the count is that of a filtered copy. */
  function PublishedScores(scores: seq<Score>, subs: seq<SubmissionModel.Submission>): (kept: seq<Score>)
    ensures forall s :: s in kept <==> s in scores && SubmissionModel.IsPublished(subs, s.submissionId)
  {
    if |scores| == 0 then []
    else
      var init, last := scores[..|scores| - 1], scores[|scores| - 1];
      assert scores == init + [last];
      PublishedScores(init, subs) + (if SubmissionModel.IsPublished(subs, last.submissionId) then [last] else [])
  }

  /** The count is the length of the published scores: each one is counted once. */
  lemma {:induction false} PublishedCountIsLength(scores: seq<Score>, subs: seq<SubmissionModel.Submission>)
    ensures PublishedCount(scores, subs) == |PublishedScores(scores, subs)|
  {
    if |scores| > 0 {
      PublishedCountIsLength(scores[..|scores| - 1], subs);
    }
  }

  /** `count_dataset_submissions`: the dataset's successful scores (the first 100), one
      for each that belongs to a published submission. */
  method CountDatasetSubmissions(rows: seq<Score>, subs: seq<SubmissionModel.Submission>, datasetId: nat)
    returns (count: nat)
    ensures count == PublishedCount(ScoreService.AllScores(rows, Some(datasetId), None, Some(Success)), subs)
    ensures count <= BaseCrud.DefaultLimit
  {
    var scores := ScoreService.GetAllScores(rows, Some(datasetId), None, Some(Success));
    count := CountPublished(scores, subs);
  }

  /** The counting loop. */
  method CountPublished(scores: seq<Score>, subs: seq<SubmissionModel.Submission>) returns (count: nat)
    ensures count == PublishedCount(scores, subs)
  {
    count := 0;
    for i := 0 to |scores|
      invariant count == PublishedCount(scores[..i], subs)
    {
      assert scores[..i + 1][..i] == scores[..i];
      if SubmissionModel.IsPublished(subs, scores[i].submissionId) {
        count := count + 1;
      }
    }
    assert scores[..|scores|] == scores;
  }
}

=== FILE: evaluation_controller.dfy ===
/** The evaluation endpoint: a request to evaluate a submission on a dataset replaces
    the pair's score with a fresh IN_PROGRESS one and queues the evaluation job. */
module EvaluationController {

  import opened Common
  import opened ScoreModel
  import SubmissionModel
  import SubmissionService
  import DatasetService

  /** An `rq` job: `submit_evaluation(dataset_accessor, submission_accessor, score_id)`. */
  datatype Job = Job(datasetAccessor: string, submissionAccessor: string, scoreId: nat)

  /** The Redis-backed job queue. */
  class Queue {
    var jobs: seq<Job>

    constructor ()
      ensures jobs == []
    {
      jobs := [];
    }

    /** `queue.enqueue`: `fault` is the text of the exception the broker connection may
        raise. */
    method Enqueue(job: Job, fault: Option<string>) returns (r: Result<(), string>)
      modifies this
      ensures fault.Some? ==> r == Err(fault.value) && jobs == old(jobs)
      ensures fault.None? ==> r == Ok(()) && jobs == old(jobs) + [job]
    {
      if fault.Some? {
        return Err(fault.value);
      }
      jobs := jobs + [job];
      r := Ok(());
    }
  }

  /** `Submission.get_column_value("id", accessor=...)`: the id of the first submission
      with the accessor, whatever its status. */
  function SubmissionIdOf(subs: seq<SubmissionModel.Submission>, accessor: string): (id: Option<nat>)
    ensures id.None? <==> forall k :: 0 <= k < |subs| ==> subs[k].accessor != accessor
    ensures id.Some? ==> exists k :: 0 <= k < |subs| && subs[k].accessor == accessor && subs[k].id == id.value
  {
    match SubmissionService.FindByAccessor(subs, accessor)
    case None => None
    case Some(k) => Some(subs[k].id)
  }

  /** The rows without the pair's score, if it has one. */
  function WithoutPair(rows: seq<Score>, datasetId: nat, submissionId: nat): (left: seq<Score>)
    ensures FindPair(rows, datasetId, submissionId).None? ==> left == rows
    ensures FindPair(rows, datasetId, submissionId).Some? ==> |left| == |rows| - 1
  {
    match FindPair(rows, datasetId, submissionId)
    case None => rows
    case Some(i) => rows[..i] + rows[i + 1..]
  }

  /** With ids unique, a row is the one its id finds. */
  lemma FindIdOfRow(rows: seq<Score>, k: nat)
    requires UniqueRows(rows) && k < |rows|
    ensures FindId(rows, rows[k].id) == Some(k)
  {
    var i := FindId(rows, rows[k].id);
    assert rows[i.value].id == rows[k].id;
  }

  /** A row appended for a pair no earlier row has is the one the pair finds, and a row
      with an id no earlier row has is the one the id finds. */
  lemma {:induction false} FindAppended(rows: seq<Score>, s: Score)
    requires FindPair(rows, s.datasetId, s.submissionId).None?
    requires forall k :: 0 <= k < |rows| ==> rows[k].id != s.id
    ensures FindPair(rows + [s], s.datasetId, s.submissionId) == Some(|rows|)
    ensures FindId(rows + [s], s.id) == Some(|rows|)
  {
    if |rows| > 0 {
      assert (rows + [s])[1..] == rows[1..] + [s];
      FindAppended(rows[1..], s);
    }
  }

  /** Re-evaluating leaves exactly one score for the pair: the fresh one, last, found by
      the pair and by its id; every other score is kept. */
  lemma ReplacedScoreIsUnique(rows: seq<Score>, nextId: nat, datasetId: nat, submissionId: nat)
    requires UniqueRows(rows) && forall k :: 0 <= k < |rows| ==> rows[k].id < nextId
    ensures var left := WithoutPair(rows, datasetId, submissionId);
            && FindPair(left + [NewScore(nextId, datasetId, submissionId)], datasetId, submissionId) == Some(|left|)
            && FindId(left + [NewScore(nextId, datasetId, submissionId)], nextId) == Some(|left|)
            && forall s :: s in rows && !(s.datasetId == datasetId && s.submissionId == submissionId) ==> s in left
  {
    var left := WithoutPair(rows, datasetId, submissionId);
    var added := NewScore(nextId, datasetId, submissionId);
    match FindPair(rows, datasetId, submissionId)
    case None =>
      FindAppended(left, added);
    case Some(i) =>
      NoPairAfterRemoval(rows, i);
      forall s | s in rows && !(s.datasetId == datasetId && s.submissionId == submissionId) ensures s in left {
        var k :| 0 <= k < |rows| && rows[k] == s;
        if k < i { assert left[k] == s; } else { assert k != i && left[k - 1] == s; }
      }
      assert forall k :: 0 <= k < |left| ==> left[k] in rows;
      FindAppended(left, added);
  }

  /** `submit_evaluation`. A submission or dataset accessor that names nothing leaves a
      null id, which `ScoreCreate` rejects: a 400 with pydantic's error list
      (`validationErrors`), and nothing changes. Otherwise the pair's old score goes, a
      fresh one is created, and the job is queued for it; when queueing fails the fresh
      score is deleted again and the answer is a 500 carrying the exception. */
  method SubmitEvaluation(table: ScoreTable, queue: Queue, subs: seq<SubmissionModel.Submission>,
                          datasets: seq<DatasetService.Dataset>, datasetAccessor: string, submissionAccessor: string,
                          validationErrors: string, enqueueFault: Option<string>)
    returns (r: Result<(), HttpError>)
    requires table.Valid()
    modifies table, queue
    ensures table.Valid()
    ensures SubmissionIdOf(subs, submissionAccessor).None? || DatasetService.IdOf(datasets, datasetAccessor).None? ==>
              && r == Err(HttpError(BadRequest, validationErrors))
              && table.rows == old(table.rows) && queue.jobs == old(queue.jobs)
    ensures SubmissionIdOf(subs, submissionAccessor).Some? && DatasetService.IdOf(datasets, datasetAccessor).Some? ==>
              var d := DatasetService.IdOf(datasets, datasetAccessor).value;
              var s := SubmissionIdOf(subs, submissionAccessor).value;
              var left := WithoutPair(old(table.rows), d, s);
              var newScore := NewScore(old(table.nextId), d, s);
              && (enqueueFault.None? ==>
                    && r == Ok(())
                    && table.rows == left + [newScore]
                    && queue.jobs == old(queue.jobs) + [Job(datasetAccessor, submissionAccessor, newScore.id)]
                    && FindPair(table.rows, d, s) == Some(|left|)
                    && FindId(table.rows, newScore.id) == Some(|left|))
              && (enqueueFault.Some? ==>
                    && r == Err(HttpError(ServerError, enqueueFault.value))
                    && table.rows == left && FindPair(table.rows, d, s).None?
                    && queue.jobs == old(queue.jobs))
  {
    var submissionId := SubmissionIdOf(subs, submissionAccessor);
    var datasetId := DatasetService.IdOf(datasets, datasetAccessor);
    if submissionId.None? || datasetId.None? {
      return Err(HttpError(BadRequest, validationErrors));
    }
    var d, s := datasetId.value, submissionId.value;
    ghost var left := WithoutPair(table.rows, d, s);
    ghost var newScore := NewScore(table.nextId, d, s);
    ReplacedScoreIsUnique(table.rows, table.nextId, d, s);
    var existing := FindPair(table.rows, d, s);
    if existing.Some? {
      FindIdOfRow(table.rows, existing.value);
      NoPairAfterRemoval(table.rows, existing.value);
      var deleted := table.DeleteById(table.rows[existing.value].id);
    }
    assert table.rows == left;
    var created := table.Create(d, s);
    assert created.Ok? && table.rows == left + [newScore];
    var scoreId := FindPair(table.rows, d, s);
    var queued := queue.Enqueue(Job(datasetAccessor, submissionAccessor, table.rows[scoreId.value].id), enqueueFault);
    if queued.Err? {
      ghost var before := table.rows;
      if FindPair(table.rows, d, s).Some? {
        var removed := table.DeleteByPair(d, s);
        assert before[..|before| - 1] + before[|before|..] == before[..|before| - 1];
      }
      return Err(HttpError(ServerError, queued.error));
    }
    r := Ok(());
  }
}

=== FILE: evaluation_service.dfy ===
/** Evaluation: a submission's model is run over a benchmark dataset as an Argo
    workflow. A watcher turns what the workflow does into the score's status. The
    predictions the workflow leaves behind are compared with the dataset's ground truth,
    and the comparison becomes the score's six metrics. */
module EvaluationService {

  import opened Common
  import Text
  import opened ScoreModel
  import ScoreService
  import ScoreController
  import SubmissionModel
  import SubmissionService
  import opened Orchestrator

  // ---------------------------------------------------------------------------
  // Length reconciliation

  function Zeros(n: nat): (z: seq<int>)
    ensures |z| == n && forall k :: 0 <= k < n ==> z[k] == 0
  {
    seq(n, _ => 0)
  }

  /** The predictions made as long as the ground truth: cut to its length, or padded
      with zeros up to it. */
  function Reconcile(pred: seq<int>, gt: seq<int>): (r: seq<int>)
    ensures |r| == |gt|
    ensures forall k :: 0 <= k < |gt| && k < |pred| ==> r[k] == pred[k]
    ensures forall k :: |pred| <= k < |gt| ==> r[k] == 0
  {
    if |pred| > |gt| then pred[..|gt|]
    else if |pred| < |gt| then pred + Zeros(|gt| - |pred|)
    else pred
  }

  /** The three properties determine the reconciled predictions: any sequence with them
      is `Reconcile`'s. */
  lemma ReconcileUnique(pred: seq<int>, gt: seq<int>, r: seq<int>)
    requires |r| == |gt|
    requires forall k :: 0 <= k < |gt| && k < |pred| ==> r[k] == pred[k]
    requires forall k :: |pred| <= k < |gt| ==> r[k] == 0
    ensures r == Reconcile(pred, gt)
  {
    var s := Reconcile(pred, gt);
    forall k | 0 <= k < |gt| ensures r[k] == s[k] {
      if k < |pred| { assert r[k] == pred[k] == s[k]; } else { assert r[k] == 0 == s[k]; }
    }
  }

  /** Reconciling predictions that already have the ground truth's length changes
      nothing; so reconciling twice is reconciling once. */
  lemma ReconcileIdempotent(pred: seq<int>, gt: seq<int>)
    ensures Reconcile(Reconcile(pred, gt), gt) == Reconcile(pred, gt)
  {
  }

  // ---------------------------------------------------------------------------
  // Metrics

  /** The six sklearn scores of the predictions against the ground truth. */
  datatype Measured = Measured(precision: real, accuracy: real, f1: real, recall: real, aucRoc: real, aucPr: real)

  /** What `np.load` gave for `results.npy` and `gt.npy`: both prediction lists, or the
      text of the exception. */
  type Loaded = Result<(seq<int>, seq<int>), string>

  /** The sklearn calls, applied to the ground truth and the reconciled predictions;
      they may raise (`measure` then gives the exception's text). */
  type Measure = (seq<int>, seq<int>) -> Result<Measured, string>

  function Measurement(loaded: Loaded, measure: Measure): Result<Measured, string>
  {
    match loaded
    case Err(e) => Err(e)
    case Ok((pred, gt)) => measure(gt, Reconcile(pred, gt))
  }

  /** The update that records a successful evaluation. */
  function SuccessUpdate(m: Measured): ScoreUpdate
  {
    ScoreUpdate(Some(Success), None,
                Metrics(Some(m.precision), Some(m.accuracy), Some(m.recall), Some(m.f1), Some(m.aucRoc), Some(m.aucPr)))
  }

  /** A success write leaves the score SUCCESS, without a message, with each of the six
      metrics set to its measured value. */
  lemma SuccessUpdateWritesAll(s: Score, m: Measured)
    ensures ApplyUpdate(s, SuccessUpdate(m)).Ok?
    ensures var t := ApplyUpdate(s, SuccessUpdate(m)).value;
            && t.status == Success && t.statusMessage == None
            && MetricValues(t.metrics)
               == [Some(m.precision), Some(m.accuracy), Some(m.recall), Some(m.f1), Some(m.aucRoc), Some(m.aucPr)]
  {
  }

  // ---------------------------------------------------------------------------
  // The world the evaluation changes, and plans of changes

  /** The score rows, the broker's announcements, the scratch directories and the
      deleted workflows. */
  datatype World = World(rows: seq<Score>, published: seq<(string, string)>, dirs: map<string, set<string>>,
                         deleted: seq<string>)

  function Snapshot(table: ScoreTable, broker: ScoreService.Broker, ws: Workspaces, cluster: Cluster): World
    reads table, broker, ws, cluster
  {
    World(table.rows, broker.published, ws.dirs, cluster.deleted)
  }

  /** A step of the service: the score writes it makes, in order; whether it removes the
      workflow's directory and deletes the workflow; and the exception it raises. */
  datatype Plan = Plan(writes: seq<ScoreUpdate>, cleanup: bool, raised: Option<HttpError>)

  /** A write of a whole record; a write that fails leaves the score as it was. */
  function Overwrite(s: Score, u: ScoreUpdate): Score
  {
    match ApplyUpdate(s, u)
    case Ok(t) => t
    case Err(_) => s
  }

  /** The score after the writes. */
  function Written(s: Score, us: seq<ScoreUpdate>): Score
  {
    if |us| == 0 then s else Overwrite(Written(s, us[..|us| - 1]), us[|us| - 1])
  }

  /** Writes never move a score to another id, dataset or submission. */
  lemma {:induction false} WrittenKeepsKey(s: Score, us: seq<ScoreUpdate>)
    ensures Written(s, us).id == s.id
    ensures Written(s, us).datasetId == s.datasetId && Written(s, us).submissionId == s.submissionId
  {
    if |us| > 0 {
      WrittenKeepsKey(s, us[..|us| - 1]);
    }
  }

  lemma {:induction false} WrittenAppend(s: Score, a: seq<ScoreUpdate>, b: seq<ScoreUpdate>)
    ensures Written(Written(s, a), b) == Written(s, a + b)
  {
    if |b| > 0 {
      WrittenAppend(s, a, b[..|b| - 1]);
      assert (a + b)[..|a + b| - 1] == a + b[..|b| - 1];
    } else {
      assert a + b == a;
    }
  }

  /** The announcement `update_score` publishes for each write of a submission's score. */
  function Announcements(n: nat, submissionId: nat): (ms: seq<(string, string)>)
    ensures |ms| == n
  {
    seq(n, _ => (ScoreService.EntityUpdates, Text.NatToString(submissionId)))
  }

  /** The writes, made through `update_score`: nothing changes when the score is
      missing. */
  function PerformWrites(w: World, scoreId: nat, us: seq<ScoreUpdate>): World
  {
    match FindId(w.rows, scoreId)
    case None => w
    case Some(i) =>
      w.(rows := w.rows[i := Written(w.rows[i], us)],
         published := w.published + Announcements(|us|, w.rows[i].submissionId))
  }

  /** `remove_tmp_data` and `delete_workflow`, when the plan cleans up. */
  function Cleanup(w: World, name: string, cleanup: bool): World
  {
    if cleanup then w.(dirs := w.dirs - {name}, deleted := w.deleted + [name]) else w
  }

  function Perform(w: World, scoreId: nat, name: string, p: Plan): World
  {
    Cleanup(PerformWrites(w, scoreId, p.writes), name, p.cleanup)
  }

  lemma {:induction false} FindIdAfterWrite(rows: seq<Score>, id: nat, i: nat, x: Score)
    requires FindId(rows, id) == Some(i) && x.id == id
    ensures FindId(rows[i := x], id) == Some(i)
  {
    if rows[0].id != id {
      assert rows[i := x][1..] == rows[1..][i - 1 := x];
      FindIdAfterWrite(rows[1..], id, i - 1, x);
    }
  }

  /** Writes made one after the other are the writes of the concatenation. */
  lemma PerformWritesAppend(w: World, scoreId: nat, a: seq<ScoreUpdate>, b: seq<ScoreUpdate>)
    ensures PerformWrites(PerformWrites(w, scoreId, a), scoreId, b) == PerformWrites(w, scoreId, a + b)
  {
    match FindId(w.rows, scoreId)
    case None =>
    case Some(i) =>
      var s := w.rows[i];
      WrittenKeepsKey(s, a);
      FindIdAfterWrite(w.rows, scoreId, i, Written(s, a));
      WrittenAppend(s, a, b);
      assert w.rows[i := Written(s, a)][i := Written(s, a + b)] == w.rows[i := Written(s, a + b)];
      assert Announcements(|a|, s.submissionId) + Announcements(|b|, s.submissionId)
             == Announcements(|a + b|, s.submissionId);
  }

  /** A plan without cleanup followed by another is one plan. */
  lemma PerformThen(w: World, scoreId: nat, name: string, a: seq<ScoreUpdate>, p: Plan)
    ensures Perform(Perform(w, scoreId, name, Plan(a, false, None)), scoreId, name, p)
            == Perform(w, scoreId, name, Plan(a + p.writes, p.cleanup, p.raised))
  {
    PerformWritesAppend(w, scoreId, a, p.writes);
  }

  /** A write after a step that cleaned up is a write before it. */
  lemma PerformThenWrite(w: World, scoreId: nat, name: string, p: Plan, u: ScoreUpdate, raised: Option<HttpError>)
    ensures Perform(Perform(w, scoreId, name, p), scoreId, name, Plan([u], false, None))
            == Perform(w, scoreId, name, Plan(p.writes + [u], p.cleanup, raised))
  {
    var v := PerformWrites(w, scoreId, p.writes);
    assert PerformWrites(Cleanup(v, name, p.cleanup), scoreId, [u]) == Cleanup(PerformWrites(v, scoreId, [u]), name, p.cleanup);
    PerformWritesAppend(w, scoreId, p.writes, [u]);
  }

  lemma PerformNothing(w: World, scoreId: nat, name: string)
    ensures Perform(w, scoreId, name, Plan([], false, None)) == w
  {
    match FindId(w.rows, scoreId)
    case None =>
    case Some(i) =>
      assert w.rows[i := w.rows[i]] == w.rows;
      assert w.published + Announcements(0, w.rows[i].submissionId) == w.published;
  }

  // ---------------------------------------------------------------------------
  // Score writes

  const ScoreMissing: HttpError := HttpError(NotFound, "Score not found")

  /** The exception a write raises: none when the score exists. */
  function WriteFailure(present: bool): Option<HttpError>
  {
    if present then None else Some(ScoreMissing)
  }

  /** `score_controller.update_score` with a non-null status. */
  method WriteScore(table: ScoreTable, broker: ScoreService.Broker, ghost ws: Workspaces, ghost cluster: Cluster,
                    scoreId: nat, status: ScoreStatus, message: Option<string>, metrics: Metrics)
    returns (raised: Option<HttpError>)
    requires table.Valid()
    modifies table, broker
    ensures table.Valid()
    ensures raised == WriteFailure(FindId(old(table.rows), scoreId).Some?)
    ensures Snapshot(table, broker, ws, cluster)
            == Perform(old(Snapshot(table, broker, ws, cluster)), scoreId, "", Plan([ScoreUpdate(Some(status), message, metrics)], false, None))
  {
    ghost var w := Snapshot(table, broker, ws, cluster);
    var u := ScoreUpdate(Some(status), message, metrics);
    var r := ScoreController.UpdateScore(table, broker, scoreId, u);
    raised := if r.Err? then Some(r.error) else None;
    assert [u][..0] == [];
    match FindId(w.rows, scoreId)
    case None =>
    case Some(i) =>
      assert Written(w.rows[i], [u]) == ApplyUpdate(w.rows[i], u).value;
      assert Announcements(1, w.rows[i].submissionId) == [(ScoreService.EntityUpdates, Text.NatToString(w.rows[i].submissionId))];
  }

  // ---------------------------------------------------------------------------
  // get_workflow_result

  function ResultFailure(e: string): HttpError
  {
    HttpError(BadRequest, "Error getting workflow result: " + e)
  }

  /** `get_workflow_result`, for a score that exists or not and a directory that exists
      or not. A missing directory marks the score ERROR and cleans nothing up; otherwise
      the measured metrics are written and the directory and workflow go, whatever
      happens; any exception in between becomes a 400. */
  function ResultPlan(name: string, present: bool, hasDir: bool, loaded: Loaded, measure: Measure): Plan
  {
    if !hasDir then Plan([ErrorUpdate("Workflow " + name + " data_path not found")], false, WriteFailure(present))
    else match Measurement(loaded, measure)
      case Err(e) => Plan([], true, Some(ResultFailure(e)))
      case Ok(m) => Plan([SuccessUpdate(m)], true, if present then None else Some(ResultFailure(ErrorText(ScoreMissing))))
  }

  method GetWorkflowResult(table: ScoreTable, broker: ScoreService.Broker, ws: Workspaces, cluster: Cluster,
                           name: string, scoreId: nat, loaded: Loaded, measure: Measure)
    returns (raised: Option<HttpError>)
    requires table.Valid()
    modifies table, broker, ws, cluster
    ensures table.Valid()
    ensures cluster.created == old(cluster.created) && cluster.terminated == old(cluster.terminated)
    ensures var plan := ResultPlan(name, FindId(old(table.rows), scoreId).Some?, name in old(ws.dirs), loaded, measure);
            && raised == plan.raised
            && Snapshot(table, broker, ws, cluster) == Perform(old(Snapshot(table, broker, ws, cluster)), scoreId, name, plan)
  {
    ghost var w := Snapshot(table, broker, ws, cluster);
    if !ws.Exists(name) {
      raised := WriteScore(table, broker, ws, cluster, scoreId, Error,
                           Some("Workflow " + name + " data_path not found"), NoMetrics);
      return;
    }
    var failure: Option<string> := None;
    if loaded.Err? {
      failure := Some(loaded.error);
    } else {
      var pred, gt := loaded.value.0, loaded.value.1;
      if |pred| > |gt| {
        pred := pred[..|gt|];
      } else if |pred| < |gt| {
        pred := pred + Zeros(|gt| - |pred|);
      }
      assert pred == Reconcile(loaded.value.0, gt);
      var measured := measure(gt, pred);
      if measured.Err? {
        failure := Some(measured.error);
      } else {
        var m := measured.value;
        var written := WriteScore(table, broker, ws, cluster, scoreId, Success, None,
                                  Metrics(Some(m.precision), Some(m.accuracy), Some(m.recall), Some(m.f1),
                                          Some(m.aucRoc), Some(m.aucPr)));
        if written.Some? {
          failure := Some(ErrorText(written.value));
        }
      }
    }
    ws.Remove(name);
    cluster.Delete(name);
    raised := if failure.Some? then Some(ResultFailure(failure.value)) else None;
  }

  // ---------------------------------------------------------------------------
  // watch_workflow_status

  /** What a watch cycle decides. */
  datatype Verdict =
    | Continue                                    // poll again
    | Faulted(message: string)                    // an exception: ERROR, and stop
    | PodFailure(message: string, succeeded: bool) // a failed pod: ERROR; ingest if the phase read was Succeeded
    | Succeeded                                   // ingest, and stop

  function FaultMessage(f: Fault): string
  {
    match f
    case ApiFault(e) => "Error while fetching workflow: " + e
    case OtherFault(e) => "Unexpected error: " + e
  }

  function PodFailedMessage(pod: string, logs: string): string
  {
    "Pod " + pod + " failed: " + logs
  }

  /** The first pod reported in a failed phase. */
  function FirstFailedPod(pods: seq<PodEvent>): (k: Option<nat>)
    ensures k.Some? ==>
              && k.value < |pods| && PodFailed(pods[k.value].phase)
              && forall j :: 0 <= j < k.value ==> !PodFailed(pods[j].phase)
    ensures k.None? ==> forall j :: 0 <= j < |pods| ==> !PodFailed(pods[j].phase)
  {
    if |pods| == 0 then None
    else if PodFailed(pods[0].phase) then Some(0)
    else match FirstFailedPod(pods[1..])
      case None => None
      case Some(k) => Some(k + 1)
  }

  function CycleVerdict(c: Cycle): Verdict
  {
    match c
    case ReadFailed(f) => Faulted(FaultMessage(f))
    case Observed(phase, pods, cut) =>
      match FirstFailedPod(pods)
      case Some(k) =>
        PodFailure(PodFailedMessage(pods[k].pod, PodLogs(pods[k].pod, pods[k].logs)), PhaseOf(phase) == "Succeeded")
      case None =>
        if cut.Some? then Faulted(FaultMessage(cut.value))
        else if PhaseOf(phase) == "Succeeded" then Succeeded
        else Continue
  }

  /** The verdict of the first cycle that decides anything. */
  function Decision(trace: seq<Cycle>): Verdict
  {
    if |trace| == 0 then Continue
    else if CycleVerdict(trace[0]) != Continue then CycleVerdict(trace[0])
    else Decision(trace[1..])
  }

  const UnexpectedError: string := "Unexpected error: "

  /** Ingestion inside the watch loop: an exception from `get_workflow_result` is
      caught and written to the score as an unexpected error. */
  function IngestPlan(name: string, present: bool, hasDir: bool, loaded: Loaded, measure: Measure): Plan
  {
    var p := ResultPlan(name, present, hasDir, loaded, measure);
    if p.raised.None? then p
    else Plan(p.writes + [ErrorUpdate(UnexpectedError + ErrorText(p.raised.value))], p.cleanup, WriteFailure(present))
  }

  /** What the watch does once a cycle has decided. A failed write of the pod's failure
      is caught by the loop's handler, whose own write fails in turn. */
  function WatchPlan(name: string, v: Verdict, present: bool, hasDir: bool, loaded: Loaded, measure: Measure): Plan
  {
    match v
    case Continue => Plan([], false, None)
    case Faulted(msg) => Plan([ErrorUpdate(msg)], false, WriteFailure(present))
    case PodFailure(msg, succeeded) =>
      if !present then
        Plan([ErrorUpdate(msg), ErrorUpdate(UnexpectedError + ErrorText(ScoreMissing))], false, Some(ScoreMissing))
      else if succeeded then
        var p := IngestPlan(name, present, hasDir, loaded, measure);
        Plan([ErrorUpdate(msg)] + p.writes, p.cleanup, p.raised)
      else Plan([ErrorUpdate(msg)], false, None)
    case Succeeded => IngestPlan(name, present, hasDir, loaded, measure)
  }

  /** The pod scan of one cycle: it stops at the first failed pod. */
  method FindFailedPod(pods: seq<PodEvent>) returns (k: Option<nat>)
    ensures k == FirstFailedPod(pods)
  {
    for j := 0 to |pods|
      invariant forall l :: 0 <= l < j ==> !PodFailed(pods[l].phase)
    {
      if PodFailed(pods[j].phase) {
        return Some(j);
      }
    }
    return None;
  }

  /** One cycle's reads: the workflow's phase, then the pod scan. */
  method ObserveCycle(c: Cycle) returns (v: Verdict)
    ensures v == CycleVerdict(c)
  {
    match c
    case ReadFailed(f) =>
      v := Faulted(FaultMessage(f));
    case Observed(phase, pods, cut) =>
      var workflowPhase := PhaseOf(phase);
      var failed := FindFailedPod(pods);
      if failed.Some? {
        var e := pods[failed.value];
        v := PodFailure(PodFailedMessage(e.pod, PodLogs(e.pod, e.logs)), workflowPhase == "Succeeded");
      } else if cut.Some? {
        v := Faulted(FaultMessage(cut.value));
      } else if workflowPhase == "Succeeded" {
        v := Succeeded;
      } else {
        v := Continue;
      }
  }

  /** `get_workflow_result` called from the loop, with the loop's handler around it. */
  method Ingest(table: ScoreTable, broker: ScoreService.Broker, ws: Workspaces, cluster: Cluster,
                name: string, scoreId: nat, loaded: Loaded, measure: Measure)
    returns (raised: Option<HttpError>)
    requires table.Valid()
    modifies table, broker, ws, cluster
    ensures table.Valid()
    ensures cluster.created == old(cluster.created) && cluster.terminated == old(cluster.terminated)
    ensures var plan := IngestPlan(name, FindId(old(table.rows), scoreId).Some?, name in old(ws.dirs), loaded, measure);
            && raised == plan.raised
            && Snapshot(table, broker, ws, cluster) == Perform(old(Snapshot(table, broker, ws, cluster)), scoreId, name, plan)
  {
    ghost var w := Snapshot(table, broker, ws, cluster);
    ghost var present := FindId(table.rows, scoreId).Some?;
    ghost var p := ResultPlan(name, present, name in ws.dirs, loaded, measure);
    raised := GetWorkflowResult(table, broker, ws, cluster, name, scoreId, loaded, measure);
    if raised.Some? {
      ghost var w1 := Snapshot(table, broker, ws, cluster);
      PresenceKept(w, scoreId, name, p);
      var u := ErrorUpdate(UnexpectedError + ErrorText(raised.value));
      raised := WriteScore(table, broker, ws, cluster, scoreId, Error, u.statusMessage, NoMetrics);
      PerformThenWrite(w, scoreId, name, p, u, raised);
      assert Perform(w1, scoreId, "", Plan([u], false, None)) == Perform(w1, scoreId, name, Plan([u], false, None));
    }
  }

  /** A plan's writes never remove or add a score. */
  lemma PresenceKept(w: World, scoreId: nat, name: string, p: Plan)
    ensures FindId(Perform(w, scoreId, name, p).rows, scoreId).Some? == FindId(w.rows, scoreId).Some?
  {
    match FindId(w.rows, scoreId)
    case None =>
    case Some(i) =>
      WrittenKeepsKey(w.rows[i], p.writes);
      FindIdAfterWrite(w.rows, scoreId, i, Written(w.rows[i], p.writes));
  }

  /** What the decision leads to. */
  method Act(table: ScoreTable, broker: ScoreService.Broker, ws: Workspaces, cluster: Cluster,
             name: string, scoreId: nat, v: Verdict, loaded: Loaded, measure: Measure)
    returns (raised: Option<HttpError>)
    requires table.Valid()
    modifies table, broker, ws, cluster
    ensures table.Valid()
    ensures cluster.created == old(cluster.created) && cluster.terminated == old(cluster.terminated)
    ensures var plan := WatchPlan(name, v, FindId(old(table.rows), scoreId).Some?, name in old(ws.dirs), loaded, measure);
            && raised == plan.raised
            && Snapshot(table, broker, ws, cluster) == Perform(old(Snapshot(table, broker, ws, cluster)), scoreId, name, plan)
  {
    ghost var w := Snapshot(table, broker, ws, cluster);
    ghost var present := FindId(table.rows, scoreId).Some?;
    match v
    case Continue =>
      raised := None;
      PerformNothing(w, scoreId, name);
    case Faulted(msg) =>
      raised := WriteScore(table, broker, ws, cluster, scoreId, Error, Some(msg), NoMetrics);
      assert Perform(w, scoreId, "", Plan([ErrorUpdate(msg)], false, None))
             == Perform(w, scoreId, name, Plan([ErrorUpdate(msg)], false, WriteFailure(present)));
    case PodFailure(msg, succeeded) =>
      raised := WriteScore(table, broker, ws, cluster, scoreId, Error, Some(msg), NoMetrics);
      ghost var w1 := Snapshot(table, broker, ws, cluster);
      assert w1 == Perform(w, scoreId, name, Plan([ErrorUpdate(msg)], false, None));
      PresenceKept(w, scoreId, name, Plan([ErrorUpdate(msg)], false, None));
      if raised.Some? {
        var u := ErrorUpdate(UnexpectedError + ErrorText(raised.value));
        raised := WriteScore(table, broker, ws, cluster, scoreId, Error, u.statusMessage, NoMetrics);
        PerformThen(w, scoreId, name, [ErrorUpdate(msg)], Plan([u], false, None));
        assert Perform(w1, scoreId, "", Plan([u], false, None)) == Perform(w1, scoreId, name, Plan([u], false, None));
      } else if succeeded {
        raised := Ingest(table, broker, ws, cluster, name, scoreId, loaded, measure);
        PerformThen(w, scoreId, name, [ErrorUpdate(msg)], IngestPlan(name, present, name in w.dirs, loaded, measure));
      }
    case Succeeded =>
      raised := Ingest(table, broker, ws, cluster, name, scoreId, loaded, measure);
  }

  /** `watch_workflow_status` over the cycles the watcher observes. The loop polls until
      a cycle decides; the decision's writes and ingestion follow; the watcher is
      stopped however the loop ends, and an exception from the loop's handler
      propagates. */
  method WatchWorkflowStatus(table: ScoreTable, broker: ScoreService.Broker, ws: Workspaces, cluster: Cluster,
                             watcher: Watcher, scoreId: nat, name: string, trace: seq<Cycle>,
                             loaded: Loaded, measure: Measure)
    returns (raised: Option<HttpError>)
    requires table.Valid()
    modifies table, broker, ws, cluster, watcher
    ensures table.Valid() && watcher.stopped
    ensures cluster.created == old(cluster.created) && cluster.terminated == old(cluster.terminated)
    ensures var plan := WatchPlan(name, Decision(trace), FindId(old(table.rows), scoreId).Some?, name in old(ws.dirs),
                                  loaded, measure);
            && raised == plan.raised
            && Snapshot(table, broker, ws, cluster) == Perform(old(Snapshot(table, broker, ws, cluster)), scoreId, name, plan)
  {
    ghost var w := Snapshot(table, broker, ws, cluster);
    ghost var present := FindId(table.rows, scoreId).Some?;
    var completed := false;
    var i := 0;
    raised := None;
    assert trace[0..] == trace;
    while !completed && i < |trace|
      invariant i <= |trace| && table.Valid()
      invariant cluster.created == old(cluster.created) && cluster.terminated == old(cluster.terminated)
      invariant !completed ==>
                  && Decision(trace) == Decision(trace[i..]) && raised == None
                  && Snapshot(table, broker, ws, cluster) == w
      invariant completed ==>
                  var plan := WatchPlan(name, Decision(trace), present, name in w.dirs, loaded, measure);
                  raised == plan.raised && Snapshot(table, broker, ws, cluster) == Perform(w, scoreId, name, plan)
    {
      var v := ObserveCycle(trace[i]);
      assert trace[i..][0] == trace[i] && trace[i..][1..] == trace[i + 1..];
      if v == Continue {
        i := i + 1;
      } else {
        raised := Act(table, broker, ws, cluster, name, scoreId, v, loaded, measure);
        completed := true;
      }
    }
    if !completed {
      assert trace[i..] == [];
      PerformNothing(w, scoreId, name);
    }
    watcher.Stop();
  }

  // ---------------------------------------------------------------------------
  // What the watch promises

  /** A cycle that is not cut short and sees no failed pod decides only when the phase
      read is Succeeded: Failed, Error, Running and a missing status poll again. */
  lemma OnlySucceededIngests(phase: Option<string>, pods: seq<PodEvent>)
    requires forall j :: 0 <= j < |pods| ==> !PodFailed(pods[j].phase)
    ensures CycleVerdict(Observed(phase, pods, None)) == Continue <==> PhaseOf(phase) != "Succeeded"
    ensures PhaseOf(phase) == "Succeeded" ==> CycleVerdict(Observed(phase, pods, None)) == Succeeded
  {
  }

  /** The first failed pod's logs become the score's first write, whatever the phase
      read and whatever follows it in the cycle. */
  lemma FailedPodWrittenFirst(name: string, phase: Option<string>, pods: seq<PodEvent>, cut: Option<Fault>, k: nat,
                              present: bool, hasDir: bool, loaded: Loaded, measure: Measure)
    requires k < |pods| && PodFailed(pods[k].phase)
    requires forall j :: 0 <= j < k ==> !PodFailed(pods[j].phase)
    ensures var p := WatchPlan(name, CycleVerdict(Observed(phase, pods, cut)), present, hasDir, loaded, measure);
            |p.writes| > 0 && p.writes[0] == ErrorUpdate(PodFailedMessage(pods[k].pod, PodLogs(pods[k].pod, pods[k].logs)))
  {
    assert FirstFailedPod(pods) == Some(k);
  }

  /** The decision is the verdict of the first deciding cycle; every earlier cycle
      polled again. */
  lemma {:induction false} DecisionIsFirst(trace: seq<Cycle>)
    requires Decision(trace) != Continue
    ensures exists k :: 0 <= k < |trace| && CycleVerdict(trace[k]) == Decision(trace)
                        && forall j :: 0 <= j < k ==> CycleVerdict(trace[j]) == Continue
  {
    if CycleVerdict(trace[0]) == Continue {
      DecisionIsFirst(trace[1..]);
      var k :| 0 <= k < |trace[1..]| && CycleVerdict(trace[1..][k]) == Decision(trace[1..])
               && forall j :: 0 <= j < k ==> CycleVerdict(trace[1..][j]) == Continue;
      assert CycleVerdict(trace[k + 1]) == Decision(trace);
      assert forall j :: 1 <= j < k + 1 ==> CycleVerdict(trace[j]) == CycleVerdict(trace[1..][j - 1]);
    } else {
      assert CycleVerdict(trace[0]) == Decision(trace);
    }
  }

  /** Only an ingestion cleans up, and only when the directory is there. */
  lemma CleanupMeansIngestion(name: string, v: Verdict, present: bool, hasDir: bool, loaded: Loaded, measure: Measure)
    requires WatchPlan(name, v, present, hasDir, loaded, measure).cleanup
    ensures hasDir && (v == Succeeded || (v.PodFailure? && v.succeeded))
  {
  }

  /** A verdict that ingests comes from a cycle that read the phase Succeeded. */
  lemma IngestingVerdictSawSuccess(c: Cycle)
    requires CycleVerdict(c) == Succeeded || (CycleVerdict(c).PodFailure? && CycleVerdict(c).succeeded)
    ensures c.Observed? && PhaseOf(c.phase) == "Succeeded"
  {
  }

  /** The directory is removed and the workflow deleted only after some cycle read the
      phase Succeeded, and only when the directory was there. */
  lemma CleanupOnlyAfterSuccess(name: string, trace: seq<Cycle>, present: bool, hasDir: bool, loaded: Loaded, measure: Measure)
    requires WatchPlan(name, Decision(trace), present, hasDir, loaded, measure).cleanup
    ensures hasDir
    ensures exists k :: 0 <= k < |trace| && trace[k].Observed? && PhaseOf(trace[k].phase) == "Succeeded"
  {
    CleanupMeansIngestion(name, Decision(trace), present, hasDir, loaded, measure);
    DecisionIsFirst(trace);
    var k :| 0 <= k < |trace| && CycleVerdict(trace[k]) == Decision(trace);
    IngestingVerdictSawSuccess(trace[k]);
  }

  /** With the score in the table, the watch never raises: every failure ends up
      written to the score. */
  lemma PresentNeverRaises(name: string, v: Verdict, hasDir: bool, loaded: Loaded, measure: Measure)
    ensures WatchPlan(name, v, true, hasDir, loaded, measure).raised.None?
  {
  }

  /** A successful ingestion leaves the score SUCCESS with the measured metrics, and
      cleans up. */
  lemma IngestionRecordsMetrics(name: string, s: Score, hasDir: bool, loaded: Loaded, measure: Measure)
    requires hasDir && Measurement(loaded, measure).Ok?
    ensures var p := WatchPlan(name, Succeeded, true, hasDir, loaded, measure);
            && p.cleanup
            && Written(s, p.writes) == ApplyUpdate(s, SuccessUpdate(Measurement(loaded, measure).value)).value
  {
    var u := SuccessUpdate(Measurement(loaded, measure).value);
    assert [u][..0] == [];
  }

  /** A missing directory leaves the score ERROR with the message naming the workflow,
      and nothing is cleaned up. */
  lemma MissingDirectoryMarksError(name: string, s: Score, loaded: Loaded, measure: Measure)
    ensures var p := WatchPlan(name, Succeeded, true, false, loaded, measure);
            && !p.cleanup
            && Written(s, p.writes).status == Error
            && Written(s, p.writes).statusMessage == Some("Workflow " + name + " data_path not found")
            && Written(s, p.writes).metrics == NoMetrics
  {
    var u := ErrorUpdate("Workflow " + name + " data_path not found");
    assert [u][..0] == [];
  }

  /** A failed measurement leaves the score ERROR, naming the failure, and still cleans
      up. */
  lemma FailedMeasurementMarksError(name: string, s: Score, loaded: Loaded, measure: Measure)
    requires Measurement(loaded, measure).Err?
    ensures var p := WatchPlan(name, Succeeded, true, true, loaded, measure);
            && p.cleanup
            && Written(s, p.writes).status == Error
            && Written(s, p.writes).statusMessage
               == Some(UnexpectedError + ErrorText(ResultFailure(Measurement(loaded, measure).error)))
  {
    var e := Measurement(loaded, measure).error;
    var u := ErrorUpdate(UnexpectedError + ErrorText(ResultFailure(e)));
    assert ResultPlan(name, true, true, loaded, measure) == Plan([], true, Some(ResultFailure(e)));
    assert [] + [u] == [u];
    assert WatchPlan(name, Succeeded, true, true, loaded, measure).writes == [u];
    assert Written(s, [u]) == Overwrite(s, u) by {
      assert [u][..0] == [];
    }
  }

  // ---------------------------------------------------------------------------
  // submit_evaluation

  /** `create_and_submit_evaluation`'s manifest. */
  function EvaluationManifest(name: string, featureType: string, dataPath: string, model: string, modelPath: string): Manifest
  {
    Manifest(name, ArgoNamespace, "evaluation-workflow",
             [Param("featureType", featureType), Param("dataPath", dataPath), Param("model", model),
              Param("modelPath", modelPath)])
  }

  /** Each argument reads back as the value it was given. */
  lemma EvaluationManifestParams(name: string, featureType: string, dataPath: string, model: string, modelPath: string)
    ensures var ps := EvaluationManifest(name, featureType, dataPath, model, modelPath).parameters;
            && ParamValue(ps, "featureType") == Some(featureType)
            && ParamValue(ps, "dataPath") == Some(dataPath)
            && ParamValue(ps, "model") == Some(model)
            && ParamValue(ps, "modelPath") == Some(modelPath)
            && ParamValue(ps, "videoPath") == None
  {
    assert "featureType"[0] == 'f' && "dataPath"[0] == 'd' && "videoPath"[0] == 'v';
    assert "model"[0] == 'm' && "modelPath"[0] == 'm' && |"model"| != |"modelPath"|;
    ReadBackFour(Param("featureType", featureType), Param("dataPath", dataPath), Param("model", model),
                 Param("modelPath", modelPath), "videoPath");
  }

  /** `get_column_value("modality", accessor=...)`: the modality of the first submission
      with the accessor, whatever its status. */
  function ModalityOf(subs: seq<SubmissionModel.Submission>, accessor: string): (m: Option<SubmissionModel.Modality>)
    ensures m.None? <==> forall k :: 0 <= k < |subs| ==> subs[k].accessor != accessor
    ensures m.Some? ==> exists k :: 0 <= k < |subs| && subs[k].accessor == accessor && subs[k].modality == m.value
  {
    match SubmissionService.FindByAccessor(subs, accessor)
    case None => None
    case Some(k) => Some(subs[k].modality)
  }

  function EvaluationFailure(exc: HttpError): HttpError
  {
    HttpError(BadRequest, "Error submitting evaluation: " + ErrorText(exc))
  }

  /** The failure path of `submit_evaluation`: the score goes if it is there, the
      workflow is terminated and the directory removed. */
  method FailEvaluation(table: ScoreTable, ws: Workspaces, cluster: Cluster, scoreId: nat, name: string, exc: HttpError)
    returns (r: Result<(), HttpError>)
    requires table.Valid()
    modifies table, ws, cluster
    ensures table.Valid()
    ensures r == Err(EvaluationFailure(exc))
    ensures FindId(old(table.rows), scoreId).None? ==> table.rows == old(table.rows)
    ensures FindId(old(table.rows), scoreId).Some? ==>
              var i := FindId(old(table.rows), scoreId).value;
              table.rows == old(table.rows)[..i] + old(table.rows)[i + 1..]
    ensures FindId(table.rows, scoreId).None?
    ensures ws.dirs == old(ws.dirs) - {name}
    ensures cluster.terminated == old(cluster.terminated) + [name]
    ensures cluster.created == old(cluster.created) && cluster.deleted == old(cluster.deleted)
  {
    if FindId(table.rows, scoreId).Some? {
      var deleted := table.DeleteById(scoreId);
      IdGoneAfterRemoval(old(table.rows), FindId(old(table.rows), scoreId).value);
    }
    cluster.Terminate(name);
    ws.Remove(name);
    r := Err(EvaluationFailure(exc));
  }

  /** With ids unique, removing the row with an id leaves no row with it. */
  lemma IdGoneAfterRemoval(rows: seq<Score>, i: nat)
    requires UniqueRows(rows) && i < |rows|
    ensures FindId(rows[..i] + rows[i + 1..], rows[i].id).None?
  {
    var rest := rows[..i] + rows[i + 1..];
    forall k | 0 <= k < |rest| ensures rest[k].id != rows[i].id {
      if k < i { assert rest[k] == rows[k]; } else { assert rest[k] == rows[k + 1]; }
    }
  }

  /** `submit_evaluation` from the submission of the workflow on: the workflow is
      created and watched; a refusal, or an exception escaping the watch, takes the
      failure path. */
  method LaunchEvaluation(table: ScoreTable, broker: ScoreService.Broker, ws: Workspaces, cluster: Cluster,
                          watcher: Watcher, manifest: Manifest, scoreId: nat, name: string, refusal: Option<string>,
                          trace: seq<Cycle>, loaded: Loaded, measure: Measure)
    returns (r: Result<(), HttpError>)
    requires table.Valid()
    modifies table, broker, ws, cluster, watcher
    ensures table.Valid()
    ensures refusal.Some? ==>
              && r == Err(EvaluationFailure(HttpError(BadRequest, "Error submitting workflow: " + refusal.value)))
              && FindId(table.rows, scoreId).None?
              && ws.dirs == old(ws.dirs) - {name}
              && cluster.terminated == old(cluster.terminated) + [name]
              && cluster.created == old(cluster.created) && cluster.deleted == old(cluster.deleted)
              && broker.published == old(broker.published)
    ensures refusal.None? ==>
              var present := FindId(old(table.rows), scoreId).Some?;
              var plan := WatchPlan(name, Decision(trace), present, name in old(ws.dirs), loaded, measure);
              && cluster.created == old(cluster.created) + [manifest]
              && (plan.raised.None? ==>
                    && r == Ok(())
                    && Snapshot(table, broker, ws, cluster) == Perform(old(Snapshot(table, broker, ws, cluster)), scoreId, name, plan)
                    && cluster.terminated == old(cluster.terminated))
              && (plan.raised.Some? ==>
                    && r == Err(EvaluationFailure(plan.raised.value))
                    && !present && table.rows == old(table.rows) && broker.published == old(broker.published)
                    && ws.dirs == old(ws.dirs) - {name}
                    && cluster.terminated == old(cluster.terminated) + [name])
  {
    var submitted := cluster.Submit(manifest, refusal);
    if submitted.Err? {
      r := FailEvaluation(table, ws, cluster, scoreId, name, submitted.error);
      return;
    }
    ghost var w := Snapshot(table, broker, ws, cluster);
    var raised := WatchWorkflowStatus(table, broker, ws, cluster, watcher, scoreId, name, trace, loaded, measure);
    if raised.Some? {
      PresentNeverRaises(name, Decision(trace), name in w.dirs, loaded, measure);
      ghost var plan := WatchPlan(name, Decision(trace), false, name in w.dirs, loaded, measure);
      assert FindId(w.rows, scoreId).None?;
      assert Snapshot(table, broker, ws, cluster) == Perform(w, scoreId, name, plan);
      assert PerformWrites(w, scoreId, plan.writes) == w;
      assert ws.dirs == w.dirs || ws.dirs == w.dirs - {name};
      RemoveTwice(w.dirs, name);
      r := FailEvaluation(table, ws, cluster, scoreId, name, raised.value);
      return;
    }
    r := Ok(());
  }

  /** `submit_evaluation`, the job the queue runs. `name` is the fresh workflow name and
      `refusal` the exception the workflow API may raise; the watch sees `trace`, and
      ingestion loads `loaded` and measures with `measure`. An unknown modality is
      refused with the directory left behind and nothing else done. */
  method SubmitEvaluation(table: ScoreTable, broker: ScoreService.Broker, ws: Workspaces, cluster: Cluster,
                          watcher: Watcher, subs: seq<SubmissionModel.Submission>, tmpDir: string, inferDir: string,
                          submissionAccessor: string, scoreId: nat, name: string, refusal: Option<string>,
                          trace: seq<Cycle>, loaded: Loaded, measure: Measure)
    returns (r: Result<(), HttpError>)
    requires table.Valid()
    modifies table, broker, ws, cluster, watcher
    ensures table.Valid()
    ensures ModalityOf(subs, submissionAccessor).None? ==>
              && r == Err(HttpError(BadRequest, "Invalid model hello"))
              && ws.dirs == old(ws.dirs)[name := FilesIn(old(ws.dirs), name)]
              && table.rows == old(table.rows) && broker.published == old(broker.published)
              && cluster.created == old(cluster.created) && cluster.terminated == old(cluster.terminated)
              && cluster.deleted == old(cluster.deleted)
    ensures ModalityOf(subs, submissionAccessor).Some? && refusal.Some? ==>
              && r == Err(EvaluationFailure(HttpError(BadRequest, "Error submitting workflow: " + refusal.value)))
              && FindId(table.rows, scoreId).None?
              && ws.dirs == old(ws.dirs) - {name}
              && cluster.terminated == old(cluster.terminated) + [name]
              && cluster.created == old(cluster.created) && cluster.deleted == old(cluster.deleted)
              && broker.published == old(broker.published)
    ensures ModalityOf(subs, submissionAccessor).Some? && refusal.None? ==>
              var m := ModalityOf(subs, submissionAccessor).value;
              var present := FindId(old(table.rows), scoreId).Some?;
              var plan := WatchPlan(name, Decision(trace), present, true, loaded, measure);
              var ready := old(ws.dirs)[name := FilesIn(old(ws.dirs), name) + MarkerFiles(m)];
              && cluster.created
                 == old(cluster.created)
                    + [EvaluationManifest(name, SubmissionModel.ModalityName(m), tmpDir + "/" + name,
                                          submissionAccessor, inferDir)]
              && (plan.raised.None? ==>
                    && r == Ok(())
                    && Snapshot(table, broker, ws, cluster)
                       == Perform(World(old(table.rows), old(broker.published), ready, old(cluster.deleted)),
                                  scoreId, name, plan)
                    && cluster.terminated == old(cluster.terminated))
              && (plan.raised.Some? ==>
                    && r == Err(EvaluationFailure(plan.raised.value))
                    && !present && table.rows == old(table.rows) && broker.published == old(broker.published)
                    && ws.dirs == old(ws.dirs) - {name}
                    && cluster.terminated == old(cluster.terminated) + [name])
  {
    ghost var dirs := ws.dirs;
    ws.Create(name);
    CreatedHolds(dirs, name);
    var featureType := ModalityOf(subs, submissionAccessor);
    if featureType.None? {
      return Err(HttpError(BadRequest, "Invalid model hello"));
    }
    TouchMarkers(ws, name, featureType.value);
    LastWriteWins(dirs, name, FilesIn(dirs, name), FilesIn(dirs, name) + MarkerFiles(featureType.value));
    RemoveForgets(dirs, name, FilesIn(dirs, name) + MarkerFiles(featureType.value));
    var manifest := EvaluationManifest(name, SubmissionModel.ModalityName(featureType.value), tmpDir + "/" + name,
                                       submissionAccessor, inferDir);
    r := LaunchEvaluation(table, broker, ws, cluster, watcher, manifest, scoreId, name, refusal, trace, loaded, measure);
  }
}

=== FILE: event_stream.dfy ===
/** The `text/event-stream` format of the WHATWG HTML Living Standard, section 9.2
    (server-sent events), restricted to what the streaming endpoints use: `data` fields,
    comments, other fields (ignored) and blank lines that dispatch an event. Lines end
    with LF; the CR and CRLF line endings the standard also accepts are not used by any
    producer here and are not modelled. */
module EventStream {

  import opened Common
  import opened Text

  /** The text of a sequence of lines, each terminated by LF. */
  function Unlines(lines: seq<string>): (s: string)
  {
    if |lines| == 0 then "" else lines[0] + "\n" + Unlines(lines[1..])
  }

  lemma {:induction false} UnlinesAppend(a: seq<string>, b: seq<string>)
    ensures Unlines(a + b) == Unlines(a) + Unlines(b)
  {
    if |a| > 0 {
      UnlinesAppend(a[1..], b);
      assert (a + b)[0] == a[0];
      assert (a + b)[1..] == a[1..] + b;
      calc {
        Unlines(a + b);
        a[0] + "\n" + Unlines(a[1..] + b);
        a[0] + "\n" + (Unlines(a[1..]) + Unlines(b));
        (a[0] + "\n" + Unlines(a[1..])) + Unlines(b);
      }
    } else {
      assert a + b == b;
    }
  }

  predicate NoNewline(s: string) { forall i :: 0 <= i < |s| ==> s[i] != '\n' }

  predicate LinesWithoutNewline(lines: seq<string>)
  {
    forall k :: 0 <= k < |lines| ==> NoNewline(lines[k])
  }

  /** Splitting at a separator splits the two sides independently. */
  lemma {:induction false} SplitAround(a: string, b: string, sep: char)
    ensures Split(a + [sep] + b, sep) == Split(a, sep) + Split(b, sep)
  {
    if |a| == 0 {
      assert a + [sep] + b == [sep] + b;
      SplitCons(sep, b, sep);
    } else {
      SplitAround(a[1..], b, sep);
      SplitAroundStep(a[0], a[1..], b, sep);
      assert [a[0]] + a[1..] == a;
      assert [a[0]] + (a[1..] + [sep] + b) == a + [sep] + b;
    }
  }

  lemma SplitAroundStep(c: char, rest: string, b: string, sep: char)
    requires Split(rest + [sep] + b, sep) == Split(rest, sep) + Split(b, sep)
    ensures Split([c] + (rest + [sep] + b), sep) == Split([c] + rest, sep) + Split(b, sep)
  {
    var t := rest + [sep] + b;
    SplitCons(c, t, sep);
    SplitCons(c, rest, sep);
    var front, back, x := Split(rest, sep), Split(b, sep), Split(t, sep);
    if c == sep {
      assert [""] + (front + back) == ([""] + front) + back;
    } else {
      ExtendFirstPiece(c, front, back);
    }
  }

  /** Extending the first piece of a list of pieces commutes with appending more. */
  lemma ExtendFirstPiece(c: char, front: seq<string>, back: seq<string>)
    requires |front| >= 1
    ensures [[c] + (front + back)[0]] + (front + back)[1..] == ([[c] + front[0]] + front[1..]) + back
  {
    assert (front + back)[1..] == front[1..] + back;
  }

  lemma SplitCons(c: char, t: string, sep: char)
    ensures c == sep ==> Split([c] + t, sep) == [""] + Split(t, sep)
    ensures c != sep ==> Split([c] + t, sep) == [[c] + Split(t, sep)[0]] + Split(t, sep)[1..]
  {
    assert ([c] + t)[1..] == t;
  }

  lemma {:induction false} SplitWithoutSeparator(a: string, sep: char)
    requires forall i :: 0 <= i < |a| ==> a[i] != sep
    ensures Split(a, sep) == [a]
  {
    if |a| > 0 {
      SplitWithoutSeparator(a[1..], sep);
      assert [a[0]] + a[1..] == a;
    }
  }

  /** Splitting the text of LF-free lines at LF gives the lines back, plus the empty
      remainder after the last terminator. */
  lemma {:induction false} SplitUnlines(lines: seq<string>)
    requires LinesWithoutNewline(lines)
    ensures Split(Unlines(lines), '\n') == lines + [""]
  {
    if |lines| > 0 {
      SplitUnlines(lines[1..]);
      SplitAround(lines[0], Unlines(lines[1..]), '\n');
      SplitWithoutSeparator(lines[0], '\n');
      assert lines[0] + "\n" + Unlines(lines[1..]) == lines[0] + ['\n'] + Unlines(lines[1..]);
      assert [lines[0]] + (lines[1..] + [""]) == lines + [""];
    }
  }

  // ---------------------------------------------------------------------------
  // Interpreting a stream

  /** The field name and value of a non-blank line that is not a comment: up to the
      first colon, and after it with one leading space removed; a line with no colon
      is a field with an empty value. */
  function FirstColon(line: string): (i: Option<nat>)
    ensures i.Some? ==>
              && i.value < |line| && line[i.value] == ':'
              && forall j :: 0 <= j < i.value ==> line[j] != ':'
    ensures i.None? ==> forall j :: 0 <= j < |line| ==> line[j] != ':'
  {
    if |line| == 0 then None
    else if line[0] == ':' then Some(0)
    else match FirstColon(line[1..])
      case None => None
      case Some(k) => Some(k + 1)
  }

  function FieldName(line: string): string
  {
    match FirstColon(line)
    case None => line
    case Some(i) => line[..i]
  }

  function FieldValue(line: string): string
  {
    match FirstColon(line)
    case None => ""
    case Some(i) => if i + 1 < |line| && line[i + 1] == ' ' then line[i + 2..] else line[i + 1..]
  }

  /** Dispatches one event per blank line that follows at least one `data` field;
      `pending` holds the data values seen since the last dispatch. */
  function Dispatch(lines: seq<string>, pending: seq<string>): (events: seq<string>)
  {
    if |lines| == 0 then []
    else if lines[0] == "" then
      (if |pending| == 0 then [] else [Join(pending, '\n')]) + Dispatch(lines[1..], [])
    else if lines[0][0] == ':' then Dispatch(lines[1..], pending)
    else if FieldName(lines[0]) == "data" then Dispatch(lines[1..], pending + [FieldValue(lines[0])])
    else Dispatch(lines[1..], pending)
  }

  /** The data of every event a client receives from the stream text. The text after
      the last line terminator is an unfinished line and is discarded. */
  function Receive(s: string): seq<string>
  {
    var lines := Split(s, '\n');
    Dispatch(lines[..|lines| - 1], [])
  }

  lemma ReceiveUnlines(lines: seq<string>)
    requires LinesWithoutNewline(lines)
    ensures Receive(Unlines(lines)) == Dispatch(lines, [])
  {
    SplitUnlines(lines);
    assert (lines + [""])[..|lines|] == lines;
  }

  /** Events are separated by blank lines, so a block that ends with one is received
      independently of what follows it. */
  lemma {:induction false} DispatchAppend(a: seq<string>, b: seq<string>, pending: seq<string>)
    requires |a| > 0 && a[|a| - 1] == ""
    ensures Dispatch(a + b, pending) == Dispatch(a, pending) + Dispatch(b, [])
  {
    assert (a + b)[0] == a[0];
    assert (a + b)[1..] == a[1..] + b;
    if |a| == 1 {
      assert a[1..] == [];
    } else {
      if a[0] == "" {
        DispatchAppend(a[1..], b, []);
      } else if a[0][0] == ':' {
        DispatchAppend(a[1..], b, pending);
      } else if FieldName(a[0]) == "data" {
        DispatchAppend(a[1..], b, pending + [FieldValue(a[0])]);
      } else {
        DispatchAppend(a[1..], b, pending);
      }
    }
  }

  // ---------------------------------------------------------------------------
  // Writing events

  const DataPrefix: string := "data: "

  lemma DataLineField(value: string)
    ensures FieldName(DataPrefix + value) == "data"
    ensures FieldValue(DataPrefix + value) == value
  {
    var line := DataPrefix + value;
    assert line[4] == ':' && line[5] == ' ';
    assert forall j :: 0 <= j < 4 ==> line[j] != ':';
    assert FirstColon(line) == Some(4);
    assert line[..4] == "data";
    assert line[6..] == value;
  }

  /** The lines of an event whose data is one line: a `data` field and a blank line. */
  function DataEventLines(payload: string): seq<string>
  {
    [DataPrefix + payload, ""]
  }

  /** `f"data: {payload}\n\n"`. */
  function DataEvent(payload: string): (s: string)
    ensures s == Unlines(DataEventLines(payload))
  {
    assert Unlines([""]) == "\n";
    DataPrefix + payload + "\n\n"
  }

  /** A single-line payload is received exactly as written. */
  lemma DataEventReceived(payload: string)
    requires NoNewline(payload)
    ensures Receive(DataEvent(payload)) == [payload]
  {
    DataEventDispatch(payload);
    ReceiveUnlines(DataEventLines(payload));
  }

  /** A data event's lines carry no newline and dispatch as the one payload. */
  lemma DataEventDispatch(payload: string)
    requires NoNewline(payload)
    ensures LinesWithoutNewline(DataEventLines(payload))
    ensures Dispatch(DataEventLines(payload), []) == [payload]
  {
    DataLineField(payload);
    assert NoNewline(DataPrefix + payload);
    var lines := DataEventLines(payload);
    assert lines[0][0] == 'd' && lines[1..] == [""];
    assert Dispatch([""], [payload]) == [payload];
  }

  /** The lines of an event carrying any text: one `data` field per line of the text. */
  function MultiLineEventLines(text: string): (lines: seq<string>)
    ensures |lines| >= 2 && lines[|lines| - 1] == ""
  {
    var pieces := Split(text, '\n');
    seq(|pieces|, k requires 0 <= k < |pieces| => DataPrefix + pieces[k]) + [""]
  }

  function MultiLineEvent(text: string): string
  {
    Unlines(MultiLineEventLines(text))
  }

  lemma {:induction false} DispatchDataLines(values: seq<string>, pending: seq<string>)
    requires |pending| + |values| > 0
    ensures Dispatch(seq(|values|, k requires 0 <= k < |values| => DataPrefix + values[k]) + [""], pending)
            == [Join(pending + values, '\n')]
  {
    var lines := seq(|values|, k requires 0 <= k < |values| => DataPrefix + values[k]) + [""];
    if |values| == 0 {
      assert lines == [""];
      assert pending + values == pending;
    } else {
      DataLineField(values[0]);
      assert lines[0] == DataPrefix + values[0];
      assert lines[0][0] == 'd';
      var rest := values[1..];
      assert lines[1..] == seq(|rest|, k requires 0 <= k < |rest| => DataPrefix + rest[k]) + [""];
      DispatchDataLines(rest, pending + [values[0]]);
      assert pending + [values[0]] + rest == pending + values;
    }
  }

  /** Any text, line breaks included, is received exactly as written. */
  lemma MultiLineEventReceived(text: string)
    ensures Receive(MultiLineEvent(text)) == [text]
  {
    var pieces := Split(text, '\n');
    var lines := MultiLineEventLines(text);
    SplitShape(text, '\n');
    forall k | 0 <= k < |lines| ensures NoNewline(lines[k]) {
      if k < |pieces| {
        CountZeroNoChar(pieces[k], '\n');
        assert lines[k] == DataPrefix + pieces[k];
      }
    }
    ReceiveUnlines(lines);
    DispatchDataLines(pieces, []);
    assert [] + pieces == pieces;
    JoinSplit(text, '\n');
  }

  lemma {:induction false} CountZeroNoChar(s: string, c: char)
    requires Count(s, c) == 0
    ensures forall i :: 0 <= i < |s| ==> s[i] != c
  {
    if |s| > 0 {
      CountZeroNoChar(s[1..], c);
      assert forall i :: 1 <= i < |s| ==> s[i] == s[1..][i - 1];
    }
  }
}

=== FILE: inference_service.dfy ===
/** Inference: a user's video is run through a published model as an Argo workflow,
    the per-segment predictions it leaves behind are turned into the intervals that
    contain violence, and the workflow's progress is streamed as server-sent events. */
module InferenceService {

  import opened Common
  import opened Text
  import opened EventStream
  import opened Orchestrator
  import SubmissionModel

  // ---------------------------------------------------------------------------
  // parse_time

  /** `parse_time`: negative seconds count as 0; minutes, a colon, and the seconds as
      two digits. */
  function ParseTime(seconds: int): string
  {
    var s: nat := if seconds < 0 then 0 else seconds;
    NatToString(s / 60) + ":" + TwoDigitSeconds(s % 60)
  }

  function TwoDigitSeconds(sec: nat): string
  {
    if sec < 10 then "0" + NatToString(sec) else NatToString(sec)
  }

  /** Reading an "M:SS" clock back as seconds: one colon, decimal minutes, and exactly
      two decimal digits below 60. */
  function ClockSeconds(t: string): Option<nat>
  {
    var parts := Split(t, ':');
    if |parts| != 2 || |parts[1]| != 2 then None
    else match (ParseNat(parts[0]), ParseNat(parts[1]))
      case (Some(m), Some(s)) => if s < 60 then Some(60 * m + s) else None
      case _ => None
  }

  lemma TwoDigitsRead(sec: nat)
    requires sec < 60
    ensures |TwoDigitSeconds(sec)| == 2 && ParseNat(TwoDigitSeconds(sec)) == Some(sec)
  {
    var ss := TwoDigitSeconds(sec);
    if sec < 10 {
      assert ss == ['0', DigitChar(sec)];
      assert ss[..1] == ['0'] && ss[..1][..0] == [];
      assert DigitsValue(ss) == 10 * DigitsValue(['0']) + sec;
    } else {
      NatToStringRoundTrip(sec);
    }
  }

  /** Every clock `parse_time` writes is well formed and reads back as the seconds it
      was given, clamped at 0. */
  lemma ParseTimeRoundTrip(seconds: int)
    ensures ClockSeconds(ParseTime(seconds)) == Some(if seconds < 0 then 0 else seconds)
  {
    var s: nat := if seconds < 0 then 0 else seconds;
    var m, ss := NatToString(s / 60), TwoDigitSeconds(s % 60);
    TwoDigitsRead(s % 60);
    NatToStringRoundTrip(s / 60);
    assert ParseTime(seconds) == m + [':'] + ss;
    assert Split(ParseTime(seconds), ':') == [m, ss] by {
      SplitAround(m, ss, ':');
      SplitWithoutSeparator(m, ':');
      SplitWithoutSeparator(ss, ':');
    }
    assert 60 * (s / 60) + s % 60 == s;
  }

  /** Distinct non-negative second counts give distinct clocks. */
  lemma ParseTimeInjective(a: nat, b: nat)
    requires ParseTime(a) == ParseTime(b)
    ensures a == b
  {
    ParseTimeRoundTrip(a);
    ParseTimeRoundTrip(b);
  }

  // ---------------------------------------------------------------------------
  // Violence intervals

  /** The model emits one prediction per 0.96 s segment. The float products are taken
      here as exact rationals. */
  function Floor96(n: nat): nat { n * 96 / 100 }

  function Ceil96(n: nat): nat { (n * 96 + 99) / 100 }

  /** A run of predictions, from `start` to `end` inclusive. */
  datatype Run = Run(start: nat, end: nat)

  predicate Ones(p: seq<int>, r: Run)
  {
    r.start <= r.end < |p| && forall j :: r.start <= j <= r.end ==> p[j] == 1
  }

  /** A run of 1s that cannot be extended at either end. */
  predicate Maximal(p: seq<int>, r: Run)
  {
    && Ones(p, r)
    && (r.start == 0 || p[r.start - 1] != 1)
    && (r.end + 1 == |p| || p[r.end + 1] != 1)
  }

  /** Ascending and apart: each run ends before the gap preceding the next. */
  predicate Ascending(rs: seq<Run>)
  {
    forall k, l :: 0 <= k < l < |rs| ==> rs[k].end + 1 < rs[l].start
  }

  predicate Covers(p: seq<int>, rs: seq<Run>)
  {
    forall j :: 0 <= j < |p| && p[j] == 1 ==> exists k :: 0 <= k < |rs| && rs[k].start <= j <= rs[k].end
  }

  predicate MaximalRuns(p: seq<int>, rs: seq<Run>)
  {
    (forall k :: 0 <= k < |rs| ==> Maximal(p, rs[k])) && Ascending(rs) && Covers(p, rs)
  }

  /** The runs of 1s, built by reading the predictions one at a time: a 1 extends a
      run that ends just before it, or opens a new one. */
  function Runs(p: seq<int>): seq<Run>
  {
    if |p| == 0 then []
    else
      var rs := Runs(p[..|p| - 1]);
      if p[|p| - 1] != 1 then rs
      else if |rs| > 0 && rs[|rs| - 1].end + 2 == |p| then rs[..|rs| - 1] + [Run(rs[|rs| - 1].start, |p| - 1)]
      else rs + [Run(|p| - 1, |p| - 1)]
  }

  /** The runs are exactly the maximal runs of 1s, in ascending order. */
  lemma {:induction false} RunsAreMaximal(p: seq<int>)
    ensures MaximalRuns(p, Runs(p))
  {
    if |p| > 0 {
      var n := |p|;
      var q := p[..n - 1];
      RunsAreMaximal(q);
      var rs := Runs(q);
      assert forall j :: 0 <= j < n - 1 ==> p[j] == q[j];
      if p[n - 1] != 1 {
        forall k | 0 <= k < |rs| ensures Maximal(p, rs[k]) {
          assert Maximal(q, rs[k]);
        }
      } else if |rs| > 0 && rs[|rs| - 1].end + 2 == n {
        ExtendLastRun(p, rs);
      } else {
        OpenNewRun(p, rs);
      }
    }
  }

  lemma ExtendLastRun(p: seq<int>, rs: seq<Run>)
    requires |p| > 0 && p[|p| - 1] == 1
    requires MaximalRuns(p[..|p| - 1], rs)
    requires |rs| > 0 && rs[|rs| - 1].end + 2 == |p|
    ensures MaximalRuns(p, rs[..|rs| - 1] + [Run(rs[|rs| - 1].start, |p| - 1)])
  {
    var out := rs[..|rs| - 1] + [Run(rs[|rs| - 1].start, |p| - 1)];
    ExtendedRunsMaximal(p, rs);
    ExtendedRunsCover(p, rs);
    assert Ascending(out) by {
      forall k, l | 0 <= k < l < |out| ensures out[k].end + 1 < out[l].start {
        assert out[k] == rs[k];
        if l < |rs| - 1 { assert out[l] == rs[l]; }
      }
    }
  }

  lemma ExtendedRunsMaximal(p: seq<int>, rs: seq<Run>)
    requires |p| > 0 && p[|p| - 1] == 1
    requires MaximalRuns(p[..|p| - 1], rs)
    requires |rs| > 0 && rs[|rs| - 1].end + 2 == |p|
    ensures var out := rs[..|rs| - 1] + [Run(rs[|rs| - 1].start, |p| - 1)];
            forall k :: 0 <= k < |out| ==> Maximal(p, out[k])
  {
    var n := |p|;
    var q := p[..n - 1];
    var last := rs[|rs| - 1];
    var out := rs[..|rs| - 1] + [Run(last.start, n - 1)];
    assert forall j :: 0 <= j < n - 1 ==> p[j] == q[j];
    forall k | 0 <= k < |out| ensures Maximal(p, out[k]) {
      if k < |rs| - 1 {
        assert out[k] == rs[k] && Maximal(q, rs[k]);
        assert rs[k].end + 1 < last.start;
      } else {
        assert Maximal(q, last);
      }
    }
  }

  lemma ExtendedRunsCover(p: seq<int>, rs: seq<Run>)
    requires |p| > 0 && p[|p| - 1] == 1
    requires MaximalRuns(p[..|p| - 1], rs)
    requires |rs| > 0 && rs[|rs| - 1].end + 2 == |p|
    ensures Covers(p, rs[..|rs| - 1] + [Run(rs[|rs| - 1].start, |p| - 1)])
  {
    var n := |p|;
    var q := p[..n - 1];
    var last := rs[|rs| - 1];
    var out := rs[..|rs| - 1] + [Run(last.start, n - 1)];
    forall j | 0 <= j < n && p[j] == 1
      ensures exists k :: 0 <= k < |out| && out[k].start <= j <= out[k].end
    {
      if j < n - 1 {
        assert q[j] == 1;
        var k :| 0 <= k < |rs| && rs[k].start <= j <= rs[k].end;
        if k < |rs| - 1 { assert out[k] == rs[k]; } else { assert out[|out| - 1].start <= j <= out[|out| - 1].end; }
      } else {
        assert out[|out| - 1].start <= j <= out[|out| - 1].end;
      }
    }
  }

  lemma OpenNewRun(p: seq<int>, rs: seq<Run>)
    requires |p| > 0 && p[|p| - 1] == 1
    requires MaximalRuns(p[..|p| - 1], rs)
    requires !(|rs| > 0 && rs[|rs| - 1].end + 2 == |p|)
    ensures MaximalRuns(p, rs + [Run(|p| - 1, |p| - 1)])
  {
    OpenedRunsMaximal(p, rs);
    OpenedRunsAscending(p, rs);
    OpenedRunsCover(p, rs);
  }

  lemma OpenedRunsMaximal(p: seq<int>, rs: seq<Run>)
    requires |p| > 0 && p[|p| - 1] == 1
    requires MaximalRuns(p[..|p| - 1], rs)
    requires !(|rs| > 0 && rs[|rs| - 1].end + 2 == |p|)
    ensures var out := rs + [Run(|p| - 1, |p| - 1)];
            forall k :: 0 <= k < |out| ==> Maximal(p, out[k])
  {
    var n := |p|;
    var q := p[..n - 1];
    var out := rs + [Run(n - 1, n - 1)];
    assert forall j :: 0 <= j < n - 1 ==> p[j] == q[j];
    NoRunEndsBeforeNew(p, rs);
    forall k | 0 <= k < |out| ensures Maximal(p, out[k]) {
      if k < |rs| {
        assert out[k] == rs[k] && Maximal(q, rs[k]);
        assert q[rs[k].end] == 1;
      }
    }
  }

  lemma OpenedRunsAscending(p: seq<int>, rs: seq<Run>)
    requires |p| > 0 && p[|p| - 1] == 1
    requires MaximalRuns(p[..|p| - 1], rs)
    requires !(|rs| > 0 && rs[|rs| - 1].end + 2 == |p|)
    ensures Ascending(rs + [Run(|p| - 1, |p| - 1)])
  {
    var q := p[..|p| - 1];
    var out := rs + [Run(|p| - 1, |p| - 1)];
    forall k, l | 0 <= k < l < |out| ensures out[k].end + 1 < out[l].start {
      if l == |rs| {
        assert Ones(q, rs[k]) && q[rs[k].end] == 1;
      }
    }
  }

  lemma OpenedRunsCover(p: seq<int>, rs: seq<Run>)
    requires |p| > 0 && p[|p| - 1] == 1
    requires MaximalRuns(p[..|p| - 1], rs)
    ensures Covers(p, rs + [Run(|p| - 1, |p| - 1)])
  {
    var n := |p|;
    var q := p[..n - 1];
    var out := rs + [Run(n - 1, n - 1)];
    forall j | 0 <= j < n && p[j] == 1
      ensures exists k :: 0 <= k < |out| && out[k].start <= j <= out[k].end
    {
      if j < n - 1 {
        assert q[j] == 1;
        var k :| 0 <= k < |rs| && rs[k].start <= j <= rs[k].end;
        assert out[k] == rs[k];
      } else {
        assert out[|out| - 1].start <= j <= out[|out| - 1].end;
      }
    }
  }

  lemma NoRunEndsBeforeNew(p: seq<int>, rs: seq<Run>)
    requires |p| > 0
    requires MaximalRuns(p[..|p| - 1], rs)
    requires !(|rs| > 0 && rs[|rs| - 1].end + 2 == |p|)
    ensures |p| == 1 || p[|p| - 2] != 1
  {
  }

  /** No 1 at all exactly when there is no run. */
  lemma NoRunsWithoutOnes(p: seq<int>)
    ensures Runs(p) == [] <==> forall j :: 0 <= j < |p| ==> p[j] != 1
  {
    RunsAreMaximal(p);
    var rs := Runs(p);
    if rs != [] {
      assert Ones(p, rs[0]) && p[rs[0].start] == 1;
    }
  }

  /** A run as `get_workflow_result` lists its frames: `[s]` for a single segment,
      `[s, e]` otherwise. */
  function FramesOf(r: Run): seq<nat>
  {
    if r.end != r.start then [r.start, r.end] else [r.start]
  }

  /** A run's clock interval: from the end of its first segment to the end of its
      last one, rounded outwards. */
  function SecondsOf(r: Run): seq<string>
  {
    [ParseTime(Floor96(r.start + 1)), ParseTime(Ceil96(r.end + 1))]
  }

  function FramesList(rs: seq<Run>): (fs: seq<seq<nat>>)
    ensures |fs| == |rs|
  {
    seq(|rs|, k requires 0 <= k < |rs| => FramesOf(rs[k]))
  }

  function SecondsList(rs: seq<Run>): (ss: seq<seq<string>>)
    ensures |ss| == |rs|
  {
    seq(|rs|, k requires 0 <= k < |rs| => SecondsOf(rs[k]))
  }

  /** The result of `get_workflow_result`. */
  datatype InferenceResult = InferenceResult(
    containsViolence: bool,
    intervalsSeconds: seq<seq<string>>,
    intervalsFrames: seq<seq<nat>>)

  predicate AnyViolence(p: seq<int>)
  {
    exists j :: 0 <= j < |p| && p[j] == 1
  }

  /** What the predictions say: whether any segment is violent, and each maximal run of
      violent segments, in order, as frames and as clock times. */
  function ResultOf(p: seq<int>): InferenceResult
  {
    InferenceResult(AnyViolence(p), SecondsList(Runs(p)), FramesList(Runs(p)))
  }

  /** The two lists have one entry per maximal run and are empty exactly when no
      segment is violent; the k-th frame interval starts and ends where the k-th run
      does, and the k-th clock interval is that run's. */
  lemma ResultOfMeaning(p: seq<int>)
    ensures ResultOf(p).containsViolence <==> exists j :: 0 <= j < |p| && p[j] == 1
    ensures !ResultOf(p).containsViolence <==> ResultOf(p).intervalsFrames == [] && ResultOf(p).intervalsSeconds == []
    ensures |ResultOf(p).intervalsFrames| == |ResultOf(p).intervalsSeconds| == |Runs(p)|
    ensures forall k :: 0 <= k < |Runs(p)| ==>
              && ResultOf(p).intervalsFrames[k][0] == Runs(p)[k].start
              && Last(ResultOf(p).intervalsFrames[k]) == Runs(p)[k].end
              && ResultOf(p).intervalsSeconds[k] == SecondsOf(Runs(p)[k])
  {
    var rs := Runs(p);
    var r := ResultOf(p);
    assert r == InferenceResult(AnyViolence(p), SecondsList(rs), FramesList(rs));
    assert !r.containsViolence <==> rs == [] by { NoRunsWithoutOnes(p); }
    forall k | 0 <= k < |rs|
      ensures r.intervalsFrames[k][0] == rs[k].start && Last(r.intervalsFrames[k]) == rs[k].end
    {
      assert r.intervalsFrames[k] == FramesOf(rs[k]);
    }
  }

  function Last(xs: seq<nat>): nat
  {
    if |xs| == 0 then 0 else xs[|xs| - 1]
  }

  /** A run's clock interval never ends before it starts: the first clock is the end
      of the run's first segment rounded down, the second the end of its last segment
      rounded up. */
  lemma SecondsOrdered(r: Run)
    requires r.start <= r.end
    ensures Floor96(r.start + 1) <= Ceil96(r.end + 1)
  {
    var a, b := r.start + 1, r.end + 1;
    assert a * 96 <= b * 96;
    assert a * 96 / 100 <= b * 96 / 100;
    assert b * 96 / 100 <= (b * 96 + 99) / 100;
  }

  /** The extraction loop of `get_workflow_result`. */
  method ExtractIntervals(p: seq<int>) returns (result: InferenceResult)
    ensures result == ResultOf(p)
  {
    var containsViolence := exists j | 0 <= j < |p| :: p[j] == 1;
    var seconds: seq<seq<string>> := [];
    var frames: seq<seq<nat>> := [];
    if containsViolence {
      frames, seconds := ScanRuns(p);
    } else {
      assert Runs(p) == [] by { NoRunsWithoutOnes(p); }
      assert FramesList([]) == [] && SecondsList([]) == [];
    }
    result := InferenceResult(containsViolence, seconds, frames);
  }

  /** The scan of `get_workflow_result` over the predictions: a run opens at a 1 after
      a 0 (or at the start), closes at the 0 after it, and one still open at the end
      closes at the last segment. */
  method ScanRuns(p: seq<int>) returns (frames: seq<seq<nat>>, seconds: seq<seq<string>>)
    ensures frames == FramesList(Runs(p)) && seconds == SecondsList(Runs(p))
  {
    frames, seconds := [], [];
    var start: Option<nat> := None;
    ghost var closed: seq<Run> := [];
    for i := 0 to |p|
      invariant frames == FramesList(closed) && seconds == SecondsList(closed)
      invariant start.None? ==> closed == Runs(p[..i]) && (i > 0 ==> p[i - 1] != 1)
      invariant start.Some? ==> start.value < i && Runs(p[..i]) == closed + [Run(start.value, i - 1)]
    {
      if p[i] == 1 {
        if start.None? {
          RunsOpen(p, i);
          start := Some(i);
        } else {
          RunsExtend(p, i, start.value, closed);
        }
      } else if start.Some? {
        frames, seconds := CloseRun(frames, seconds, closed, start.value, i - 1);
        closed := closed + [Run(start.value, i - 1)];
        start := None;
      }
      if p[i] != 1 {
        RunsSkip(p, i);
      }
    }
    assert p[..|p|] == p;
    if start.Some? {
      // A run still open at the end closes at `video_duration`, Ceil96(|p|).
      var s := start.value;
      frames, seconds := CloseRun(frames, seconds, closed, s, |p| - 1);
      closed := closed + [Run(s, |p| - 1)];
    }
  }

  /** Closing a run: its frames and its clocks are appended. */
  method CloseRun(frames: seq<seq<nat>>, seconds: seq<seq<string>>, ghost closed: seq<Run>, s: nat, e: nat)
    returns (frames': seq<seq<nat>>, seconds': seq<seq<string>>)
    requires frames == FramesList(closed) && seconds == SecondsList(closed)
    ensures frames' == FramesList(closed + [Run(s, e)]) && seconds' == SecondsList(closed + [Run(s, e)])
  {
    frames' := frames + [FramesOf(Run(s, e))];
    seconds' := seconds + [SecondsOf(Run(s, e))];
    Appended(closed, Run(s, e));
  }

  lemma RunsOpen(p: seq<int>, i: nat)
    requires i < |p| && p[i] == 1 && (i > 0 ==> p[i - 1] != 1)
    ensures Runs(p[..i + 1]) == Runs(p[..i]) + [Run(i, i)]
  {
    assert p[..i + 1][..i] == p[..i];
    var rs := Runs(p[..i]);
    if i > 0 && |rs| > 0 {
      RunsAreMaximal(p[..i]);
      assert Ones(p[..i], rs[|rs| - 1]);
    }
  }

  lemma RunsExtend(p: seq<int>, i: nat, s: nat, closed: seq<Run>)
    requires i < |p| && p[i] == 1 && s < i
    requires Runs(p[..i]) == closed + [Run(s, i - 1)]
    ensures Runs(p[..i + 1]) == closed + [Run(s, i)]
  {
    assert p[..i + 1][..i] == p[..i];
    var rs := Runs(p[..i]);
    assert rs[..|rs| - 1] == closed;
  }

  lemma RunsSkip(p: seq<int>, i: nat)
    requires i < |p| && p[i] != 1
    ensures Runs(p[..i + 1]) == Runs(p[..i])
  {
    assert p[..i + 1][..i] == p[..i];
  }

  lemma Appended(rs: seq<Run>, r: Run)
    ensures FramesList(rs + [r]) == FramesList(rs) + [FramesOf(r)]
    ensures SecondsList(rs + [r]) == SecondsList(rs) + [SecondsOf(r)]
  {
  }

  /** `get_workflow_result`: an unknown workflow is refused before anything is touched;
      otherwise its directory is removed whether the predictions load or not.
      `loaded` is what `np.load` gave: the predictions, or the exception's text. */
  method GetWorkflowResult(ws: Workspaces, name: string, loaded: Result<seq<int>, string>)
    returns (r: Result<InferenceResult, HttpError>)
    modifies ws
    ensures !old(ws.Exists(name)) ==>
              r == Err(HttpError(BadRequest, "Workflow " + name + " not found")) && ws.dirs == old(ws.dirs)
    ensures old(ws.Exists(name)) ==>
              && ws.dirs == old(ws.dirs) - {name}
              && (loaded.Ok? ==> r == Ok(ResultOf(loaded.value)))
              && (loaded.Err? ==>
                    r == Err(HttpError(BadRequest, "Error loading result for workflow " + name + ": " + loaded.error)))
  {
    if !ws.Exists(name) {
      return Err(HttpError(BadRequest, "Workflow " + name + " not found"));
    }
    if loaded.Err? {
      r := Err(HttpError(BadRequest, "Error loading result for workflow " + name + ": " + loaded.error));
    } else {
      var result := ExtractIntervals(loaded.value);
      r := Ok(result);
    }
    ws.Remove(name);
  }

  // ---------------------------------------------------------------------------
  // submit_inference

  /** `create_and_submit_workflow`'s manifest. */
  function InferenceManifest(name: string, featureType: string, videoPath: string, dataPath: string,
                             model: string, modelPath: string): Manifest
  {
    Manifest(name, ArgoNamespace, "inference-workflow",
             [Param("featureType", featureType), Param("videoPath", videoPath), Param("dataPath", dataPath),
              Param("model", model), Param("modelPath", modelPath)])
  }

  /** Each argument reads back as the value it was given. */
  lemma InferenceManifestParams(name: string, featureType: string, videoPath: string, dataPath: string,
                                model: string, modelPath: string)
    ensures var ps := InferenceManifest(name, featureType, videoPath, dataPath, model, modelPath).parameters;
            && ParamValue(ps, "featureType") == Some(featureType)
            && ParamValue(ps, "videoPath") == Some(videoPath)
            && ParamValue(ps, "dataPath") == Some(dataPath)
            && ParamValue(ps, "model") == Some(model)
            && ParamValue(ps, "modelPath") == Some(modelPath)
            && ParamValue(ps, "workflow") == None
  {
    assert "featureType"[0] == 'f' && "videoPath"[0] == 'v' && "dataPath"[0] == 'd' && "workflow"[0] == 'w';
    assert "model"[0] == 'm' && "modelPath"[0] == 'm' && |"model"| != |"modelPath"|;
    ReadBackFive(Param("featureType", featureType), Param("videoPath", videoPath), Param("dataPath", dataPath),
                 Param("model", model), Param("modelPath", modelPath), "workflow");
  }

  /** The model path as written: `str({settings.INFER_DIR})` renders a one-element
      Python set, so the path arrives wrapped in braces and quotes. */
  function ModelPathAsWritten(inferDir: string): string
  {
    "{'" + inferDir + "'}"
  }

  /** The workflow is meant to get the models directory itself, as the evaluation
      workflow does. */
  function ModelPath(inferDir: string): string
  {
    inferDir
  }

  /** As written, the path the workflow is given is never the directory's path. */
  lemma ModelPathIsSetLiteral(inferDir: string)
    ensures ModelPathAsWritten(inferDir) != inferDir
    ensures ModelPathAsWritten("/app/infer_models") == "{'/app/infer_models'}"
  {
    assert |ModelPathAsWritten(inferDir)| == |inferDir| + 4;
  }

  /** As written, the workflow's `modelPath` parameter is the rendered set, so it never
      reads back as the models directory. */
  lemma ModelPathAsWrittenReachesWorkflow(name: string, featureType: string, videoPath: string, dataPath: string,
                                          model: string, inferDir: string)
    ensures var got := ParamValue(InferenceManifest(name, featureType, videoPath, dataPath, model,
                                                    ModelPathAsWritten(inferDir)).parameters, "modelPath");
            got == Some(ModelPathAsWritten(inferDir)) && got != Some(inferDir)
  {
    InferenceManifestParams(name, featureType, videoPath, dataPath, model, ModelPathAsWritten(inferDir));
    ModelPathIsSetLiteral(inferDir);
  }

  /** With the corrected path, the workflow's `modelPath` parameter is the models
      directory. */
  lemma ModelPathReachesWorkflow(name: string, featureType: string, videoPath: string, dataPath: string,
                                 model: string, inferDir: string)
    ensures ParamValue(InferenceManifest(name, featureType, videoPath, dataPath, model, ModelPath(inferDir)).parameters,
                       "modelPath") == Some(inferDir)
  {
    InferenceManifestParams(name, featureType, videoPath, dataPath, model, ModelPath(inferDir));
  }

  /** The modality of the first published submission with the accessor: what
      `get_column_value("modality", accessor=..., status=PUBLISHED)` returns. */
  function PublishedModality(subs: seq<SubmissionModel.Submission>, accessor: string): (m: Option<SubmissionModel.Modality>)
    ensures m.None? <==>
              forall k :: 0 <= k < |subs| ==> !(subs[k].accessor == accessor && subs[k].status == SubmissionModel.Published)
    ensures m.Some? ==>
              exists k :: 0 <= k < |subs| && subs[k].accessor == accessor && subs[k].status == SubmissionModel.Published
                          && subs[k].modality == m.value
  {
    if |subs| == 0 then None
    else if subs[0].accessor == accessor && subs[0].status == SubmissionModel.Published then Some(subs[0].modality)
    else
      var rest := PublishedModality(subs[1..], accessor);
      assert rest.Some? ==>
               exists k :: 1 <= k < |subs| && subs[k].accessor == accessor && subs[k].status == SubmissionModel.Published
                           && subs[k].modality == rest.value;
      rest
  }

  /** `submit_inference`. `name` is the fresh workflow name, `uploaded` whether the
      video was written, `refusal` the exception the workflow API may raise. An upload
      or submission failure removes the workflow's directory; an unknown or unpublished
      model is refused with the directory left behind. The manifest carries the model
      path as written. */
  method SubmitInference(ws: Workspaces, cluster: Cluster, subs: seq<SubmissionModel.Submission>,
                         tmpDir: string, inferDir: string, name: string, filename: string, uploaded: bool,
                         model: string, refusal: Option<string>)
    returns (r: Result<string, HttpError>)
    modifies ws, cluster
    ensures cluster.terminated == old(cluster.terminated) && cluster.deleted == old(cluster.deleted)
    ensures !uploaded ==>
              && r == Err(HttpError(BadRequest, "Error uploading video file"))
              && ws.dirs == old(ws.dirs) - {name} && cluster.created == old(cluster.created)
    ensures uploaded && PublishedModality(subs, model).None? ==>
              && r == Err(HttpError(BadRequest, "Invalid model"))
              && ws.dirs == old(ws.dirs)[name := FilesIn(old(ws.dirs), name) + {filename}]
              && cluster.created == old(cluster.created)
    ensures uploaded && PublishedModality(subs, model).Some? ==>
              var m := PublishedModality(subs, model).value;
              var manifest := InferenceManifest(name, SubmissionModel.ModalityName(m),
                                                tmpDir + "/" + name + "/" + filename, tmpDir + "/" + name,
                                                model, ModelPathAsWritten(inferDir));
              && (refusal.Some? ==>
                    && r == Err(HttpError(BadRequest, "Error submitting workflow"))
                    && ws.dirs == old(ws.dirs) - {name} && cluster.created == old(cluster.created))
              && (refusal.None? ==>
                    && r == Ok(name)
                    && ws.dirs == old(ws.dirs)[name := FilesIn(old(ws.dirs), name) + {filename} + MarkerFiles(m)]
                    && cluster.created == old(cluster.created) + [manifest])
  {
    ghost var d0 := ws.dirs;
    ghost var held := FilesIn(d0, name);
    ws.Create(name);
    CreatedHolds(d0, name);
    if !uploaded {
      ws.Remove(name);
      RemoveForgets(d0, name, held);
      return Err(HttpError(BadRequest, "Error uploading video file"));
    }
    ws.Touch(name, filename);
    LastWriteWins(d0, name, held, held + {filename});
    var featureType := PublishedModality(subs, model);
    if featureType.None? {
      return Err(HttpError(BadRequest, "Invalid model"));
    }
    TouchMarkers(ws, name, featureType.value);
    LastWriteWins(d0, name, held + {filename}, held + {filename} + MarkerFiles(featureType.value));
    var manifest := InferenceManifest(name, SubmissionModel.ModalityName(featureType.value),
                                      tmpDir + "/" + name + "/" + filename, tmpDir + "/" + name,
                                      model, ModelPathAsWritten(inferDir));
    var submitted := cluster.Submit(manifest, refusal);
    if submitted.Err? {
      ws.Remove(name);
      RemoveForgets(d0, name, held + {filename} + MarkerFiles(featureType.value));
      return Err(HttpError(BadRequest, "Error submitting workflow"));
    }
    r := Ok(name);
  }

  // ---------------------------------------------------------------------------
  // stream_workflow_events

  predicate Terminal(phase: string)
  {
    phase == "Succeeded" || phase == "Failed" || phase == "Error"
  }

  function PodStatusEvent(pod: string, phase: string): string
  {
    DataEvent("Pod " + pod + " status: " + phase)
  }

  /** The logs event as written: the log text goes into the single `data` line. */
  function LogsEventAsWritten(pod: string, logs: string): string
  {
    DataEvent("Pod " + pod + " logs:\n" + logs)
  }

  /** The logs event with one `data` field per line, so that the client receives the
      header and every line of the log as one event. */
  function LogsEvent(pod: string, logs: string): string
  {
    MultiLineEvent("Pod " + pod + " logs:\n" + logs)
  }

  function WorkflowStatusEvent(name: string, phase: string): string
  {
    DataEvent("Workflow " + name + " status: " + phase)
  }

  function FaultEvent(f: Fault): string
  {
    match f
    case ApiFault(e) => DataEvent("Error Fetching Workflow Status: " + e)
    case OtherFault(e) => DataEvent("Workflow Unexpected Error: " + e)
  }

  /** What a pod scan emits, and the pod phases recorded after it. */
  datatype Scan = Scan(lines: seq<string>, statuses: map<string, string>)

  /** The pod scan: a pod's line is emitted when the pod is new or its phase differs
      from the one recorded, and a failed pod's logs follow its line, inside a single
      `data` field as the service writes them. */
  function PodLines(statuses: map<string, string>, pods: seq<PodEvent>): Scan
  {
    if |pods| == 0 then Scan([], statuses)
    else
      var prev := PodLines(statuses, pods[..|pods| - 1]);
      var e := pods[|pods| - 1];
      if e.pod in prev.statuses && prev.statuses[e.pod] == e.phase then prev
      else
        Scan(prev.lines + [PodStatusEvent(e.pod, e.phase)]
               + (if PodFailed(e.phase) then [LogsEventAsWritten(e.pod, PodLogs(e.pod, e.logs))] else []),
             prev.statuses[e.pod := e.phase])
  }

  predicate DistinctPods(pods: seq<PodEvent>)
  {
    forall k, l :: 0 <= k < l < |pods| ==> pods[k].pod != pods[l].pod
  }

  /** After a scan every pod seen is recorded with its phase, and no other pod is
      added. */
  lemma {:induction false} PodLinesRecords(statuses: map<string, string>, pods: seq<PodEvent>)
    requires DistinctPods(pods)
    ensures forall k :: 0 <= k < |pods| ==>
              pods[k].pod in PodLines(statuses, pods).statuses
              && PodLines(statuses, pods).statuses[pods[k].pod] == pods[k].phase
    ensures forall x :: x in PodLines(statuses, pods).statuses ==>
              x in statuses || exists k :: 0 <= k < |pods| && pods[k].pod == x
  {
    if |pods| > 0 {
      var init, e := pods[..|pods| - 1], pods[|pods| - 1];
      var prev, cur := PodLines(statuses, init).statuses, PodLines(statuses, pods).statuses;
      assert DistinctPods(init) by {
        forall k, l | 0 <= k < l < |init| ensures init[k].pod != init[l].pod {
          assert init[k] == pods[k] && init[l] == pods[l];
        }
      }
      PodLinesRecords(statuses, init);
      PodLinesStep(statuses, pods);
      forall k | 0 <= k < |pods| ensures pods[k].pod in cur && cur[pods[k].pod] == pods[k].phase {
        if k < |pods| - 1 {
          assert init[k] == pods[k] && pods[k].pod != e.pod;
        }
      }
      forall x | x in cur ensures x in statuses || exists k :: 0 <= k < |pods| && pods[k].pod == x {
        if x != e.pod && x !in statuses {
          var k :| 0 <= k < |init| && init[k].pod == x;
          assert pods[k].pod == x;
        }
      }
    }
  }

  /** The last pod of a scan ends recorded with its phase; every other pod keeps what
      the scan of the earlier ones recorded. */
  lemma PodLinesStep(statuses: map<string, string>, pods: seq<PodEvent>)
    requires |pods| > 0
    ensures var prev := PodLines(statuses, pods[..|pods| - 1]).statuses;
            var cur := PodLines(statuses, pods).statuses;
            var e := pods[|pods| - 1];
            && e.pod in cur && cur[e.pod] == e.phase
            && forall x :: x != e.pod ==> (x in cur <==> x in prev) && (x in prev ==> cur[x] == prev[x])
  {
  }

  /** A scan of pods whose phases are all already recorded emits nothing. */
  lemma {:induction false} PodLinesSilent(statuses: map<string, string>, pods: seq<PodEvent>)
    requires forall k :: 0 <= k < |pods| ==> pods[k].pod in statuses && statuses[pods[k].pod] == pods[k].phase
    ensures PodLines(statuses, pods) == Scan([], statuses)
  {
    if |pods| > 0 {
      PodLinesSilent(statuses, pods[..|pods| - 1]);
    }
  }

  /** De-duplication across cycles: when the next cycle reports the same pods in the
      same phases, no pod line is emitted again. */
  lemma RepeatedScanIsSilent(statuses: map<string, string>, pods: seq<PodEvent>)
    requires DistinctPods(pods)
    ensures var after := PodLines(statuses, pods).statuses;
            PodLines(after, pods) == Scan([], after)
  {
    PodLinesRecords(statuses, pods);
    PodLinesSilent(PodLines(statuses, pods).statuses, pods);
  }

  /** A new pod is always announced. */
  lemma NewPodAnnounced(statuses: map<string, string>, e: PodEvent)
    requires e.pod !in statuses
    ensures |PodLines(statuses, [e]).lines| == if PodFailed(e.phase) then 2 else 1
    ensures PodLines(statuses, [e]).lines[0] == PodStatusEvent(e.pod, e.phase)
  {
    assert [e][..0] == [];
  }

  /** One cycle of the loop: its lines, the pod phases after it, and whether the
      stream stops. */
  datatype CycleResult = CycleResult(scan: Scan, stop: bool)

  function CycleLines(name: string, statuses: map<string, string>, c: Cycle): CycleResult
  {
    match c
    case ReadFailed(f) => CycleResult(Scan([FaultEvent(f)], statuses), true)
    case Observed(phase, pods, cut) =>
      var scan := PodLines(statuses, pods);
      if cut.Some? then CycleResult(Scan(scan.lines + [FaultEvent(cut.value)], scan.statuses), true)
      else
        CycleResult(Scan(scan.lines + [WorkflowStatusEvent(name, PhaseOf(phase))], scan.statuses),
                    Terminal(PhaseOf(phase)))
  }

  /** The whole stream over the cycles the watcher observes. */
  function Stream(name: string, statuses: map<string, string>, trace: seq<Cycle>): seq<string>
    decreases |trace|
  {
    if |trace| == 0 then []
    else
      var c := CycleLines(name, statuses, trace[0]);
      c.scan.lines + (if c.stop then [] else Stream(name, c.scan.statuses, trace[1..]))
  }

  /** The stream stops within these cycles. */
  predicate Halts(name: string, statuses: map<string, string>, trace: seq<Cycle>)
    decreases |trace|
  {
    |trace| > 0 &&
    var c := CycleLines(name, statuses, trace[0]);
    c.stop || Halts(name, c.scan.statuses, trace[1..])
  }

  /** Once a cycle has seen a terminal phase or an error, nothing the watcher observes
      afterwards reaches the client. */
  lemma {:induction false} NothingAfterStop(name: string, statuses: map<string, string>, trace: seq<Cycle>, later: seq<Cycle>)
    requires Halts(name, statuses, trace)
    ensures Stream(name, statuses, trace + later) == Stream(name, statuses, trace)
    decreases |trace|
  {
    assert (trace + later)[0] == trace[0];
    var c := CycleLines(name, statuses, trace[0]);
    if !c.stop {
      assert (trace + later)[1..] == trace[1..] + later;
      NothingAfterStop(name, c.scan.statuses, trace[1..], later);
    }
  }

  /** A cycle that is not cut short ends with the workflow's phase; the stream stops
      there exactly when the phase is terminal. */
  lemma CycleEndsWithPhase(name: string, statuses: map<string, string>, phase: Option<string>, pods: seq<PodEvent>)
    ensures var c := CycleLines(name, statuses, Observed(phase, pods, None));
            && |c.scan.lines| > 0
            && c.scan.lines[|c.scan.lines| - 1] == WorkflowStatusEvent(name, PhaseOf(phase))
            && (c.stop <==> PhaseOf(phase) in {"Succeeded", "Failed", "Error"})
  {
  }

  lemma StreamUnfold(name: string, statuses: map<string, string>, trace: seq<Cycle>, i: nat)
    requires i < |trace|
    ensures var c := CycleLines(name, statuses, trace[i]);
            Stream(name, statuses, trace[i..])
            == c.scan.lines + (if c.stop then [] else Stream(name, c.scan.statuses, trace[i + 1..]))
  {
    assert trace[i..][0] == trace[i];
    assert trace[i..][1..] == trace[i + 1..];
  }

  /** The pod scan of one cycle, updating `pod_statuses` in place. */
  method ScanPods(statuses: map<string, string>, pods: seq<PodEvent>) returns (lines: seq<string>, after: map<string, string>)
    ensures Scan(lines, after) == PodLines(statuses, pods)
  {
    lines, after := [], statuses;
    for j := 0 to |pods|
      invariant Scan(lines, after) == PodLines(statuses, pods[..j])
    {
      assert pods[..j + 1][..j] == pods[..j];
      var e := pods[j];
      if e.pod !in after || after[e.pod] != e.phase {
        after := after[e.pod := e.phase];
        lines := lines + [PodStatusEvent(e.pod, e.phase)];
        if PodFailed(e.phase) {
          lines := lines + [LogsEventAsWritten(e.pod, PodLogs(e.pod, e.logs))];
        }
      }
    }
    assert pods[..|pods|] == pods;
  }

  /** One pass of the loop of `stream_workflow_events`: the workflow read, the pod
      scan and the workflow's status line, or the error line that ends the stream. */
  method RunCycle(name: string, statuses: map<string, string>, c: Cycle)
    returns (lines: seq<string>, after: map<string, string>, stop: bool)
    ensures CycleLines(name, statuses, c) == CycleResult(Scan(lines, after), stop)
  {
    match c
    case ReadFailed(f) =>
      return [FaultEvent(f)], statuses, true;
    case Observed(phase, pods, cut) =>
      lines, after := ScanPods(statuses, pods);
      if cut.Some? {
        return lines + [FaultEvent(cut.value)], after, true;
      }
      var workflowPhase := PhaseOf(phase);
      lines := lines + [WorkflowStatusEvent(name, workflowPhase)];
      stop := Terminal(workflowPhase);
  }

  /** A pass of the loop emits the head of the remaining stream. */
  method StreamStep(name: string, statuses: map<string, string>, trace: seq<Cycle>, i: nat)
    returns (lines: seq<string>, after: map<string, string>, stop: bool)
    requires i < |trace|
    ensures Stream(name, statuses, trace[i..]) == lines + (if stop then [] else Stream(name, after, trace[i + 1..]))
  {
    StreamUnfold(name, statuses, trace, i);
    lines, after, stop := RunCycle(name, statuses, trace[i]);
  }

  /** `stream_workflow_events` over the cycles the watcher observes; the watcher is
      stopped however the stream ends. */
  method StreamWorkflowEvents(name: string, trace: seq<Cycle>, watcher: Watcher) returns (events: seq<string>)
    modifies watcher
    ensures watcher.stopped
    ensures events == Stream(name, map[], trace)
  {
    var completed := false;
    var podStatuses: map<string, string> := map[];
    events := [];
    var i := 0;
    assert trace[0..] == trace;
    while !completed && i < |trace|
      invariant 0 <= i <= |trace|
      invariant completed ==> events == Stream(name, map[], trace)
      invariant !completed ==> events + Stream(name, podStatuses, trace[i..]) == Stream(name, map[], trace)
    {
      var lines, after, stop := StreamStep(name, podStatuses, trace, i);
      ghost var before := events;
      events := events + lines;
      if stop {
        assert Stream(name, podStatuses, trace[i..]) == lines;
        completed := true;
      } else {
        ghost var rest := Stream(name, after, trace[i + 1..]);
        assert before + (lines + rest) == events + rest;
        podStatuses := after;
        i := i + 1;
      }
    }
    if !completed {
      assert trace[i..] == [];
    }
    watcher.Stop();
  }

  // ---------------------------------------------------------------------------
  // What the client receives

  /** A status line is received as its text. */
  lemma PodStatusReceived(pod: string, phase: string)
    requires NoNewline(pod) && NoNewline(phase)
    ensures Receive(PodStatusEvent(pod, phase)) == ["Pod " + pod + " status: " + phase]
  {
    DataEventReceived("Pod " + pod + " status: " + phase);
  }

  /** As written, a one-line log the client cannot read as a field of its own is
      dropped: the client's event holds only the header. */
  lemma LogsLostAsWritten(pod: string, logs: string)
    requires NoNewline(pod) && NoNewline(logs)
    requires logs != "" && logs[0] != ':' && FieldName(logs) != "data"
    ensures Receive(LogsEventAsWritten(pod, logs)) == ["Pod " + pod + " logs:"]
  {
    var header := "Pod " + pod + " logs:";
    var first := DataPrefix + header;
    var lines := [first, logs, ""];
    LogsEventAsWrittenLines(pod, logs);
    assert NoNewline(first);
    assert LinesWithoutNewline(lines) by {
      forall k | 0 <= k < 3 ensures NoNewline(lines[k]) {
        if k == 2 { assert lines[k] == ""; }
      }
    }
    ReceiveUnlines(lines);
    DataLineField(header);
    assert first[0] == 'd';
    assert lines[1..] == [logs, ""] && lines[1..][1..] == [""];
    assert lines[0] != "" && lines[0][0] != ':' && FieldName(lines[0]) == "data" && FieldValue(lines[0]) == header;
    assert [] + [header] == [header];
    calc {
      Dispatch(lines, []);
      Dispatch(lines[1..], [] + [header]);
      Dispatch([logs, ""], [header]);
      Dispatch([""], [header]);
      [Join([header], '\n')];
    }
  }

  /** The logs event as written is the header line, the log, and the blank line. */
  lemma LogsEventAsWrittenLines(pod: string, logs: string)
    ensures LogsEventAsWritten(pod, logs) == Unlines([DataPrefix + ("Pod " + pod + " logs:"), logs, ""])
  {
    var lines := [DataPrefix + ("Pod " + pod + " logs:"), logs, ""];
    assert Unlines([""]) == "\n";
    assert Unlines([logs, ""]) == logs + "\n" + "\n";
    assert lines[1..] == [logs, ""];
    assert LogsEventAsWritten(pod, logs) == lines[0] + "\n" + logs + "\n\n";
  }

  /** For instance, a pod whose log is "boom" reaches the client as "Pod p logs:". */
  lemma LogsLostExample()
    ensures Receive(LogsEventAsWritten("p", "boom")) == ["Pod p logs:"]
  {
    assert FirstColon("boom") == None;
    LogsLostAsWritten("p", "boom");
    assert "Pod " + "p" + " logs:" == "Pod p logs:";
  }

  /** With one field per line, the client receives the header and the whole log. */
  lemma LogsReceived(pod: string, logs: string)
    ensures Receive(LogsEvent(pod, logs)) == ["Pod " + pod + " logs:\n" + logs]
  {
    MultiLineEventReceived("Pod " + pod + " logs:\n" + logs);
  }
}

=== FILE: orchestrator.dfy ===
/** The outside world the inference and evaluation services drive: the scratch
    directories under the temporary root, the Argo workflow API, the pod watcher and
    the pod log reader. Each is reduced to the state the services read or change: the
    files each scratch directory holds, and the workflow calls made. */
module Orchestrator {

  import opened Common
  import Text
  import SubmissionModel

  /** The scratch directories `TMP_DIR/<workflow name>`: for each one that exists, the
      names of the files in it. */
  class Workspaces {
    var dirs: map<string, set<string>>

    constructor ()
      ensures dirs == map[]
    {
      dirs := map[];
    }

    predicate Exists(name: string)
      reads this
    {
      name in dirs
    }

    /** `mkdir(parents=True, exist_ok=True)`: an existing directory is left as it is. */
    method Create(name: string)
      modifies this
      ensures name in dirs
      ensures dirs == if name in old(dirs) then old(dirs) else old(dirs)[name := {}]
    {
      if name !in dirs {
        dirs := dirs[name := {}];
      }
    }

    /** `(data_path / file).touch()`, or writing a file there. */
    method Touch(name: string, file: string)
      requires name in dirs
      modifies this
      ensures dirs == old(dirs)[name := old(dirs)[name] + {file}]
    {
      dirs := dirs[name := dirs[name] + {file}];
    }

    /** `remove_tmp_data`: the directory and all in it go, if it is there; a failure to
        remove is swallowed. */
    method Remove(name: string)
      modifies this
      ensures dirs == old(dirs) - {name}
      ensures !Exists(name)
    {
      dirs := dirs - {name};
    }
  }

  /** The files in a scratch directory; none when it does not exist. */
  function FilesIn(dirs: map<string, set<string>>, name: string): set<string>
  {
    if name in dirs then dirs[name] else {}
  }

  /** Creating a directory leaves it holding what it held, or nothing when it is new. */
  lemma CreatedHolds(dirs: map<string, set<string>>, name: string)
    ensures (if name in dirs then dirs else dirs[name := {}]) == dirs[name := FilesIn(dirs, name)]
  {
  }

  /** Removing a directory forgets whatever was last written to it. */
  lemma RemoveForgets(dirs: map<string, set<string>>, name: string, files: set<string>)
    ensures dirs[name := files] - {name} == dirs - {name}
  {
  }

  /** Removing a directory twice is removing it once. */
  lemma RemoveTwice(dirs: map<string, set<string>>, name: string)
    ensures dirs - {name} - {name} == dirs - {name}
  {
  }

  /** Only the last contents written to a directory remain. */
  lemma LastWriteWins(dirs: map<string, set<string>>, name: string, files: set<string>, later: set<string>)
    ensures dirs[name := files][name := later] == dirs[name := later]
  {
  }

  /** The feature list files a workflow for the modality expects in its directory:
      `rgb.list`, and `audio.list` too when the model also uses sound. */
  function MarkerFiles(m: SubmissionModel.Modality): (files: set<string>)
    ensures "rgb.list" in files
    ensures "audio.list" in files <==> m == SubmissionModel.RgbAndAudio
    ensures files <= {"rgb.list", "audio.list"}
  {
    match m
    case RgbOnly => {"rgb.list"}
    case RgbAndAudio => {"rgb.list", "audio.list"}
  }

  /** The `match feature_type` of both services: touching the modality's list files. */
  method TouchMarkers(ws: Workspaces, name: string, m: SubmissionModel.Modality)
    requires name in ws.dirs
    modifies ws
    ensures ws.dirs == old(ws.dirs)[name := old(ws.dirs)[name] + MarkerFiles(m)]
  {
    match m
    case RgbOnly =>
      ws.Touch(name, "rgb.list");
    case RgbAndAudio =>
      ws.Touch(name, "rgb.list");
      ws.Touch(name, "audio.list");
      assert old(ws.dirs)[name] + {"rgb.list"} + {"audio.list"} == old(ws.dirs)[name] + MarkerFiles(m);
  }

  /** One `{"name": ..., "value": ...}` entry of a workflow's arguments. */
  datatype Param = Param(name: string, value: string)

  /** The parts of a workflow manifest the services fill in. */
  datatype Manifest = Manifest(name: string, namespace: string, template: string, parameters: seq<Param>)

  /** The value of the first parameter with the name. */
  function ParamValue(ps: seq<Param>, name: string): (v: Option<string>)
    ensures v.None? <==> forall k :: 0 <= k < |ps| ==> ps[k].name != name
  {
    if |ps| == 0 then None
    else if ps[0].name == name then Some(ps[0].value)
    else ParamValue(ps[1..], name)
  }

  /** A value found belongs to a parameter with the name. */
  lemma {:induction false} ParamValueFound(ps: seq<Param>, name: string)
    requires ParamValue(ps, name).Some?
    ensures exists k :: 0 <= k < |ps| && ps[k] == Param(name, ParamValue(ps, name).value)
  {
    if ps[0].name != name {
      ParamValueFound(ps[1..], name);
      var k :| 0 <= k < |ps[1..]| && ps[1..][k] == Param(name, ParamValue(ps[1..], name).value);
      assert ps[k + 1] == ps[1..][k];
    }
  }

  /** A parameter is read back when no earlier one has its name. */
  lemma {:induction false} ParamValueAt(ps: seq<Param>, k: nat)
    requires k < |ps|
    requires forall j :: 0 <= j < k ==> ps[j].name != ps[k].name
    ensures ParamValue(ps, ps[k].name) == Some(ps[k].value)
  {
    if k > 0 {
      ParamValueAt(ps[1..], k - 1);
    }
  }

  /** With distinct names, every parameter is read back. */
  lemma ParamsReadBack(ps: seq<Param>)
    requires forall j, k :: 0 <= j < k < |ps| ==> ps[j].name != ps[k].name
    ensures forall k :: 0 <= k < |ps| ==> ParamValue(ps, ps[k].name) == Some(ps[k].value)
  {
    forall k | 0 <= k < |ps| ensures ParamValue(ps, ps[k].name) == Some(ps[k].value) {
      ParamValueAt(ps, k);
    }
  }

  /** Five parameters with distinct names each read back, and a sixth name is absent. */
  lemma ReadBackFive(p0: Param, p1: Param, p2: Param, p3: Param, p4: Param, absent: string)
    requires forall j, k :: 0 <= j < k < 5 ==> [p0, p1, p2, p3, p4][j].name != [p0, p1, p2, p3, p4][k].name
    requires absent !in {p0.name, p1.name, p2.name, p3.name, p4.name}
    ensures var ps := [p0, p1, p2, p3, p4];
            && ParamValue(ps, p0.name) == Some(p0.value) && ParamValue(ps, p1.name) == Some(p1.value)
            && ParamValue(ps, p2.name) == Some(p2.value) && ParamValue(ps, p3.name) == Some(p3.value)
            && ParamValue(ps, p4.name) == Some(p4.value) && ParamValue(ps, absent) == None
  {
    var ps := [p0, p1, p2, p3, p4];
    ParamsReadBack(ps);
    assert ps[0] == p0 && ps[1] == p1 && ps[2] == p2 && ps[3] == p3 && ps[4] == p4;
  }

  /** Four parameters with distinct names each read back, and a fifth name is absent. */
  lemma ReadBackFour(p0: Param, p1: Param, p2: Param, p3: Param, absent: string)
    requires forall j, k :: 0 <= j < k < 4 ==> [p0, p1, p2, p3][j].name != [p0, p1, p2, p3][k].name
    requires absent !in {p0.name, p1.name, p2.name, p3.name}
    ensures var ps := [p0, p1, p2, p3];
            && ParamValue(ps, p0.name) == Some(p0.value) && ParamValue(ps, p1.name) == Some(p1.value)
            && ParamValue(ps, p2.name) == Some(p2.value) && ParamValue(ps, p3.name) == Some(p3.value)
            && ParamValue(ps, absent) == None
  {
    var ps := [p0, p1, p2, p3];
    ParamsReadBack(ps);
    assert ps[0] == p0 && ps[1] == p1 && ps[2] == p2 && ps[3] == p3;
  }

  const ArgoNamespace: string := "argo"

  /** The workflow calls made on the Argo API, in order. */
  class Cluster {
    var created: seq<Manifest>
    var terminated: seq<string>
    var deleted: seq<string>

    constructor ()
      ensures created == [] && terminated == [] && deleted == []
    {
      created, terminated, deleted := [], [], [];
    }

    /** `create_namespaced_custom_object` in `create_and_submit_workflow` (and its
        evaluation twin): `refusal` is the API exception the call may raise, which
        becomes a 400. */
    method Submit(m: Manifest, refusal: Option<string>) returns (r: Result<(), HttpError>)
      modifies this
      ensures terminated == old(terminated) && deleted == old(deleted)
      ensures refusal.Some? ==>
                r == Err(HttpError(BadRequest, "Error submitting workflow: " + refusal.value)) && created == old(created)
      ensures refusal.None? ==> r == Ok(()) && created == old(created) + [m]
    {
      if refusal.Some? {
        return Err(HttpError(BadRequest, "Error submitting workflow: " + refusal.value));
      }
      created := created + [m];
      r := Ok(());
    }

    /** `terminate_workflow`: the shutdown patch; an API error is swallowed. */
    method Terminate(name: string)
      modifies this
      ensures terminated == old(terminated) + [name]
      ensures created == old(created) && deleted == old(deleted)
    {
      terminated := terminated + [name];
    }

    /** `delete_workflow`: an API error is swallowed. */
    method Delete(name: string)
      modifies this
      ensures deleted == old(deleted) + [name]
      ensures created == old(created) && terminated == old(terminated)
    {
      deleted := deleted + [name];
    }
  }

  /** The pod watcher; `stop` ends its stream. */
  class Watcher {
    var stopped: bool

    constructor ()
      ensures !stopped
    {
      stopped := false;
    }

    method Stop()
      modifies this
      ensures stopped
    {
      stopped := true;
    }
  }

  /** `fetch_pod_logs`: the pod's log, or, when reading it raised an API exception
      (`read` is then that exception's text), a message naming the pod. */
  function PodLogs(pod: string, read: Result<string, string>): (logs: string)
  {
    match read
    case Ok(text) => text
    case Err(e) => "Error fetching logs for pod " + pod + ": " + e + "\n\n"
  }

  /** What one watch cycle observed. The workflow read may raise; otherwise it gives
      the workflow's phase (None when the object has no status or its status no phase),
      then the pod events the watcher streamed, and the exception, if any, that cut the
      stream short. */
  datatype Fault = ApiFault(text: string) | OtherFault(text: string)

  datatype PodEvent = PodEvent(pod: string, phase: string, logs: Result<string, string>)

  datatype Cycle =
    | ReadFailed(fault: Fault)
    | Observed(phase: Option<string>, pods: seq<PodEvent>, cut: Option<Fault>)

  /** `workflow_status.get('phase', 'Unknown')`, and 'Unknown' without a status. */
  function PhaseOf(phase: Option<string>): (p: string)
    ensures phase.Some? ==> p == phase.value
    ensures phase.None? ==> p == "Unknown"
  {
    if phase.Some? then phase.value else "Unknown"
  }

  predicate PodFailed(phase: string)
  {
    phase == "Failed" || phase == "Error"
  }

  /** `str(e)` of an HTTPException, as Starlette renders it. */
  function ErrorText(e: HttpError): string
  {
    Text.NatToString(e.code) + ": " + e.detail
  }
}

=== FILE: score_controller.dfy ===
/** The leaderboard: the weighted mean of the six metric averages, the rank of a
    submission, the best submissions of a dataset, the single best submission, the mean
    metrics of one submission, and the guarded score update. */
module ScoreController {

  import opened Common
  import BaseCrud
  import opened ScoreModel
  import SubmissionModel
  import ScoreService
  import Text
  import opened Sorting

  // ---------------------------------------------------------------------------
  // Weights

  /** The weight of each metric, in `MetricFields` order. */
  const Weights: seq<real> := [0.2, 0.2, 0.2, 0.2, 0.1, 0.1]

  function Total(ws: seq<real>): real
  {
    if |ws| == 0 then 0.0 else ws[0] + Total(ws[1..])
  }

  /** One weight per metric, and they sum to one. */
  lemma WeightsSumToOne()
    ensures |Weights| == |MetricFields|
    ensures Total(Weights) == 1.0
  {
  }

  /** `sum(value * weight for ...)`, term by term. */
  function Dot(xs: seq<real>, ws: seq<real>): real
    requires |xs| == |ws|
  {
    if |xs| == 0 then 0.0 else xs[0] * ws[0] + Dot(xs[1..], ws[1..])
  }

  function WeightedMean(values: seq<real>): real
    requires |values| == |Weights|
  {
    Dot(values, Weights)
  }

  /** The weighted mean written out. */
  lemma WeightedMeanTerms(a: seq<real>)
    requires |a| == |Weights|
    ensures WeightedMean(a) == 0.2 * a[0] + 0.2 * a[1] + 0.2 * a[2] + 0.2 * a[3] + 0.1 * a[4] + 0.1 * a[5]
  {
    DotStep(a, Weights, 5);
    DotStep(a, Weights, 4);
    DotStep(a, Weights, 3);
    DotStep(a, Weights, 2);
    DotStep(a, Weights, 1);
    DotStep(a, Weights, 0);
    assert a[6..] == [] && Weights[6..] == [];
    assert a[0..] == a && Weights[0..] == Weights;
  }

  lemma DotStep(xs: seq<real>, ws: seq<real>, i: nat)
    requires |xs| == |ws| && i < |xs|
    ensures Dot(xs[i..], ws[i..]) == xs[i] * ws[i] + Dot(xs[i + 1..], ws[i + 1..])
  {
    assert xs[i..][1..] == xs[i + 1..] && ws[i..][1..] == ws[i + 1..];
  }

  /** Six equal metrics have that value as their weighted mean. */
  lemma WeightedMeanOfConstant(c: real)
    ensures WeightedMean([c, c, c, c, c, c]) == c
  {
    WeightedMeanTerms([c, c, c, c, c, c]);
  }

  /** Metrics in [0, 1] give a weighted mean in [0, 1]. */
  lemma WeightedMeanUnit(a: seq<real>)
    requires |a| == |Weights|
    requires forall k :: 0 <= k < |a| ==> 0.0 <= a[k] <= 1.0
    ensures 0.0 <= WeightedMean(a) <= 1.0
  {
    WeightedMeanTerms(a);
  }

  /** Improving any metric never lowers the weighted mean. */
  lemma WeightedMeanMonotone(a: seq<real>, b: seq<real>)
    requires |a| == |Weights| && |b| == |Weights|
    requires forall k :: 0 <= k < |a| ==> a[k] <= b[k]
    ensures WeightedMean(a) <= WeightedMean(b)
  {
    WeightedMeanTerms(a);
    WeightedMeanTerms(b);
  }

  // ---------------------------------------------------------------------------
  // Rank of a submission

  /** `{"id": score[0], "weighted_mean": ...}`. */
  datatype Ranked = Ranked(id: BaseCrud.Value, mean: real)

  function MeanOf(r: Ranked): real { r.mean }

  predicate SixAggregates(groups: seq<BaseCrud.Group>)
  {
    forall k :: 0 <= k < |groups| ==> |groups[k].aggregates| == |Weights|
  }

  predicate DistinctKeys(groups: seq<BaseCrud.Group>)
  {
    forall i, j :: 0 <= i < j < |groups| ==> groups[i].key != groups[j].key
  }

  function Entries(groups: seq<BaseCrud.Group>): (rs: seq<Ranked>)
    requires SixAggregates(groups)
    ensures |rs| == |groups|
    ensures forall k :: 0 <= k < |groups| ==> rs[k] == Ranked(groups[k].key, WeightedMean(groups[k].aggregates))
  {
    seq(|groups|, k requires 0 <= k < |groups| => Ranked(groups[k].key, WeightedMean(groups[k].aggregates)))
  }

  /** Index of the first entry with the given id. */
  function FirstWithId(rs: seq<Ranked>, id: BaseCrud.Value): (i: Option<nat>)
    ensures i.Some? ==>
              && i.value < |rs| && rs[i.value].id == id
              && forall j :: 0 <= j < i.value ==> rs[j].id != id
    ensures i.None? ==> forall j :: 0 <= j < |rs| ==> rs[j].id != id
  {
    if |rs| == 0 then None
    else if rs[0].id == id then Some(0)
    else match FirstWithId(rs[1..], id)
      case None => None
      case Some(k) => Some(k + 1)
  }

  /** One plus the index of the submission in the groups sorted by descending weighted
      mean; None when it has no group. */
  function RankIn(groups: seq<BaseCrud.Group>, submissionId: nat): Option<nat>
    requires SixAggregates(groups)
  {
    match FirstWithId(SortDesc(Entries(groups), MeanOf), BaseCrud.IntVal(submissionId))
    case None => None
    case Some(i) => Some(i + 1)
  }

  /** The ranking loop shared by `get_submission_rank` and
      `get_submission_rank_for_dataset`. */
  method RankAmong(groups: seq<BaseCrud.Group>, submissionId: nat) returns (rank: Option<nat>)
    requires SixAggregates(groups)
    ensures rank == RankIn(groups, submissionId)
  {
    var ranked: seq<Ranked> := [];
    for i := 0 to |groups|
      invariant ranked == Entries(groups[..i])
    {
      ranked := ranked + [Ranked(groups[i].key, WeightedMean(groups[i].aggregates))];
    }
    assert groups[..|groups|] == groups;
    var sorted := SortDesc(ranked, MeanOf);
    var index := 0;
    while index < |sorted|
      invariant 0 <= index <= |sorted|
      invariant forall j :: 0 <= j < index ==> sorted[j].id != BaseCrud.IntVal(submissionId)
    {
      if sorted[index].id == BaseCrud.IntVal(submissionId) {
        return Some(index + 1);
      }
      index := index + 1;
    }
    return None;
  }

  /** `get_submission_rank`: the rank among every submission with a successful score,
      published or not. */
  method SubmissionRank(rows: seq<Score>, submissionId: nat) returns (rank: Option<nat>)
    ensures rank == RankIn(ScoreService.GroupedScores(rows, None, None), submissionId)
  {
    var groups := ScoreService.GroupedScores(rows, None, None);
    rank := RankAmong(groups, submissionId);
  }

  /** `get_submission_rank_for_dataset`: the same ranking on one dataset's scores. */
  method SubmissionRankForDataset(rows: seq<Score>, submissionId: nat, datasetId: nat) returns (rank: Option<nat>)
    ensures rank == RankIn(ScoreService.GroupedScores(rows, None, Some(datasetId)), submissionId)
  {
    var groups := ScoreService.GroupedScores(rows, None, Some(datasetId));
    rank := RankAmong(groups, submissionId);
  }

  /** A rank exists exactly for a submission with a group, and lies between 1 and the
      number of groups. */
  lemma RankPresence(groups: seq<BaseCrud.Group>, submissionId: nat)
    requires SixAggregates(groups)
    ensures RankIn(groups, submissionId).None?
            <==> forall k :: 0 <= k < |groups| ==> groups[k].key != BaseCrud.IntVal(submissionId)
    ensures RankIn(groups, submissionId).Some? ==> 1 <= RankIn(groups, submissionId).value <= |groups|
  {
    var es := Entries(groups);
    var sorted := SortDesc(es, MeanOf);
    var id := BaseCrud.IntVal(submissionId);
    SortDescPermutes(es, MeanOf);
    match FirstWithId(sorted, id)
    case None =>
      forall k | 0 <= k < |groups| ensures groups[k].key != id {
        assert es[k] in multiset(sorted);
      }
    case Some(i) =>
      assert sorted[i] in multiset(es);
  }

  /** The stable ranking: with one group per submission, a submission's rank is one
      plus the number of groups with a higher weighted mean plus the number of groups
      with an equal one that come before it in query order. */
  lemma {:induction false} RankIsPosition(groups: seq<BaseCrud.Group>, submissionId: nat, k: nat)
    requires SixAggregates(groups) && DistinctKeys(groups)
    requires k < |groups| && groups[k].key == BaseCrud.IntVal(submissionId)
    ensures RankIn(groups, submissionId) == Some(1 + Position(Entries(groups), MeanOf, k))
  {
    var es := Entries(groups);
    var sorted := SortDesc(es, MeanOf);
    var id := BaseCrud.IntVal(submissionId);
    var p := Position(es, MeanOf, k);
    SortPosition(es, MeanOf, k);
    assert sorted[p].id == id;
    var i := FirstWithId(sorted, id).value;
    EntriesDistinct(groups);
    SortDescPermutes(es, MeanOf);
    UniqueIdInPermutation(es, sorted, i, p);
  }

  lemma EntriesDistinct(groups: seq<BaseCrud.Group>)
    requires SixAggregates(groups) && DistinctKeys(groups)
    ensures var es := Entries(groups); forall i, j :: 0 <= i < j < |es| ==> es[i].id != es[j].id
  {
  }

  /** In a permutation of entries with distinct ids, an id sits at one index only. */
  lemma UniqueIdInPermutation(es: seq<Ranked>, sorted: seq<Ranked>, i: nat, p: nat)
    requires multiset(sorted) == multiset(es)
    requires forall a, b :: 0 <= a < b < |es| ==> es[a].id != es[b].id
    requires i < |sorted| && p < |sorted| && sorted[i].id == sorted[p].id
    ensures i == p
  {
    if i != p {
      assert sorted[i] in multiset(es) && sorted[p] in multiset(es);
      var a :| 0 <= a < |es| && es[a] == sorted[i];
      var b :| 0 <= b < |es| && es[b] == sorted[p];
      assert a == b;
      if i < p { TwoCopies(sorted, i, p); } else { TwoCopies(sorted, p, i); }
      SingleCopies(es, es[a]);
      assert false;
    }
  }

  lemma TwoCopies<T>(s: seq<T>, i: nat, p: nat)
    requires i < p < |s| && s[i] == s[p]
    ensures multiset(s)[s[i]] >= 2
  {
    assert s == s[..p] + s[p..];
    assert s[i] in s[..p];
    assert s[p] in s[p..];
  }

  lemma {:induction false} SingleCopies(es: seq<Ranked>, e: Ranked)
    requires forall i, j :: 0 <= i < j < |es| ==> es[i].id != es[j].id
    ensures multiset(es)[e] <= 1
  {
    if |es| > 0 {
      var init, last := es[..|es| - 1], es[|es| - 1];
      assert es == init + [last];
      SingleCopies(init, e);
      if e == last {
        assert e !in init;
      }
    }
  }

  // ---------------------------------------------------------------------------
  // Best submissions of a dataset

  /** One leaderboard row: the submission's public fields, its six averages and their
      weighted mean. */
  datatype BestEntry = BestEntry(
    id: nat,
    title: string,
    accessor: string,
    resourceTitle: string,
    resourceUrl: string,
    repositoryUrl: string,
    aggregates: seq<real>,
    mean: real)

  function EntryMean(e: BestEntry): real { e.mean }

  /** `Submission.get(id=score[0])`. */
  function SubmissionOf(key: BaseCrud.Value, subs: seq<SubmissionModel.Submission>): Option<SubmissionModel.Submission>
  {
    if key.IntVal? && key.i >= 0 then SubmissionModel.Lookup(subs, key.i) else None
  }

  function EntryOf(g: BaseCrud.Group, s: SubmissionModel.Submission): BestEntry
    requires |g.aggregates| == |Weights|
  {
    BestEntry(s.id, s.title, s.accessor, s.resourceTitle, s.resourceUrl, s.repositoryUrl,
              g.aggregates, WeightedMean(g.aggregates))
  }

  function Prepend<T>(front: seq<T>, r: Result<seq<T>, HttpError>): Result<seq<T>, HttpError>
  {
    match r
    case Ok(rest) => Ok(front + rest)
    case Err(e) => Err(e)
  }

  /** The loop of `get_best_submissions` from group `i` on, with `count` entries taken:
      stop once `count` equals the limit, fail on a group whose submission cannot be
      read, skip unpublished submissions. */
  function Collect(groups: seq<BaseCrud.Group>, subs: seq<SubmissionModel.Submission>, limit: Option<int>,
                   i: nat, count: nat)
    : (r: Result<seq<BestEntry>, HttpError>)
    requires SixAggregates(groups) && i <= |groups|
    ensures r.Err? ==> r.error == InternalError
    ensures limit == Some(count as int) ==> r == Ok([])
    decreases |groups| - i
  {
    if i == |groups| then Ok([])
    else if limit == Some(count as int) then Ok([])
    else
      var sub := SubmissionOf(groups[i].key, subs);
      if sub.None? then Err(InternalError)
      else if sub.value.status != SubmissionModel.Published then Collect(groups, subs, limit, i + 1, count)
      else Prepend([EntryOf(groups[i], sub.value)], Collect(groups, subs, limit, i + 1, count + 1))
  }

  /** Only published submissions are collected, and no more than the limit allows. */
  lemma {:induction false} CollectFacts(groups: seq<BaseCrud.Group>, subs: seq<SubmissionModel.Submission>,
                                        limit: Option<int>, i: nat, count: nat)
    requires SixAggregates(groups) && i <= |groups|
    ensures var r := Collect(groups, subs, limit, i, count);
            r.Ok? ==> forall e :: e in r.value ==> SubmissionModel.IsPublished(subs, e.id)
    ensures var r := Collect(groups, subs, limit, i, count);
            r.Ok? && limit.Some? && count <= limit.value ==> |r.value| <= limit.value - count
    decreases |groups| - i
  {
    if i < |groups| && limit != Some(count as int) {
      var sub := SubmissionOf(groups[i].key, subs);
      if sub.Some? && sub.value.status != SubmissionModel.Published {
        CollectFacts(groups, subs, limit, i + 1, count);
      } else if sub.Some? {
        CollectFacts(groups, subs, limit, i + 1, count + 1);
      }
    }
  }

  /** The group's submission can be read and is published. */
  predicate PublishedGroup(g: BaseCrud.Group, subs: seq<SubmissionModel.Submission>)
  {
    var s := SubmissionOf(g.key, subs);
    s.Some? && s.value.status == SubmissionModel.Published
  }

  /** The entry `get_best_submissions` builds for a published group. */
  function GroupEntry(g: BaseCrud.Group, subs: seq<SubmissionModel.Submission>): BestEntry
    requires |g.aggregates| == |Weights| && PublishedGroup(g, subs)
  {
    EntryOf(g, SubmissionOf(g.key, subs).value)
  }

  /** The number of published groups in `groups[i..j]`. */
  function PublishedBetween(groups: seq<BaseCrud.Group>, subs: seq<SubmissionModel.Submission>, i: nat, j: nat): nat
    requires i <= j <= |groups|
    decreases j - i
  {
    if i == j then 0
    else (if PublishedGroup(groups[i], subs) then 1 else 0) + PublishedBetween(groups, subs, i + 1, j)
  }

  /** The walk, started with `count` entries taken, has not met `count == limit` by
      the time it has passed `passed` more published groups: the counts it checks are
      `count` to `count + passed`. */
  predicate LimitOpen(limit: Option<int>, count: nat, passed: nat)
  {
    limit.None? || limit.value < count || limit.value > count + passed
  }

  /** Nothing is left out before the cut: a published group reached before the count
      meets the limit has its entry collected. */
  lemma {:induction false} CollectComplete(groups: seq<BaseCrud.Group>, subs: seq<SubmissionModel.Submission>,
                                           limit: Option<int>, i: nat, count: nat, j: nat)
    requires SixAggregates(groups) && i <= j < |groups|
    requires PublishedGroup(groups[j], subs) && LimitOpen(limit, count, PublishedBetween(groups, subs, i, j))
    ensures var r := Collect(groups, subs, limit, i, count);
            r.Ok? ==> GroupEntry(groups[j], subs) in r.value
    decreases |groups| - i
  {
    var sub := SubmissionOf(groups[i].key, subs);
    if sub.Some? && i < j {
      if sub.value.status != SubmissionModel.Published {
        CollectComplete(groups, subs, limit, i + 1, count, j);
      } else {
        CollectComplete(groups, subs, limit, i + 1, count + 1, j);
      }
    }
  }

  /** Entry `e` is that of group `j`, a published group the walk from group `i` with
      `count` taken reaches before the count meets the limit. */
  predicate CollectedFrom(groups: seq<BaseCrud.Group>, subs: seq<SubmissionModel.Submission>,
                          limit: Option<int>, i: nat, count: nat, j: nat, e: BestEntry)
  {
    && i <= j < |groups| && |groups[j].aggregates| == |Weights| && PublishedGroup(groups[j], subs)
    && LimitOpen(limit, count, PublishedBetween(groups, subs, i, j))
    && e == GroupEntry(groups[j], subs)
  }

  /** Group `i` passed without meeting the limit, an entry collected from `i + 1` on is
      collected from `i` on. */
  lemma CollectedFromEarlier(groups: seq<BaseCrud.Group>, subs: seq<SubmissionModel.Submission>,
                             limit: Option<int>, i: nat, count: nat, after: nat, next: nat, e: BestEntry)
    requires i < |groups| && after == i + 1 && limit != Some(count as int)
    requires next == count + (if PublishedGroup(groups[i], subs) then 1 else 0)
    requires exists j :: CollectedFrom(groups, subs, limit, after, next, j, e)
    ensures exists j :: CollectedFrom(groups, subs, limit, i, count, j, e)
  {
    var j :| CollectedFrom(groups, subs, limit, after, next, j, e);
    assert PublishedBetween(groups, subs, i, j)
        == (if PublishedGroup(groups[i], subs) then 1 else 0) + PublishedBetween(groups, subs, i + 1, j);
    assert CollectedFrom(groups, subs, limit, i, count, j, e);
  }

  /** Nothing else is collected: each entry is that of a published group reached
      before the count met the limit. */
  lemma {:induction false} CollectSound(groups: seq<BaseCrud.Group>, subs: seq<SubmissionModel.Submission>,
                                        limit: Option<int>, i: nat, count: nat)
    requires SixAggregates(groups) && i <= |groups|
    ensures var r := Collect(groups, subs, limit, i, count);
            r.Ok? ==> forall e :: e in r.value ==> exists j :: CollectedFrom(groups, subs, limit, i, count, j, e)
    decreases |groups| - i
  {
    var r := Collect(groups, subs, limit, i, count);
    if i < |groups| && limit != Some(count as int) && r.Ok? {
      var published := PublishedGroup(groups[i], subs);
      var next := count + (if published then 1 else 0);
      var after := i + 1;
      var rest := Collect(groups, subs, limit, after, next);
      CollectSound(groups, subs, limit, after, next);
      assert rest.Ok?;
      assert forall e :: e in rest.value ==> exists j :: CollectedFrom(groups, subs, limit, after, next, j, e);
      if published {
        assert r == Prepend([GroupEntry(groups[i], subs)], rest);
      } else {
        assert r == rest;
      }
      forall e | e in r.value
        ensures exists j :: CollectedFrom(groups, subs, limit, i, count, j, e)
      {
        if published && e == GroupEntry(groups[i], subs) {
          assert PublishedBetween(groups, subs, i, i) == 0;
          assert CollectedFrom(groups, subs, limit, i, count, i, e);
        } else {
          assert e in rest.value;
          CollectedFromEarlier(groups, subs, limit, i, count, after, next, e);
        }
      }
    }
  }

  /** `get_best_submissions` as written: the first `limit` published groups in query
      order, then sorted by descending weighted mean. */
  function BestAsWritten(groups: seq<BaseCrud.Group>, subs: seq<SubmissionModel.Submission>, limit: Option<int>)
    : Result<seq<BestEntry>, HttpError>
    requires SixAggregates(groups)
  {
    match Collect(groups, subs, limit, 0, 0)
    case Err(e) => Err(e)
    case Ok(kept) => Ok(SortDesc(kept, EntryMean))
  }

  method GetBestSubmissions(rows: seq<Score>, subs: seq<SubmissionModel.Submission>, limit: Option<int>,
                            datasetId: Option<nat>)
    returns (r: Result<seq<BestEntry>, HttpError>)
    ensures r == BestAsWritten(ScoreService.GroupedScores(rows, None, datasetId), subs, limit)
    ensures r.Ok? ==> SortedDesc(r.value, EntryMean)
    ensures r.Ok? ==> forall e :: e in r.value ==> SubmissionModel.IsPublished(subs, e.id)
    ensures r.Ok? && limit.Some? && limit.value >= 0 ==> |r.value| <= limit.value
    ensures var groups := ScoreService.GroupedScores(rows, None, datasetId);
            r.Ok? ==> forall j :: 0 <= j < |groups| && PublishedGroup(groups[j], subs)
                                 && LimitOpen(limit, 0, PublishedBetween(groups, subs, 0, j))
                                 ==> GroupEntry(groups[j], subs) in r.value
    ensures var groups := ScoreService.GroupedScores(rows, None, datasetId);
            r.Ok? ==> forall e :: e in r.value ==> exists j :: CollectedFrom(groups, subs, limit, 0, 0, j, e)
  {
    var groups := ScoreService.GroupedScores(rows, None, datasetId);
    var kept := CollectGroups(groups, subs, limit);
    match kept {
      case Err(e) =>
        r := Err(e);
      case Ok(ranked) =>
        r := Ok(SortDesc(ranked, EntryMean));
        CollectFacts(groups, subs, limit, 0, 0);
        CollectSound(groups, subs, limit, 0, 0);
        SortDescPermutes(ranked, EntryMean);
        forall e | e in r.value
          ensures SubmissionModel.IsPublished(subs, e.id)
          ensures exists j :: CollectedFrom(groups, subs, limit, 0, 0, j, e)
        {
          assert e in multiset(ranked);
        }
        forall j | 0 <= j < |groups| && PublishedGroup(groups[j], subs)
                   && LimitOpen(limit, 0, PublishedBetween(groups, subs, 0, j))
          ensures GroupEntry(groups[j], subs) in r.value
        {
          CollectComplete(groups, subs, limit, 0, 0, j);
          assert GroupEntry(groups[j], subs) in multiset(r.value);
        }
    }
  }

  /** The loop of `get_best_submissions` over the grouped rows. */
  method CollectGroups(groups: seq<BaseCrud.Group>, subs: seq<SubmissionModel.Submission>, limit: Option<int>)
    returns (r: Result<seq<BestEntry>, HttpError>)
    requires SixAggregates(groups)
    ensures r == Collect(groups, subs, limit, 0, 0)
  {
    var count: nat := 0;
    var ranked: seq<BestEntry> := [];
    var i := 0;
    PrependNothing(Collect(groups, subs, limit, 0, 0));
    while i < |groups|
      invariant 0 <= i <= |groups|
      invariant Collect(groups, subs, limit, 0, 0) == Prepend(ranked, Collect(groups, subs, limit, i, count))
    {
      if limit == Some(count as int) {
        break;
      }
      var sub := SubmissionOf(groups[i].key, subs);
      if sub.None? {
        return Err(InternalError);
      }
      if sub.value.status == SubmissionModel.Published {
        var e := EntryOf(groups[i], sub.value);
        PrependAssoc(ranked, [e], Collect(groups, subs, limit, i + 1, count + 1));
        ranked := ranked + [e];
        count := count + 1;
      }
      i := i + 1;
    }
    assert ranked + [] == ranked;
    return Ok(ranked);
  }

  lemma PrependNothing<T>(r: Result<seq<T>, HttpError>)
    ensures Prepend([], r) == r
  {
    if r.Ok? {
      assert [] + r.value == r.value;
    }
  }

  lemma PrependAssoc<T>(a: seq<T>, b: seq<T>, r: Result<seq<T>, HttpError>)
    ensures Prepend(a, Prepend(b, r)) == Prepend(a + b, r)
  {
    if r.Ok? {
      assert a + (b + r.value) == (a + b) + r.value;
    }
  }

  /** The intended `get_best_submissions`: every published group, sorted by descending
      weighted mean, then the first `limit` of them. */
  function BestSubmissions(groups: seq<BaseCrud.Group>, subs: seq<SubmissionModel.Submission>, limit: Option<int>)
    : Result<seq<BestEntry>, HttpError>
    requires SixAggregates(groups)
  {
    match Collect(groups, subs, None, 0, 0)
    case Err(e) => Err(e)
    case Ok(all) => Ok(TakeLimit(SortDesc(all, EntryMean), limit))
  }

  /** `count == limit`: a negative limit is never reached. */
  function TakeLimit<T>(xs: seq<T>, limit: Option<int>): (r: seq<T>)
    ensures limit.Some? && limit.value >= 0 ==> |r| <= limit.value
    ensures limit.Some? && 0 <= limit.value <= |xs| ==> r == xs[..limit.value]
    ensures limit.None? || limit.value < 0 || limit.value > |xs| ==> r == xs
  {
    if limit.Some? && 0 <= limit.value <= |xs| then xs[..limit.value] else xs
  }

  /** The intended list is a global top: it is sorted, within the limit, and no
      published group left out has a higher weighted mean than one kept. */
  lemma BestSubmissionsAreTop(groups: seq<BaseCrud.Group>, subs: seq<SubmissionModel.Submission>, limit: Option<int>,
                              all: seq<BestEntry>)
    requires SixAggregates(groups)
    requires Collect(groups, subs, None, 0, 0) == Ok(all)
    ensures BestSubmissions(groups, subs, limit).Ok?
    ensures var top := BestSubmissions(groups, subs, limit).value;
            && SortedDesc(top, EntryMean)
            && (limit.Some? && limit.value >= 0 ==> |top| <= limit.value)
            && forall x, y :: x in top && y in all && y !in top ==> x.mean >= y.mean
    ensures var top := BestSubmissions(groups, subs, limit).value;
            forall x, j :: x in top && 0 <= j < |groups| && PublishedGroup(groups[j], subs)
                           && GroupEntry(groups[j], subs) !in top
                           ==> x.mean >= GroupEntry(groups[j], subs).mean
  {
    var sorted := SortDesc(all, EntryMean);
    var top := TakeLimit(sorted, limit);
    assert BestSubmissions(groups, subs, limit) == Ok(top);
    TopOfSorted(all, limit);
    forall j | 0 <= j < |groups| && PublishedGroup(groups[j], subs)
      ensures GroupEntry(groups[j], subs) in all
    {
      CollectComplete(groups, subs, None, 0, 0, j);
    }
  }

  lemma TopOfSorted(all: seq<BestEntry>, limit: Option<int>)
    ensures var top := TakeLimit(SortDesc(all, EntryMean), limit);
            && SortedDesc(top, EntryMean)
            && forall x, y :: x in top && y in all && y !in top ==> x.mean >= y.mean
  {
    var sorted := SortDesc(all, EntryMean);
    var n := if limit.Some? && 0 <= limit.value <= |sorted| then limit.value else |sorted|;
    assert sorted[..|sorted|] == sorted;
    var top := TakeLimit(sorted, limit);
    assert top == sorted[..n];
    TakeIsTop(all, EntryMean, n);
    forall x, y | x in top && y in all && y !in top ensures x.mean >= y.mean {
      assert EntryMean(x) >= EntryMean(y);
    }
  }

  /** Without a limit the loop and the intended definition agree; this is the case the
      dataset leaderboard uses. */
  lemma NoLimitAgrees(groups: seq<BaseCrud.Group>, subs: seq<SubmissionModel.Submission>)
    requires SixAggregates(groups)
    ensures BestAsWritten(groups, subs, None) == BestSubmissions(groups, subs, None)
  {
  }

  /** Two published submissions, the better one second in query order. */
  function ExampleSubs(): seq<SubmissionModel.Submission>
  {
    [SubmissionModel.Submission(1, "A", "a", "", SubmissionModel.Published, "", "", "", "",
                                SubmissionModel.RgbOnly, None, 1),
     SubmissionModel.Submission(2, "B", "b", "", SubmissionModel.Published, "", "", "", "",
                                SubmissionModel.RgbOnly, None, 1)]
  }

  function ExampleGroups(): (gs: seq<BaseCrud.Group>)
    ensures SixAggregates(gs)
  {
    [BaseCrud.Group(BaseCrud.IntVal(1), [0.5, 0.5, 0.5, 0.5, 0.5, 0.5]),
     BaseCrud.Group(BaseCrud.IntVal(2), [0.9, 0.9, 0.9, 0.9, 0.9, 0.9])]
  }

  lemma ExampleEntries()
    ensures SubmissionOf(ExampleGroups()[0].key, ExampleSubs()) == Some(ExampleSubs()[0])
    ensures SubmissionOf(ExampleGroups()[1].key, ExampleSubs()) == Some(ExampleSubs()[1])
    ensures EntryOf(ExampleGroups()[0], ExampleSubs()[0]).mean == 0.5
    ensures EntryOf(ExampleGroups()[1], ExampleSubs()[1]).mean == 0.9
  {
    WeightedMeanOfConstant(0.5);
    WeightedMeanOfConstant(0.9);
    assert SubmissionModel.FindById(ExampleSubs(), 2) == Some(1);
  }

  /** With limit 1 the loop stops after the first group and returns the weaker entry. */
  lemma LimitBeforeSort()
    ensures var ea := EntryOf(ExampleGroups()[0], ExampleSubs()[0]);
            var eb := EntryOf(ExampleGroups()[1], ExampleSubs()[1]);
            && BestAsWritten(ExampleGroups(), ExampleSubs(), Some(1)) == Ok([ea])
            && ea.mean < eb.mean
  {
    var groups, subs := ExampleGroups(), ExampleSubs();
    ExampleEntries();
    var ea := EntryOf(groups[0], subs[0]);
    assert [ea] + [] == [ea];
    assert Collect(groups, subs, Some(1), 1, 1) == Ok([]);
    assert Collect(groups, subs, Some(1), 0, 0) == Prepend([ea], Ok([]));
    assert SortDesc([ea], EntryMean) == [ea];
  }

  lemma ExampleCollectAll()
    ensures Collect(ExampleGroups(), ExampleSubs(), None, 0, 0)
            == Ok([EntryOf(ExampleGroups()[0], ExampleSubs()[0]), EntryOf(ExampleGroups()[1], ExampleSubs()[1])])
  {
    var groups, subs := ExampleGroups(), ExampleSubs();
    ExampleEntries();
    var ea, eb := EntryOf(groups[0], subs[0]), EntryOf(groups[1], subs[1]);
    assert [eb] + [] == [eb] && [ea] + [eb] == [ea, eb];
    assert Collect(groups, subs, None, 2, 2) == Ok([]);
    assert Collect(groups, subs, None, 1, 1) == Prepend([eb], Ok([]));
    assert Collect(groups, subs, None, 0, 0) == Prepend([ea], Ok([eb]));
  }

  /** With limit 1 the intended definition returns the stronger entry. */
  lemma LimitAfterSort()
    ensures var eb := EntryOf(ExampleGroups()[1], ExampleSubs()[1]);
            BestSubmissions(ExampleGroups(), ExampleSubs(), Some(1)) == Ok([eb])
  {
    var groups, subs := ExampleGroups(), ExampleSubs();
    ExampleEntries();
    ExampleCollectAll();
    var ea, eb := EntryOf(groups[0], subs[0]), EntryOf(groups[1], subs[1]);
    var sorted := SortDesc([ea, eb], EntryMean);
    assert [ea, eb][..1] == [ea];
    assert SortDesc([ea], EntryMean) == [ea] by {
      SortDescLast([ea], EntryMean);
      assert [ea][..0] == [];
    }
    SortDescLast([ea, eb], EntryMean);
    assert sorted == Insert(eb, [ea], EntryMean);
    assert sorted == [eb, ea];
    assert TakeLimit(sorted, Some(1)) == [eb];
  }

  // ---------------------------------------------------------------------------
  // The best submission of a dataset

  datatype BestSubmissionOut = BestSubmissionOut(submissionId: nat, title: string, accessor: string)

  /** A score dump with its `weighted_mean`. */
  datatype Weighted = Weighted(score: Score, mean: real)

  function WeightedOf(w: Weighted): real { w.mean }

  predicate Complete(m: Metrics)
  {
    forall k :: 0 <= k < |MetricFields| ==> MetricValues(m)[k].Some?
  }

  function Known(m: Metrics): (vs: seq<real>)
    requires Complete(m)
    ensures |vs| == |Weights|
    ensures forall k :: 0 <= k < |vs| ==> MetricValues(m)[k] == Some(vs[k])
  {
    seq(|MetricFields|, k requires 0 <= k < |MetricFields| => MetricValues(m)[k].value)
  }

  function ScoreMean(s: Score): real
    requires Complete(s.metrics)
  {
    WeightedMean(Known(s.metrics))
  }

  /** The published scores with their weighted means, or the TypeError raised by the
      first published score with a null metric. */
  function WeighPublished(scores: seq<Score>, subs: seq<SubmissionModel.Submission>)
    : (r: Result<seq<Weighted>, HttpError>)
    ensures r.Err? <==>
              exists s :: s in scores && SubmissionModel.IsPublished(subs, s.submissionId) && !Complete(s.metrics)
    ensures r.Err? ==> r.error == InternalError
    ensures r.Ok? ==>
              forall w :: w in r.value ==>
                && w.score in scores && SubmissionModel.IsPublished(subs, w.score.submissionId)
                && Complete(w.score.metrics) && w.mean == ScoreMean(w.score)
    ensures r.Ok? ==>
              forall s :: s in scores && SubmissionModel.IsPublished(subs, s.submissionId) ==>
                Weighted(s, ScoreMean(s)) in r.value
  {
    if |scores| == 0 then Ok([])
    else
      var init, s := scores[..|scores| - 1], scores[|scores| - 1];
      assert scores == init + [s];
      match WeighPublished(init, subs)
      case Err(e) => Err(e)
      case Ok(ws) =>
        if !SubmissionModel.IsPublished(subs, s.submissionId) then Ok(ws)
        else if !Complete(s.metrics) then Err(InternalError)
        else Ok(ws + [Weighted(s, ScoreMean(s))])
  }

  /** `get_best_submission` on the dataset's successful scores: None when there are
      none; otherwise the published submission whose score comes first once the weighed
      scores are sorted by descending weighted mean. A null metric and the absence of any
      published score (the `[0]` of an empty list) both end in an uncaught exception. */
  function BestOf(scores: seq<Score>, subs: seq<SubmissionModel.Submission>)
    : Result<Option<BestSubmissionOut>, HttpError>
  {
    if |scores| == 0 then Ok(None)
    else match WeighPublished(scores, subs)
      case Err(e) => Err(e)
      case Ok(ws) =>
        if |ws| == 0 then Err(InternalError)
        else match SubmissionModel.Lookup(subs, SortDesc(ws, WeightedOf)[0].score.submissionId)
          case None => Err(InternalError)
          case Some(best) => Ok(Some(BestSubmissionOut(best.id, best.title, best.accessor)))
  }

  /** The submission of a score that is published, complete, and has a weighted mean no
      smaller than that of any other published score. */
  predicate IsBestScore(s: Score, scores: seq<Score>, subs: seq<SubmissionModel.Submission>)
  {
    && s in scores && SubmissionModel.IsPublished(subs, s.submissionId) && Complete(s.metrics)
    && forall t :: t in scores && SubmissionModel.IsPublished(subs, t.submissionId) ==>
         Complete(t.metrics) && ScoreMean(s) >= ScoreMean(t)
  }

  /** What `get_best_submission` answers: None exactly without scores; a failure exactly
      when a published score has a null metric or none is published; otherwise the
      published submission of a best score, with its own title and accessor. */
  lemma BestOfMeaning(scores: seq<Score>, subs: seq<SubmissionModel.Submission>)
    ensures var r := BestOf(scores, subs);
            && (r == Ok(None) <==> |scores| == 0)
            && (r.Err? <==>
                  |scores| > 0
                  && ((exists s :: s in scores && SubmissionModel.IsPublished(subs, s.submissionId) && !Complete(s.metrics))
                      || forall s :: s in scores ==> !SubmissionModel.IsPublished(subs, s.submissionId)))
            && (r.Err? ==> r.error == InternalError)
            && (r.Ok? && r.value.Some? ==>
                  var out := r.value.value;
                  && SubmissionModel.IsPublished(subs, out.submissionId)
                  && SubmissionModel.Lookup(subs, out.submissionId).value.title == out.title
                  && SubmissionModel.Lookup(subs, out.submissionId).value.accessor == out.accessor
                  && exists s: Score :: s.submissionId == out.submissionId && IsBestScore(s, scores, subs))
  {
    if |scores| > 0 && WeighPublished(scores, subs).Ok? {
      var ws := WeighPublished(scores, subs).value;
      if |ws| == 0 {
        assert forall s :: s in scores ==> !SubmissionModel.IsPublished(subs, s.submissionId);
      } else {
        var sorted := SortDesc(ws, WeightedOf);
        SortDescPermutes(ws, WeightedOf);
        assert sorted[0] in multiset(ws);
        var top := sorted[0].score;
        assert top in scores;
        HeadIsMaximum(ws, WeightedOf);
        forall t | t in scores && SubmissionModel.IsPublished(subs, t.submissionId)
          ensures Complete(t.metrics) && ScoreMean(top) >= ScoreMean(t)
        {
          assert Weighted(t, ScoreMean(t)) in ws;
        }
        assert IsBestScore(top, scores, subs);
      }
    }
  }

  /** The loop of `get_best_submission` that weighs the published scores. */
  method WeighScores(scores: seq<Score>, subs: seq<SubmissionModel.Submission>)
    returns (r: Result<seq<Weighted>, HttpError>)
    ensures r == WeighPublished(scores, subs)
  {
    var ranked: seq<Weighted> := [];
    for i := 0 to |scores|
      invariant WeighPublished(scores[..i], subs) == Ok(ranked)
    {
      var s := scores[i];
      assert scores[..i + 1][..i] == scores[..i];
      if SubmissionModel.IsPublished(subs, s.submissionId) {
        if !Complete(s.metrics) {
          WeighPrefixFails(scores, subs, i);
          return Err(InternalError);
        }
        ranked := ranked + [Weighted(s, ScoreMean(s))];
      }
    }
    assert scores[..|scores|] == scores;
    return Ok(ranked);
  }

  /** Once a prefix fails, the whole list fails the same way. */
  lemma {:induction false} WeighPrefixFails(scores: seq<Score>, subs: seq<SubmissionModel.Submission>, i: nat)
    requires i < |scores|
    requires SubmissionModel.IsPublished(subs, scores[i].submissionId) && !Complete(scores[i].metrics)
    ensures WeighPublished(scores, subs) == Err(InternalError)
  {
    assert scores[i] in scores;
  }

  method GetBestSubmission(rows: seq<Score>, subs: seq<SubmissionModel.Submission>, datasetId: nat)
    returns (r: Result<Option<BestSubmissionOut>, HttpError>)
    ensures r == BestOf(ScoreService.AllScores(rows, Some(datasetId), None, Some(Success)), subs)
  {
    var scores := ScoreService.GetAllScores(rows, Some(datasetId), None, Some(Success));
    if |scores| == 0 {
      return Ok(None);
    }
    var weighed := WeighScores(scores, subs);
    if weighed.Err? {
      return Err(weighed.error);
    }
    var ranked := weighed.value;
    var sorted := SortDesc(ranked, WeightedOf);
    if |sorted| == 0 {
      return Err(InternalError);
    }
    var best := SubmissionModel.Lookup(subs, sorted[0].score.submissionId);
    if best.None? {
      return Err(InternalError);
    }
    r := Ok(Some(BestSubmissionOut(best.value.id, best.value.title, best.value.accessor)));
  }

  // ---------------------------------------------------------------------------
  // Mean metrics of one submission

  predicate AllComplete(scores: seq<Score>)
  {
    forall k :: 0 <= k < |scores| ==> Complete(scores[k].metrics)
  }

  /** The sum of metric `j` over the scores, in order. */
  function FieldSum(scores: seq<Score>, j: nat): real
    requires j < |MetricFields| && AllComplete(scores)
  {
    if |scores| == 0 then 0.0
    else FieldSum(scores[..|scores| - 1], j) + MetricValues(scores[|scores| - 1].metrics)[j].value
  }

  /** `get_submission_scores` on the submission's successful scores: None without any;
      otherwise, for each of the six metrics, its sum over the scores divided by their
      number. A null metric makes the `+=` raise. */
  function MeanMetrics(scores: seq<Score>): Result<Option<seq<real>>, HttpError>
  {
    if |scores| == 0 then Ok(None)
    else if !AllComplete(scores) then Err(InternalError)
    else Ok(Some(seq(|MetricFields|, j requires 0 <= j < |MetricFields| => FieldSum(scores, j) / |scores| as real)))
  }

  method GetSubmissionScores(rows: seq<Score>, submissionId: nat) returns (r: Result<Option<seq<real>>, HttpError>)
    ensures r == MeanMetrics(ScoreService.AllScores(rows, None, Some(submissionId), Some(Success)))
  {
    var scores := ScoreService.GetAllScores(rows, None, Some(submissionId), Some(Success));
    r := AverageMetrics(scores);
  }

  /** The two loops of `get_submission_scores`: sum per metric, then divide. */
  method AverageMetrics(scores: seq<Score>) returns (r: Result<Option<seq<real>>, HttpError>)
    ensures r == MeanMetrics(scores)
  {
    if |scores| == 0 {
      return Ok(None);
    }
    var sums: seq<real> := [0.0, 0.0, 0.0, 0.0, 0.0, 0.0];
    for i := 0 to |scores|
      invariant AllComplete(scores[..i])
      invariant |sums| == |MetricFields|
      invariant forall j :: 0 <= j < |MetricFields| ==> sums[j] == FieldSum(scores[..i], j)
    {
      var added := AddMetrics(sums, scores[i].metrics);
      if added.None? {
        assert !AllComplete(scores) by {
          assert scores[i] == scores[i];
        }
        return Err(InternalError);
      }
      var prefix := scores[..i + 1];
      assert prefix[..i] == scores[..i] && prefix[i] == scores[i];
      assert AllComplete(prefix);
      sums := added.value;
    }
    assert scores[..|scores|] == scores;
    var n := |scores| as real;
    for f := 0 to |MetricFields|
      invariant |sums| == |MetricFields|
      invariant forall j :: 0 <= j < f ==> sums[j] == FieldSum(scores, j) / n
      invariant forall j :: f <= j < |MetricFields| ==> sums[j] == FieldSum(scores, j)
    {
      sums := sums[f := sums[f] / n];
    }
    assert sums == seq(|MetricFields|, j requires 0 <= j < |MetricFields| => FieldSum(scores, j) / n);
    r := Ok(Some(sums));
  }

  /** One pass of the inner loop: adds each metric of one score to its running sum, or
      fails at the first null metric. */
  method AddMetrics(sums: seq<real>, m: Metrics) returns (r: Option<seq<real>>)
    requires |sums| == |MetricFields|
    ensures r.None? <==> !Complete(m)
    ensures r.Some? ==>
              && |r.value| == |MetricFields|
              && forall j :: 0 <= j < |MetricFields| ==> r.value[j] == sums[j] + MetricValues(m)[j].value
  {
    var values := MetricValues(m);
    var acc := sums;
    for f := 0 to |MetricFields|
      invariant |acc| == |MetricFields|
      invariant forall j :: 0 <= j < f ==> values[j].Some? && acc[j] == sums[j] + values[j].value
      invariant forall j :: f <= j < |MetricFields| ==> acc[j] == sums[j]
    {
      if values[f].None? {
        return None;
      }
      acc := acc[f := acc[f] + values[f].value];
    }
    return Some(acc);
  }

  /** Metric `j` of every score lies in [0, 1]. */
  predicate MetricInUnit(scores: seq<Score>, j: nat)
    requires j < |MetricFields| && AllComplete(scores)
  {
    forall k :: 0 <= k < |scores| ==> 0.0 <= MetricValues(scores[k].metrics)[j].value <= 1.0
  }

  /** What `get_submission_scores` answers: None exactly without scores, a failure
      exactly when some score has a null metric, and otherwise six means that lie in
      [0, 1] whenever the metrics do. */
  lemma MeanMetricsMeaning(scores: seq<Score>)
    ensures (MeanMetrics(scores) == Ok(None)) <==> |scores| == 0
    ensures MeanMetrics(scores).Err? <==> |scores| > 0 && exists k :: 0 <= k < |scores| && !Complete(scores[k].metrics)
    ensures MeanMetrics(scores).Err? ==> MeanMetrics(scores).error == InternalError
    ensures MeanMetrics(scores).Ok? && MeanMetrics(scores).value.Some? ==>
              var means := MeanMetrics(scores).value.value;
              && |means| == |MetricFields|
              && forall j :: 0 <= j < |MetricFields| && MetricInUnit(scores, j) ==> 0.0 <= means[j] <= 1.0
  {
    if |scores| > 0 && AllComplete(scores) {
      forall j | 0 <= j < |MetricFields| && MetricInUnit(scores, j)
        ensures 0.0 <= FieldSum(scores, j) / |scores| as real <= 1.0
      {
        MetricMeanUnit(scores, j);
      }
    }
  }

  /** With every metric in [0, 1], each sum lies between 0 and the number of scores. */
  lemma {:induction false} FieldSumUnit(scores: seq<Score>, j: nat)
    requires j < |MetricFields| && AllComplete(scores)
    requires forall k :: 0 <= k < |scores| ==> 0.0 <= MetricValues(scores[k].metrics)[j].value <= 1.0
    ensures 0.0 <= FieldSum(scores, j) <= |scores| as real
  {
    if |scores| > 0 {
      FieldSumUnit(scores[..|scores| - 1], j);
    }
  }

  /** The per-metric means of metrics in [0, 1] are in [0, 1]. */
  lemma MetricMeanUnit(scores: seq<Score>, j: nat)
    requires j < |MetricFields| && AllComplete(scores) && |scores| > 0
    requires forall k :: 0 <= k < |scores| ==> 0.0 <= MetricValues(scores[k].metrics)[j].value <= 1.0
    ensures 0.0 <= FieldSum(scores, j) / |scores| as real <= 1.0
  {
    FieldSumUnit(scores, j);
    BaseCrud.UnitQuotient(FieldSum(scores, j), |scores| as real);
  }

  /** The mean of a single score is that score's metric. */
  lemma MetricMeanOfOne(s: Score, j: nat)
    requires j < |MetricFields| && Complete(s.metrics)
    ensures FieldSum([s], j) / 1 as real == MetricValues(s.metrics)[j].value
  {
    assert [s][..0] == [];
  }

  // ---------------------------------------------------------------------------
  // Guarded update

  /** `update_score`: 404 for an unknown id, otherwise the service update. A payload
      whose status is null violates the column's NOT NULL constraint. */
  method UpdateScore(table: ScoreTable, broker: ScoreService.Broker, scoreId: nat, u: ScoreUpdate)
    returns (r: Result<(), HttpError>)
    requires table.Valid()
    modifies table, broker
    ensures table.Valid()
    ensures FindId(old(table.rows), scoreId).None? ==>
              && r == Err(HttpError(NotFound, "Score not found"))
              && table.rows == old(table.rows) && broker.published == old(broker.published)
    ensures FindId(old(table.rows), scoreId).Some? ==>
              var i := FindId(old(table.rows), scoreId).value;
              var written := ApplyUpdate(old(table.rows)[i], u);
              && (written.Ok? ==>
                    && r == Ok(())
                    && table.rows == old(table.rows)[i := written.value]
                    && broker.published
                       == old(broker.published) + [(ScoreService.EntityUpdates, Text.NatToString(written.value.submissionId))])
              && (written.Err? ==>
                    r == Err(InternalError) && table.rows == old(table.rows) && broker.published == old(broker.published))
  {
    var found := FindId(table.rows, scoreId);
    if found.None? {
      return Err(HttpError(NotFound, "Score not found"));
    }
    var w := ScoreService.UpdateScore(table, broker, found.value, u);
    r := if w.Ok? then Ok(()) else Err(InternalError);
  }
}

=== FILE: score_model.dfy ===
/** Scores: one evaluation of one submission on one dataset, with its status, message
    and six metrics, and the table that keeps at most one score per pair. */
module ScoreModel {

  import opened Common
  import BaseCrud

  datatype ScoreStatus = InProgress | Error | Success

  function StatusName(s: ScoreStatus): (name: string)
    ensures |name| > 0
  {
    match s
    case InProgress => "in_progress"
    case Error => "error"
    case Success => "success"
  }

  /** Exactly three statuses, each with its own spelling. */
  lemma StatusNamesDistinct(a: ScoreStatus, b: ScoreStatus)
    ensures StatusName(a) == StatusName(b) <==> a == b
  {
  }

  /** The six metrics, each nullable. */
  datatype Metrics = Metrics(
    precision: Option<real>,
    accuracy: Option<real>,
    recall: Option<real>,
    f1: Option<real>,
    aocRoc: Option<real>,
    aocPr: Option<real>)

  const NoMetrics: Metrics := Metrics(None, None, None, None, None, None)

  /** The metric column names, in the order the leaderboard weights them. */
  const MetricFields: seq<string> := ["precision", "accuracy", "recall", "f1", "aoc_roc", "aoc_pr"]

  /** The metrics in `MetricFields` order. */
  function MetricValues(m: Metrics): (vs: seq<Option<real>>)
    ensures |vs| == |MetricFields|
  {
    [m.precision, m.accuracy, m.recall, m.f1, m.aocRoc, m.aocPr]
  }

  /** Six known values, in `MetricFields` order. */
  function KnownMetrics(vs: seq<real>): (m: Metrics)
    requires |vs| == |MetricFields|
    ensures forall k :: 0 <= k < |vs| ==> MetricValues(m)[k] == Some(vs[k])
  {
    Metrics(Some(vs[0]), Some(vs[1]), Some(vs[2]), Some(vs[3]), Some(vs[4]), Some(vs[5]))
  }

  datatype Score = Score(
    id: nat,
    datasetId: nat,
    submissionId: nat,
    status: ScoreStatus,
    statusMessage: Option<string>,
    metrics: Metrics)

  /** A new score: IN_PROGRESS, no message, no metrics. */
  function NewScore(id: nat, datasetId: nat, submissionId: nat): (s: Score)
    ensures s.id == id && s.datasetId == datasetId && s.submissionId == submissionId
    ensures s.status == InProgress && s.statusMessage == None && s.metrics == NoMetrics
  {
    Score(id, datasetId, submissionId, InProgress, None, NoMetrics)
  }

  /** The `ScoreUpdate` payload: status and message are required but nullable, the
      metrics default to null. */
  datatype ScoreUpdate = ScoreUpdate(status: Option<ScoreStatus>, statusMessage: Option<string>, metrics: Metrics)

  /** An update that marks a score as failed: every metric is left at its null default. */
  function ErrorUpdate(message: string): (u: ScoreUpdate)
    ensures u.status == Some(Error) && u.statusMessage == Some(message) && u.metrics == NoMetrics
  {
    ScoreUpdate(Some(Error), Some(message), NoMetrics)
  }

  /** `update(**score_in.model_dump())`: every payload field is written, nulls included;
      a null status breaks the NOT NULL column. Id and pair are never touched. */
  function ApplyUpdate(s: Score, u: ScoreUpdate): (r: Result<Score, BaseCrud.CrudError>)
    ensures u.status.None? <==> r.Err?
    ensures r.Ok? ==>
              && r.value.id == s.id && r.value.datasetId == s.datasetId
              && r.value.submissionId == s.submissionId
              && r.value.status == u.status.value && r.value.statusMessage == u.statusMessage
              && r.value.metrics == u.metrics
  {
    if u.status.None? then Err(BaseCrud.IntegrityError("score.status NOT NULL"))
    else Ok(Score(s.id, s.datasetId, s.submissionId, u.status.value, u.statusMessage, u.metrics))
  }

  /** Whole-record updates: applying the same payload twice gives the same score. */
  lemma ApplyUpdateIdempotent(s: Score, u: ScoreUpdate)
    requires ApplyUpdate(s, u).Ok?
    ensures ApplyUpdate(ApplyUpdate(s, u).value, u) == ApplyUpdate(s, u)
  {
  }

  /** An error update clears every metric a previous success wrote. */
  lemma ErrorUpdateClearsMetrics(s: Score, message: string)
    ensures ApplyUpdate(s, ErrorUpdate(message)).Ok?
    ensures ApplyUpdate(s, ErrorUpdate(message)).value.metrics == NoMetrics
  {
  }

  // ---------------------------------------------------------------------------
  // The generic record view of a score

  const ScoreColumns: seq<string> :=
    ["id", "dataset_id", "submission_id", "status", "status_message"] + MetricFields

  const ScoreTableModel: BaseCrud.Model := BaseCrud.Model("Score", ScoreColumns, true)

  function OptReal(v: Option<real>): BaseCrud.Value
  {
    if v.Some? then BaseCrud.RealVal(v.value) else BaseCrud.Null
  }

  /** A score as the generic CRUD layer sees it: one entry per column. */
  function ScoreRecord(s: Score): (r: BaseCrud.Record)
    ensures "submission_id" in r && r["submission_id"] == BaseCrud.IntVal(s.submissionId)
    ensures "dataset_id" in r && r["dataset_id"] == BaseCrud.IntVal(s.datasetId)
    ensures "status" in r && r["status"] == BaseCrud.StrVal(StatusName(s.status))
  {
    map[
      "id" := BaseCrud.IntVal(s.id),
      "dataset_id" := BaseCrud.IntVal(s.datasetId),
      "submission_id" := BaseCrud.IntVal(s.submissionId),
      "status" := BaseCrud.StrVal(StatusName(s.status)),
      "status_message" := if s.statusMessage.Some? then BaseCrud.StrVal(s.statusMessage.value) else BaseCrud.Null,
      "precision" := OptReal(s.metrics.precision),
      "accuracy" := OptReal(s.metrics.accuracy),
      "recall" := OptReal(s.metrics.recall),
      "f1" := OptReal(s.metrics.f1),
      "aoc_roc" := OptReal(s.metrics.aocRoc),
      "aoc_pr" := OptReal(s.metrics.aocPr)]
  }

  /** The record has exactly the score's columns, each metric column holding the
      metric. */
  lemma ScoreRecordColumns(s: Score)
    ensures forall c :: c in ScoreRecord(s) <==> c in ScoreColumns
    ensures forall k :: 0 <= k < |MetricFields| ==> ScoreRecord(s)[MetricFields[k]] == OptReal(MetricValues(s.metrics)[k])
  {
    ScoreRecordKeys(s);
    ScoreRecordMetrics(s);
  }

  lemma ScoreRecordKeys(s: Score)
    ensures forall c :: c in ScoreRecord(s) <==> c in ScoreColumns
  {
  }

  lemma ScoreRecordMetrics(s: Score)
    ensures forall k :: 0 <= k < |MetricFields| ==> ScoreRecord(s)[MetricFields[k]] == OptReal(MetricValues(s.metrics)[k])
  {
  }

  function Records(rows: seq<Score>): (rs: seq<BaseCrud.Record>)
    ensures |rs| == |rows|
    ensures forall i :: 0 <= i < |rows| ==> rs[i] == ScoreRecord(rows[i])
  {
    seq(|rows|, i requires 0 <= i < |rows| => ScoreRecord(rows[i]))
  }

  // ---------------------------------------------------------------------------
  // The table

  predicate SamePair(a: Score, b: Score)
  {
    a.datasetId == b.datasetId && a.submissionId == b.submissionId
  }

  function FindPair(rows: seq<Score>, datasetId: nat, submissionId: nat): (i: Option<nat>)
    ensures i.Some? ==>
              && i.value < |rows|
              && rows[i.value].datasetId == datasetId && rows[i.value].submissionId == submissionId
    ensures i.None? ==>
              forall j :: 0 <= j < |rows| ==> !(rows[j].datasetId == datasetId && rows[j].submissionId == submissionId)
  {
    if |rows| == 0 then None
    else if rows[0].datasetId == datasetId && rows[0].submissionId == submissionId then Some(0)
    else match FindPair(rows[1..], datasetId, submissionId)
      case None => None
      case Some(k) => Some(k + 1)
  }

  function FindId(rows: seq<Score>, id: nat): (i: Option<nat>)
    ensures i.Some? ==> i.value < |rows| && rows[i.value].id == id
    ensures i.None? ==> forall j :: 0 <= j < |rows| ==> rows[j].id != id
  {
    if |rows| == 0 then None
    else if rows[0].id == id then Some(0)
    else match FindId(rows[1..], id)
      case None => None
      case Some(k) => Some(k + 1)
  }

  /** The scores of other submissions. */
  function WithoutSubmission(rows: seq<Score>, submissionId: nat): (left: seq<Score>)
    ensures forall s :: s in left <==> s in rows && s.submissionId != submissionId
    ensures |left| <= |rows|
  {
    if |rows| == 0 then []
    else
      var rest := WithoutSubmission(rows[..|rows| - 1], submissionId);
      var last := rows[|rows| - 1];
      assert rows == rows[..|rows| - 1] + [last];
      if last.submissionId == submissionId then rest else rest + [last]
  }

  ghost predicate UniqueRows(rows: seq<Score>)
  {
    && (forall i, j :: 0 <= i < j < |rows| ==> rows[i].id != rows[j].id)
    && (forall i, j :: 0 <= i < j < |rows| ==> !SamePair(rows[i], rows[j]))
  }

  /** Dropping a submission's scores keeps ids and pairs unique. */
  lemma {:induction false} WithoutSubmissionUnique(rows: seq<Score>, submissionId: nat)
    requires UniqueRows(rows)
    ensures UniqueRows(WithoutSubmission(rows, submissionId))
  {
    if |rows| > 0 {
      var init := rows[..|rows| - 1];
      var last := rows[|rows| - 1];
      assert UniqueRows(init);
      WithoutSubmissionUnique(init, submissionId);
      var rest := WithoutSubmission(init, submissionId);
      if last.submissionId != submissionId {
        forall k | 0 <= k < |rest|
          ensures rest[k].id != last.id && !SamePair(rest[k], last)
        {
          assert rest[k] in init;
          var j :| 0 <= j < |init| && init[j] == rest[k];
          assert rows[j] == rest[k];
        }
      }
    }
  }

  /** The score table: rows in query order and the next id to hand out. The unique
      constraint on (dataset_id, submission_id) holds of every state. */
  class ScoreTable {
    var rows: seq<Score>
    var nextId: nat

    ghost predicate Valid()
      reads this
    {
      && UniqueRows(rows)
      && (forall i :: 0 <= i < |rows| ==> rows[i].id < nextId)
    }

    constructor ()
      ensures Valid() && rows == []
    {
      rows := [];
      nextId := 1;
    }

    /** `create`: a new default score for the pair; a second score for the same pair
        violates `uq_dataset_submission`. */
    method Create(datasetId: nat, submissionId: nat) returns (r: Result<Score, BaseCrud.CrudError>)
      requires Valid()
      modifies this
      ensures Valid()
      ensures FindPair(old(rows), datasetId, submissionId).Some? ==>
                r.Err? && r.error.IntegrityError? && rows == old(rows)
      ensures FindPair(old(rows), datasetId, submissionId).None? ==>
                && r == Ok(NewScore(old(nextId), datasetId, submissionId))
                && rows == old(rows) + [r.value]
    {
      if FindPair(rows, datasetId, submissionId).Some? {
        return Err(BaseCrud.IntegrityError("uq_dataset_submission"));
      }
      var s := NewScore(nextId, datasetId, submissionId);
      rows := rows + [s];
      nextId := nextId + 1;
      r := Ok(s);
    }

    /** `old_score.update(**score_in.model_dump())` on the row at index `i`. */
    method Write(i: nat, u: ScoreUpdate) returns (r: Result<Score, BaseCrud.CrudError>)
      requires Valid() && i < |rows|
      modifies this
      ensures Valid()
      ensures r == ApplyUpdate(old(rows)[i], u)
      ensures r.Ok? ==> rows == old(rows)[i := r.value]
      ensures r.Err? ==> rows == old(rows)
    {
      r := ApplyUpdate(rows[i], u);
      if r.Ok? {
        rows := rows[i := r.value];
      }
    }

    /** `delete(id=...)`: removes that score; deleting a missing one fails. */
    method DeleteById(id: nat) returns (r: Result<Score, BaseCrud.CrudError>)
      requires Valid()
      modifies this
      ensures Valid()
      ensures nextId == old(nextId)
      ensures FindId(old(rows), id).None? ==> r == Err(BaseCrud.NothingToDelete) && rows == old(rows)
      ensures FindId(old(rows), id).Some? ==>
                var i := FindId(old(rows), id).value;
                r == Ok(old(rows)[i]) && rows == old(rows)[..i] + old(rows)[i + 1..]
    {
      match FindId(rows, id)
      case None =>
        r := Err(BaseCrud.NothingToDelete);
      case Some(i) =>
        r := Ok(rows[i]);
        RemoveAt(i);
    }

    /** `delete(dataset_id=..., submission_id=...)`. */
    method DeleteByPair(datasetId: nat, submissionId: nat) returns (r: Result<Score, BaseCrud.CrudError>)
      requires Valid()
      modifies this
      ensures Valid()
      ensures nextId == old(nextId)
      ensures FindPair(old(rows), datasetId, submissionId).None? ==>
                r == Err(BaseCrud.NothingToDelete) && rows == old(rows)
      ensures FindPair(old(rows), datasetId, submissionId).Some? ==>
                var i := FindPair(old(rows), datasetId, submissionId).value;
                r == Ok(old(rows)[i]) && rows == old(rows)[..i] + old(rows)[i + 1..]
      ensures FindPair(rows, datasetId, submissionId).None?
    {
      match FindPair(rows, datasetId, submissionId)
      case None =>
        r := Err(BaseCrud.NothingToDelete);
      case Some(i) =>
        r := Ok(rows[i]);
        RemoveAt(i);
        NoPairAfterRemoval(old(rows), i);
    }

    /** `delete_multi(submission_id=...)`, which is also what deleting the submission
        cascades to. */
    method DeleteAllOfSubmission(submissionId: nat)
      requires Valid()
      modifies this
      ensures Valid()
      ensures rows == WithoutSubmission(old(rows), submissionId)
      ensures forall s :: s in rows ==> s.submissionId != submissionId
    {
      WithoutSubmissionUnique(rows, submissionId);
      rows := WithoutSubmission(rows, submissionId);
    }

    method RemoveAt(i: nat)
      requires Valid() && i < |rows|
      modifies this
      ensures Valid()
      ensures rows == old(rows)[..i] + old(rows)[i + 1..] && nextId == old(nextId)
    {
      var before := rows;
      rows := rows[..i] + rows[i + 1..];
      assert forall k :: 0 <= k < |rows| ==> rows[k] == before[if k < i then k else k + 1];
    }
  }

  /** With pairs unique, removing the row holding a pair leaves no row with it. */
  lemma NoPairAfterRemoval(rows: seq<Score>, i: nat)
    requires UniqueRows(rows) && i < |rows|
    ensures FindPair(rows[..i] + rows[i + 1..], rows[i].datasetId, rows[i].submissionId).None?
  {
    var rest := rows[..i] + rows[i + 1..];
    forall k | 0 <= k < |rest|
      ensures !SamePair(rest[k], rows[i])
    {
      if k < i { assert rest[k] == rows[k]; } else { assert rest[k] == rows[k + 1]; }
    }
  }
}

=== FILE: score_service.dfy ===
/** Score services: the filters of the score listing, the per-submission averages the
    leaderboard ranks, the whole-record update that also announces the change, and the
    per-submission change stream. */
module ScoreService {

  import opened Common
  import opened Text
  import BaseCrud
  import opened ScoreModel
  import EventStream

  // ---------------------------------------------------------------------------
  // get_all_scores

  /** The `params` dictionary: a filter for each argument that is not None. */
  method ScoreParams(datasetId: Option<nat>, submissionId: Option<nat>, status: Option<ScoreStatus>)
    returns (params: map<string, BaseCrud.Value>)
    ensures params == ScoreFilters(datasetId, submissionId, status)
  {
    params := map[];
    if datasetId.Some? {
      params := params["dataset_id" := BaseCrud.IntVal(datasetId.value)];
    }
    if submissionId.Some? {
      params := params["submission_id" := BaseCrud.IntVal(submissionId.value)];
    }
    if status.Some? {
      params := params["status" := BaseCrud.StrVal(StatusName(status.value))];
    }
  }

  function ScoreFilters(datasetId: Option<nat>, submissionId: Option<nat>, status: Option<ScoreStatus>)
    : (params: map<string, BaseCrud.Value>)
    ensures "dataset_id" in params <==> datasetId.Some?
    ensures "submission_id" in params <==> submissionId.Some?
    ensures "status" in params <==> status.Some?
    ensures forall k :: k in params ==> k in {"dataset_id", "submission_id", "status"}
  {
    var p0: map<string, BaseCrud.Value> := map[];
    var p1 := if datasetId.Some? then p0["dataset_id" := BaseCrud.IntVal(datasetId.value)] else p0;
    var p2 := if submissionId.Some? then p1["submission_id" := BaseCrud.IntVal(submissionId.value)] else p1;
    if status.Some? then p2["status" := BaseCrud.StrVal(StatusName(status.value))] else p2
  }

  predicate Selected(s: Score, datasetId: Option<nat>, submissionId: Option<nat>, status: Option<ScoreStatus>)
  {
    && (datasetId.None? || s.datasetId == datasetId.value)
    && (submissionId.None? || s.submissionId == submissionId.value)
    && (status.None? || s.status == status.value)
  }

  /** The filters constrain exactly the arguments that are not None. */
  lemma ScoreFiltersMeaning(s: Score, datasetId: Option<nat>, submissionId: Option<nat>, status: Option<ScoreStatus>)
    ensures BaseCrud.Matches(ScoreRecord(s), ScoreFilters(datasetId, submissionId, status))
            <==> Selected(s, datasetId, submissionId, status)
  {
    var params := ScoreFilters(datasetId, submissionId, status);
    var r := ScoreRecord(s);
    if status.Some? {
      StatusNamesDistinct(s.status, status.value);
      assert params["status"] == BaseCrud.StrVal(StatusName(status.value));
    }
    if datasetId.Some? {
      assert params["dataset_id"] == BaseCrud.IntVal(datasetId.value);
    }
    if submissionId.Some? {
      assert params["submission_id"] == BaseCrud.IntVal(submissionId.value);
    }
    assert "dataset_id" in r && "submission_id" in r && "status" in r;
  }

  /** The scores whose record the filters keep, in query order. */
  function Where(rows: seq<Score>, params: map<string, BaseCrud.Value>): (kept: seq<Score>)
    ensures |kept| <= |rows|
    ensures forall s :: s in kept <==> s in rows && BaseCrud.Matches(ScoreRecord(s), params)
  {
    if |rows| == 0 then []
    else
      var rest := Where(rows[..|rows| - 1], params);
      var last := rows[|rows| - 1];
      assert rows == rows[..|rows| - 1] + [last];
      if BaseCrud.Matches(ScoreRecord(last), params) then rest + [last] else rest
  }

  lemma RecordsAppend(a: seq<Score>, b: seq<Score>)
    ensures Records(a + b) == Records(a) + Records(b)
  {
    var l, r := Records(a + b), Records(a) + Records(b);
    forall i | 0 <= i < |l| ensures l[i] == r[i] {
      var x := (a + b)[i];
      if i < |a| {
        assert x == a[i] && r[i] == Records(a)[i];
      } else {
        assert x == b[i - |a|] && r[i] == Records(b)[i - |a|];
      }
      assert l[i] == ScoreRecord(x) && r[i] == ScoreRecord(x);
    }
  }

  /** Filtering the typed rows and filtering their records agree, order included. */
  lemma {:induction false} WhereRecords(rows: seq<Score>, params: map<string, BaseCrud.Value>)
    ensures Records(Where(rows, params)) == BaseCrud.Filter(Records(rows), params)
  {
    if |rows| > 0 {
      var init, last := rows[..|rows| - 1], rows[|rows| - 1];
      var front := Where(init, params);
      assert rows == init + [last];
      WhereRecords(init, params);
      RecordsAppend(init, [last]);
      RecordsSingleton(last);
      BaseCrud.FilterSnoc(Records(init), ScoreRecord(last), params);
      if BaseCrud.Matches(ScoreRecord(last), params) {
        RecordsAppend(front, [last]);
      }
    }
  }

  lemma RecordsSingleton(s: Score)
    ensures Records([s]) == [ScoreRecord(s)]
  {
    assert Records([s])[0] == ScoreRecord([s][0]);
  }

  /** `get_all_scores`: the selected scores, capped at the `get_multi` default of 100. */
  method GetAllScores(rows: seq<Score>, datasetId: Option<nat>, submissionId: Option<nat>, status: Option<ScoreStatus>)
    returns (scores: seq<Score>)
    ensures scores == AllScores(rows, datasetId, submissionId, status)
    ensures |scores| <= BaseCrud.DefaultLimit
    ensures forall s :: s in scores ==> s in rows && Selected(s, datasetId, submissionId, status)
    ensures Records(scores)
            == BaseCrud.GetMulti(ScoreTableModel, Records(rows), ScoreFilters(datasetId, submissionId, status)).value
  {
    var params := ScoreParams(datasetId, submissionId, status);
    var kept := Where(rows, params);
    scores := if |kept| <= BaseCrud.DefaultLimit then kept else kept[..BaseCrud.DefaultLimit];
    AllScoresIsGetMulti(rows, datasetId, submissionId, status);
  }

  /** What `get_all_scores` returns, for use in specifications. */
  function AllScores(rows: seq<Score>, datasetId: Option<nat>, submissionId: Option<nat>, status: Option<ScoreStatus>)
    : (scores: seq<Score>)
    ensures |scores| <= BaseCrud.DefaultLimit
    ensures forall s :: s in scores ==> s in rows && Selected(s, datasetId, submissionId, status)
  {
    var kept := Where(rows, ScoreFilters(datasetId, submissionId, status));
    var scores := if |kept| <= BaseCrud.DefaultLimit then kept else kept[..BaseCrud.DefaultLimit];
    assert forall s :: s in scores ==> s in kept;
    forall s | s in scores ensures Selected(s, datasetId, submissionId, status) {
      ScoreFiltersMeaning(s, datasetId, submissionId, status);
    }
    scores
  }

  /** The typed listing is the generic `get_multi` on the score records. */
  lemma AllScoresIsGetMulti(rows: seq<Score>, datasetId: Option<nat>, submissionId: Option<nat>, status: Option<ScoreStatus>)
    ensures Records(AllScores(rows, datasetId, submissionId, status))
            == BaseCrud.GetMulti(ScoreTableModel, Records(rows), ScoreFilters(datasetId, submissionId, status)).value
  {
    var params := ScoreFilters(datasetId, submissionId, status);
    var kept := Where(rows, params);
    var filtered := BaseCrud.Filter(Records(rows), params);
    WhereRecords(rows, params);
    assert filtered[0..] == filtered;
    assert BaseCrud.GetMulti(ScoreTableModel, Records(rows), params)
           == Ok(if |filtered| <= BaseCrud.DefaultLimit then filtered else filtered[..BaseCrud.DefaultLimit]);
    if |kept| > BaseCrud.DefaultLimit {
      RecordsTake(kept, BaseCrud.DefaultLimit);
    }
  }

  lemma RecordsTake(rows: seq<Score>, n: nat)
    requires n <= |rows|
    ensures Records(rows[..n]) == Records(rows)[..n]
  {
    var l, r := Records(rows[..n]), Records(rows)[..n];
    forall i | 0 <= i < n ensures l[i] == r[i] {
      assert l[i] == ScoreRecord(rows[i]) && r[i] == ScoreRecord(rows[i]);
    }
  }

  /** Below the cap nothing selected is left out. */
  lemma AllScoresComplete(rows: seq<Score>, datasetId: Option<nat>, submissionId: Option<nat>,
                          status: Option<ScoreStatus>, s: Score)
    requires s in rows && Selected(s, datasetId, submissionId, status)
    requires |rows| <= BaseCrud.DefaultLimit
    ensures s in AllScores(rows, datasetId, submissionId, status)
  {
    ScoreFiltersMeaning(s, datasetId, submissionId, status);
    var kept := Where(rows, ScoreFilters(datasetId, submissionId, status));
  }

  // ---------------------------------------------------------------------------
  // get_all_grouped_scores_by_submission

  /** The filters handed to the grouped query: SUCCESS, and the dataset (None when
      there is none, which the CRUD layer then drops). */
  function GroupFilters(datasetId: Option<nat>): map<string, BaseCrud.Value>
  {
    map["status" := BaseCrud.StrVal(StatusName(Success)),
        "dataset_id" := if datasetId.Some? then BaseCrud.IntVal(datasetId.value) else BaseCrud.Null]
  }

  predicate Counted(s: Score, datasetId: Option<nat>)
  {
    s.status == Success && (datasetId.None? || s.datasetId == datasetId.value)
  }

  lemma GroupFiltersMeaning(s: Score, datasetId: Option<nat>)
    ensures BaseCrud.Matches(ScoreRecord(s), BaseCrud.DropNoneFilters(GroupFilters(datasetId)))
            <==> Counted(s, datasetId)
  {
    var valid := BaseCrud.DropNoneFilters(GroupFilters(datasetId));
    assert "status" in valid && valid["status"] == BaseCrud.StrVal(StatusName(Success));
    StatusNamesDistinct(s.status, Success);
    if datasetId.Some? {
      assert "dataset_id" in valid && valid["dataset_id"] == BaseCrud.IntVal(datasetId.value);
    } else {
      assert "dataset_id" !in valid;
    }
    assert forall k :: k in valid ==> k == "status" || k == "dataset_id";
  }

  /** One group per submission with a successful score (on the dataset, when given),
      holding the averages of its six metrics, nulls ignored and an all-null average
      read as 0. */
  function GroupedScores(rows: seq<Score>, limit: Option<nat>, datasetId: Option<nat>): (groups: seq<BaseCrud.Group>)
    ensures limit.Some? && limit.value != 0 ==> |groups| <= limit.value
    ensures forall i, j :: 0 <= i < j < |groups| ==> groups[i].key != groups[j].key
    ensures forall i :: 0 <= i < |groups| ==> |groups[i].aggregates| == |MetricFields|
  {
    assert "submission_id" in ScoreColumns;
    assert forall f :: f in MetricFields ==> f in ScoreColumns;
    BaseCrud.GroupedAggregatesShape(ScoreTableModel, Records(rows), "submission_id", MetricFields, limit,
                                    GroupFilters(datasetId));
    BaseCrud.GroupedAggregates(ScoreTableModel, Records(rows), "submission_id", MetricFields, limit,
                               GroupFilters(datasetId)).value
  }

  /** Every group is a submission with a counted score. */
  lemma GroupKeysCounted(rows: seq<Score>, limit: Option<nat>, datasetId: Option<nat>, i: nat)
    requires i < |GroupedScores(rows, limit, datasetId)|
    ensures exists s :: s in rows && Counted(s, datasetId)
                        && GroupedScores(rows, limit, datasetId)[i].key == BaseCrud.IntVal(s.submissionId)
  {
    var groups := GroupedScores(rows, limit, datasetId);
    var kept := BaseCrud.Filter(Records(rows), BaseCrud.DropNoneFilters(GroupFilters(datasetId)));
    var all := BaseCrud.GroupBy(kept, "submission_id", MetricFields);
    GroupedScoresPrefix(rows, limit, datasetId);
    assert groups[i] == all[i];
    var x :| x in kept && BaseCrud.FieldOf(x, "submission_id") == all[i].key;
    assert x in Records(rows);
    var s := RecordOwner(rows, x);
    GroupFiltersMeaning(s, datasetId);
  }

  /** The score a record of the table comes from. */
  lemma RecordOwner(rows: seq<Score>, x: BaseCrud.Record) returns (s: Score)
    requires x in Records(rows)
    ensures s in rows && ScoreRecord(s) == x
  {
    var rs := Records(rows);
    var k :| 0 <= k < |rs| && rs[k] == x;
    s := rows[k];
  }

  /** Without a limit, every submission with a counted score has a group. */
  lemma CountedHasGroup(rows: seq<Score>, limit: Option<nat>, datasetId: Option<nat>, s: Score)
    requires limit.None? || limit.value == 0
    requires s in rows && Counted(s, datasetId)
    ensures exists i :: 0 <= i < |GroupedScores(rows, limit, datasetId)|
                        && GroupedScores(rows, limit, datasetId)[i].key == BaseCrud.IntVal(s.submissionId)
  {
    var groups := GroupedScores(rows, limit, datasetId);
    var kept := BaseCrud.Filter(Records(rows), BaseCrud.DropNoneFilters(GroupFilters(datasetId)));
    var all := BaseCrud.GroupBy(kept, "submission_id", MetricFields);
    GroupedScoresPrefix(rows, limit, datasetId);
    assert groups == all;
    GroupFiltersMeaning(s, datasetId);
    var k :| 0 <= k < |rows| && rows[k] == s;
    assert Records(rows)[k] == ScoreRecord(s);
    assert ScoreRecord(s) in kept;
    assert BaseCrud.FieldOf(ScoreRecord(s), "submission_id") == BaseCrud.IntVal(s.submissionId);
  }

  lemma GroupedScoresPrefix(rows: seq<Score>, limit: Option<nat>, datasetId: Option<nat>)
    ensures var groups := GroupedScores(rows, limit, datasetId);
            var kept := BaseCrud.Filter(Records(rows), BaseCrud.DropNoneFilters(GroupFilters(datasetId)));
            var all := BaseCrud.GroupBy(kept, "submission_id", MetricFields);
            && |groups| <= |all| && groups == all[..|groups|]
            && (limit.None? || limit.value == 0 ==> groups == all)
  {
    assert "submission_id" in ScoreColumns;
    assert forall f :: f in MetricFields ==> f in ScoreColumns;
  }

  // ---------------------------------------------------------------------------
  // update_score and the change stream

  const EntityUpdates: string := "entity_updates"

  /** The publish side of the message broker: every message published, in order. */
  class Broker {
    var published: seq<(string, string)>

    constructor ()
      ensures published == []
    {
      published := [];
    }

    method Publish(channel: string, message: string)
      modifies this
      ensures published == old(published) + [(channel, message)]
    {
      published := published + [(channel, message)];
    }
  }

  /** `update_score`: writes the whole payload over the score at index `i`, then
      announces the submission id on "entity_updates". A failed write announces nothing. */
  method UpdateScore(table: ScoreTable, broker: Broker, i: nat, u: ScoreUpdate)
    returns (r: Result<Score, BaseCrud.CrudError>)
    requires table.Valid() && i < |table.rows|
    modifies table, broker
    ensures table.Valid()
    ensures r == ApplyUpdate(old(table.rows)[i], u)
    ensures r.Ok? ==>
              && table.rows == old(table.rows)[i := r.value]
              && broker.published == old(broker.published) + [(EntityUpdates, NatToString(r.value.submissionId))]
    ensures r.Err? ==> table.rows == old(table.rows) && broker.published == old(broker.published)
  {
    r := table.Write(i, u);
    if r.Ok? {
      broker.Publish(EntityUpdates, NatToString(r.value.submissionId));
    }
  }

  /** `delete_all_submission_scores`. */
  method DeleteAllSubmissionScores(table: ScoreTable, submissionId: nat)
    requires table.Valid()
    modifies table
    ensures table.Valid()
    ensures table.rows == WithoutSubmission(old(table.rows), submissionId)
    ensures forall s :: s in table.rows ==> s.submissionId != submissionId
    ensures forall s :: s in old(table.rows) && s.submissionId != submissionId ==> s in table.rows
  {
    table.DeleteAllOfSubmission(submissionId);
  }

  /** The data of a received broker message. */
  datatype MessageData =
    | BytesData(text: string)   // bytes, decoded as UTF-8
    | IntData(n: int)
    | StrData(s: string)
    | NoData                    // a message without a "data" entry
    | OtherData                 // any other Python value

  datatype Message = Message(kind: string, data: MessageData)

  /** The text compared with the submission id: decoded bytes, a stringified int, a
      string; nothing else is ever equal to it. */
  function DataText(d: MessageData): Option<string>
  {
    match d
    case BytesData(t) => Some(t)
    case IntData(n) => Some(IntToString(n))
    case StrData(s) => Some(s)
    case NoData => None
    case OtherData => None
  }

  predicate Announces(m: Option<Message>, submissionId: nat)
  {
    m.Some? && m.value.kind == "message" && DataText(m.value.data) == Some(NatToString(submissionId))
  }

  /** The events the stream yields for the polled messages (one poll per entry, None
      when nothing arrived). */
  function EventsFor(polls: seq<Option<Message>>, submissionId: nat): (events: seq<string>)
    ensures forall e :: e in events ==> e == EventStream.DataEvent(NatToString(submissionId))
    ensures |events| <= |polls|
  {
    if |polls| == 0 then []
    else
      EventsFor(polls[..|polls| - 1], submissionId)
      + (if Announces(polls[|polls| - 1], submissionId) then [EventStream.DataEvent(NatToString(submissionId))] else [])
  }

  /** `stream_submission_events` over a finite run of polls. */
  method StreamSubmissionEvents(polls: seq<Option<Message>>, submissionId: nat) returns (events: seq<string>)
    ensures events == EventsFor(polls, submissionId)
  {
    events := [];
    var i := 0;
    while i < |polls|
      invariant 0 <= i <= |polls|
      invariant events == EventsFor(polls[..i], submissionId)
    {
      assert polls[..i + 1][..i] == polls[..i];
      var m := polls[i];
      if m.Some? && m.value.kind == "message" {
        var data := DataText(m.value.data);
        if data == Some(NatToString(submissionId)) {
          events := events + [EventStream.DataEvent(NatToString(submissionId))];
        }
      }
      i := i + 1;
    }
    assert polls[..i] == polls;
  }

  /** An integer payload announces the submission exactly when it is its id. */
  lemma IntDataAnnounces(n: int, submissionId: nat)
    ensures Announces(Some(Message("message", IntData(n))), submissionId) <==> n == submissionId
  {
    if n >= 0 && IntToString(n) == NatToString(submissionId) {
      NatToStringInjective(n, submissionId);
    }
    if n < 0 {
      var t := NatToString(submissionId);
      assert t[0] != '-';
    }
  }

  /** A client of the stream receives the submission id once per announcing message. */
  lemma {:induction false} StreamReceived(polls: seq<Option<Message>>, submissionId: nat)
    ensures EventStream.Receive(Concat(EventsFor(polls, submissionId)))
            == seq(|EventsFor(polls, submissionId)|, _ => NatToString(submissionId))
  {
    var id := NatToString(submissionId);
    var events := EventsFor(polls, submissionId);
    var lines := EventLines(|events|, id);
    assert forall i :: 0 <= i < |id| ==> IsDigit(id[i]);
    ConcatEvents(events, id);
    EventLinesDispatch(|events|, id);
    EventStream.ReceiveUnlines(lines);
  }

  function Concat(chunks: seq<string>): string
  {
    if |chunks| == 0 then "" else chunks[0] + Concat(chunks[1..])
  }

  /** The lines of `n` copies of the event for `id`. */
  function EventLines(n: nat, id: string): (lines: seq<string>)
    ensures |lines| == 2 * n
    ensures forall k :: 0 <= k < |lines| ==> lines[k] == (if k % 2 == 0 then EventStream.DataPrefix + id else "")
  {
    if n == 0 then [] else EventStream.DataEventLines(id) + EventLines(n - 1, id)
  }

  lemma {:induction false} ConcatEvents(events: seq<string>, id: string)
    requires forall e :: e in events ==> e == EventStream.DataEvent(id)
    ensures Concat(events) == EventStream.Unlines(EventLines(|events|, id))
  {
    if |events| > 0 {
      assert forall e :: e in events[1..] ==> e in events;
      ConcatEvents(events[1..], id);
      assert events[0] in events;
      EventStream.UnlinesAppend(EventStream.DataEventLines(id), EventLines(|events| - 1, id));
    }
  }

  lemma {:induction false} EventLinesDispatch(n: nat, id: string)
    requires forall i :: 0 <= i < |id| ==> id[i] != '\n'
    ensures EventStream.LinesWithoutNewline(EventLines(n, id))
    ensures EventStream.Dispatch(EventLines(n, id), []) == seq(n, _ => id)
  {
    if n > 0 {
      var head, tail := EventStream.DataEventLines(id), EventLines(n - 1, id);
      assert EventLines(n, id) == head + tail;
      EventLinesDispatch(n - 1, id);
      EventStream.DataEventDispatch(id);
      EventStream.DispatchAppend(head, tail, []);
      assert [id] + seq(n - 1, _ => id) == seq(n, _ => id);
    }
  }
}

=== FILE: sorting.dfy ===
/** Python's `list.sort(key=..., reverse=True)` on real keys: a stable sort into
    descending key order (elements with equal keys keep their relative order). It is
    stated here as an insertion sort, with its defining properties proved: the result is
    a permutation, it is descending, and each element lands at the position that counts
    the elements with a larger key plus the equal-keyed elements before it. */
module Sorting {

  predicate SortedDesc<T>(s: seq<T>, key: T -> real)
  {
    forall i, j :: 0 <= i < j < |s| ==> key(s[i]) >= key(s[j])
  }

  /** Inserts `x` after every element whose key is at least its own. */
  function Insert<T(==,!new)>(x: T, s: seq<T>, key: T -> real): (r: seq<T>)
    ensures |r| == |s| + 1
  {
    if |s| == 0 then [x]
    else if key(s[0]) < key(x) then
      assert [x] + s == [x] + [s[0]] + s[1..];
      [x] + s
    else
      var rest := Insert(x, s[1..], key);
      assert s == [s[0]] + s[1..];
      [s[0]] + rest
  }

  /** The stable descending sort. */
  function SortDesc<T(==,!new)>(xs: seq<T>, key: T -> real): (r: seq<T>)
    ensures |r| == |xs|
    ensures SortedDesc(r, key)
  {
    if |xs| == 0 then []
    else
      var init := xs[..|xs| - 1];
      InsertSorted(xs[|xs| - 1], SortDesc(init, key), key);
      Insert(xs[|xs| - 1], SortDesc(init, key), key)
  }

  /** Inserting keeps every element and adds exactly the new one. */
  lemma {:induction false} InsertPermutes<T(!new)>(x: T, s: seq<T>, key: T -> real)
    ensures multiset(Insert(x, s, key)) == multiset(s) + multiset{x}
  {
    if |s| > 0 && key(s[0]) >= key(x) {
      InsertPermutes(x, s[1..], key);
      assert s == [s[0]] + s[1..];
    }
  }

  /** The sort returns a permutation of its input. */
  lemma {:induction false} SortDescPermutes<T(!new)>(xs: seq<T>, key: T -> real)
    ensures multiset(SortDesc(xs, key)) == multiset(xs)
  {
    if |xs| > 0 {
      var init := xs[..|xs| - 1];
      SortDescPermutes(init, key);
      InsertPermutes(xs[|xs| - 1], SortDesc(init, key), key);
      assert xs == init + [xs[|xs| - 1]];
    }
  }

  lemma {:induction false} InsertSorted<T(!new)>(x: T, s: seq<T>, key: T -> real)
    requires SortedDesc(s, key)
    ensures SortedDesc(Insert(x, s, key), key)
  {
    if |s| > 0 && key(s[0]) >= key(x) {
      var rest := Insert(x, s[1..], key);
      InsertSorted(x, s[1..], key);
      InsertPermutes(x, s[1..], key);
      forall y | y in rest ensures key(s[0]) >= key(y) {
        assert y in multiset(rest);
        if y != x {
          assert y in multiset(s[1..]);
        }
      }
    }
  }

  // ---------------------------------------------------------------------------
  // Counting keys

  /** How many elements have a key above `m`. */
  function CountAbove<T>(s: seq<T>, key: T -> real, m: real): (n: nat)
    ensures n <= |s|
  {
    if |s| == 0 then 0 else (if key(s[0]) > m then 1 else 0) + CountAbove(s[1..], key, m)
  }

  /** How many elements have key `m`. */
  function CountTie<T>(s: seq<T>, key: T -> real, m: real): (n: nat)
    ensures n <= |s|
  {
    if |s| == 0 then 0 else (if key(s[0]) == m then 1 else 0) + CountTie(s[1..], key, m)
  }

  lemma {:induction false} CountAppend<T(!new)>(a: seq<T>, b: seq<T>, key: T -> real, m: real)
    ensures CountAbove(a + b, key, m) == CountAbove(a, key, m) + CountAbove(b, key, m)
    ensures CountTie(a + b, key, m) == CountTie(a, key, m) + CountTie(b, key, m)
  {
    if |a| > 0 {
      CountAppend(a[1..], b, key, m);
      assert (a + b)[0] == a[0];
      assert (a + b)[1..] == a[1..] + b;
    } else {
      assert a + b == b;
    }
  }

  lemma {:induction false} CountInsert<T(!new)>(x: T, s: seq<T>, key: T -> real, m: real)
    ensures CountAbove(Insert(x, s, key), key, m) == CountAbove(s, key, m) + (if key(x) > m then 1 else 0)
    ensures CountTie(Insert(x, s, key), key, m) == CountTie(s, key, m) + (if key(x) == m then 1 else 0)
  {
    if |s| > 0 && key(s[0]) >= key(x) {
      CountInsert(x, s[1..], key, m);
    } else if |s| > 0 {
      assert ([x] + s)[1..] == s;
    }
  }

  /** Sorting does not change how many keys lie above or at any value. */
  lemma {:induction false} CountSortDesc<T(!new)>(xs: seq<T>, key: T -> real, m: real)
    ensures CountAbove(SortDesc(xs, key), key, m) == CountAbove(xs, key, m)
    ensures CountTie(SortDesc(xs, key), key, m) == CountTie(xs, key, m)
  {
    if |xs| > 0 {
      var init, last := xs[..|xs| - 1], xs[|xs| - 1];
      CountSortDesc(init, key, m);
      CountInsert(last, SortDesc(init, key), key, m);
      CountSplitLast(xs, key, m);
    }
  }

  lemma CountSplitLast<T(!new)>(xs: seq<T>, key: T -> real, m: real)
    requires |xs| > 0
    ensures CountAbove(xs, key, m)
            == CountAbove(xs[..|xs| - 1], key, m) + (if key(xs[|xs| - 1]) > m then 1 else 0)
    ensures CountTie(xs, key, m)
            == CountTie(xs[..|xs| - 1], key, m) + (if key(xs[|xs| - 1]) == m then 1 else 0)
  {
    assert xs == xs[..|xs| - 1] + [xs[|xs| - 1]];
    CountAppend(xs[..|xs| - 1], [xs[|xs| - 1]], key, m);
  }

  lemma {:induction false} CountsBelow<T(!new)>(s: seq<T>, key: T -> real, m: real)
    requires forall i :: 0 <= i < |s| ==> key(s[i]) < m
    ensures CountAbove(s, key, m) == 0 && CountTie(s, key, m) == 0
  {
    if |s| > 0 {
      CountsBelow(s[1..], key, m);
    }
  }

  // ---------------------------------------------------------------------------
  // Where insertion puts things

  /** The new element lands after every element with a key at least its own. */
  lemma {:induction false} InsertPlacesNew<T(!new)>(x: T, s: seq<T>, key: T -> real)
    requires SortedDesc(s, key)
    ensures CountAbove(s, key, key(x)) + CountTie(s, key, key(x)) < |Insert(x, s, key)|
    ensures Insert(x, s, key)[CountAbove(s, key, key(x)) + CountTie(s, key, key(x))] == x
  {
    if |s| > 0 {
      if key(s[0]) < key(x) {
        CountsBelow(s, key, key(x));
      } else {
        InsertPlacesNew(x, s[1..], key);
      }
    }
  }

  /** An old element moves up one place exactly when the new key is larger than its own. */
  lemma {:induction false} InsertKeepsOld<T(!new)>(x: T, s: seq<T>, key: T -> real, q: nat)
    requires SortedDesc(s, key) && q < |s|
    ensures q + (if key(x) > key(s[q]) then 1 else 0) < |Insert(x, s, key)|
    ensures Insert(x, s, key)[q + (if key(x) > key(s[q]) then 1 else 0)] == s[q]
  {
    if key(s[0]) < key(x) {
      assert key(s[q]) <= key(s[0]);
    } else if q > 0 {
      InsertKeepsOld(x, s[1..], key, q - 1);
    }
  }

  /** Where the stable sort puts the element at index `k`: after every element with a
      larger key and after the equal-keyed elements that came before it. */
  function Position<T>(xs: seq<T>, key: T -> real, k: nat): nat
    requires k < |xs|
  {
    CountAbove(xs, key, key(xs[k])) + CountTie(xs[..k], key, key(xs[k]))
  }

  lemma {:induction false} SortPosition<T(!new)>(xs: seq<T>, key: T -> real, k: nat)
    requires k < |xs|
    ensures Position(xs, key, k) < |xs|
    ensures SortDesc(xs, key)[Position(xs, key, k)] == xs[k]
  {
    if k == |xs| - 1 {
      PositionOfLast(xs, key);
    } else {
      SortPosition(xs[..|xs| - 1], key, k);
      PositionOfEarlier(xs, key, k);
    }
  }

  lemma {:induction false} PositionOfLast<T(!new)>(xs: seq<T>, key: T -> real)
    requires |xs| > 0
    ensures Position(xs, key, |xs| - 1) < |xs|
    ensures SortDesc(xs, key)[Position(xs, key, |xs| - 1)] == xs[|xs| - 1]
  {
    var init, last := xs[..|xs| - 1], xs[|xs| - 1];
    var sorted := SortDesc(init, key);
    var p := CountAbove(sorted, key, key(last)) + CountTie(sorted, key, key(last));
    var placed := Insert(last, sorted, key);
    assert Position(xs, key, |xs| - 1) == p by {
      PositionOfLastCounts(xs, key);
    }
    assert p < |placed| && placed[p] == last by {
      InsertPlacesNew(last, sorted, key);
    }
    assert SortDesc(xs, key) == placed by {
      SortDescLast(xs, key);
    }
  }

  /** The last element's position counts the larger and equal keys of the sorted rest. */
  lemma {:induction false} PositionOfLastCounts<T(!new)>(xs: seq<T>, key: T -> real)
    requires |xs| > 0
    ensures var m, sorted := key(xs[|xs| - 1]), SortDesc(xs[..|xs| - 1], key);
            Position(xs, key, |xs| - 1) == CountAbove(sorted, key, m) + CountTie(sorted, key, m)
  {
    var m := key(xs[|xs| - 1]);
    CountSplitLast(xs, key, m);
    CountSortDesc(xs[..|xs| - 1], key, m);
  }

  lemma {:induction false} SortDescLast<T(!new)>(xs: seq<T>, key: T -> real)
    requires |xs| > 0
    ensures SortDesc(xs, key) == Insert(xs[|xs| - 1], SortDesc(xs[..|xs| - 1], key), key)
  {
  }

  lemma {:induction false} PositionOfEarlier<T(!new)>(xs: seq<T>, key: T -> real, k: nat)
    requires k < |xs| - 1
    requires Position(xs[..|xs| - 1], key, k) < |xs| - 1
    requires SortDesc(xs[..|xs| - 1], key)[Position(xs[..|xs| - 1], key, k)] == xs[k]
    ensures Position(xs, key, k) < |xs|
    ensures SortDesc(xs, key)[Position(xs, key, k)] == xs[k]
  {
    var init, last := xs[..|xs| - 1], xs[|xs| - 1];
    var m := key(xs[k]);
    var q := Position(init, key, k);
    var shift := if key(last) > m then 1 else 0;
    assert Position(xs, key, k) == q + shift by {
      CountSplitLast(xs, key, m);
      assert xs[..k] == init[..k];
    }
    assert q + shift < |Insert(last, SortDesc(init, key), key)|
           && Insert(last, SortDesc(init, key), key)[q + shift] == xs[k] by {
      InsertKeepsOld(last, SortDesc(init, key), key, q);
    }
    SortDescLast(xs, key);
  }

  // ---------------------------------------------------------------------------
  // Consequences used by the ranking

  /** The first element of the sorted list has the largest key. */
  lemma HeadIsMaximum<T(!new)>(xs: seq<T>, key: T -> real)
    requires |xs| > 0
    ensures forall y :: y in xs ==> key(SortDesc(xs, key)[0]) >= key(y)
  {
    var r := SortDesc(xs, key);
    SortDescPermutes(xs, key);
    forall y | y in xs ensures key(r[0]) >= key(y) {
      assert y in multiset(xs);
      assert y in r;
      var j :| 0 <= j < |r| && r[j] == y;
      if j > 0 {
        assert key(r[0]) >= key(r[j]);
      }
    }
  }

  /** Taking the first `n` of the sorted list takes a top-`n`: whatever is left out has
      a key no larger than anything taken. */
  lemma TakeIsTop<T(!new)>(xs: seq<T>, key: T -> real, n: nat)
    ensures var r := SortDesc(xs, key);
            var top := if n <= |r| then r[..n] else r;
            forall x, y :: x in top && y in xs && y !in top ==> key(x) >= key(y)
  {
    var r := SortDesc(xs, key);
    var top := if n <= |r| then r[..n] else r;
    SortDescPermutes(xs, key);
    forall x, y | x in top && y in xs && y !in top ensures key(x) >= key(y) {
      var i :| 0 <= i < |top| && top[i] == x;
      assert y in multiset(xs);
      assert y in r;
      var j :| 0 <= j < |r| && r[j] == y;
      assert r[i] == x;
    }
  }
}

=== FILE: submission_controller.dfy ===
/** The submission endpoints: creation, the guarded reads, ranks, scores and per-dataset
    results, and the review workflow (edit, submit, review, change status, delete) with
    the cloned repository and the scores that go with it. */
module SubmissionController {

  import opened Common
  import opened UserModel
  import opened SubmissionModel
  import opened SubmissionService
  import ScoreModel
  import ScoreService
  import ScoreController
  import DatasetService
  import DatasetController

  const NotFoundError: HttpError := HttpError(NotFound, "Submission not found")
  const Unauthorized: HttpError := HttpError(Forbidden, "Unauthorized")
  const AlreadyExists: HttpError := HttpError(Conflict, "Submission already exists")

  // ---------------------------------------------------------------------------
  // Who may do what

  /** The read guard as written: a submission that is not published is shown only to
      an admin who owns it. */
  predicate MayView(user: User, s: Submission)
  {
    !((user.role != Admin || user.id != s.userId) && s.status != Published)
  }

  /** The edit guard: the owner or an admin. */
  predicate MayEdit(user: User, s: Submission)
  {
    !(user.id != s.userId && user.role != Admin)
  }

  /** The statuses in which the owner may still edit and submit. */
  predicate Editable(st: SubmissionStatus)
  {
    st == Draft || st == RequestForChanges
  }

  /** The statuses a review may start from. */
  predicate Reviewable(st: SubmissionStatus)
  {
    st == InReview || st == RequestForChanges || st == Accepted
  }

  /** The statuses that keep a cloned repository. */
  predicate Accepting(st: SubmissionStatus)
  {
    st == Accepted || st == Published
  }

  /** A published submission is visible to everyone; an unpublished one only to its
      owner when that owner is an admin, so a regular user cannot read their own draft. */
  lemma MayViewMeaning(user: User, s: Submission)
    ensures s.status == Published ==> MayView(user, s)
    ensures s.status != Published ==> (MayView(user, s) <==> user.role == Admin && user.id == s.userId)
    ensures s.status != Published && user.role == UserRole ==> !MayView(user, s)
  {
  }

  // ---------------------------------------------------------------------------
  // create_submission

  /** `create_submission`: 409 for a title already in use, otherwise a new DRAFT row. */
  method CreateSubmission(table: SubmissionTable, user: User, c: SubmissionCreate) returns (r: Result<Submission, HttpError>)
    requires table.Valid()
    modifies table
    ensures table.Valid()
    ensures TitleTaken(old(table.rows), c.title) ==> r == Err(AlreadyExists) && table.rows == old(table.rows)
    ensures !TitleTaken(old(table.rows), c.title) ==>
              && r == Ok(NewSubmission(old(table.nextId), user.id, c, Accessor(c.title)))
              && table.rows == old(table.rows) + [r.value]
  {
    if TitleTaken(table.rows, c.title) {
      return Err(AlreadyExists);
    }
    var s := CreateModel(table, user.id, c);
    r := Ok(s);
  }

  /** Creation keeps titles unique. */
  lemma CreateKeepsTitlesUnique(rows: seq<Submission>, s: Submission)
    requires forall i, j :: 0 <= i < j < |rows| ==> rows[i].title != rows[j].title
    requires !TitleTaken(rows, s.title)
    ensures var after := rows + [s];
            forall i, j :: 0 <= i < j < |after| ==> after[i].title != after[j].title
  {
  }

  // ---------------------------------------------------------------------------
  // Reads

  /** `get_submission_details` by accessor: the first row with the accessor, 404 when
      there is none, 403 when the guard refuses. */
  function GetSubmissionDetails(rows: seq<Submission>, user: User, accessor: string): (r: Result<Submission, HttpError>)
    ensures r == Err(NotFoundError) <==> forall j :: 0 <= j < |rows| ==> rows[j].accessor != accessor
    ensures r.Ok? ==> r.value in rows && r.value.accessor == accessor && MayView(user, r.value)
    ensures r.Err? ==> r.error == NotFoundError || r.error == Unauthorized
  {
    match FindByAccessor(rows, accessor)
    case None => Err(NotFoundError)
    case Some(i) => if !MayView(user, rows[i]) then Err(Unauthorized) else Ok(rows[i])
  }

  /** `get_all_published_submissions`. */
  function PublishedSubmissions(rows: seq<Submission>): (r: seq<Submission>)
    ensures forall s :: s in r ==> s in rows && s.status == Published
  {
    AllSubmissions(rows, None, Some(Published))
  }

  /** `get_all_user_submissions`: only an admin listing their own submissions gets
      through. */
  function GetAllUserSubmissions(rows: seq<Submission>, user: User, userId: nat, status: Option<SubmissionStatus>)
    : (r: Result<seq<Submission>, HttpError>)
    ensures r.Err? <==> user.id != userId || user.role != Admin
    ensures r.Err? ==> r.error == Unauthorized
    ensures r.Ok? ==> forall s :: s in r.value ==> s in rows && s.userId == userId && (status.Some? ==> s.status == status.value)
  {
    if user.id != userId || user.role != Admin then Err(Unauthorized)
    else Ok(AllSubmissions(rows, Some(userId), status))
  }

  /** `SubmissionRankOut`. */
  datatype RankOut = RankOut(rank: Option<nat>, total: nat)

  /** `get_submission_rank`: 404, then 409 for an unpublished submission; otherwise its
      rank among all ranked submissions and the number of published ones, which is at
      least one. */
  method GetSubmissionRank(subs: seq<Submission>, scores: seq<ScoreModel.Score>, submissionId: nat)
    returns (r: Result<RankOut, HttpError>)
    ensures Lookup(subs, submissionId).None? ==> r == Err(NotFoundError)
    ensures Lookup(subs, submissionId).Some? && !IsPublished(subs, submissionId) ==>
              r == Err(HttpError(Conflict, "Submission not published"))
    ensures IsPublished(subs, submissionId) ==>
              && r.Ok?
              && r.value.rank == ScoreController.RankIn(ScoreService.GroupedScores(scores, None, None), submissionId)
              && r.value.total == CountWithStatus(subs, Published)
              && r.value.total >= 1
  {
    var s := Lookup(subs, submissionId);
    if s.None? {
      return Err(NotFoundError);
    }
    if s.value.status != Published {
      return Err(HttpError(Conflict, "Submission not published"));
    }
    var count := CountWithStatus(subs, Published);
    PublishedCounted(subs, submissionId);
    var rank := ScoreController.SubmissionRank(scores, submissionId);
    r := Ok(RankOut(rank, count));
  }

  /** `get_submission_scores` with the submission's title. */
  datatype ScoresOut = ScoresOut(title: string, means: seq<real>)

  /** `get_submission_scores`: nothing for an unpublished submission or one without
      successful scores; otherwise the six means under the submission's title. */
  method GetSubmissionScores(subs: seq<Submission>, scores: seq<ScoreModel.Score>, submissionId: nat)
    returns (r: Result<Option<ScoresOut>, HttpError>)
    ensures !IsPublished(subs, submissionId) ==> r == Ok(None)
    ensures IsPublished(subs, submissionId) ==>
              var means := ScoreController.MeanMetrics(ScoreService.AllScores(scores, None, Some(submissionId), Some(ScoreModel.Success)));
              && (means.Err? ==> r == Err(means.error))
              && (means == Ok(None) ==> r == Ok(None))
              && (means.Ok? && means.value.Some? ==>
                    r == Ok(Some(ScoresOut(Lookup(subs, submissionId).value.title, means.value.value))))
  {
    if !IsPublished(subs, submissionId) {
      return Ok(None);
    }
    var means := ScoreController.GetSubmissionScores(scores, submissionId);
    if means.Err? {
      return Err(means.error);
    }
    if means.value.None? {
      return Ok(None);
    }
    var title := Lookup(subs, submissionId).value.title;
    r := Ok(Some(ScoresOut(title, means.value.value)));
  }

  // ---------------------------------------------------------------------------
  // get_submission_results

  /** `SubmissionResultsOut`. */
  datatype ResultOut = ResultOut(rank: nat, datasetTitle: string, datasetAccessor: string, metrics: seq<real>)

  /** One successful score's row: the dataset found by its accessor (404 when that
      fails), the submission's rank on the dataset and the six metrics; a missing rank or
      a null metric fails the response model. */
  function ResultOf(item: ScoreModel.Score, rows: seq<ScoreModel.Score>, datasets: seq<DatasetService.Dataset>,
                    submissionId: nat): Result<ResultOut, HttpError>
  {
    var accessor := DatasetService.AccessorOf(datasets, item.datasetId);
    if accessor.None? then Err(HttpError(NotFound, "Dataset not found"))
    else match DatasetController.GetDatasetDetails(datasets, accessor.value)
      case Err(e) => Err(e)
      case Ok(d) =>
        var rank := ScoreController.RankIn(ScoreService.GroupedScores(rows, None, Some(item.datasetId)), submissionId);
        if rank.None? || !ScoreController.Complete(item.metrics) then Err(InternalError)
        else Ok(ResultOut(rank.value, d.title, accessor.value, ScoreController.Known(item.metrics)))
  }

  /** What one row says: a dataset with the score's dataset's accessor, a rank of at
      least one, and the score's own metrics. */
  lemma ResultOfMeaning(item: ScoreModel.Score, rows: seq<ScoreModel.Score>, datasets: seq<DatasetService.Dataset>,
                        submissionId: nat)
    ensures ResultOf(item, rows, datasets, submissionId).Ok? ==>
              var out := ResultOf(item, rows, datasets, submissionId).value;
              && out.rank >= 1
              && DatasetService.AccessorOf(datasets, item.datasetId) == Some(out.datasetAccessor)
              && (exists d :: d in datasets && d.accessor == out.datasetAccessor && d.title == out.datasetTitle)
              && forall k :: 0 <= k < |out.metrics| ==> ScoreModel.MetricValues(item.metrics)[k] == Some(out.metrics[k])
    ensures (forall d :: d in datasets ==> d.id != item.datasetId) ==>
              ResultOf(item, rows, datasets, submissionId) == Err(HttpError(NotFound, "Dataset not found"))
  {
    var accessor := DatasetService.AccessorOf(datasets, item.datasetId);
    if accessor.Some? {
      var details := DatasetController.GetDatasetDetails(datasets, accessor.value);
      if details.Ok? {
        var groups := ScoreService.GroupedScores(rows, None, Some(item.datasetId));
        var rank := ScoreController.RankIn(groups, submissionId);
        ScoreController.RankPresence(groups, submissionId);
        if rank.Some? && ScoreController.Complete(item.metrics) {
          var out := ResultOut(rank.value, details.value.title, accessor.value, ScoreController.Known(item.metrics));
          assert ResultOf(item, rows, datasets, submissionId) == Ok(out);
          assert details.value in datasets && details.value.accessor == out.datasetAccessor;
        }
      }
    } else {
      assert ResultOf(item, rows, datasets, submissionId) == Err(HttpError(NotFound, "Dataset not found"));
    }
  }

  /** The loop of `get_submission_results` for one score. */
  method ResultEntry(item: ScoreModel.Score, rows: seq<ScoreModel.Score>, datasets: seq<DatasetService.Dataset>,
                     submissionId: nat) returns (r: Result<ResultOut, HttpError>)
    ensures r == ResultOf(item, rows, datasets, submissionId)
  {
    var accessor := DatasetService.AccessorOf(datasets, item.datasetId);
    if accessor.None? {
      return Err(HttpError(NotFound, "Dataset not found"));
    }
    var details := DatasetController.GetDatasetDetails(datasets, accessor.value);
    if details.Err? {
      return Err(HttpError(NotFound, "Dataset not found"));
    }
    var rank := ScoreController.SubmissionRankForDataset(rows, submissionId, item.datasetId);
    if rank.None? || !ScoreController.Complete(item.metrics) {
      return Err(InternalError);
    }
    r := Ok(ResultOut(rank.value, details.value.title, accessor.value, ScoreController.Known(item.metrics)));
  }

  /** `get_submission_results` for the submission at `id`: the guards of the details
      endpoint, then one row per successful score. */
  method GetSubmissionResults(subs: seq<Submission>, rows: seq<ScoreModel.Score>, datasets: seq<DatasetService.Dataset>,
                              user: User, submissionId: nat) returns (r: Result<seq<ResultOut>, HttpError>)
    ensures Lookup(subs, submissionId).None? ==> r == Err(NotFoundError)
    ensures Lookup(subs, submissionId).Some? && !MayView(user, Lookup(subs, submissionId).value) ==>
              r == Err(Unauthorized)
    ensures Lookup(subs, submissionId).Some? && MayView(user, Lookup(subs, submissionId).value) ==>
              r == MapAll(ScoreService.AllScores(rows, None, Some(submissionId), Some(ScoreModel.Success)),
                          item => ResultOf(item, rows, datasets, submissionId))
  {
    var s := Lookup(subs, submissionId);
    if s.None? {
      return Err(NotFoundError);
    }
    if !MayView(user, s.value) {
      return Err(Unauthorized);
    }
    var items := ScoreService.GetAllScores(rows, None, Some(submissionId), Some(ScoreModel.Success));
    r := CollectResults(items, rows, datasets, submissionId);
  }

  /** The loop of `get_submission_results` over the submission's successful scores. */
  method CollectResults(items: seq<ScoreModel.Score>, rows: seq<ScoreModel.Score>, datasets: seq<DatasetService.Dataset>,
                        submissionId: nat) returns (r: Result<seq<ResultOut>, HttpError>)
    ensures r == MapAll(items, item => ResultOf(item, rows, datasets, submissionId))
  {
    var entry := item => ResultOf(item, rows, datasets, submissionId);
    var results: seq<ResultOut> := [];
    for i := 0 to |items|
      invariant MapAll(items[..i], entry) == Ok(results)
    {
      var out := ResultEntry(items[i], rows, datasets, submissionId);
      assert out == entry(items[i]);
      if out.Err? {
        MapAllPrefixFails(items, entry, i);
        return Err(out.error);
      }
      MapAllStep(items, entry, i, results, out.value);
      results := results + [out.value];
    }
    assert items[..|items|] == items;
    r := Ok(results);
  }

  // ---------------------------------------------------------------------------
  // get_submission_test_records

  /** `SubmissionTestRecordOut`: a dataset and the status of the submission's score on
      it, both null when there is none. */
  datatype TestRecord = TestRecord(datasetId: nat, datasetTitle: string, datasetAccessor: string,
                                   status: Option<ScoreModel.ScoreStatus>, statusMessage: Option<string>)

  /** The record for one dataset: the first score of the pair, if any. */
  function TestRecordOf(d: DatasetService.Dataset, rows: seq<ScoreModel.Score>, submissionId: nat): TestRecord
  {
    match ScoreModel.FindPair(rows, d.id, submissionId)
    case None => TestRecord(d.id, d.title, d.accessor, None, None)
    case Some(i) => TestRecord(d.id, d.title, d.accessor, Some(rows[i].status), rows[i].statusMessage)
  }

  /** The records for a list of datasets: one per dataset, in order, carrying a status
      exactly when the submission has a score on that dataset. */
  function TestRecords(infos: seq<DatasetController.DatasetInfo>, rows: seq<ScoreModel.Score>, submissionId: nat)
    : (out: seq<TestRecord>)
    ensures |out| == |infos|
    ensures forall k :: 0 <= k < |infos| ==>
              && out[k].datasetId == infos[k].dataset.id
              && out[k].datasetTitle == infos[k].dataset.title
              && out[k].datasetAccessor == infos[k].dataset.accessor
              && (out[k].status.None? <==>
                    forall j :: 0 <= j < |rows| ==>
                      !(rows[j].datasetId == infos[k].dataset.id && rows[j].submissionId == submissionId))
              && (out[k].status.Some? ==>
                    exists j :: 0 <= j < |rows| && rows[j].datasetId == infos[k].dataset.id
                      && rows[j].submissionId == submissionId
                      && rows[j].status == out[k].status.value && rows[j].statusMessage == out[k].statusMessage)
  {
    if |infos| == 0 then []
    else TestRecords(infos[..|infos| - 1], rows, submissionId) + [TestRecordOf(infos[|infos| - 1].dataset, rows, submissionId)]
  }

  lemma TestRecordsStep(infos: seq<DatasetController.DatasetInfo>, rows: seq<ScoreModel.Score>, submissionId: nat,
                        i: nat)
    requires i < |infos|
    ensures TestRecords(infos[..i + 1], rows, submissionId)
            == TestRecords(infos[..i], rows, submissionId) + [TestRecordOf(infos[i].dataset, rows, submissionId)]
  {
    assert infos[..i + 1][..i] == infos[..i];
  }

  /** `get_submission_test_records`: 404 for an unknown submission, whatever its status;
      otherwise one record per dataset the dataset listing returns, failing when that
      listing fails. */
  method GetSubmissionTestRecords(subs: seq<Submission>, rows: seq<ScoreModel.Score>,
                                  datasets: seq<DatasetService.Dataset>, submissionId: nat)
    returns (r: Result<seq<TestRecord>, HttpError>)
    ensures Lookup(subs, submissionId).None? ==> r == Err(NotFoundError)
    ensures Lookup(subs, submissionId).Some? ==>
              var listed := MapAll(DatasetService.AllDatasets(datasets), d => DatasetController.InfoOf(d, rows, subs));
              && (listed.Err? ==> r == Err(listed.error))
              && (listed.Ok? ==> r == Ok(TestRecords(listed.value, rows, submissionId)))
  {
    if Lookup(subs, submissionId).None? {
      return Err(NotFoundError);
    }
    var listed := DatasetController.GetAllDatasets(datasets, rows, subs);
    if listed.Err? {
      return Err(listed.error);
    }
    var infos := listed.value;
    var records: seq<TestRecord> := [];
    for i := 0 to |infos|
      invariant records == TestRecords(infos[..i], rows, submissionId)
    {
      TestRecordsStep(infos, rows, submissionId, i);
      var d := infos[i].dataset;
      var entry := ScoreModel.FindPair(rows, d.id, submissionId);
      var record := TestRecord(d.id, d.title, d.accessor, None, None);
      if entry.Some? {
        record := TestRecord(d.id, d.title, d.accessor, Some(rows[entry.value].status), rows[entry.value].statusMessage);
      }
      assert record == TestRecordOf(d, rows, submissionId);
      records := records + [record];
    }
    assert infos[..|infos|] == infos;
    r := Ok(records);
  }

  // ---------------------------------------------------------------------------
  // update_submission

  /** The title check of `update_submission`: a non-empty title that differs from the
      current one and is already in use. An empty title is falsy and is not checked. */
  predicate TitleClash(rows: seq<Submission>, prev: Submission, u: SubmissionUpdate)
  {
    u.title.Some? && u.title.value != "" && u.title.value != prev.title && TitleTaken(rows, u.title.value)
  }

  /** `update_submission`: 404, 403, 409 outside DRAFT and REQUEST_FOR_CHANGES, 409 for
      a new title in use, then the record update. A new non-empty title is never one
      another row already has. */
  method UpdateSubmission(table: SubmissionTable, user: User, id: nat, u: SubmissionUpdate)
    returns (r: Result<Submission, HttpError>)
    requires table.Valid()
    modifies table
    ensures table.Valid()
    ensures r.Err? ==> table.rows == old(table.rows)
    ensures FindById(old(table.rows), id).None? ==> r == Err(NotFoundError)
    ensures FindById(old(table.rows), id).Some? ==>
              var i := FindById(old(table.rows), id).value;
              var prev := old(table.rows)[i];
              && (!MayEdit(user, prev) ==> r == Err(Unauthorized))
              && (MayEdit(user, prev) && !Editable(prev.status) ==>
                    r == Err(HttpError(Conflict, "Submission cannot be updated")))
              && (MayEdit(user, prev) && Editable(prev.status) && TitleClash(old(table.rows), prev, u) ==>
                    r == Err(AlreadyExists))
              && (MayEdit(user, prev) && Editable(prev.status) && !TitleClash(old(table.rows), prev, u) ==>
                    && r == UpdateRecord(prev, FieldsPayload(u))
                    && (r.Ok? ==> table.rows == old(table.rows)[i := r.value]))
              && (r.Ok? && r.value.title != "" && r.value.title != prev.title ==> !TitleTaken(old(table.rows), r.value.title))
  {
    var found := FindById(table.rows, id);
    if found.None? {
      return Err(NotFoundError);
    }
    var i := found.value;
    var prev := table.rows[i];
    if !MayEdit(user, prev) {
      return Err(Unauthorized);
    }
    if !Editable(prev.status) {
      return Err(HttpError(Conflict, "Submission cannot be updated"));
    }
    if TitleClash(table.rows, prev, u) {
      return Err(AlreadyExists);
    }
    r := SubmissionService.UpdateSubmission(table, i, FieldsPayload(u));
  }

  // ---------------------------------------------------------------------------
  // change_submission_status

  /** Whether a status change withdraws an accepted or published submission. */
  predicate Withdraws(from: SubmissionStatus, to: SubmissionStatus)
  {
    Accepting(from) && !Accepting(to)
  }

  /** The scores left by `change_submission_status` as written: the call that deletes
      them is never awaited, so it does nothing. */
  function ScoresAfterStatusChangeAsWritten(scores: seq<ScoreModel.Score>, prev: Submission, to: SubmissionStatus)
    : seq<ScoreModel.Score>
  {
    scores
  }

  /** The scores left once the deletion runs: a withdrawn submission loses its scores. */
  function ScoresAfterStatusChange(scores: seq<ScoreModel.Score>, prev: Submission, to: SubmissionStatus)
    : (left: seq<ScoreModel.Score>)
    ensures Withdraws(prev.status, to) ==> forall s :: s in left ==> s.submissionId != prev.id
    ensures forall s :: s in scores && s.submissionId != prev.id ==> s in left
  {
    if Withdraws(prev.status, to) then ScoreModel.WithoutSubmission(scores, prev.id) else scores
  }

  /** As written, a withdrawn submission keeps every one of its scores. */
  lemma WithdrawnScoresLinger(scores: seq<ScoreModel.Score>, prev: Submission, to: SubmissionStatus, s: ScoreModel.Score)
    requires Withdraws(prev.status, to) && s in scores && s.submissionId == prev.id
    ensures s in ScoresAfterStatusChangeAsWritten(scores, prev, to)
    ensures s !in ScoresAfterStatusChange(scores, prev, to)
  {
  }

  /** `change_submission_status`: 404, then, when an accepted or published submission
      is withdrawn, its cloned repository is removed; the new status is written in every
      case. The deletion of the withdrawn submission's scores is never awaited, so the
      scores stay as they were. */
  method ChangeSubmissionStatus(table: SubmissionTable, scores: ScoreModel.ScoreTable, repos: RepoStore,
                                id: nat, to: SubmissionStatus) returns (r: Result<Submission, HttpError>)
    requires table.Valid() && scores.Valid()
    modifies table, repos
    ensures table.Valid() && scores.Valid()
    ensures FindById(old(table.rows), id).None? ==>
              && r == Err(NotFoundError)
              && table.rows == old(table.rows) && scores.rows == old(scores.rows) && repos.repos == old(repos.repos)
    ensures FindById(old(table.rows), id).Some? ==>
              var i := FindById(old(table.rows), id).value;
              var prev := old(table.rows)[i];
              && r == Ok(prev.(status := to))
              && table.rows == old(table.rows)[i := r.value]
              && scores.rows == ScoresAfterStatusChangeAsWritten(old(scores.rows), prev, to)
              && repos.repos == (if Withdraws(prev.status, to) then old(repos.repos) - {prev.accessor} else old(repos.repos))
  {
    var found := FindById(table.rows, id);
    if found.None? {
      return Err(NotFoundError);
    }
    var i := found.value;
    var prev := table.rows[i];
    if Withdraws(prev.status, to) {
      repos.Remove(prev.accessor);
    }
    r := SubmissionService.UpdateSubmission(table, i, StatusPayload(to));
  }

  // ---------------------------------------------------------------------------
  // submit_entry and review_submission

  /** `submit_entry`: 404, 403, 409 outside DRAFT and REQUEST_FOR_CHANGES; then IN_REVIEW
      with the review message cleared. */
  method SubmitEntry(table: SubmissionTable, user: User, id: nat) returns (r: Result<Submission, HttpError>)
    requires table.Valid()
    modifies table
    ensures table.Valid()
    ensures r.Err? ==> table.rows == old(table.rows)
    ensures FindById(old(table.rows), id).None? ==> r == Err(NotFoundError)
    ensures FindById(old(table.rows), id).Some? ==>
              var i := FindById(old(table.rows), id).value;
              var prev := old(table.rows)[i];
              && (!MayEdit(user, prev) ==> r == Err(Unauthorized))
              && (MayEdit(user, prev) && !Editable(prev.status) ==>
                    r == Err(HttpError(Conflict, "Submission cannot be submitted")))
              && (MayEdit(user, prev) && Editable(prev.status) ==>
                    && r == Ok(prev.(status := InReview, reviewMessage := None))
                    && table.rows == old(table.rows)[i := r.value])
  {
    var found := FindById(table.rows, id);
    if found.None? {
      return Err(NotFoundError);
    }
    var i := found.value;
    var prev := table.rows[i];
    if !MayEdit(user, prev) {
      return Err(Unauthorized);
    }
    if !Editable(prev.status) {
      return Err(HttpError(Conflict, "Submission cannot be submitted"));
    }
    r := SubmissionService.UpdateSubmission(table, i, ReviewPayload(None, InReview));
  }

  /** `review_submission`: 404, 409 outside IN_REVIEW, REQUEST_FOR_CHANGES and ACCEPTED;
      an acceptance clones the repository first (`cloneOk` is whether the clone
      succeeds) and a failed clone is a 409 that writes nothing. */
  method ReviewSubmission(table: SubmissionTable, repos: RepoStore, id: nat, message: Option<string>,
                          to: SubmissionStatus, cloneOk: bool) returns (r: Result<Submission, HttpError>)
    requires table.Valid()
    modifies table, repos
    ensures table.Valid()
    ensures r.Err? ==> table.rows == old(table.rows)
    ensures FindById(old(table.rows), id).None? ==> r == Err(NotFoundError) && repos.repos == old(repos.repos)
    ensures FindById(old(table.rows), id).Some? ==>
              var i := FindById(old(table.rows), id).value;
              var prev := old(table.rows)[i];
              && (!Reviewable(prev.status) ==>
                    r == Err(HttpError(Conflict, "Theres no submission to be reviewed with that id"))
                    && repos.repos == old(repos.repos))
              && (Reviewable(prev.status) && to != Accepted ==>
                    && r == Ok(prev.(status := to, reviewMessage := message))
                    && table.rows == old(table.rows)[i := r.value]
                    && repos.repos == old(repos.repos))
              && (Reviewable(prev.status) && to == Accepted && !cloneOk ==>
                    r == Err(HttpError(Conflict, "Could not clone repository"))
                    && repos.repos == old(repos.repos) - {prev.accessor})
              && (Reviewable(prev.status) && to == Accepted && cloneOk ==>
                    && r == Ok(prev.(status := to, reviewMessage := message))
                    && table.rows == old(table.rows)[i := r.value]
                    && repos.repos == old(repos.repos)[prev.accessor := CloneUrl(prev.repositoryUrl)])
  {
    var found := FindById(table.rows, id);
    if found.None? {
      return Err(NotFoundError);
    }
    var i := found.value;
    var prev := table.rows[i];
    if !Reviewable(prev.status) {
      return Err(HttpError(Conflict, "Theres no submission to be reviewed with that id"));
    }
    if to == Accepted {
      var cloned := repos.Clone(prev.accessor, prev.repositoryUrl, cloneOk);
      if !cloned {
        return Err(HttpError(Conflict, "Could not clone repository"));
      }
    }
    r := SubmissionService.UpdateSubmission(table, i, ReviewPayload(message, to));
  }

  // ---------------------------------------------------------------------------
  // delete_submission

  /** `delete_submission`: 404 unless the user owns a submission with the accessor;
      then the cloned repository goes, and so does the first row with the accessor,
      whoever owns it, together with its scores. */
  method DeleteSubmission(table: SubmissionTable, scores: ScoreModel.ScoreTable, repos: RepoStore,
                          user: User, accessor: string) returns (r: Result<Submission, HttpError>)
    requires table.Valid() && scores.Valid()
    modifies table, scores, repos
    ensures table.Valid() && scores.Valid()
    ensures FindOwned(old(table.rows), accessor, user.id).None? ==>
              && r == Err(NotFoundError)
              && table.rows == old(table.rows) && scores.rows == old(scores.rows) && repos.repos == old(repos.repos)
    ensures FindOwned(old(table.rows), accessor, user.id).Some? ==>
              && DeleteTargetAsWritten(old(table.rows), accessor, user.id).Some?
              && var i := DeleteTargetAsWritten(old(table.rows), accessor, user.id).value;
              && i <= FindOwned(old(table.rows), accessor, user.id).value
              && r == Ok(old(table.rows)[i])
              && r.value.accessor == accessor
              && (forall j :: 0 <= j < i ==> old(table.rows)[j].accessor != accessor)
              && table.rows == old(table.rows)[..i] + old(table.rows)[i + 1..]
              && scores.rows == ScoreModel.WithoutSubmission(old(scores.rows), r.value.id)
              && repos.repos == old(repos.repos) - {accessor}
  {
    var owned := FindOwned(table.rows, accessor, user.id);
    if owned.None? {
      return Err(NotFoundError);
    }
    repos.Remove(accessor);
    var target := DeleteTargetAsWritten(table.rows, accessor, user.id);
    assert table.rows[owned.value].accessor == accessor;
    var s := SubmissionService.DeleteSubmission(table, scores, target.value);
    r := Ok(s);
  }
}

=== FILE: submission_model.dfy ===
/** Submissions: the six review statuses, the two input modalities and the stored
    record with its defaults. */
module SubmissionModel {

  import opened Common

  datatype SubmissionStatus = Draft | InReview | RequestForChanges | Accepted | Rejected | Published

  /** The stored spelling of each status (`StrEnum` with `auto()` lower-cases the name). */
  function StatusName(s: SubmissionStatus): (name: string)
    ensures |name| > 0
  {
    match s
    case Draft => "draft"
    case InReview => "in_review"
    case RequestForChanges => "request_for_changes"
    case Accepted => "accepted"
    case Rejected => "rejected"
    case Published => "published"
  }

  /** Exactly six statuses, each with its own spelling. */
  lemma StatusNamesDistinct(a: SubmissionStatus, b: SubmissionStatus)
    ensures StatusName(a) == StatusName(b) <==> a == b
  {
  }

  datatype Modality = RgbOnly | RgbAndAudio

  function ModalityName(m: Modality): (name: string)
    ensures |name| > 0
  {
    match m
    case RgbOnly => "rgb_only"
    case RgbAndAudio => "rgb_and_audio"
  }

  /** Reading a stored modality back: only the two spellings name a modality. */
  function ParseModality(s: string): (m: Option<Modality>)
    ensures m.Some? ==> ModalityName(m.value) == s
    ensures m.None? ==> s != "rgb_only" && s != "rgb_and_audio"
  {
    if s == "rgb_only" then Some(RgbOnly)
    else if s == "rgb_and_audio" then Some(RgbAndAudio)
    else None
  }

  lemma ModalityRoundTrip(m: Modality)
    ensures ParseModality(ModalityName(m)) == Some(m)
  {
  }

  datatype Submission = Submission(
    id: nat,
    title: string,
    accessor: string,
    authors: string,
    status: SubmissionStatus,
    description: string,
    repositoryUrl: string,
    resourceTitle: string,
    resourceUrl: string,
    modality: Modality,
    reviewMessage: Option<string>,
    userId: nat)

  /** The client's fields of a new submission. */
  datatype SubmissionCreate = SubmissionCreate(
    title: string,
    authors: string,
    description: string,
    repositoryUrl: string,
    resourceTitle: string,
    resourceUrl: string,
    modality: Modality)

  /** A new row: the client's fields, the owner and accessor the service adds, status
      DRAFT and no review message. */
  function NewSubmission(id: nat, userId: nat, c: SubmissionCreate, accessor: string): (s: Submission)
    ensures s.id == id && s.userId == userId && s.accessor == accessor
    ensures s.status == Draft && s.reviewMessage == None
    ensures s.title == c.title && s.authors == c.authors && s.description == c.description
    ensures s.repositoryUrl == c.repositoryUrl && s.resourceTitle == c.resourceTitle
    ensures s.resourceUrl == c.resourceUrl && s.modality == c.modality
  {
    Submission(id, c.title, accessor, c.authors, Draft, c.description, c.repositoryUrl,
               c.resourceTitle, c.resourceUrl, c.modality, None, userId)
  }

  /** Index of the first row with the given id. */
  function FindById(rows: seq<Submission>, id: nat): (i: Option<nat>)
    ensures i.Some? ==>
              && i.value < |rows| && rows[i.value].id == id
              && forall j :: 0 <= j < i.value ==> rows[j].id != id
    ensures i.None? ==> forall j :: 0 <= j < |rows| ==> rows[j].id != id
  {
    if |rows| == 0 then None
    else if rows[0].id == id then Some(0)
    else match FindById(rows[1..], id)
      case None => None
      case Some(k) => Some(k + 1)
  }

  /** `Submission.get(id=...)`: the first row with that id, if any. */
  function Lookup(rows: seq<Submission>, id: nat): (s: Option<Submission>)
    ensures s.Some? <==> exists j :: 0 <= j < |rows| && rows[j].id == id
    ensures s.Some? ==> s.value in rows && s.value.id == id
  {
    match FindById(rows, id)
    case None => None
    case Some(i) => Some(rows[i])
  }

  /** `Submission.exists(id=..., status=PUBLISHED)`, for a table whose ids are unique. */
  predicate IsPublished(rows: seq<Submission>, id: nat)
  {
    Lookup(rows, id).Some? && Lookup(rows, id).value.status == Published
  }

  /** The submission table: rows in query order, the next id to hand out. */
  class SubmissionTable {
    var rows: seq<Submission>
    var nextId: nat

    ghost predicate Valid()
      reads this
    {
      && (forall i :: 0 <= i < |rows| ==> rows[i].id < nextId)
      && (forall i, j :: 0 <= i < j < |rows| ==> rows[i].id != rows[j].id)
    }

    constructor ()
      ensures Valid() && rows == []
    {
      rows := [];
      nextId := 1;
    }

    /** Stores a new row with a fresh id. */
    method Insert(userId: nat, c: SubmissionCreate, accessor: string) returns (s: Submission)
      requires Valid()
      modifies this
      ensures Valid()
      ensures s == NewSubmission(old(nextId), userId, c, accessor)
      ensures rows == old(rows) + [s]
      ensures forall i :: 0 <= i < |old(rows)| ==> old(rows)[i].id != s.id
    {
      s := NewSubmission(nextId, userId, c, accessor);
      rows := rows + [s];
      nextId := nextId + 1;
    }

    /** Writes a record over the row at index `i`, keeping its id. */
    method Put(i: nat, s: Submission)
      requires Valid() && i < |rows| && s.id == rows[i].id
      modifies this
      ensures Valid()
      ensures rows == old(rows)[i := s] && nextId == old(nextId)
    {
      rows := rows[i := s];
    }

    /** Removes the row at index `i`. */
    method RemoveAt(i: nat)
      requires Valid() && i < |rows|
      modifies this
      ensures Valid()
      ensures rows == old(rows)[..i] + old(rows)[i + 1..] && nextId == old(nextId)
    {
      rows := rows[..i] + rows[i + 1..];
    }
  }
}

=== FILE: submission_service.dfy ===
/** The submission service: the accessor derived from a title, the listings, the
    record update for the three payload kinds, deletion by accessor, and the cloned
    repositories kept under the inference directory. */
module SubmissionService {

  import opened Common
  import opened Text
  import opened SubmissionModel
  import BaseCrud
  import ScoreModel

  // ---------------------------------------------------------------------------
  // Accessors

  /** `title.lower().replace(" ", "-")`. */
  function Accessor(title: string): (a: string)
  {
    ReplaceChar(Lower(title), ' ', '-')
  }

  predicate IsUpper(c: char) { 'A' <= c <= 'Z' }

  /** An accessor has the title's length, and neither spaces nor capitals; every other
      character of the title is kept where it was. */
  lemma AccessorShape(title: string)
    ensures |Accessor(title)| == |title|
    ensures forall i :: 0 <= i < |title| ==> Accessor(title)[i] != ' ' && !IsUpper(Accessor(title)[i])
    ensures forall i :: 0 <= i < |title| && title[i] != ' ' && !IsUpper(title[i]) ==> Accessor(title)[i] == title[i]
  {
  }

  /** An accessor is its own accessor. */
  lemma AccessorIdempotent(title: string)
    ensures Accessor(Accessor(title)) == Accessor(title)
  {
  }

  lemma AccessorExample()
    ensures Accessor("Test Submission") == "test-submission"
  {
  }

  /** Two titles the uniqueness check tells apart can share an accessor. */
  lemma AccessorsCollide()
    ensures "Test Submission" != "test submission"
    ensures Accessor("Test Submission") == Accessor("test submission")
  {
    AccessorExample();
  }

  // ---------------------------------------------------------------------------
  // Existence checks and counts

  /** `check_submission(title=...)`. */
  predicate TitleTaken(rows: seq<Submission>, title: string)
  {
    exists k :: 0 <= k < |rows| && rows[k].title == title
  }

  /** `count_submissions(status=...)`. */
  function CountWithStatus(rows: seq<Submission>, status: SubmissionStatus): (n: nat)
    ensures n <= |rows|
    ensures n == 0 <==> forall k :: 0 <= k < |rows| ==> rows[k].status != status
  {
    if |rows| == 0 then 0
    else (if rows[0].status == status then 1 else 0) + CountWithStatus(rows[1..], status)
  }

  /** The count is the number of rows the status filter keeps. */
  lemma {:induction false} CountWithStatusIsMatching(rows: seq<Submission>, status: SubmissionStatus)
    ensures CountWithStatus(rows, status) == |Matching(rows, None, Some(status))|
  {
    if |rows| > 0 {
      CountWithStatusIsMatching(rows[1..], status);
    }
  }

  /** A published submission counts towards the number of published ones. */
  lemma {:induction false} PublishedCounted(rows: seq<Submission>, id: nat)
    requires IsPublished(rows, id)
    ensures CountWithStatus(rows, Published) >= 1
  {
    var s := Lookup(rows, id).value;
    var k :| 0 <= k < |rows| && rows[k] == s;
    assert rows[k].status == Published;
  }

  // ---------------------------------------------------------------------------
  // Listings

  /** The filters `get_all_submissions` passes: the owner and the status, each only
      when given. */
  predicate ListedBy(s: Submission, userId: Option<nat>, status: Option<SubmissionStatus>)
  {
    (userId.Some? ==> s.userId == userId.value) && (status.Some? ==> s.status == status.value)
  }

  function Matching(rows: seq<Submission>, userId: Option<nat>, status: Option<SubmissionStatus>)
    : (kept: seq<Submission>)
    ensures |kept| <= |rows|
    ensures forall s :: s in kept <==> s in rows && ListedBy(s, userId, status)
  {
    if |rows| == 0 then []
    else
      var rest := Matching(rows[1..], userId, status);
      assert forall s :: s in rows <==> s == rows[0] || s in rows[1..];
      if ListedBy(rows[0], userId, status) then [rows[0]] + rest else rest
  }

  function Cap<T>(xs: seq<T>): (r: seq<T>)
    ensures |r| <= BaseCrud.DefaultLimit
    ensures |r| <= |xs| && r == xs[..|r|]
    ensures |xs| <= BaseCrud.DefaultLimit ==> r == xs
  {
    if |xs| <= BaseCrud.DefaultLimit then xs else xs[..BaseCrud.DefaultLimit]
  }

  /** `get_all_submissions`: the matching rows in query order, at most the `get_multi`
      default of 100. */
  function AllSubmissions(rows: seq<Submission>, userId: Option<nat>, status: Option<SubmissionStatus>)
    : (r: seq<Submission>)
    ensures |r| <= BaseCrud.DefaultLimit
    ensures forall s :: s in r ==> s in rows && ListedBy(s, userId, status)
    ensures |Matching(rows, userId, status)| <= BaseCrud.DefaultLimit ==>
              forall s :: s in rows && ListedBy(s, userId, status) ==> s in r
  {
    var kept := Matching(rows, userId, status);
    assert forall s :: s in Cap(kept) ==> s in kept;
    Cap(kept)
  }

  /** The statuses `get_all_pending_submissions` lists. */
  predicate Pending(s: SubmissionStatus)
  {
    s == InReview || s == RequestForChanges || s == Accepted
  }

  function PendingRows(rows: seq<Submission>): (kept: seq<Submission>)
    ensures forall s :: s in kept <==> s in rows && Pending(s.status)
  {
    if |rows| == 0 then []
    else
      var rest := PendingRows(rows[1..]);
      assert forall s :: s in rows <==> s == rows[0] || s in rows[1..];
      if Pending(rows[0].status) then [rows[0]] + rest else rest
  }

  /** `get_all_pending_submissions`: in review, sent back or accepted; capped at 100. */
  function PendingSubmissions(rows: seq<Submission>): (r: seq<Submission>)
    ensures |r| <= BaseCrud.DefaultLimit
    ensures forall s :: s in r ==> s in rows && Pending(s.status)
    ensures |PendingRows(rows)| <= BaseCrud.DefaultLimit ==>
              forall s :: s in rows && Pending(s.status) ==> s in r
  {
    var kept := PendingRows(rows);
    assert forall s :: s in Cap(kept) ==> s in kept;
    Cap(kept)
  }

  // ---------------------------------------------------------------------------
  // Updates

  /** `SubmissionUpdate`: every field optional, defaulting to null. */
  datatype SubmissionUpdate = SubmissionUpdate(
    title: Option<string>,
    authors: Option<string>,
    modality: Option<Modality>,
    description: Option<string>,
    repositoryUrl: Option<string>,
    resourceTitle: Option<string>,
    resourceUrl: Option<string>)

  /** What `update_submission` is handed: the edit form, a bare status change, or a
      review (a message, possibly null, and a status). */
  datatype Payload =
    | FieldsPayload(fields: SubmissionUpdate)
    | StatusPayload(status: SubmissionStatus)
    | ReviewPayload(reviewMessage: Option<string>, status: SubmissionStatus)

  predicate AnyFieldNull(u: SubmissionUpdate)
  {
    u.authors.None? || u.modality.None? || u.description.None? || u.repositoryUrl.None?
    || u.resourceTitle.None? || u.resourceUrl.None?
  }

  /** `update_submission`. The edit form is dumped whole, nulls included: a null title
      fails when it is lowered, and any other null breaks its NOT NULL column. A new title
      brings a new accessor. The other two payloads have no title and write only their
      own fields. */
  function UpdateRecord(prev: Submission, p: Payload): Result<Submission, HttpError>
  {
    match p
    case FieldsPayload(u) =>
      if u.title.None? then Err(InternalError)
      else if AnyFieldNull(u) then Err(InternalError)
      else
        var accessor := if u.title.value != prev.title then Accessor(u.title.value) else prev.accessor;
        Ok(prev.(title := u.title.value, accessor := accessor, authors := u.authors.value,
                 modality := u.modality.value, description := u.description.value,
                 repositoryUrl := u.repositoryUrl.value, resourceTitle := u.resourceTitle.value,
                 resourceUrl := u.resourceUrl.value))
    case StatusPayload(st) => Ok(prev.(status := st))
    case ReviewPayload(msg, st) => Ok(prev.(status := st, reviewMessage := msg))
  }

  /** Which payloads succeed; what never changes (id, owner); what each kind writes; and
      that the accessor always follows a written title. */
  lemma UpdateRecordMeaning(prev: Submission, p: Payload)
    ensures UpdateRecord(prev, p).Err? <==>
              p.FieldsPayload? && (p.fields.title.None? || AnyFieldNull(p.fields))
    ensures UpdateRecord(prev, p).Ok? ==>
              var n := UpdateRecord(prev, p).value;
              && n.id == prev.id && n.userId == prev.userId
              && (p.FieldsPayload? ==>
                    && Some(n.title) == p.fields.title && Some(n.authors) == p.fields.authors
                    && Some(n.modality) == p.fields.modality && Some(n.description) == p.fields.description
                    && Some(n.repositoryUrl) == p.fields.repositoryUrl
                    && Some(n.resourceTitle) == p.fields.resourceTitle
                    && Some(n.resourceUrl) == p.fields.resourceUrl
                    && n.status == prev.status && n.reviewMessage == prev.reviewMessage)
              && (p.StatusPayload? ==> n == prev.(status := p.status))
              && (p.ReviewPayload? ==> n == prev.(status := p.status, reviewMessage := p.reviewMessage))
              && (n.title != prev.title ==> n.accessor == Accessor(n.title))
              && (prev.accessor == Accessor(prev.title) ==> n.accessor == Accessor(n.title))
  {
  }

  /** Applying the same payload twice writes nothing more. */
  lemma UpdateRecordIdempotent(prev: Submission, p: Payload)
    requires UpdateRecord(prev, p).Ok?
    ensures UpdateRecord(UpdateRecord(prev, p).value, p) == UpdateRecord(prev, p)
  {
  }

  // ---------------------------------------------------------------------------
  // Deletion

  /** `Submission.get(accessor=...)`: the first row with the accessor, whoever owns it. */
  function FindByAccessor(rows: seq<Submission>, accessor: string): (i: Option<nat>)
    ensures i.Some? ==>
              && i.value < |rows| && rows[i.value].accessor == accessor
              && forall j :: 0 <= j < i.value ==> rows[j].accessor != accessor
    ensures i.None? ==> forall j :: 0 <= j < |rows| ==> rows[j].accessor != accessor
  {
    if |rows| == 0 then None
    else if rows[0].accessor == accessor then Some(0)
    else match FindByAccessor(rows[1..], accessor)
      case None => None
      case Some(k) => Some(k + 1)
  }

  /** The first row with the accessor that the given user owns: what
      `check_submission(accessor=..., user_id=...)` found. */
  function FindOwned(rows: seq<Submission>, accessor: string, userId: nat): (i: Option<nat>)
    ensures i.Some? ==> i.value < |rows| && rows[i.value].accessor == accessor && rows[i.value].userId == userId
    ensures i.None? <==> forall j :: 0 <= j < |rows| ==> !(rows[j].accessor == accessor && rows[j].userId == userId)
  {
    if |rows| == 0 then None
    else if rows[0].accessor == accessor && rows[0].userId == userId then Some(0)
    else match FindOwned(rows[1..], accessor, userId)
      case None => None
      case Some(k) => Some(k + 1)
  }

  /** The row `delete_submission` removes as written: the accessor is the only filter. */
  function DeleteTargetAsWritten(rows: seq<Submission>, accessor: string, userId: nat): Option<nat>
  {
    FindByAccessor(rows, accessor)
  }

  /** The row the ownership check was about. */
  function DeleteTarget(rows: seq<Submission>, accessor: string, userId: nat): (i: Option<nat>)
    ensures i.Some? ==> i.value < |rows| && rows[i.value].accessor == accessor && rows[i.value].userId == userId
  {
    FindOwned(rows, accessor, userId)
  }

  /** User 1's "Test Submission" and user 2's "test submission". */
  function CollidingRows(): (rows: seq<Submission>)
    ensures |rows| == 2
  {
    [Submission(1, "Test Submission", "test-submission", "a", Draft, "d", "u/r", "t", "r", RgbOnly, None, 1),
     Submission(2, "test submission", "test-submission", "b", Draft, "d", "v/r", "t", "r", RgbOnly, None, 2)]
  }

  /** As written, user 2 deleting their own "test-submission" removes user 1's. */
  lemma DeleteHitsOtherOwner()
    ensures FindOwned(CollidingRows(), "test-submission", 2) == Some(1)
    ensures DeleteTargetAsWritten(CollidingRows(), "test-submission", 2) == Some(0)
    ensures CollidingRows()[0].userId != 2
  {
    assert CollidingRows()[1..][0].accessor == "test-submission";
  }

  /** The corrected target is the caller's own row, and exists whenever the check passed. */
  lemma DeleteTargetIsOwned(rows: seq<Submission>, accessor: string, userId: nat)
    ensures DeleteTarget(rows, accessor, userId).Some? <==>
              exists j :: 0 <= j < |rows| && rows[j].accessor == accessor && rows[j].userId == userId
  {
  }

  // ---------------------------------------------------------------------------
  // Cloned repositories

  /** The URL a repository is cloned from. */
  function CloneUrl(repositoryUrl: string): (url: string)
  {
    "https://github.com/" + repositoryUrl + ".git"
  }

  /** Different repositories are cloned from different URLs, and the path can be read back. */
  lemma CloneUrlInjective(a: string, b: string)
    ensures CloneUrl(a) == CloneUrl(b) <==> a == b
  {
    if CloneUrl(a) == CloneUrl(b) {
      assert |a| == |b|;
      assert a == CloneUrl(a)[19..19 + |a|];
      assert b == CloneUrl(b)[19..19 + |b|];
    }
  }

  /** The directories under `INFER_DIR`, by accessor, with the URL each was cloned from. */
  class RepoStore {
    var repos: map<string, string>

    constructor ()
      ensures repos == map[]
    {
      repos := map[];
    }

    /** `remove_repo`: removes the directory if there is one. */
    method Remove(accessor: string)
      modifies this
      ensures repos == old(repos) - {accessor}
    {
      repos := repos - {accessor};
    }

    /** `clone_repo`: removes any previous copy, then clones; `ok` is whether the clone
        succeeded (a failed clone leaves nothing behind). */
    method Clone(accessor: string, repositoryUrl: string, ok: bool) returns (cloned: bool)
      modifies this
      ensures cloned == ok
      ensures ok ==> repos == old(repos)[accessor := CloneUrl(repositoryUrl)]
      ensures !ok ==> repos == old(repos) - {accessor}
    {
      Remove(accessor);
      if ok {
        repos := repos[accessor := CloneUrl(repositoryUrl)];
      }
      cloned := ok;
    }
  }

  // ---------------------------------------------------------------------------
  // Operations on the table

  /** `create_model`: the new row's accessor comes from its title. */
  method CreateModel(table: SubmissionTable, userId: nat, c: SubmissionCreate) returns (s: Submission)
    requires table.Valid()
    modifies table
    ensures table.Valid()
    ensures s == NewSubmission(old(table.nextId), userId, c, Accessor(c.title))
    ensures table.rows == old(table.rows) + [s]
  {
    s := table.Insert(userId, c, Accessor(c.title));
  }

  /** `update_submission` on the row at `i`: the whole table is unchanged when the
      commit fails. */
  method UpdateSubmission(table: SubmissionTable, i: nat, p: Payload) returns (r: Result<Submission, HttpError>)
    requires table.Valid() && i < |table.rows|
    modifies table
    ensures table.Valid()
    ensures r == UpdateRecord(old(table.rows)[i], p)
    ensures r.Ok? ==> table.rows == old(table.rows)[i := r.value]
    ensures r.Err? ==> table.rows == old(table.rows)
  {
    r := UpdateRecord(table.rows[i], p);
    if r.Ok? {
      table.Put(i, r.value);
    }
  }

  /** `delete_submission` of the row at `i`; the scores that point to it go with it
      (`ondelete="CASCADE"`). */
  method DeleteSubmission(table: SubmissionTable, scores: ScoreModel.ScoreTable, i: nat) returns (s: Submission)
    requires table.Valid() && scores.Valid() && i < |table.rows|
    modifies table, scores
    ensures table.Valid() && scores.Valid()
    ensures s == old(table.rows)[i]
    ensures table.rows == old(table.rows)[..i] + old(table.rows)[i + 1..]
    ensures scores.rows == ScoreModel.WithoutSubmission(old(scores.rows), s.id)
  {
    s := table.rows[i];
    table.RemoveAt(i);
    scores.DeleteAllOfSubmission(s.id);
  }
}

=== FILE: text.dfy ===
/** String helpers shared by the model: Python's `str(int)`, `str.lower()`,
    `str.replace`, `str.strip()`, `str.split(sep)` and `sep.join(...)`, stated on
    `seq<char>`. Case mapping and whitespace are the ASCII ones. */
module Text {

  import opened Common

  // ---------------------------------------------------------------------------
  // Decimal rendering (Python `str(n)`) and its inverse

  function DigitChar(d: nat): (c: char)
    requires d < 10
    ensures '0' <= c <= '9'
    ensures c as int - '0' as int == d
  {
    ['0', '1', '2', '3', '4', '5', '6', '7', '8', '9'][d]
  }

  predicate IsDigit(c: char) { '0' <= c <= '9' }

  predicate AllDigits(s: string) { forall i :: 0 <= i < |s| ==> IsDigit(s[i]) }

  /** `str(n)` for a non-negative integer: no sign, no leading zero. */
  function NatToString(n: nat): (s: string)
    ensures |s| >= 1 && AllDigits(s)
    ensures s[0] == '0' ==> n == 0 && s == "0"
    decreases n
  {
    if n < 10 then [DigitChar(n)] else NatToString(n / 10) + [DigitChar(n % 10)]
  }

  /** `str(i)` for any integer: a leading '-' for negatives. */
  function IntToString(i: int): (s: string)
    ensures |s| >= 1
    ensures (i < 0) == (s[0] == '-')
  {
    if i < 0 then "-" + NatToString(-i) else NatToString(i)
  }

  /** The value of a string of decimal digits. */
  function DigitsValue(s: string): (v: nat)
    requires AllDigits(s)
  {
    if |s| == 0 then 0
    else 10 * DigitsValue(s[..|s| - 1]) + (s[|s| - 1] as int - '0' as int)
  }

  /** Python's `int(s)` restricted to plain non-empty digit strings. */
  function ParseNat(s: string): (r: Option<nat>)
    ensures r.Some? <==> |s| >= 1 && AllDigits(s)
  {
    if |s| >= 1 && AllDigits(s) then Some(DigitsValue(s)) else None
  }

  lemma {:induction false} NatToStringRoundTrip(n: nat)
    ensures ParseNat(NatToString(n)) == Some(n)
    decreases n
  {
    var s := NatToString(n);
    if n >= 10 {
      NatToStringRoundTrip(n / 10);
      assert s[..|s| - 1] == NatToString(n / 10);
      assert DigitsValue(s) == 10 * (n / 10) + n % 10;
    } else {
      assert s[..0] == [];
      assert DigitsValue(s) == n;
    }
  }

  /** Distinct numbers render differently (str is injective on naturals). */
  lemma NatToStringInjective(m: nat, n: nat)
    requires NatToString(m) == NatToString(n)
    ensures m == n
  {
    NatToStringRoundTrip(m);
    NatToStringRoundTrip(n);
  }

  // ---------------------------------------------------------------------------
  // Case mapping and replacement

  function LowerChar(c: char): (d: char)
    ensures 'A' <= c <= 'Z' ==> d as int == c as int + 32
    ensures !('A' <= c <= 'Z') ==> d == c
  {
    if 'A' <= c <= 'Z' then (c as int + 32) as char else c
  }

  /** `s.lower()` on the ASCII range; every other character is kept. */
  function Lower(s: string): (r: string)
    ensures |r| == |s|
    ensures forall i :: 0 <= i < |s| ==> r[i] == LowerChar(s[i])
  {
    seq(|s|, i requires 0 <= i < |s| => LowerChar(s[i]))
  }

  /** `s.replace(a, b)` for single characters. */
  function ReplaceChar(s: string, a: char, b: char): (r: string)
    ensures |r| == |s|
    ensures forall i :: 0 <= i < |s| ==> r[i] == (if s[i] == a then b else s[i])
  {
    seq(|s|, i requires 0 <= i < |s| => if s[i] == a then b else s[i])
  }

  // ---------------------------------------------------------------------------
  // strip, split and join

  /** The characters Python's `str.isspace()` accepts in the ASCII range. */
  predicate IsSpace(c: char)
  {
    c == ' ' || c == '\t' || c == '\n' || c == '\r' || c == '\U{0B}' || c == '\U{0C}'
    || ('\U{1C}' <= c <= '\U{1F}')
  }

  function StripLeft(s: string): (r: string)
    ensures |r| <= |s| && r == s[|s| - |r|..]
    ensures |r| > 0 ==> !IsSpace(r[0])
    ensures forall i :: 0 <= i < |s| - |r| ==> IsSpace(s[i])
  {
    if |s| > 0 && IsSpace(s[0]) then StripLeft(s[1..]) else s
  }

  function StripRight(s: string): (r: string)
    ensures |r| <= |s| && r == s[..|r|]
    ensures |r| > 0 ==> !IsSpace(r[|r| - 1])
    ensures forall i :: |r| <= i < |s| ==> IsSpace(s[i])
  {
    if |s| > 0 && IsSpace(s[|s| - 1]) then StripRight(s[..|s| - 1]) else s
  }

  /** `r` is the infix of `s` at offset `k`, and everything around it is whitespace. */
  predicate StrippedAt(s: string, r: string, k: nat)
  {
    && k + |r| <= |s| && r == s[k..k + |r|]
    && forall i :: 0 <= i < |s| && (i < k || k + |r| <= i) ==> IsSpace(s[i])
  }

  /** `s.strip()`: the longest infix with no surrounding whitespace. */
  function Strip(s: string): (r: string)
    ensures |r| <= |s|
    ensures |r| > 0 ==> !IsSpace(r[0]) && !IsSpace(r[|r| - 1])
    ensures exists k :: StrippedAt(s, r, k)
  {
    var l := StripLeft(s);
    var r := StripRight(l);
    StripBothEnds(s, l, r);
    r
  }

  /** Removing whitespace from the left end and then from the right leaves an infix
      with whitespace on both sides. */
  lemma StripBothEnds(s: string, l: string, r: string)
    requires |l| <= |s| && l == s[|s| - |l|..] && forall i :: 0 <= i < |s| - |l| ==> IsSpace(s[i])
    requires |r| <= |l| && r == l[..|r|] && forall i :: |r| <= i < |l| ==> IsSpace(l[i])
    ensures StrippedAt(s, r, |s| - |l|)
  {
    var k := |s| - |l|;
    forall i | k + |r| <= i < |s|
      ensures IsSpace(s[i])
    {
      assert s[i] == l[i - k];
    }
  }

  function Count(s: string, c: char): (n: nat)
    ensures n <= |s|
  {
    if |s| == 0 then 0 else (if s[0] == c then 1 else 0) + Count(s[1..], c)
  }

  /** `s.split(sep)` with an explicit one-character separator: empty pieces are kept,
      so "" gives [""] and "a,,b" gives ["a", "", "b"]. */
  function Split(s: string, sep: char): (pieces: seq<string>)
    ensures |pieces| >= 1
  {
    if |s| == 0 then [""]
    else if s[0] == sep then [""] + Split(s[1..], sep)
    else
      var rest := Split(s[1..], sep);
      [[s[0]] + rest[0]] + rest[1..]
  }

  function Join(pieces: seq<string>, sep: char): (s: string)
    requires |pieces| >= 1
  {
    if |pieces| == 1 then pieces[0] else pieces[0] + [sep] + Join(pieces[1..], sep)
  }

  /** One more piece than separators, and no piece contains the separator. */
  lemma {:induction false} SplitShape(s: string, sep: char)
    ensures |Split(s, sep)| == Count(s, sep) + 1
    ensures forall k :: 0 <= k < |Split(s, sep)| ==> Count(Split(s, sep)[k], sep) == 0
  {
    if |s| > 0 {
      SplitShape(s[1..], sep);
      var rest := Split(s[1..], sep);
      if s[0] != sep {
        var head := [s[0]] + rest[0];
        assert head[1..] == rest[0];
        assert Count(head, sep) == 0;
        forall k | 0 <= k < |Split(s, sep)| ensures Count(Split(s, sep)[k], sep) == 0 {
          if k > 0 { assert Split(s, sep)[k] == rest[k]; }
        }
      } else {
        forall k | 0 <= k < |Split(s, sep)| ensures Count(Split(s, sep)[k], sep) == 0 {
          if k > 0 { assert Split(s, sep)[k] == rest[k - 1]; }
        }
      }
    }
  }

  /** Joining the pieces with the separator gives back the string. */
  lemma {:induction false} JoinSplit(s: string, sep: char)
    ensures Join(Split(s, sep), sep) == s
  {
    if |s| > 0 {
      JoinSplit(s[1..], sep);
      var rest := Split(s[1..], sep);
      if s[0] != sep {
        if |rest| == 1 {
          assert Split(s, sep) == [[s[0]] + rest[0]];
        } else {
          var pieces := Split(s, sep);
          assert pieces[1..] == rest[1..];
          assert Join(rest, sep) == rest[0] + [sep] + Join(rest[1..], sep);
        }
      } else {
        assert Split(s, sep)[1..] == rest;
      }
    }
  }
}

=== FILE: user_controller.dfy ===
/** The user endpoints: account creation with its uniqueness checks, the guarded
    partial update, and the role and activity switches. */
module UserController {

  import opened Common
  import opened UserModel

  /** `UserCreate`. */
  datatype UserCreate = UserCreate(username: string, password: string, email: string)

  /** A field of a partial payload: left out by the client, or sent (possibly null). */
  datatype Given<T> = Unset | Given(value: T)

  /** `UserUpdate`, read with `exclude_unset=True`. */
  datatype UserUpdate = UserUpdate(username: Given<Option<string>>, password: Given<Option<string>>,
                                   email: Given<Option<string>>)

  /** Python truthiness of an optional string field: sent, not null, not empty. */
  predicate Truthy(g: Given<Option<string>>)
  {
    g.Given? && g.value.Some? && g.value.value != ""
  }

  predicate SentNull(g: Given<Option<string>>)
  {
    g.Given? && g.value.None?
  }

  function Chosen(g: Given<Option<string>>, current: string): string
  {
    if g.Given? && g.value.Some? then g.value.value else current
  }

  /** `old_user.update(**user_in.model_dump(exclude_unset=True))`: each field the client
      sent is written, the others are kept; a null sent for any of the three NOT NULL
      columns fails the commit. `hashPassword` says whether a new password is stored as
      its hash or as it came. */
  function UpdatedUser(prev: User, u: UserUpdate, hashPassword: bool): Result<User, HttpError>
  {
    if SentNull(u.username) || SentNull(u.password) || SentNull(u.email) then Err(InternalError)
    else
      var password :=
        if u.password.Given? then (if hashPassword then Hashed(u.password.value.value) else Raw(u.password.value.value))
        else prev.password;
      Ok(User(prev.id, prev.role, Chosen(u.username, prev.username), password, Chosen(u.email, prev.email), prev.isActive))
  }

  /** The update as the service writes it: the new password goes in unhashed. */
  function UpdatedUserAsWritten(prev: User, u: UserUpdate): Result<User, HttpError>
  {
    UpdatedUser(prev, u, false)
  }

  /** The update with the new password hashed, as account creation does. */
  function ApplyUserUpdate(prev: User, u: UserUpdate): Result<User, HttpError>
  {
    UpdatedUser(prev, u, true)
  }

  /** Only the fields the client sent change; the id, role and activity never do. This
      holds of the update as written and of the corrected one alike. */
  lemma UpdatedUserWritesSentFields(prev: User, u: UserUpdate, hashPassword: bool)
    ensures UpdatedUser(prev, u, hashPassword).Err? <==> SentNull(u.username) || SentNull(u.password) || SentNull(u.email)
    ensures UpdatedUser(prev, u, hashPassword).Ok? ==>
              var n := UpdatedUser(prev, u, hashPassword).value;
              && n.id == prev.id && n.role == prev.role && n.isActive == prev.isActive
              && (u.username.Unset? ==> n.username == prev.username)
              && (u.username.Given? ==> Some(n.username) == u.username.value)
              && (u.email.Unset? ==> n.email == prev.email)
              && (u.email.Given? ==> Some(n.email) == u.email.value)
              && (u.password.Unset? ==> n.password == prev.password)
  {
  }

  /** As written, a user who changes their password can no longer log in with it. */
  lemma PasswordChangeLocksOut(prev: User, p: string)
    ensures var n := UpdatedUserAsWritten(prev, UserUpdate(Unset, Given(Some(p)), Unset));
            n.Ok? && !VerifyPassword(p, n.value.password)
  {
  }

  /** With the password hashed, the new password is the one that logs in. */
  lemma ChangedPasswordVerifies(prev: User, p: string, q: string)
    ensures var n := ApplyUserUpdate(prev, UserUpdate(Unset, Given(Some(p)), Unset));
            n.Ok? && (VerifyPassword(q, n.value.password) <==> q == p)
  {
  }

  /** `create_user`: the username is checked before the email; a new account stores the
      password's hash. `create` always returns the new row, so the 500 branch for a
      missing row has no counterpart here. */
  method CreateUser(table: UserTable, c: UserCreate) returns (r: Result<User, HttpError>)
    requires table.Valid()
    modifies table
    ensures table.Valid()
    ensures UsernameTaken(old(table.rows), c.username) ==>
              r == Err(HttpError(Conflict, "Username already exists")) && table.rows == old(table.rows)
    ensures !UsernameTaken(old(table.rows), c.username) && EmailTaken(old(table.rows), c.email) ==>
              r == Err(HttpError(Conflict, "Email already exists")) && table.rows == old(table.rows)
    ensures !UsernameTaken(old(table.rows), c.username) && !EmailTaken(old(table.rows), c.email) ==>
              && r == Ok(NewUser(old(table.nextId), c.username, c.email, Hashed(c.password)))
              && table.rows == old(table.rows) + [r.value]
              && VerifyPassword(c.password, r.value.password)
  {
    if UsernameTaken(table.rows, c.username) {
      return Err(HttpError(Conflict, "Username already exists"));
    }
    if EmailTaken(table.rows, c.email) {
      return Err(HttpError(Conflict, "Email already exists"));
    }
    var created := table.Create(c.username, c.email, Hashed(c.password));
    r := Ok(created.value);
  }

  /** Whether the requester may edit the account: it is theirs, or they are an admin. */
  predicate MayEdit(requester: User, userId: nat)
  {
    requester.id == userId || requester.role == Admin
  }

  /** The uniqueness check on a changed, non-empty username (or email) fails. */
  predicate UsernameClash(rows: seq<User>, prev: User, u: UserUpdate)
  {
    Truthy(u.username) && u.username.value.value != prev.username && UsernameTaken(rows, u.username.value.value)
  }

  predicate EmailClash(rows: seq<User>, prev: User, u: UserUpdate)
  {
    Truthy(u.email) && u.email.value.value != prev.email && EmailTaken(rows, u.email.value.value)
  }

  /** `update_user`: 403 before 404, then the username and email checks in that order,
      then the partial write, with a new password stored as sent. A value the checks let
      through that still clashes (an empty username, say) breaks the UNIQUE column, so
      the table stays unique. */
  method UpdateUser(table: UserTable, requester: User, userId: nat, u: UserUpdate) returns (r: Result<User, HttpError>)
    requires table.Valid()
    modifies table
    ensures table.Valid()
    ensures r.Err? ==> table.rows == old(table.rows)
    ensures !MayEdit(requester, userId) ==> r == Err(HttpError(Forbidden, "Unauthorized"))
    ensures MayEdit(requester, userId) && FindUser(old(table.rows), userId).None? ==>
              r == Err(HttpError(NotFound, "User Not Found"))
    ensures MayEdit(requester, userId) && FindUser(old(table.rows), userId).Some? ==>
              var i := FindUser(old(table.rows), userId).value;
              var current := old(table.rows)[i];
              var next := UpdatedUserAsWritten(current, u);
              && (UsernameClash(old(table.rows), current, u) ==> r == Err(HttpError(Conflict, "Username already exists")))
              && (!UsernameClash(old(table.rows), current, u) && EmailClash(old(table.rows), current, u) ==>
                    r == Err(HttpError(Conflict, "Email already exists")))
              && (!UsernameClash(old(table.rows), current, u) && !EmailClash(old(table.rows), current, u) ==>
                    && (next.Err? ==> r == Err(InternalError))
                    && (next.Ok? && !FitsAt(old(table.rows), i, next.value) ==> r == Err(InternalError))
                    && (next.Ok? && FitsAt(old(table.rows), i, next.value) ==>
                          r == next && table.rows == old(table.rows)[i := next.value]))
  {
    if !MayEdit(requester, userId) {
      return Err(HttpError(Forbidden, "Unauthorized"));
    }
    var found := FindUser(table.rows, userId);
    if found.None? {
      return Err(HttpError(NotFound, "User Not Found"));
    }
    var i := found.value;
    var current := table.rows[i];
    if UsernameClash(table.rows, current, u) {
      return Err(HttpError(Conflict, "Username already exists"));
    }
    if EmailClash(table.rows, current, u) {
      return Err(HttpError(Conflict, "Email already exists"));
    }
    var next := UpdatedUserAsWritten(current, u);
    if next.Err? {
      return Err(InternalError);
    }
    var written := table.Write(i, next.value);
    r := if written.Ok? then Ok(written.value) else Err(InternalError);
  }

  /** `change_user_role`: 404 for an unknown id, otherwise only the role changes. */
  method ChangeUserRole(table: UserTable, userId: nat, role: Role) returns (r: Result<User, HttpError>)
    requires table.Valid()
    modifies table
    ensures table.Valid()
    ensures FindUser(old(table.rows), userId).None? ==>
              r == Err(HttpError(NotFound, "User Not Found")) && table.rows == old(table.rows)
    ensures FindUser(old(table.rows), userId).Some? ==>
              var i := FindUser(old(table.rows), userId).value;
              && r == Ok(old(table.rows)[i].(role := role))
              && table.rows == old(table.rows)[i := r.value]
  {
    var found := FindUser(table.rows, userId);
    if found.None? {
      return Err(HttpError(NotFound, "User Not Found"));
    }
    var i := found.value;
    var written := table.Write(i, table.rows[i].(role := role));
    r := Ok(written.value);
  }

  /** `change_user_active`: 404 for an unknown id, otherwise only `is_active` changes. */
  method ChangeUserActive(table: UserTable, userId: nat, active: bool) returns (r: Result<User, HttpError>)
    requires table.Valid()
    modifies table
    ensures table.Valid()
    ensures FindUser(old(table.rows), userId).None? ==>
              r == Err(HttpError(NotFound, "User Not Found")) && table.rows == old(table.rows)
    ensures FindUser(old(table.rows), userId).Some? ==>
              var i := FindUser(old(table.rows), userId).value;
              && r == Ok(old(table.rows)[i].(isActive := active))
              && table.rows == old(table.rows)[i := r.value]
  {
    var found := FindUser(table.rows, userId);
    if found.None? {
      return Err(HttpError(NotFound, "User Not Found"));
    }
    var i := found.value;
    var written := table.Write(i, table.rows[i].(isActive := active));
    r := Ok(written.value);
  }
}

=== FILE: user_model.dfy ===
/** Users: two roles, the stored account record and the user table, whose username
    and email columns are UNIQUE. */
module UserModel {

  import opened Common
  import BaseCrud

  datatype Role = Admin | UserRole

  function RoleName(r: Role): (name: string)
    ensures |name| > 0
  {
    match r
    case Admin => "admin"
    case UserRole => "user"
  }

  lemma RoleNamesDistinct(a: Role, b: Role)
    ensures RoleName(a) == RoleName(b) <==> a == b
  {
  }

  /** A stored password: the bcrypt hash of a secret, or a text written as it came.
      bcrypt itself is not modelled; a hash accepts exactly its own secret. */
  datatype Password = Hashed(secret: string) | Raw(text: string)

  /** `verify_password`: `bcrypt.checkpw` accepts the secret a hash was made from; a
      value that is not a bcrypt hash never verifies. */
  predicate VerifyPassword(plain: string, stored: Password)
  {
    stored == Hashed(plain)
  }

  datatype User = User(
    id: nat,
    role: Role,
    username: string,
    password: Password,
    email: string,
    isActive: bool)

  /** A new account: role USER and active. */
  function NewUser(id: nat, username: string, email: string, password: Password): (u: User)
    ensures u.id == id && u.username == username && u.email == email && u.password == password
    ensures u.role == UserRole && u.isActive
  {
    User(id, UserRole, username, password, email, true)
  }

  predicate UsernameTaken(rows: seq<User>, name: string)
  {
    exists k :: 0 <= k < |rows| && rows[k].username == name
  }

  predicate EmailTaken(rows: seq<User>, email: string)
  {
    exists k :: 0 <= k < |rows| && rows[k].email == email
  }

  /** Index of the row with the given id. */
  function FindUser(rows: seq<User>, id: nat): (i: Option<nat>)
    ensures i.Some? ==> i.value < |rows| && rows[i.value].id == id
    ensures i.None? ==> forall j :: 0 <= j < |rows| ==> rows[j].id != id
  {
    if |rows| == 0 then None
    else if rows[0].id == id then Some(0)
    else match FindUser(rows[1..], id)
      case None => None
      case Some(k) => Some(k + 1)
  }

  /** Ids, usernames and emails are each unique across the table. */
  predicate UniqueAccounts(rows: seq<User>)
  {
    forall i, j :: 0 <= i < j < |rows| ==>
      rows[i].id != rows[j].id && rows[i].username != rows[j].username && rows[i].email != rows[j].email
  }

  /** Whether `u` can replace the row at `i` without clashing with another row. */
  predicate FitsAt(rows: seq<User>, i: nat, u: User)
  {
    forall j :: 0 <= j < |rows| && j != i ==> rows[j].username != u.username && rows[j].email != u.email
  }

  class UserTable {
    var rows: seq<User>
    var nextId: nat

    ghost predicate Valid()
      reads this
    {
      && UniqueAccounts(rows)
      && (forall i :: 0 <= i < |rows| ==> rows[i].id < nextId)
    }

    constructor ()
      ensures Valid() && rows == []
    {
      rows := [];
      nextId := 1;
    }

    /** `User.create`: a taken username or email violates its UNIQUE column. */
    method Create(username: string, email: string, password: Password) returns (r: Result<User, BaseCrud.CrudError>)
      requires Valid()
      modifies this
      ensures Valid()
      ensures UsernameTaken(old(rows), username) || EmailTaken(old(rows), email) ==>
                r.Err? && r.error.IntegrityError? && rows == old(rows)
      ensures !UsernameTaken(old(rows), username) && !EmailTaken(old(rows), email) ==>
                && r == Ok(NewUser(old(nextId), username, email, password))
                && rows == old(rows) + [r.value]
    {
      if UsernameTaken(rows, username) || EmailTaken(rows, email) {
        return Err(BaseCrud.IntegrityError("user unique"));
      }
      var u := NewUser(nextId, username, email, password);
      rows := rows + [u];
      nextId := nextId + 1;
      r := Ok(u);
    }

    /** Commits a changed record over the row at `i`; a clash with another row
        violates a UNIQUE column and nothing is written. */
    method Write(i: nat, u: User) returns (r: Result<User, BaseCrud.CrudError>)
      requires Valid() && i < |rows| && u.id == rows[i].id
      modifies this
      ensures Valid()
      ensures FitsAt(old(rows), i, u) ==> r == Ok(u) && rows == old(rows)[i := u]
      ensures !FitsAt(old(rows), i, u) ==> r.Err? && r.error.IntegrityError? && rows == old(rows)
    {
      if !FitsAt(rows, i, u) {
        return Err(BaseCrud.IntegrityError("user unique"));
      }
      rows := rows[i := u];
      r := Ok(u);
    }
  }
}
